=== FILE: README.md ===
# contiki-snmp core, modelled in Dafny

This project models the core of the Contiki SNMP agent:

- the BER codec (`ber.c`);
- the MIB engine (`mib.c`) with the object-list and OID helpers of `utils.c`;
- the command responder (`cmd-responder.c`);
- the version 1 and version 3 message processing (`msg-proc-v1.c`, `msg-proc-v3.c`);
- the dispatcher (`dispatcher.c`);
- the User-based Security Model (`usm.c`), whose digest is a parameter, and the MD5 of `md5.c`, which `HmacMd5` plugs into the USM's HMAC;
- the two MIB populations (`mib-init.c` and the AVR Raven's `mib-init-raven.c`);
- the IPv6 multicast address list (`uip-mcast6.c`);
- the field and name extraction of the mDNS listener example (`mdns.c`);
- the Z80 library's `strcasecmp`.

Every C function is a pure Dafny function over immutable values:

- Buffers are `seq<byte>`.
- The write cursor of the BER encoder is an explicit `Enc(pos, out)` value.
- The MIB is a sequence of objects with handler ids; a `Callbacks` record gives the handlers their meaning.
- The agent's state (counters, salt, uptime, hardware readings) is passed in and returned.

The model follows the code where it departs from what its comments or the protocol standards promise. Where the two differ, the evidently intended version is written next to the one as written. Both halves are proved, and the differences are listed under "## Findings". The operational model (dispatcher, command responder, MIB handlers, USM) runs the code as written.

Two places where the code and its documentation disagree, and the model follows the code:

- `oid_cmp` is documented to answer 0 only for equal OIDs. It compares over the shorter length, so it answers 0 whenever one OID is a prefix of the other (`OidUtils.OidCmp`).
- The USM timeliness test is described as refusing messages more than 150 seconds off. The code refuses those closer than 150 seconds (`Usm.TimeWindowInverted`).

## Model

| member | source | states |
|---|---|---|
| BerDecode.DecodeLength | apps/snmpd-old/ber.c:96-128 | one short-form octet or 0x81/0x82 with one or two following octets is read; a first octet above 0x82 answers 1 and leaves the length as it was; a cursor at or past the end fails |
| BerDecode.DecodeTypeLength | apps/snmpd-old/ber.c:134-140 | fails exactly when the tag is not one ber_decode_type accepts; a length-decoding failure is swallowed and leaves the caller's length variable in place |
| BerDecode.DecodeSequence | apps/snmpd-old/ber.c:146-156 | succeeds only on a SEQUENCE whose length is exactly the rest of the input |
| BerDecode.DecodeSequenceLength | apps/snmpd-old/ber.c:162-171 | succeeds exactly on a SEQUENCE tag, whatever its length |
| BerDecode.DecodeInteger | apps/snmpd-old/ber.c:177-200 | an INTEGER of any length of at least one octet that fits in the input is read; the value is the content, sign-extended, taken modulo 2^32; other tags, an empty content or a content past the end fail |
| BerDecode.DecodeUnsigned | apps/snmpd-old/ber.c:206-229 | a Gauge of any length of at least one octet that fits in the input is read; the value is the big-endian content taken modulo 2^32; other tags, an empty content or a content past the end fail |
| BerDecode.DecodeString | apps/snmpd-old/ber.c:236-252 | an OCTET STRING's content, possibly empty, of exactly the header's length |
| BerDecode.DecodeOid | apps/snmpd-old/ber.c:272-291 | a non-empty OBJECT IDENTIFIER's content bytes |
| BerDecode.DecodeVoid | apps/snmpd-old/ber.c:297-313 | succeeds exactly when the header decodes, the tag is NULL exactly when the length is 0, and the content fits; it then ends right after the content |
| BerDecode.DecodeValue | apps/snmpd-old/ber.c:319-352 | only INTEGER, Gauge, OCTET STRING, OID and NULL decode; IpAddress, Counter, TimeTicks and Opaque are routed to decoders that refuse their tag |
| BerDecode.DecodeVarBinds | apps/snmpd-old/ber.c:392-414 | bindings are appended in input order and the PDU's other fields are untouched; a list node that cannot be allocated answers ERR_MEMORY_ALLOCATION with exactly `budget` bindings |
| BerDecode.DecodePdu | apps/snmpd-old/ber.c:359-416 | the result codes are no error, failure or allocation failure; without failure at most `budget` bindings are read, and allocation failure leaves exactly `budget` |
| BerEncode.LengthOctets | apps/snmpd-old/ber.c:422-440 | one octet below 128, two below 256, three otherwise |
| BerEncode.LengthOctetsValue | apps/snmpd-old/ber.c:422-440 | the short form is the length; the long form's first octet counts the big-endian octets after it, which hold the length |
| BerEncode.EncodeTypeLength | apps/snmpd-old/ber.c:446-452 | writes the tag and length octets in front of the cursor, and fails exactly when they do not fit |
| BerEncode.IntegerWidth | apps/snmpd-old/ber.c:508-535 | the bands of 1, 2 and 3 content octets, with the 3-octet band reaching -2^24 .. 2^24-1 |
| BerEncode.EncodeInteger | apps/snmpd-old/ber.c:508-535 | writes exactly the TLV of the value's low IntegerWidth octets, and fails exactly when it does not fit |
| BerEncode.UnsignedWidth | apps/snmpd-old/ber.c:541-568 | the fewest octets that hold the value, with no leading zero octet |
| BerEncode.EncodeUnsigned | apps/snmpd-old/ber.c:541-568 | writes exactly the TLV of those octets, and fails exactly when it does not fit |
| BerEncode.EncodeFixedString | apps/snmpd-old/ber.c:574-584 | writes exactly the OCTET STRING TLV, and fails exactly when it does not fit |
| BerEncode.EncodeString | apps/snmpd-old/ber.c:591-594 | a C string is written without its terminator |
| BerEncode.EncodeOid | apps/snmpd-old/ber.c:494-501 | writes exactly the OBJECT IDENTIFIER TLV, and fails exactly when it does not fit |
| BerEncode.EncodeVarBind | apps/snmpd-old/ber.c:600-651 | writes exactly SEQUENCE { OID, value } with the distance the cursor moved as its length, and succeeds exactly when that fits |
| BerEncode.EncodeVarBinds | apps/snmpd-old/ber.c:667-683 | the back-to-front double loop writes the list in list order, and succeeds exactly when all of it fits |
| BerEncode.EncodeBindings | apps/snmpd-old/ber.c:657-697 | without error the encoded list goes under a SEQUENCE header; with an error the request's own binding bytes are copied |
| BerEncode.EncodePdu | apps/snmpd-old/ber.c:657-697 | from the buffer end it writes exactly the X.690 layout of the response PDU, and succeeds exactly when that layout fits |
| BerEncode.PrependTwice | apps/snmpd-old/ber.c:422-452 | two writes in front of the cursor are one write of both, the later in front |
| BerOidItem.OidItemLength | apps/snmpd-old/ber.c:458-470 | the number of 7-bit groups of the minimal encoding |
| BerOidItem.EncodeOidItem | apps/snmpd-old/ber.c:476-488 | only the last byte has bit 8 clear, and the groups read in base 128 give the value back |
| BerOidItem.DecodeOidItem | apps/snmpd-old/ber.c:254-266 | as written: the item ends at the first byte after one whose bit 8 is clear, the first byte's own bit never tested |
| BerOidItem.DecodeMultiGroupItem | apps/snmpd-old/ber.c:254-266 | as written, a sub-identifier of two or more groups is read back as itself divided by 128, one byte short |
| BerOidItem.DecodeOneGroupItem | apps/snmpd-old/ber.c:254-266 | a one-group sub-identifier is read back when the next byte has bit 8 clear or the window ends |
| BerOidItem.MisreadExample | apps/snmpd-old/ber.c:254-266 | 300 is written 82 2C and read back as 2 |
| BerOidItem.FixedDecodeRoundTrip | apps/snmpd-old/ber.c:476-488 | the corrected item decoder inverts the encoder for every 32-bit value |
| BerProps.LengthRoundTrip | apps/snmpd-old/ber.c:96-128 | every length the encoder writes is read back, consuming exactly its octets, whatever surrounds them |
| BerProps.HeaderRoundTrip | apps/snmpd-old/ber.c:134-140 | a supported tag with its length octets reads back as that tag and length |
| BerProps.StringRoundTrip | apps/snmpd-old/ber.c:236-252 | the string decoder inverts the fixed-string encoder, the empty string included |
| BerProps.OidRoundTrip | apps/snmpd-old/ber.c:272-291 | the OID decoder inverts the OID encoder for every non-empty OID |
| BerProps.VoidSkips | apps/snmpd-old/ber.c:297-313 | an encoded empty NULL is read and any other encoded value with content is skipped whole; a NULL with content and any other value without are refused |
| BerProps.EmptyOidRejected | apps/snmpd-old/ber.c:280-282 | an empty OID, which the encoder writes, is refused by the decoder |
| BerProps.GaugeRoundTrip | apps/snmpd-old/ber.c:206-229 | the unsigned decoder inverts the unsigned encoder for every Gauge value |
| BerProps.IntegerRoundTrip | apps/snmpd-old/ber.c:177-200 | every s32 comes back except 2^23..2^24-1 and -2^24..-2^23-1, which come back with the opposite sign, or as 0 for -2^24 |
| BerProps.IntegerBandExample | apps/snmpd-old/ber.c:508-535 | 2^23 is written as 80 00 00 and read back as -2^23 |
| BerProps.IntegerFixedRoundTrip | apps/snmpd-old/ber.c:508-535 | with the 3-octet band cut at -2^23..2^23-1, every s32 round-trips |
| PduProps.PduRoundTrip | apps/snmpd-old/ber.c:359-416 | the error-free response PDU reads back through ber_decode_pdu: tag, request id up to the INTEGER bands, error status and index, every binding |
| PduProps.EncodedPduRoundTrip | apps/snmpd-old/ber.c:657-697 | whenever ber_encode_pdu succeeds from the buffer end, what it wrote decodes back as above |
| PduProps.BindingsRead | apps/snmpd-old/ber.c:395-414 | with a list node for each, the decoder's binding loop reads back every binding the encoder wrote, one for one |
| OidUtils.MemCmp | apps/snmpd/utils.c:61-69 | memcmp's sign is 0 exactly when the first n bytes agree |
| OidUtils.MemCmpAntisymmetric | apps/snmpd/utils.c:61-69 | swapping the operands negates memcmp's sign |
| OidUtils.OidCmp | apps/snmpd/utils.c:61-69 | 0 exactly when one OID is a prefix of the other |
| OidUtils.OidCmpAntisymmetric | apps/snmpd/utils.c:61-69 | oid_cmp is antisymmetric |
| OidUtils.SuccessorTestIsLexLess | apps/snmpd-old/mib.c:260-324 | the scalar test of get-next (below zero, or zero with the request shorter) is exactly byte-lexicographic order |
| OidUtils.LexTotal | apps/snmpd-old/mib.c:260-324 | the order get-next walks is a strict total order |
| OidUtils.OidCmpn | apps/snmpd/utils.c:71-78 | 0 exactly when the first min(request length, n) bytes agree |
| OidUtils.OidCopy | apps/snmpd/utils.c:81-102 | the length is always copied; the bytes are copied exactly when allocation succeeds, otherwise -1 with no buffer |
| OidUtils.Convert2Octets | apps/snmpd/utils.c:211-217 | four big-endian bytes that read back as the word |
| Mib.AddScalar | apps/snmpd-old/mib.c:62-120 | the scalar is appended at the tail with its flags, type and initial value, and nothing else changes |
| Mib.AddTable | apps/snmpd-old/mib.c:127-157 | a table without a getter or a get-next handler, or one that cannot be allocated, is refused with -1 and nothing changes; otherwise it is appended, read-only exactly when it has no setter |
| Mib.RegisterAll | apps/snmpd/mib-init.c:123-145 | the registration steps run in order, and the first failure stops them with -1 |
| Mib.ScanGetSpec | apps/snmpd-old/mib.c:209-254 | the GET scan stops at the first object that claims or shadows the request, and runs off the end exactly when each object passes it by |
| Mib.MibGet | apps/snmpd-old/mib.c:209-254 | the MIB keeps its keys and only cells change; the binding keeps its OID and takes the answering object's cell after its getter ran |
| Mib.MibGetSpec | apps/snmpd-old/mib.c:209-254 | the answering object claims the request and every earlier object neither claims nor shadows it |
| Mib.ScanNextSpec | apps/snmpd-old/mib.c:260-324 | the GETNEXT scan stops at the first object that offers a successor, and runs off the end exactly when none does |
| Mib.MibGetNext | apps/snmpd-old/mib.c:260-324 | the MIB keeps its keys and only cells change; the binding takes the answering object's cell after its getter ran |
| Mib.MibGetNextSpec | apps/snmpd-old/mib.c:260-324 | endOfMibView with nothing else changed exactly when no object offers a successor; otherwise the first offering object answers |
| Mib.GetNextIsLeastAbove | apps/snmpd-old/mib.c:260-324 | in an ascending registry of scalars, get-next moves to the least registered OID above the request |
| Mib.MibSet | apps/snmpd-old/mib.c:330-372 | a setter's status and cell are taken as they are; without a setter string, OID and word values are stored (strings marked FLAG_SET_VALUE) and others answer badValue with nothing changed; only object k changes |
| Mib.SetThenGet | apps/snmpd-old/mib.c:330-372 | a SET of a word to a scalar without handlers is read back by the next GET, type and all |
| MibTable.Position | apps/snmpd/mib-init-raven.c:227-240 | with no suffix both positions are 0; PositionMisread shows how the item decoder as written splits a suffix |
| MibTable.PositionMisread | apps/snmpd-old/ber.c:254-266 | the suffix 82 01 is read as column 2, row 1 by the handlers, and as the single sub-identifier 257 by the corrected decoder |
| MibTable.TableNext | apps/snmpd/mib-init-raven.c:76-99 | a cell it answers is a two-byte suffix whose column is one of those listed; NextIsLeastAfter states which cell |
| MibTable.NextFromSpec | apps/snmpd/mib-init-raven.c:76-99 | with ascending columns the scan answers the least cell after the request, and None exactly when no cell lies after it |
| MibTable.NextIsLeastAfter | apps/snmpd/mib-init-raven.c:76-99 | get-next over a table answers the least cell after the request |
| MibTable.ReachedIn | apps/snmpd/mib-init-raven.c:76-99 | from the row before an existing cell, get-next answers that cell |
| MibBasic.GetSysDescr | apps/snmpd/mib-init.c:36-43 | an empty description is replaced by the default; any other is left as it is |
| MibBasic.SetSysDescr | apps/snmpd/mib-init.c:45-50 | whatever is sent, the description becomes the fixed second string |
| MibBasic.IfGetAsWritten | apps/snmpd/mib-init.c:70-93 | as written: refused exactly when the suffix is not two bytes or names an ifIndex row outside 1..3; any other column answers 0 and leaves the cell untouched |
| MibBasic.IfGet | apps/snmpd/mib-init.c:70-93 | the corrected getter refuses every column but ifIndex |
| MibBasic.IfNext | apps/snmpd/mib-init.c:95-117 | the ifIndex column with three rows, walked as a one-column table |
| MibBasic.IfGetAnswersUnlistedColumn | apps/snmpd/mib-init.c:89-92 | as written, a GET of ifTable column 2 succeeds though get-next never names it |
| MibBasic.IfNextIsAnswered | apps/snmpd/mib-init.c:95-117 | every cell get-next names is answered by the getter |
| MibBasic.IfAnsweredIsReached | apps/snmpd/mib-init.c:70-117 | with the corrected getter, every answered cell is reached by get-next from the row before |
| MibBasic.BasicGet | apps/snmpd/mib-init.c:36-93 | the getters as installed: sysDescr, a fixed uptime of 1234, ifNumber 3, and getIf as written |
| MibBasic.BasicInit | apps/snmpd/mib-init.c:123-145 | the eight objects are registered; it fails exactly when the ifTable cannot be allocated |
| MibBasic.BasicInitAscending | apps/snmpd/mib-init.c:123-145 | objects are registered in ascending OID order, the order get-next relies on |
| MibRaven.TableGet | apps/snmpd/mib-init-raven.c:227-426 | only a two-byte suffix naming a listed column and an existing row is answered; a listed column sets the type before the row is checked |
| MibRaven.SensorColumn | apps/snmpd/mib-init-raven.c:612-746 | exactly the eight entPhySensorEntry columns are answered, each with two rows, the temperature sensor and the radio's RSSI |
| MibRaven.NextColumns | apps/snmpd/mib-init-raven.c:433-436 | getNextIfEntry walks 15 of the 16 listed ifTable columns; the other tables walk all their columns |
| MibRaven.NextIsAnswered | apps/snmpd/mib-init-raven.c:76-99 | the cell get-next answers is answered by the getter and lies after the request |
| MibRaven.AnsweredIsReached | apps/snmpd/mib-init-raven.c:76-99 | the corrected get-next reaches every cell the getter answers; as written it reaches every one but those of ifOutErrors |
| MibRaven.IfOutErrorsSkipped | apps/snmpd/mib-init-raven.c:433-436 | as written, get-next never reaches ifOutErrors, although the getter answers it |
| MibRaven.SetSerialNo | apps/snmpd/mib-init-raven.c:756-765 | a SET succeeds only with the current value plus one modulo 2^32; anything else answers badValue and changes nothing |
| MibRaven.SerialNoExclusive | apps/snmpd/mib-init-raven.c:756-765 | of two managers sending the same value, the first wins and the second is refused |
| MibRaven.SetTemp | apps/snmpd/mib-init-raven.c:601-610 | the leading decimal digits are read into a signed byte modulo 256, stamped with the uptime; a run of 256 digits or more wraps the u8 index and never ends (None) |
| MibRaven.SmallTemperature | apps/snmpd/mib-init-raven.c:601-610 | a reading of at most two digits is stored exactly |
| MibRaven.AccumulatedIsDecimal | apps/snmpd/mib-init-raven.c:601-610 | the digit loop computes the decimal value modulo 256 |
| MibRaven.RavenGet | apps/snmpd/mib-init-raven.c:770-792 | the scalar getters answer 0 with the uptime or the dispatcher's counter of the same name; the table getters are TableGet |
| MibRaven.RavenInit | apps/snmpd/mib-init-raven.c:798-859 | twenty objects are registered; it fails exactly when one of the four tables cannot be allocated |
| MibRaven.RavenInitAscending | apps/snmpd/mib-init-raven.c:798-859 | objects are registered in ascending OID order |
| CmdResponder.Retrieve | apps/snmpd/cmd-responder.c:38-76 | each binding takes what its lookup leaves; in version 1 the first failing binding sets noSuchName with its index and stops |
| CmdResponder.RetrieveQuiet | apps/snmpd/cmd-responder.c:38-76 | the loop stops exactly at the first failing binding, in version 1 only, and each earlier binding holds its lookup's answer |
| CmdResponder.GetKeepsOids | apps/snmpd/cmd-responder.c:38-54 | a GET rewrites no binding's OID |
| CmdResponder.Validate | apps/snmpd/cmd-responder.c:92-131 | a failure names the 1-based index of a binding and the version's not-found, wrong-type or read-only status; success records one object per binding |
| CmdResponder.RejectedSetChangesNothing | apps/snmpd/cmd-responder.c:92-134 | a request phase one rejects reports its first unwritable binding and leaves the MIB as it was |
| CmdResponder.Apply | apps/snmpd/cmd-responder.c:135-150 | the MIB keeps its keys; success answers status 0, a failure names the 1-based index of the binding whose set failed |
| CmdResponder.ApplyKeepsEarlierSets | apps/snmpd/cmd-responder.c:135-150 | without rollback: when the set of one binding fails, every earlier set answered 0 and stays applied |
| CmdResponder.SnmpSet | apps/snmpd/cmd-responder.c:83-153 | phase one's error is reported as it is; phase two runs only when phase one and the PDU carry no error, and its failure answers -1 with that status and index; the bindings are never rewritten |
| CmdResponder.Handle | apps/snmpd/cmd-responder.c:158-181 | a PDU already carrying an error is turned into a response untouched; REPORT answers 0; unknown types fail |
| MsgV1.WrongCommunity | apps/snmpd/msg-proc-v1.c:32-63 | the length and memcmp tests together reject exactly the communities that differ |
| MsgV1.PrepareDataElements | apps/snmpd/msg-proc-v1.c:32-63 | a wrong community marks the PDU genErr and stops before the PDU is decoded |
| MsgV1.EncodeResponse | apps/snmpd/msg-proc-v1.c:70-88 | the message SEQUENCE { version, community, PDU }, produced exactly when it fits in the buffer |
| MsgV1.PrepareResponse | apps/snmpd/msg-proc-v1.c:90-109 | a response that does not fit is encoded again as tooBig; if that fails too a silent drop is counted |
| MsgV1.EnvelopeRoundTrip | apps/snmpd/msg-proc-v1.c:70-88 | the envelope of an encoded response reads back: exact-length SEQUENCE, version and community |
| MsgV3.DecodeGlobalData | apps/snmpd/msg-proc-v3.c:40-66 | msgGlobalData is read only under a SEQUENCE header, and the cursor moves forward; GlobalRead states what it reads |
| MsgV3.DecodeScoped | apps/snmpd/msg-proc-v3.c:86-96 | the header and two context strings, then the PDU kept however far it decoded |
| MsgV3.PrepareDataElements | apps/snmpd/msg-proc-v3.c:34-99 | malformed header data and any security model but the USM fail; a USM refusal stops processing with 0 |
| MsgV3.EncodeScoped | apps/snmpd/msg-proc-v3.c:103-110 | the scoped PDU's bytes placed against the buffer end when they fit; a buffer of 32768 or more fails |
| MsgV3.EncodeGlobalData | apps/snmpd/msg-proc-v3.c:119-131 | security model, flags, msgMaxSize and msgID, last field first, under one SEQUENCE header |
| MsgV3.EncodeResponse | apps/snmpd/msg-proc-v3.c:101-146 | the whole message is written in layout order, and with authentication the digest lands in the authentication slot |
| MsgV3.PrepareResponse | apps/snmpd/msg-proc-v3.c:148-163 | only the authentication and privacy flags are kept and the agent's context engine ID is set; a response that does not fit is encoded again as tooBig with error index 0 and the retry salt, echoing the request's bindings (its binding list is emptied, but a nonzero error status makes the PDU encoder copy the request's binding bytes); the message handed back keeps its bindings |
| MsgV3.GlobalRead | apps/snmpd/msg-proc-v3.c:119-131 | msgGlobalData as written reads back through the agent's decoder |
| MsgV3.LayoutRead | apps/snmpd/msg-proc-v3.c:101-146 | a response without privacy reads back through the agent's own decoders: envelope, global data, security parameters, scoped header |
| MsgV3Props.ResponseRead | apps/snmpd/msg-proc-v3.c:101-146 | an encoded response without authentication or privacy reads back as the stamped message |
| Dispatcher.Dispatch | apps/snmpd/dispatcher.c:77-162 | an oversized datagram is discarded; undecodable envelopes count a parse error; other versions count a bad version |
| Dispatcher.ServeV1 | apps/snmpd/dispatcher.c:100-130 | a rejected message counts a parse error; a response dropped even as tooBig counts a silent drop |
| Dispatcher.ServeV3 | apps/snmpd/dispatcher.c:131-160 | a rejected message counts a parse error, and USM statistics it bumped stay bumped |
| Dispatcher.ServeAccounts | apps/snmpd/dispatcher.c:77-162 | until a counter wraps, snmpInPkts grows by the number of datagrams and the error counters by those neither answered nor oversized |
| Usm.StatOidsDistinct | apps/snmpd/usm.c:51-85 | distinct statistics are reported under distinct OIDs |
| Usm.Report | apps/snmpd/usm.c:127-147 | the counter is bumped first; without the reportable flag the call fails, otherwise the PDU becomes a REPORT with the counter as its one binding |
| Usm.Hmac | apps/snmpd/usm.c:150-178 | a 16-byte digest; HmacIsRfc2104 states which |
| Usm.HmacIsRfc2104 | apps/snmpd/usm.c:150-178 | hmac_md5_96 is HMAC as section 2 of RFC 2104 defines it |
| Usm.IsBadHmac | apps/snmpd/usm.c:183-197 | the received 12 bytes are compared with the HMAC of the message with that field zeroed |
| Usm.Authenticate | apps/snmpd/usm.c:317-325 | the message keeps its length; AuthenticateWrites states where the digest goes |
| Usm.AuthenticateWrites | apps/snmpd/usm.c:317-325 | the digest lands in the 12-byte field and nothing else changes |
| Usm.AuthenticatedPasses | apps/snmpd/usm.c:183-197 | a message the agent authenticated passes the agent's own digest check |
| Usm.IvLayout | apps/snmpd/usm.c:254-258 | the IV is boots and time big-endian then the 8 salt bytes, as section 3.1.2.1 of RFC 3826 prescribes |
| Usm.SaltAsWritten | apps/snmpd/usm.c:276-277 | the privacy parameters keep their length; SaltIgnoresLow states what is written |
| Usm.SaltIgnoresLow | apps/snmpd/usm.c:276-277 | the low counter never reaches the message |
| Usm.SaltFixedInjective | apps/snmpd/usm.c:276-277 | the intended salt is the 64-bit counter: distinct counters give distinct salts |
| Usm.DecodeParameters | apps/snmpd/usm.c:87-125 | the parameters are read only from an OCTET STRING, the header fields are kept, the authentication field lies inside what was read; ParametersRoundTrip states what is read |
| Usm.TimeWindowInverted | apps/snmpd/usm.c:242-243 | a message at exactly the agent's time is refused as written and kept by the RFC's test; one 1000 seconds off the reverse |
| Usm.TimeWindowComplement | apps/snmpd/usm.c:242-243 | with matching boots the written test and the RFC's disagree on every difference but ±150 and the most negative |
| Usm.WindowByDistance | apps/snmpd/usm.c:242-243 | the RFC's test keeps exactly the messages within 150 seconds; the written one refuses every message closer than 150 |
| Usm.ProcessIncoming | apps/snmpd/usm.c:213-266 | undecodable parameters fail with no statistic counted; an accepted message names the agent's engine and user, lies inside the time window as written and with privacy carries 8 salt bytes; a refusal is a one-binding REPORT |
| Usm.CheckDigest | apps/snmpd/usm.c:230-240 | the digest check runs only with authentication, on a 12-byte field |
| Usm.Admit | apps/snmpd/usm.c:242-264 | the time window as written, then with privacy an 8-byte salt and decryption in place |
| Usm.IncomingVerdict | apps/snmpd/usm.c:213-266 | once the parameters decode, the message is accepted exactly when every check passes, else the first failing check's statistic is counted |
| Usm.Salted | apps/snmpd/usm.c:269-278 | with the privacy flag the privacy parameters carry the salt as written |
| Usm.EncodeParameters | apps/snmpd/usm.c:268-305 | the message's salt is set as written; the security parameters and the sealed scoped PDU are placed against the buffer end, and the authentication field's position is known |
| Usm.PrepareOutgoing | apps/snmpd/usm.c:307-315 | the agent's engine ID, boots and uptime in seconds are stamped; the parameters and sealed scoped PDU are written exactly when they fit |
| Usm.ParametersRoundTrip | apps/snmpd/usm.c:87-125 | the decoder reads back every field the encoder wrote, boots and time through the INTEGER round trip |
| Md5.Init | apps/snmpd/md5.c:97-107 | no bits counted, nothing buffered, and the four words of section 3.3 of RFC 1321 |
| Md5.AddCount | apps/snmpd/md5.c:118-122 | the bit count grows by 8n modulo 2^64, carrying into the high word |
| Md5.Update | apps/snmpd/md5.c:109-139 | the count grows by 8 inLen; buffered bytes and input are cut into blocks with the incomplete one buffered |
| Md5.TwoUpdates | apps/snmpd/md5.c:109-139 | two updates in a row are one update with both inputs |
| Md5.LeRoundTrip | apps/snmpd/md5.c:130-134 | packing four bytes into a word and serialising it are inverse |
| Md5.Pad | apps/snmpd/md5.c:156-163 | after 0x80 and the zeros the buffer holds exactly 56 bytes, as one update with all the padding would leave it |
| Md5.PadCount | apps/snmpd/md5.c:157 | RFC 1321's count of zero bytes is padLen - 1 |
| Md5.Final | apps/snmpd/md5.c:141-180 | the digest is the state after the last block, little-endian |
| Md5.Md5SumIsReference | apps/snmpd/md5.c:97-180 | Init, one Update and Final give the digest of section 3.5 of RFC 1321: the state after every block of the padded message |
| HmacMd5.PassIsMd5Sum | apps/snmpd/usm.c:161-165 | a pass of hmac_md5_96 (MD5Init, MD5Update with the 64-byte pad, MD5Update with the data, MD5Final) is the MD5 digest of the pad followed by the data |
| HmacMd5.HmacMd596IsHmac | apps/snmpd/usm.c:150-178 | hmac_md5_96 run over md5.c's MD5 is the USM's HMAC with that MD5 as its digest, and so HMAC-MD5 of section 2 of RFC 2104 |
| CaseCompare.ToLower | cpu/z80/lib/strcasecmp.c:45 | only 'A' to 'Z' change, by 32 |
| CaseCompare.StrCaseCmp | cpu/z80/lib/strcasecmp.c:43-50 | the difference of the lower-cased unsigned bytes where the loop stopped |
| CaseCompare.StrCaseCmpZero | cpu/z80/lib/strcasecmp.c:43-50 | 0 exactly when the two strings are equal up to ASCII case |
| CaseCompare.StrCaseCmpOrder | cpu/z80/lib/strcasecmp.c:43-50 | negative exactly when the folded first string comes first lexicographically, a proper prefix first |
| CaseCompare.StrCaseCmpSwap | cpu/z80/lib/strcasecmp.c:43-50 | swapping the arguments negates the result, and a string equals itself |
| Mcast6.MyMaddr | core/net/uip-mcast6.c:69-77 | the walk from the head answers a node holding the address, or None |
| Mcast6.MyMaddrFirst | core/net/uip-mcast6.c:69-77 | on a valid list it answers the node at the first position holding the address |
| Mcast6.Exists | core/net/uip-mcast6.c:135-142 | 1 exactly when uip_my_maddr finds a node |
| Mcast6.ExistsIffIn | core/net/uip-mcast6.c:135-142 | 1 exactly when the address is in the list |
| Mcast6.Add | core/net/uip-mcast6.c:48-67 | answers 0 and the new node holds the address |
| Mcast6.AddAppends | core/net/uip-mcast6.c:48-67 | on a valid list the address is appended at the tail, duplicates included, and the list stays valid |
| Mcast6.Rm | core/net/uip-mcast6.c:79-109 | corrected: 1 exactly when no node holds the address, and then nothing changes |
| Mcast6.RmRemovesFirst | core/net/uip-mcast6.c:79-109 | the first occurrence is removed and the list stays valid; the as-written list is the same, only its answer differs |
| Mcast6.RmMiddleAnswersOne | core/net/uip-mcast6.c:101-108 | removing the middle of three nodes answers 1 as written and 0 corrected |
| Mdns.CombineTwo | examples/mdns-aleks/mdns.c:96-103 | the big-endian value of the two bytes |
| Mdns.CombineTwoRoundTrip | examples/mdns-aleks/mdns.c:96-103 | a 16-bit value written in two bytes reads back |
| Mdns.ExtractFirst | examples/mdns-aleks/mdns.c:113-121 | 1 exactly when the first byte's top bit is set |
| Mdns.ClassSplit | examples/mdns-aleks/mdns.c:104-121 | the field is its top bit followed by the fifteen class bits |
| Mdns.TtlIsBigEndian | examples/mdns-aleks/mdns.c:123-133 | the TTL is the big-endian value of four bytes, and every 32-bit value reads back |
| Mdns.DecodeHeader | examples/mdns-aleks/mdns.c:153-167 | flags are single bits, opcode and rcode four bits |
| Mdns.TotalRecords | examples/mdns-aleks/mdns.c:168 | the three counts summed in 16 bits, exact when no wrap |
| Mdns.HeaderRoundTrip | examples/mdns-aleks/mdns.c:153-167 | every header the layout carries is decoded as written |
| Mdns.HeaderBytesRoundTrip | examples/mdns-aleks/mdns.c:153-167 | every twelve bytes are the encoding of the header they decode to |
| Mdns.Strncpy | examples/mdns-aleks/mdns.c:74 | the bytes before the first NUL are copied, the rest are NUL |
| Mdns.ReadSegment | examples/mdns-aleks/mdns.c:71-79 | a run of labels ends on a 0 (no jump) or on 192 with the next byte as the jump |
| Mdns.Walk | examples/mdns-aleks/mdns.c:54-82 | the corrected walk always ends: a name, an overrun or a detected loop |
| Mdns.WalkAsWritten | examples/mdns-aleks/mdns.c:54-82 | as written no loop is detected; out of fuel it is still running |
| Mdns.WalkAgrees | examples/mdns-aleks/mdns.c:54-82 | where the corrected walk reads a name or overruns, the written one does the same with enough pointer jumps |
| Mdns.ComposeLabelAgrees | examples/mdns-aleks/mdns.c:67-82 | 257 pointer jumps suffice for the written walk to agree with the corrected one |
| Mdns.SelfPointerNeverEnds | examples/mdns-aleks/mdns.c:54-66 | the packet C0 00 keeps the written walk running forever; the corrected walk reports a loop |
| Mdns.LoopNeverEnds | examples/mdns-aleks/mdns.c:54-82 | where the corrected walk finds a pointer chain that returns on itself, composeLabel as written follows it forever, whatever the number of jumps allowed |
| Mdns.ComposeLabelAsWrittenMeans | examples/mdns-aleks/mdns.c:67-82 | composeLabel as written, allowed 257 jumps, is still running exactly when the corrected walk finds a loop, and then never returns; otherwise it has returned the corrected walk's result and further jumps change nothing |
| Mdns.ScanStop | examples/mdns-aleks/mdns.c:86-89 | the first position holding 0 or 192, if any |
| Mdns.LabelLengthAgrees | examples/mdns-aleks/mdns.c:84-94 | labelLength's scan ends where composeLabel's run ends exactly when no label holds 0 or 192, and is then its length; it is never longer |
| Mdns.ReadName | examples/mdns-aleks/mdns.c:194-197 | hangs exactly when the corrected walk finds the name's pointer chain loops, since composeLabel as written then never returns; otherwise fails exactly when labelLength's scan runs off the packet; a name read is the corrected walk's, and the cursor moves past it by labelLength |
| Mdns.ReadQuestion | examples/mdns-aleks/mdns.c:194-206 | hangs exactly when the name's pointer chain loops, since composeLabel as written never returns; a question read has the corrected walk's name, and the next starts at least five bytes on, inside the packet |
| Mdns.ReadRecord | examples/mdns-aleks/mdns.c:211-259 | hangs exactly when the name's pointer chain loops, or the fixed fields are inside the packet and the name in a PTR's or SRV's data loops, since composeLabel as written never returns; a record read has the corrected walk's name, the corrected walk's name from its data exactly for PTR and SRV, and the next starts at least eleven bytes on, past the record's data |
| Mdns.RecordRoundTrip | examples/mdns-aleks/mdns.c:211-270 | a record with an uncompressed name and its fixed fields reads back field by field, with the name in a PTR's or SRV's data, and the next record starts after its data; when that data name loops the handler hangs instead |
| Mdns.RepeatSplit | examples/mdns-aleks/mdns.c:194-276 | reading m + n entries is reading m, then n from where those end |
| Mdns.ReadPacket | examples/mdns-aleks/mdns.c:150-276 | as many questions as the header counts, then as many records as the 16-bit total; a packet whose first question's name loops hangs the handler, and so does one with no question whose first record's name, or PTR or SRV data name, loops |
| Mdns.LoopingQuestionHangs | examples/mdns-aleks/mdns.c:189-199 | a packet with one question whose name C0 0C points at itself hangs the handler, composeLabel running forever |
| Mdns.LoopingPtrHangs | examples/mdns-aleks/mdns.c:233-238 | a packet with one answer, a PTR with the root as its name and data C0 17 pointing at itself, hangs the handler in the switch's composeLabel |

## Left out

- Logging, `printf` and the debug printing of `my_maddr_all`, `PRINT6ADDR` and the mDNS handler are not modelled; they have no effect on results.
- The network, the UDP connections and the process threads are not modelled: `udp_mcast_new`, `udp_mcast_close`, the mDNS process and its `timeout_handler`, and the socket side of the dispatcher. Each is a thin shell around the modelled functions.
- Clocks, hardware readings, the radio's counters and the agent configuration are parameters. They cover the uptime, temperature, RSSI, engine ID, user name, keys and community.
- AES is a parameter of the USM model; the key localisation of `keytools.c` is not part of this model.
- The MD5 `Transform` of `md5.c` is not modelled: the compression function is the parameter `Compress`, and every MD5 property is stated for any compression function.
- Bytes are an `int` subtype from 0 to 255, not `bv8`. Every shift and mask in the source is written as division and modulo, and wrap-around is written out with `%` where the C width matters.
- Integer widths: the model takes an ILP32 target, with a 16-bit `short` and a 32-bit `int` and `long`, so `u16t`, `u32t` and `s32t` (snmpd-types.h:53-59) wrap at 2^16 and 2^32. On a target whose `int` is 16 bits, such as the AVR Raven, the bound tests `*pos + length - 1 < len` of BerDecode.DecodeInteger, DecodeUnsigned, DecodeString and DecodeVoid (ber.c:189, 218, 244, 306) are computed modulo 2^16. A content length of 65535 (`82 FF FF`) at cursor 4 then passes the test and wraps the cursor to 3; the model fails there. On an LP64 target `u32t` and `s32t` are 64 bits wide, so the 2^32 wrap-arounds of the model (the counters, `U32`, `ToS32`) do not happen there. Neither target is modelled.
- BerDecode.DecodeVarBinds: a binding node is zero-filled in the model. `varbind_list_append` (utils.c:133-142) mallocs without clearing, so a NULL value leaves whatever the allocator returned. When the bound test of an OCTET STRING value fails, `ber_decode_string` (ber.c:239-249) has already written the header's length into the value's length field; the model's failed decode leaves the value as the number 0.
- BerDecode.DecodeTypeLength: the uninitialised length local of every caller is the `prior` parameter, read as 0 by the composite decoders. In C it holds whatever the stack held.
- Mib.MibGetNext: the mallocs of the new OID (mib.c:275-276, 291-292) are assumed to succeed. The source does not check them.
- Mib.MibSet: the malloc of the string copy (mib.c:350-351) is assumed to succeed. The source does not check it.
- CmdResponder.Validate: the malloc of each object list node (cmd-responder.c:104-108) is assumed to succeed; the source does not check it. Other list nodes are counted by the `budget` parameter.
- BerEncode.Prepend: DECN decrements an `s16t` cursor. The model's cursor is unbounded, which only matters below -32768; every encoder starts below 32768 and stops at the first negative position.
- Usm.EncodeParameters: the salt counters (`getLPrivacyParameters`, `getHPrivacyParameters`, snmpd-conf.c:40-50) are inputs. How they advance between messages is not modelled.
- MibRaven.SensorColumn: reading entPhySensorValue.1 also stores the fresh reading into the global `temperature` (mib-init-raven.c:668). A later entPhySensorOperStatus.1 in the same request reads that value (683). The model reads both from one snapshot of the readings, so the write is lost. The getter callbacks carry no state back to the MIB.
- Mib.AddScalar: the object's malloc is assumed to succeed. The source clears the object with memset before `CHECK_PTR` (mib.c:65-67), so a failed malloc writes through NULL.
- Mib.AddTable: `mib_object_create` (utils.c:159-164) does not clear the object, so a table with a setter keeps whatever `attrs` the allocator left, and a table without one an unset `set_fnc_ptr`. The model reads both as 0. No registered table has a setter (mib-init.c:136, mib-init-raven.c:820-849), so no result depends on it.
- MibTable.TableNext: `oid_create` and `malloc(2)` of the new suffix (mib-init-raven.c:84-88) are assumed to succeed. On failure the source answers 0.
- MibBasic.IfNext: `oid_create` and `malloc(2)` of the new suffix (mib-init.c:102-106) are assumed to succeed. On failure the source answers 0.
- Dispatcher.Dispatch: the malloc of the message (dispatcher.c:103-110) is assumed to succeed. The source clears it with memset without a NULL check.
- Usm.OutsideWindowAsWritten: `abs()` of the 32-bit time difference (usm.c:243) is taken on a 32-bit `int`. On a target whose `int` is 16 bits, such as the AVR Raven, the difference would be truncated before `abs`; the model does not cover that.
- HmacMd5.HmacMd596IsHmac: a message of 65472 bytes or more is outside it. MD5Update takes a 16-bit length, and the model's one-update MD5 digest needs the pad and the message together below 65536 bytes. The agent's buffers hold at most 484 bytes.
- Mcast6.Add: the malloc result is the parameter `p`, which is taken to be a fresh node. The source writes through it without a NULL check.
- MsgV3.PrepareResponse: the tooBig retry echoes the request's bindings, as ber_encode_pdu copies them whenever the error status is nonzero (ber.c:681-684). Section 4.2.1 of RFC 3416 asks for an empty variable-bindings field there; the model follows the code.
- Mdns.Walk: `composeLabel`'s 256-byte buffer is not bounded in the model. A name longer than 255 bytes overflows it in the source; in the model its text just grows.
- Mdns.ReadPacket: a packet shorter than 12 bytes reads as Short. The source reads the header from whatever lies in the buffer.
- Mdns.ReadSegment: a read past the end of the packet is an Overrun, where the source reads past the buffer.
- Mdns.ReadRecord: of the switch over a record's data (mdns.c:233-269), the PTR and SRV cases are modelled, since they read a name with composeLabel; the AAAA and TXT cases only print, and are not modelled. The record's data is then skipped by its length as the source does, whether or not the name read from it lies inside that length.
- CaseCompare.StrCaseCmp: the loop applies `tolower` to plain `char`, which is undefined for negative values in C. The model reads every byte as unsigned in both places.

## Findings

| source | as written | input that shows it | evidently intended | confidence | as-written member | corrected member |
|---|---|---|---|---|---|---|
| apps/snmpd-old/ber.c:508-535 | the 3-octet INTEGER band covers -2^24 .. 2^24-1 | 2^23 is written 80 00 00 and read back as -2^23 | three octets only for -2^23 .. 2^23-1 | not executed | BerProps.IntegerBandExample | BerProps.IntegerFixedRoundTrip |
| apps/snmpd-old/ber.c:254-266 | the item decoder tests bit 8 of the byte after the one consumed | 300, written 82 2C, reads back as 2 | an item ends at the first byte whose own bit 8 is clear | not executed | BerOidItem.MisreadExample | BerOidItem.FixedDecodeRoundTrip |
| apps/snmpd/usm.c:242-243 | a message is refused when its time is within 150 seconds of the uptime | boots and time equal to the agent's are refused | refuse when more than 150 seconds off | not executed | Usm.TimeWindowInverted | Usm.WindowByDistance |
| apps/snmpd/usm.c:276-277 | both salt counters are written to bytes 0..3 | two salts differing only in the low counter give the same parameters | high counter in bytes 0..3, low in 4..7 | not executed | Usm.SaltIgnoresLow | Usm.SaltFixedInjective |
| apps/snmpd/mib-init-raven.c:433-436 | getNextIfEntry passes 15 for the 16 ifTable columns | get-next after ifOutUcastPkts leaves the table, so ifOutErrors is never reached | walk all 16 columns | not executed | MibRaven.IfOutErrorsSkipped | MibRaven.AnsweredIsReached |
| apps/snmpd/mib-init.c:89-92 | getIf answers 0 for any column but ifIndex | a GET of ifTable column 2 succeeds | refuse unlisted columns as get-next never names them | not executed | MibBasic.IfGetAnswersUnlistedColumn | MibBasic.IfAnsweredIsReached |
| core/net/uip-mcast6.c:101-108 | removing a middle node falls through to `return 1` | three addresses, remove the second | answer 0 whenever a node was removed | not executed | Mcast6.RmMiddleAnswersOne | Mcast6.RmRemovesFirst |
| examples/mdns-aleks/mdns.c:54-82 | compression pointers are followed with no loop check | a packet with one question whose name is C0 0C at offset 12, pointing at itself | refuse a pointer to an offset already visited | not executed | Mdns.LoopingQuestionHangs | Mdns.WalkAgrees |

=== FILE: arith.dfy ===
// Big-endian byte strings as numbers: the arithmetic behind the BER
// integer, length and OID-item codecs and the MD5/USM word packing.

module ByteArith {
  import opened SnmpTypes

  /** 256 to the power `n`: one more byte of a big-endian string. */
  function Pow256(n: nat): (r: nat)
    ensures r >= 1
  {
    if n == 0 then 1 else 0x100 * Pow256(n - 1)
  }

  /** Big-endian unsigned value of a byte string. */
  function BE(s: seq<byte>): nat
  {
    if |s| == 0 then 0 else BE(s[..|s| - 1]) * 0x100 + s[|s| - 1]
  }

  /** The low `n` bytes of `x`, most significant first. */
  function BytesOf(x: nat, n: nat): (r: seq<byte>)
    ensures |r| == n
  {
    if n == 0 then [] else BytesOf(x / 0x100, n - 1) + [x % 0x100]
  }

  lemma {:induction false} BEBound(s: seq<byte>)
    ensures BE(s) < Pow256(|s|)
  {
    if |s| > 0 {
      BEBound(s[..|s| - 1]);
      assert BE(s) <= (Pow256(|s| - 1) - 1) * 0x100 + 0xFF;
    }
  }

  /** Splitting a remainder by 256*m into its high part and its low byte. */
  lemma ModSplit(x: nat, m: nat)
    requires m > 0
    ensures x % (0x100 * m) == 0x100 * ((x / 0x100) % m) + x % 0x100
  {
    ModSplitBase(x, 0x100, m);
  }

  /** Splitting a remainder by b*m into its high digit part and its low digit. */
  lemma ModSplitBase(x: nat, b: nat, m: nat)
    requires b > 0 && m > 0
    ensures x % (b * m) == b * ((x / b) % m) + x % b
    ensures x / (b * m) == (x / b) / m
  {
    var q := x / b;
    var r := x % b;
    var k := q / m;
    var t := q % m;
    assert x == b * q + r;
    assert q == m * k + t;
    Distrib(b, m * k, t);
    MulAssoc(b, m, k);
    assert x == (b * m) * k + (b * t + r);
    MulLeMono(b, t, m - 1);
    Distrib(b, m - 1, 1);
    assert b * t + r < b * m;
    UniqueMod(x, b * m, k, b * t + r);
  }

  lemma Distrib(a: int, b: int, c: int)
    ensures a * (b + c) == a * b + a * c
  {
  }

  lemma MulAssoc(a: int, b: int, c: int)
    ensures a * (b * c) == (a * b) * c
  {
  }

  lemma MulLeMono(a: nat, b: int, c: int)
    requires b <= c
    ensures a * b <= a * c
  {
    Distrib(a, b, c - b);
  }

  /** A value already in 32 bits is its own wrap. */
  lemma U32Small(x: int)
    requires 0 <= x < TWO32
    ensures U32(x) == x
  {
    UniqueMod(x, TWO32, 0, x);
  }

  /** A value already in 16 bits is its own truncation. */
  lemma Narrow16Small(x: int)
    requires 0 <= x < 0x1_0000
    ensures Narrow16(x) == x
  {
    UniqueMod(x, 0x1_0000, 0, x);
  }

  lemma UniqueMod(x: int, m: int, k: int, r: int)
    requires m > 0 && 0 <= r < m && x == m * k + r
    ensures x % m == r && x / m == k
  {
    var q := x / m;
    var s := x % m;
    assert m * q + s == m * k + r;
    assert m * (q - k) == r - s;
    if q > k {
      MulAtLeast(m, q - k);
    } else if q < k {
      MulAtLeast(m, k - q);
    }
  }

  lemma MulAtLeast(m: int, a: int)
    requires m > 0 && a >= 1
    ensures m * a >= m
  {
    assert m * a == m * (a - 1) + m;
  }

  /** A trailing byte does not change a quotient by a multiple of 256. */
  lemma DivSplit(a: nat, r: nat, b: nat)
    requires r < 0x100 && b > 0
    ensures (0x100 * a + r) / (0x100 * b) == a / b
  {
    var k := a / b;
    var t := a % b;
    assert a == b * k + t;
    assert 0x100 * a + r == (0x100 * b) * k + (0x100 * t + r);
    assert 0 <= 0x100 * t + r < 0x100 * b;
    UniqueMod(0x100 * a + r, 0x100 * b, k, 0x100 * t + r);
  }

  /** The bytes of `x` read back big-endian give `x` modulo 256^n. */
  lemma {:induction false} BytesOfValue(x: nat, n: nat)
    ensures BE(BytesOf(x, n)) == x % Pow256(n)
  {
    if n > 0 {
      var s := BytesOf(x, n);
      assert s[..n - 1] == BytesOf(x / 0x100, n - 1);
      BytesOfValue(x / 0x100, n - 1);
      ModSplit(x, Pow256(n - 1));
    }
  }

  /** The leading byte of BytesOf(x, n) is the top byte of x mod 256^n. */
  lemma {:induction false} BytesOfLead(x: nat, n: nat)
    requires n >= 1
    ensures BytesOf(x, n)[0] == (x % Pow256(n)) / Pow256(n - 1)
  {
    if n == 1 {
    } else {
      BytesOfLead(x / 0x100, n - 1);
      assert BytesOf(x, n)[0] == BytesOf(x / 0x100, n - 1)[0];
      ModSplit(x, Pow256(n - 1));
      DivSplit((x / 0x100) % Pow256(n - 1), x % 0x100, Pow256(n - 2));
    }
  }

  /** Big-endian reading of a word's four bytes gives the word back. */
  lemma BE32Value(w: u32)
    ensures BE(BE32(w)) == w
  {
    var s := BE32(w);
    assert s[..3][..2][..1][..0] == [];
    assert BE(s[..3][..2][..1]) == w / 0x100_0000;
    assert BE(s[..3][..2]) == (w / 0x100_0000) * 0x100 + (w / 0x1_0000) % 0x100 == w / 0x1_0000;
    assert BE(s[..3]) == (w / 0x1_0000) * 0x100 + (w / 0x100) % 0x100 == w / 0x100;
  }

  /** Reducing mod 2^32 before a multiply-add does not change the result mod 2^32. */
  lemma ModMulAdd(x: int, k: int, c: int)
    ensures ((x % TWO32) * k + c) % TWO32 == (x * k + c) % TWO32
  {
    var q := x / TWO32;
    assert x * k + c == (x % TWO32) * k + c + TWO32 * (q * k);
    ModShift((x % TWO32) * k + c, q * k);
  }

  /** Adding a multiple of 2^32 does not change a value mod 2^32. */
  lemma ModShift(y: int, j: int)
    ensures (y + TWO32 * j) % TWO32 == y % TWO32
  {
    var r := y % TWO32;
    var q := y / TWO32;
    assert y + TWO32 * j == TWO32 * (q + j) + r;
    UniqueMod(y + TWO32 * j, TWO32, q + j, r);
  }

  /** Concatenation regrouped; stated once so that proofs need not rediscover it inside larger goals. */
  lemma AppendAssoc<T>(a: seq<T>, b: seq<T>, c: seq<T>)
    ensures a + b + c == a + (b + c)
  {
  }
}

=== FILE: ber_decode.dfy ===
// The BER decoder of the agent (ber.c, first half): tag whitelist, length
// octets, INTEGER, Gauge, OCTET STRING, OBJECT IDENTIFIER, NULL, the value
// dispatcher and the PDU parser.  Every decoder reads `input` from cursor
// `pos` and yields the decoded value with the cursor after it, or Fail.

module BerDecode {
  import opened SnmpTypes
  import opened ByteArith

  datatype Decoded<T> = Fail | Ok(value: T, pos: nat)

  /**
   * The value a decoder leaves in a length variable it never assigned.  Every
   * caller of the length decoder passes an uninitialised local; the model
   * reads it as zero.
   */
  const Uninit: u16 := 0

  /** The tags ber_decode_type accepts; REPORT (0xA8) is not among them. */
  predicate SupportedTag(t: byte)
  {
    t == BOOLEAN || t == INTEGER || t == BIT_STRING || t == OCTET_STRING || t == NULL
    || t == OID || t == SEQUENCE || t == IPADDRESS || t == COUNTER || t == TIME_TICKS
    || t == OPAQUE || t == GAUGE || t == GET || t == GETNEXT || t == RESPONSE
    || t == SET || t == GETBULK || t == INFORM || t == TRAP
  }

  /** ber_decode_type. */
  function DecodeType(input: span, pos: nat): Decoded<byte>
  {
    if pos < |input| && SupportedTag(input[pos]) then Ok(input[pos], pos + 1) else Fail
  }

  // ---------------------------------------------------------------------
  // Length octets
  // ---------------------------------------------------------------------

  /**
   * Outcome of ber_decode_length: its return code (0 success, 1 more than
   * two length octets, -1 input exhausted), the final content of the length
   * variable and the cursor.
   */
  datatype LengthResult = LengthResult(code: int, length: u16, pos: nat)

  function ReadLengthOctets(input: span, pos: nat, n: nat, acc: u16): (r: LengthResult)
    ensures pos <= r.pos <= pos + n
    ensures r.code == 0 || r.code == -1
    ensures r.code == 0 ==> r.pos == pos + n && (n == 0 || r.pos <= |input|)
    ensures r.code == -1 ==> |input| <= r.pos < pos + n
    decreases n
  {
    if n == 0 then LengthResult(0, acc, pos)
    else if pos < |input| then ReadLengthOctets(input, pos + 1, n - 1, Narrow16(acc * 0x100 + input[pos]))
    else LengthResult(-1, acc, pos)
  }

  /** ber_decode_length; `prior` is the caller's length variable before the call. */
  function DecodeLength(input: span, pos: nat, prior: u16): (r: LengthResult)
    ensures r.code == 0 || r.code == 1 || r.code == -1
    ensures pos <= r.pos <= pos + 3
    ensures r.code == 0 ==> pos < r.pos <= |input|
    ensures r.code == 1 <==> pos < |input| && input[pos] > 0x82
    ensures r.code == 1 ==> r.length == prior && r.pos == pos + 1
    ensures pos >= |input| ==> r.code == -1 && r.length == prior && r.pos == pos
  {
    if pos >= |input| then LengthResult(-1, prior, pos)
    else if input[pos] < 0x80 then LengthResult(0, input[pos], pos + 1)
    else
      var size := input[pos] % 0x80;
      if size > 2 then LengthResult(1, prior, pos + 1)
      else ReadLengthOctets(input, pos + 1, size, 0)
  }

  /** A tag with its length. */
  datatype Header = Header(tag: byte, length: u16)

  /**
   * ber_decode_type_length.  The source tests `!ber_decode_length(..) == -1`,
   * which is never true, so only the tag can make it fail; after a failed
   * length decode the length is whatever the length variable then holds.
   */
  function DecodeTypeLength(input: span, pos: nat, prior: u16): (r: Decoded<Header>)
    ensures r.Fail? <==> !(pos < |input| && SupportedTag(input[pos]))
    ensures r.Ok? ==> r.value.tag == input[pos] && pos + 1 <= r.pos <= pos + 4 && r.pos <= |input|
    ensures r.Ok? && pos + 1 < |input| && input[pos + 1] > 0x82 ==> r.value.length == prior
    ensures r.Ok? && pos + 1 == |input| ==> r.value.length == prior
  {
    var t := DecodeType(input, pos);
    if t.Fail? then Fail
    else
      var l := DecodeLength(input, t.pos, prior);
      Ok(Header(t.value, l.length), l.pos)
  }

  // ---------------------------------------------------------------------
  // Sequences
  // ---------------------------------------------------------------------

  /** ber_decode_sequence: a SEQUENCE header whose length is exactly the rest of the input. */
  function DecodeSequence(input: span, pos: nat): (r: Decoded<u16>)
    ensures r.Ok? ==> pos < |input| && input[pos] == SEQUENCE
    ensures r.Ok? ==> pos < r.pos <= |input| && r.value == |input| - r.pos
  {
    var h := DecodeTypeLength(input, pos, Uninit);
    if h.Fail? || h.value.tag != SEQUENCE || h.value.length != |input| - h.pos then Fail
    else Ok(h.value.length, h.pos)
  }

  /** ber_decode_sequence_length: any SEQUENCE header; its length is not checked. */
  function DecodeSequenceLength(input: span, pos: nat): (r: Decoded<u16>)
    ensures r.Ok? <==> pos < |input| && input[pos] == SEQUENCE
    ensures r.Ok? ==> pos < r.pos <= |input|
  {
    var h := DecodeTypeLength(input, pos, Uninit);
    if h.Fail? || h.value.tag != SEQUENCE then Fail else Ok(h.value.length, h.pos)
  }

  // ---------------------------------------------------------------------
  // Integers
  // ---------------------------------------------------------------------

  /** The two's-complement value of a big-endian content string (X.690 8.3.3). */
  function SignedBE(s: seq<byte>): int
  {
    if |s| > 0 && s[0] >= 0x80 then BE(s) - Pow256(|s|) else BE(s)
  }

  /**
   * The decoder loops of ber_decode_integer and ber_decode_unsigned_integer:
   * shift the 32-bit accumulator left by 8 and add the next byte.
   */
  function Accumulate(v: u32, s: seq<byte>): u32
  {
    if |s| == 0 then v else U32(Accumulate(v, s[..|s| - 1]) * 0x100 + s[|s| - 1])
  }

  lemma {:induction false} AccumulateValue(v: u32, s: seq<byte>)
    ensures Accumulate(v, s) == U32(v * Pow256(|s|) + BE(s))
  {
    if |s| > 0 {
      var s' := s[..|s| - 1];
      var last := s[|s| - 1];
      AccumulateValue(v, s');
      var x := v * Pow256(|s'|) + BE(s');
      ModMulAdd(x, 0x100, last);
      ShiftIn(v, Pow256(|s'|), BE(s'), last);
    }
  }

  /** One more byte shifted in, as plain arithmetic. */
  lemma ShiftIn(v: int, p: int, b: int, last: int)
    ensures (v * p + b) * 0x100 + last == v * (0x100 * p) + (b * 0x100 + last)
  {
    Distrib(0x100, v * p, b);
    MulAssoc(v, p, 0x100);
  }

  /** The initial accumulator: all ones when the first content byte is negative. */
  lemma SignExtendedStart(s: seq<byte>)
    requires |s| >= 1
    ensures Accumulate(if s[0] >= 0x80 then 0xFFFF_FFFF else 0, s) == U32(SignedBE(s))
  {
    var init: u32 := if s[0] >= 0x80 then 0xFFFF_FFFF else 0;
    AccumulateValue(init, s);
    if s[0] >= 0x80 {
      assert init * Pow256(|s|) + BE(s) == SignedBE(s) + TWO32 * Pow256(|s|);
      ModShift(SignedBE(s), Pow256(|s|));
    }
  }

  /**
   * The `n` content bytes at `at`.  Built position by position rather than
   * as a slice, so that a decoded value equal to some other sequence does
   * not tie that sequence to every other slice of the input.
   */
  function Content(input: span, at: nat, n: nat): (r: span)
    requires at + n <= |input|
    ensures |r| == n
  {
    seq(n, i requires 0 <= i < n => input[at + i])
  }

  /** The content is the slice of the same bytes. */
  lemma ContentSlice(input: span, at: nat, n: nat)
    requires at + n <= |input|
    ensures Content(input, at, n) == input[at..at + n]
  {
  }

  /** ber_decode_integer. */
  function DecodeInteger(input: span, pos: nat): (r: Decoded<s32>)
    ensures var h := DecodeTypeLength(input, pos, Uninit);
      r.Ok? <==> h.Ok? && h.value.tag == INTEGER && h.value.length >= 1 && h.pos + h.value.length <= |input|
    ensures r.Ok? ==> pos < r.pos <= |input|
    ensures r.Ok? ==> var h := DecodeTypeLength(input, pos, Uninit);
      r.pos == h.pos + h.value.length && r.value == ToS32(U32(SignedBE(Content(input, h.pos, h.value.length))))
  {
    var h := DecodeTypeLength(input, pos, Uninit);
    if h.Fail? || h.value.tag != INTEGER || h.value.length < 1 then Fail
    else if h.pos + h.value.length - 1 < |input| then
      var content := Content(input, h.pos, h.value.length);
      var init: u32 := if input[h.pos] >= 0x80 then 0xFFFF_FFFF else 0;
      SignExtendedStart(content);
      Ok(ToS32(Accumulate(init, content)), h.pos + h.value.length)
    else Fail
  }

  /** ber_decode_unsigned_integer: only the Gauge tag is accepted. */
  function DecodeUnsigned(input: span, pos: nat): (r: Decoded<u32>)
    ensures var h := DecodeTypeLength(input, pos, Uninit);
      r.Ok? <==> h.Ok? && h.value.tag == GAUGE && h.value.length >= 1 && h.pos + h.value.length <= |input|
    ensures r.Ok? ==> pos < r.pos <= |input|
    ensures r.Ok? ==> var h := DecodeTypeLength(input, pos, Uninit);
      r.pos == h.pos + h.value.length && r.value == U32(BE(Content(input, h.pos, h.value.length)))
  {
    var h := DecodeTypeLength(input, pos, Uninit);
    if h.Fail? || h.value.tag != GAUGE || h.value.length < 1 then Fail
    else if h.pos + h.value.length - 1 < |input| then
      var content := Content(input, h.pos, h.value.length);
      AccumulateValue(0, content);
      Ok(Accumulate(0, content), h.pos + h.value.length)
    else Fail
  }

  // ---------------------------------------------------------------------
  // Strings, OIDs, NULL
  // ---------------------------------------------------------------------

  /** ber_decode_string: the content span of an OCTET STRING (possibly empty). */
  function DecodeString(input: span, pos: nat): (r: Decoded<span>)
    ensures var h := DecodeTypeLength(input, pos, Uninit);
      r.Ok? <==> h.Ok? && h.value.tag == OCTET_STRING && h.pos + h.value.length <= |input|
    ensures r.Ok? ==> pos < r.pos <= |input| && |r.value| <= r.pos && r.value == Content(input, r.pos - |r.value|, |r.value|)
    ensures r.Ok? ==> |r.value| == DecodeTypeLength(input, pos, Uninit).value.length
  {
    var h := DecodeTypeLength(input, pos, Uninit);
    if h.Fail? || h.value.tag != OCTET_STRING then Fail
    else if h.pos + h.value.length - 1 < |input| then
      var content := Content(input, h.pos, h.value.length);
      Ok(content, h.pos + h.value.length)
    else Fail
  }

  /** ber_decode_oid: the content span of a non-empty OBJECT IDENTIFIER. */
  function DecodeOid(input: span, pos: nat): (r: Decoded<span>)
    ensures var h := DecodeTypeLength(input, pos, Uninit);
      r.Ok? <==> h.Ok? && h.value.tag == OID && h.value.length >= 1 && h.pos + h.value.length <= |input|
    ensures r.Ok? ==> pos < r.pos <= |input| && 1 <= |r.value| <= r.pos && r.value == Content(input, r.pos - |r.value|, |r.value|)
  {
    var h := DecodeTypeLength(input, pos, Uninit);
    if h.Fail? || h.value.tag != OID || h.value.length < 1 then Fail
    else if h.pos + h.value.length <= |input| then
      var content := Content(input, h.pos, h.value.length);
      Ok(content, h.pos + h.value.length)
    else Fail
  }

  /**
   * ber_decode_void: fails on NULL with content or on any other tag without
   * content; any other tag with content is skipped.
   */
  function DecodeVoid(input: span, pos: nat): (r: Decoded<()>)
    ensures pos < |input| && input[pos] == NULL ==>
      (r.Ok? <==> DecodeTypeLength(input, pos, Uninit).value.length == 0)
    ensures var h := DecodeTypeLength(input, pos, Uninit);
      r.Ok? <==> h.Ok? && (h.value.tag == NULL <==> h.value.length == 0) && h.pos + h.value.length <= |input|
    ensures r.Ok? ==> pos < r.pos <= |input| && r.pos == DecodeTypeLength(input, pos, Uninit).pos + DecodeTypeLength(input, pos, Uninit).value.length
  {
    var h := DecodeTypeLength(input, pos, Uninit);
    if h.Fail? then Fail
    else if (h.value.tag == NULL && h.value.length != 0) || (h.value.tag != NULL && h.value.length == 0) then Fail
    else if h.pos + h.value.length - 1 < |input| then Ok((), h.pos + h.value.length)
    else Fail
  }

  /** The value tags ber_decode_value can decode successfully. */
  predicate DecodableValueTag(t: byte)
  {
    t == INTEGER || t == OCTET_STRING || t == NULL || t == GAUGE || t == OID
  }

  /**
   * ber_decode_value, dispatching on the tag at the cursor.  IpAddress is
   * routed to the OCTET STRING decoder, Counter and TimeTicks to the Gauge
   * decoder and Opaque to the OID decoder, and each of those rejects the
   * tag.  A NULL leaves the value as it was, which for a fresh binding is
   * the zeroed union.
   */
  function DecodeValue(input: span, pos: nat): (r: Decoded<Value>)
    ensures r.Ok? ==> pos < r.pos <= |input| && DecodableValueTag(input[pos])
    ensures (pos < |input| && (input[pos] == IPADDRESS || input[pos] == COUNTER
      || input[pos] == TIME_TICKS || input[pos] == OPAQUE)) ==> r.Fail?
    ensures r.Ok? && input[pos] == INTEGER ==>
      DecodeInteger(input, pos).Ok? && r.value == Num(FromS32(DecodeInteger(input, pos).value))
    ensures r.Ok? && input[pos] == GAUGE ==>
      DecodeUnsigned(input, pos).Ok? && r.value == Num(DecodeUnsigned(input, pos).value)
    ensures r.Ok? && input[pos] == OCTET_STRING ==>
      DecodeString(input, pos).Ok? && r.value == Bytes(DecodeString(input, pos).value)
    ensures r.Ok? && input[pos] == OID ==>
      DecodeOid(input, pos).Ok? && r.value == Bytes(DecodeOid(input, pos).value)
  {
    if pos >= |input| then Fail
    else
      var t := input[pos];
      if t == INTEGER then
        var d := DecodeInteger(input, pos);
        if d.Fail? then Fail else Ok(Num(FromS32(d.value)), d.pos)
      else if t == IPADDRESS || t == OCTET_STRING then
        var d := DecodeString(input, pos);
        if d.Fail? then Fail else Ok(Bytes(d.value), d.pos)
      else if t == NULL then
        var d := DecodeVoid(input, pos);
        if d.Fail? then Fail else Ok(Num(0), d.pos)
      else if t == GAUGE || t == TIME_TICKS || t == COUNTER then
        var d := DecodeUnsigned(input, pos);
        if d.Fail? then Fail else Ok(Num(d.value), d.pos)
      else if t == OPAQUE || t == OID then
        var d := DecodeOid(input, pos);
        if d.Fail? then Fail else Ok(Bytes(d.value), d.pos)
      else Fail
  }

  // ---------------------------------------------------------------------
  // PDU
  // ---------------------------------------------------------------------

  /** Return code of ber_decode_pdu with the PDU as it stands when it returns. */
  datatype PduDecode = PduDecode(code: int, pdu: Pdu)

  /**
   * One variable binding after its SEQUENCE header: the OID, then the value.
   * On failure the binding is returned as far as it was filled in: an OID
   * that failed leaves the fresh node's empty OID, a value that failed
   * leaves the tag byte in the value type.
   */
  datatype VarBindStep = Decoded(vb: VarBind, pos: nat) | Partial(vb: VarBind)

  function DecodeVarBindBody(input: span, pos: nat): (r: VarBindStep)
    ensures r.Decoded? ==> pos < r.pos <= |input|
  {
    var o := DecodeOid(input, pos);
    if o.Fail? then Partial(FreshVarBind)
    else
      var vb := FreshVarBind.(oid := o.value, tail := input[o.pos..]);
      var v := DecodeValue(input, o.pos);
      if v.Fail? then
        Partial(vb.(valueType := if o.pos < |input| then input[o.pos] else 0))
      else
        Decoded(vb.(valueType := input[o.pos], value := v.value), v.pos)
  }

  /**
   * The variable-binding loop of ber_decode_pdu.  `budget` is the number of
   * list nodes the allocator can provide in total: the node that would make
   * the list longer than `budget` fails to allocate.
   */
  function DecodeVarBinds(input: span, pos: nat, pdu: Pdu, budget: nat): (r: PduDecode)
    ensures r.code == ERR_NO_ERROR || r.code == FAILURE || r.code == ERR_MEMORY_ALLOCATION
    ensures |pdu.varbinds| <= |r.pdu.varbinds| && r.pdu.varbinds[..|pdu.varbinds|] == pdu.varbinds
    ensures r.pdu == pdu.(varbinds := r.pdu.varbinds)
    ensures r.code == ERR_MEMORY_ALLOCATION && |pdu.varbinds| <= budget ==> |r.pdu.varbinds| == budget
    ensures |pdu.varbinds| <= budget ==> |r.pdu.varbinds| <= budget
    decreases |input| - pos
  {
    if pos >= |input| then PduDecode(ERR_NO_ERROR, pdu)
    else
      var sl := DecodeSequenceLength(input, pos);
      if sl.Fail? then PduDecode(FAILURE, pdu)
      else if |pdu.varbinds| >= budget then PduDecode(ERR_MEMORY_ALLOCATION, pdu)
      else
        var step := DecodeVarBindBody(input, sl.pos);
        var pdu' := pdu.(varbinds := pdu.varbinds + [step.vb]);
        if step.Partial? then PduDecode(FAILURE, pdu')
        else
          var r := DecodeVarBinds(input, step.pos, pdu', budget);
          assert r.pdu.varbinds[..|pdu.varbinds|] == r.pdu.varbinds[..|pdu'.varbinds|][..|pdu.varbinds|];
          r
  }

  /**
   * ber_decode_pdu on the zero-filled PDU of a fresh message.  Fields are
   * filled in as they are decoded, so a failure leaves the PDU partly set.
   */
  function DecodePdu(input: span, pos: nat, budget: nat): (r: PduDecode)
    ensures r.code == ERR_NO_ERROR || r.code == FAILURE || r.code == ERR_MEMORY_ALLOCATION
    ensures r.pdu.varbindIndex <= |input| && r.pdu.responseType == 0
    ensures r.code != FAILURE ==>
      var h := DecodeTypeLength(input, pos, Uninit);
      h.Ok? && h.value.length == |input| - h.pos && r.pdu.requestType == input[pos]
    ensures r.code != FAILURE ==> r.pdu.responseType == 0 && |r.pdu.varbinds| <= budget
    ensures r.code == ERR_MEMORY_ALLOCATION ==> |r.pdu.varbinds| == budget
    ensures r.code != FAILURE ==>
      var h := DecodeTypeLength(input, pos, Uninit);
      var id := DecodeInteger(input, h.pos);
      id.Ok? && r.pdu.requestId == id.value &&
      var es := DecodeInteger(input, id.pos);
      es.Ok? && r.pdu.errorStatus == Narrow8(es.value) &&
      var ei := DecodeInteger(input, es.pos);
      ei.Ok? && r.pdu.errorIndex == Narrow8(ei.value) && r.pdu.varbindIndex == ei.pos
      && DecodeSequence(input, ei.pos).Ok?
  {
    var h := DecodeTypeLength(input, pos, Uninit);
    if h.Fail? then PduDecode(FAILURE, EmptyPdu)
    else
      var p1 := EmptyPdu.(requestType := h.value.tag);
      if h.value.length != |input| - h.pos then PduDecode(FAILURE, p1)
      else
        var id := DecodeInteger(input, h.pos);
        if id.Fail? then PduDecode(FAILURE, p1)
        else
          var p2 := p1.(requestId := id.value);
          var es := DecodeInteger(input, id.pos);
          if es.Fail? then PduDecode(FAILURE, p2)
          else
            var p3 := p2.(errorStatus := Narrow8(es.value));
            var ei := DecodeInteger(input, es.pos);
            if ei.Fail? then PduDecode(FAILURE, p3)
            else
              var p4 := p3.(errorIndex := Narrow8(ei.value), varbindIndex := ei.pos);
              var sq := DecodeSequence(input, ei.pos);
              if sq.Fail? then PduDecode(FAILURE, p4)
              else DecodeVarBinds(input, sq.pos, p4, budget)
  }
}

=== FILE: ber_encode.dfy ===
// The BER encoder of the agent (ber.c, second half).  The agent writes a
// response back to front: a signed 16-bit cursor starts at the end of the
// output buffer and every field is written just below it.  The cursor is
// decremented before the bytes are written and the write fails as soon as it
// drops below 0 (the DECN macro of utils.h).

module BerEncode {
  import opened SnmpTypes
  import opened ByteArith

  /**
   * The encoder state: the cursor and the bytes written between the cursor
   * and the starting position.  Once the cursor is negative the bytes are of
   * no further interest and are dropped.
   */
  datatype Enc = Enc(pos: int, out: seq<byte>)
  {
    predicate Ok() { pos >= 0 }
  }

  /** The s16t value of a u16t (the initial cursor `s16t pos = max_output_len`). */
  function S16(x: u16): int { if x < 0x8000 then x else x - 0x1_0000 }

  /** A cursor at the end of an empty buffer of `maxLen` bytes. */
  function Start(maxLen: u16): (r: Enc)
    ensures r.out == [] && r.pos < 0x8000
    ensures maxLen < 0x8000 ==> r.pos == maxLen
  {
    Enc(S16(maxLen), [])
  }

  /** DECN followed by a copy of `b` to the new cursor position. */
  function Prepend(e: Enc, b: seq<byte>): (r: Enc)
    ensures r.pos == e.pos - |b|
    ensures r.Ok() ==> r.out == b + e.out
  {
    if e.pos - |b| < 0 then Enc(e.pos - |b|, []) else Enc(e.pos - |b|, b + e.out)
  }

  /** Two writes in a row are one write of the later bytes followed by the earlier. */
  lemma PrependTwice(e: Enc, a: seq<byte>, b: seq<byte>)
    ensures Prepend(Prepend(e, a), b) == Prepend(e, b + a)
  {
    if e.pos - |a| >= 0 && e.pos - |a| - |b| >= 0 {
      assert b + (a + e.out) == (b + a) + e.out;
    }
  }

  // ---------------------------------------------------------------------
  // The layouts of X.690, written forwards
  // ---------------------------------------------------------------------

  /**
   * Definite-form length octets (X.690 section 8.1.3): short form up to 127,
   * otherwise 0x81 or 0x82 followed by one or two big-endian octets.
   */
  function LengthOctets(l: u16): (r: seq<byte>)
    ensures 1 <= |r| <= 3
    ensures l < 0x80 <==> |r| == 1
    ensures 0x80 <= l < 0x100 <==> |r| == 2
  {
    if l > 0xFF then [0x82, l / 0x100, l % 0x100]
    else if l > 0x7F then [0x81, l]
    else [l]
  }

  /**
   * What the length octets say: the short form is the length itself; the
   * long form's first octet counts the octets after it, which hold the
   * length big-endian.
   */
  lemma LengthOctetsValue(l: u16)
    ensures var r := LengthOctets(l);
      (|r| > 1 ==> r[0] == 0x80 + |r| - 1 && BE(r[1..]) == l) && (|r| == 1 ==> r[0] == l)
  {
    var r := LengthOctets(l);
    if l > 0xFF {
      assert r[1..][..1] == [l / 0x100];
      assert r[1..][..1][..0] == [];
      assert BE(r[1..][..1]) == l / 0x100;
    } else if l > 0x7F {
      assert r[1..][..0] == [];
    }
  }

  /**
   * A tag, its length octets and the content.  A length of 65536 or more is
   * cut to 16 bits, as the u16t length parameters of the source do; no
   * successful encoding reaches such a length because the cursor starts
   * below 32768.
   */
  function Tlv(t: byte, content: seq<byte>): seq<byte>
  {
    [t] + LengthOctets(Narrow16(|content|)) + content
  }

  // ---------------------------------------------------------------------
  // Headers
  // ---------------------------------------------------------------------

  /** ber_encode_length. */
  function EncodeLength(e: Enc, l: u16): (r: Enc)
    ensures r == Prepend(e, LengthOctets(l))
  {
    Prepend(e, LengthOctets(l))
  }

  /** ber_encode_type_length: the length, then the tag in front of it. */
  function EncodeTypeLength(e: Enc, t: byte, l: u16): (r: Enc)
    ensures r.Ok() <==> e.pos >= 1 + |LengthOctets(l)|
    ensures r.Ok() ==> r == Prepend(e, [t] + LengthOctets(l))
  {
    var e1 := EncodeLength(e, l);
    if !e1.Ok() then e1
    else
      PrependTwice(e, LengthOctets(l), [t]);
      Prepend(e1, [t])
  }

  /** Content first, then its header: the TLV of `content` lands in front of the cursor. */
  lemma ContentThenHeader(e: Enc, t: byte, content: seq<byte>)
    requires |content| < 0x1_0000
    ensures var e1 := Prepend(e, content);
      e1.Ok() ==>
        (EncodeTypeLength(e1, t, |content|).Ok() <==> e.pos >= |Tlv(t, content)|) &&
        (EncodeTypeLength(e1, t, |content|).Ok() ==> EncodeTypeLength(e1, t, |content|) == Prepend(e, Tlv(t, content)))
  {
    var h := [t] + LengthOctets(|content|);
    Narrow16Small(|content|);
    assert Tlv(t, content) == h + content;
    PrependTwice(e, content, h);
  }

  // ---------------------------------------------------------------------
  // Integers
  // ---------------------------------------------------------------------

  /**
   * The number of content octets ber_encode_integer uses.  The 3-octet band
   * reaches up to 2^24 - 1 and down to -2^24, which needs four octets in
   * two's complement.
   */
  function IntegerWidth(v: s32): (r: nat)
    ensures 1 <= r <= 4
    ensures r == 1 <==> -0x80 <= v <= 0x7F
    ensures r == 2 <==> (-0x8000 <= v < -0x80 || 0x7F < v <= 0x7FFF)
    ensures r == 3 <==> (-0x100_0000 <= v < -0x8000 || 0x7FFF < v <= 0xFF_FFFF)
  {
    if v < -16777216 || v > 16777215 then 4
    else if v < -32768 || v > 32767 then 3
    else if v < -128 || v > 127 then 2
    else 1
  }

  /** The low IntegerWidth(v) octets of the 32-bit two's complement of v, most significant first. */
  function IntegerContent(v: s32): (r: seq<byte>)
    ensures |r| == IntegerWidth(v)
  {
    BytesOf(FromS32(v), IntegerWidth(v))
  }

  /** ber_encode_integer. */
  function EncodeInteger(e: Enc, t: byte, v: s32): (r: Enc)
    ensures r.Ok() <==> e.pos >= |Tlv(t, IntegerContent(v))|
    ensures r.Ok() ==> r == Prepend(e, Tlv(t, IntegerContent(v)))
  {
    var content := IntegerContent(v);
    var e1 := Prepend(e, content);
    ContentThenHeader(e, t, content);
    if !e1.Ok() then e1 else EncodeTypeLength(e1, t, |content|)
  }

  /** The number of content octets ber_encode_unsigned_integer uses: no leading zero octet is added. */
  function UnsignedWidth(v: u32): (r: nat)
    ensures 1 <= r <= 4
    ensures v < Pow256(r)
    ensures r > 1 ==> Pow256(r - 1) <= v
  {
    assert Pow256(4) == TWO32;
    if v >= 0x100_0000 then 4
    else if v >= 0x1_0000 then 3
    else if v >= 0x100 then 2
    else 1
  }

  /** ber_encode_unsigned_integer. */
  function EncodeUnsigned(e: Enc, t: byte, v: u32): (r: Enc)
    ensures r.Ok() <==> e.pos >= |Tlv(t, BytesOf(v, UnsignedWidth(v)))|
    ensures r.Ok() ==> r == Prepend(e, Tlv(t, BytesOf(v, UnsignedWidth(v))))
  {
    var content := BytesOf(v, UnsignedWidth(v));
    var e1 := Prepend(e, content);
    ContentThenHeader(e, t, content);
    if !e1.Ok() then e1 else EncodeTypeLength(e1, t, |content|)
  }

  // ---------------------------------------------------------------------
  // Strings and OIDs
  // ---------------------------------------------------------------------

  /** ber_encode_fixed_string. */
  function EncodeFixedString(e: Enc, s: span): (r: Enc)
    ensures r.Ok() <==> e.pos >= |Tlv(OCTET_STRING, s)|
    ensures r.Ok() ==> r == Prepend(e, Tlv(OCTET_STRING, s))
  {
    var e1 := Prepend(e, s);
    ContentThenHeader(e, OCTET_STRING, s);
    if !e1.Ok() then e1 else EncodeTypeLength(e1, OCTET_STRING, |s|)
  }

  /** ber_encode_string: a NUL-terminated string without its terminator. */
  function EncodeString(e: Enc, s: span): (r: Enc)
    requires HasNul(s)
    ensures r.Ok() ==> r == Prepend(e, Tlv(OCTET_STRING, s[..StrLen(s)]))
  {
    var str: span := s[..StrLen(s)];
    EncodeFixedString(e, str)
  }

  /** ber_encode_oid: the encoded OID bytes under an OBJECT IDENTIFIER header. */
  function EncodeOid(e: Enc, oid: span): (r: Enc)
    ensures r.Ok() <==> e.pos >= |Tlv(OID, oid)|
    ensures r.Ok() ==> r == Prepend(e, Tlv(OID, oid))
  {
    var e1 := Prepend(e, oid);
    ContentThenHeader(e, OID, oid);
    if !e1.Ok() then e1 else EncodeTypeLength(e1, OID, |oid|)
  }

  // ---------------------------------------------------------------------
  // Variable bindings
  // ---------------------------------------------------------------------

  /**
   * The value part of a binding as ber_encode_var_bind writes it.  The
   * INTEGER, Counter, Gauge and TimeTicks types all go through the signed
   * integer encoder; the exception types are a tag with length 0; an
   * unhandled type writes nothing.
   */
  function ValueBytes(vb: VarBind): seq<byte>
  {
    var t := vb.valueType;
    if t == OCTET_STRING then Tlv(OCTET_STRING, vb.value.Octets())
    else if t == INTEGER || t == COUNTER || t == GAUGE || t == TIME_TICKS then Tlv(t, IntegerContent(vb.value.Signed()))
    else if t == NULL then [NULL, 0]
    else if t == OID then Tlv(OID, vb.value.Octets())
    else if t == NO_SUCH_OBJECT || t == NO_SUCH_INSTANCE || t == END_OF_MIB then [t, 0]
    else []
  }

  /** A binding as X.690 lays it out: SEQUENCE { OID, value }. */
  function VarBindBytes(vb: VarBind): seq<byte>
  {
    Tlv(SEQUENCE, Tlv(OID, vb.oid) + ValueBytes(vb))
  }

  /** The value switch of ber_encode_var_bind. */
  function EncodeValue(e: Enc, vb: VarBind): (r: Enc)
    ensures r.Ok() <==> e.pos >= |ValueBytes(vb)|
    ensures r.Ok() ==> r == Prepend(e, ValueBytes(vb))
  {
    var t := vb.valueType;
    if t == OCTET_STRING then EncodeFixedString(e, vb.value.Octets())
    else if t == INTEGER || t == COUNTER || t == GAUGE || t == TIME_TICKS then EncodeInteger(e, t, vb.value.Signed())
    else if t == NULL then Prepend(e, [NULL, 0])
    else if t == OID then EncodeOid(e, vb.value.Octets())
    else if t == NO_SUCH_OBJECT || t == NO_SUCH_INSTANCE || t == END_OF_MIB then Prepend(e, [t, 0])
    else e
  }

  /**
   * ber_encode_var_bind: value, OID, then a SEQUENCE header whose length is
   * the distance the cursor moved.  It writes exactly the X.690 layout of the
   * binding, and succeeds exactly when that layout fits below the cursor.
   */
  function EncodeVarBind(e: Enc, vb: VarBind): (r: Enc)
    requires 0 <= e.pos < 0x8000
    ensures r.Ok() <==> e.pos >= |VarBindBytes(vb)|
    ensures r.Ok() ==> r == Prepend(e, VarBindBytes(vb))
  {
    Narrow16Small(e.pos);
    var lenPos := Narrow16(e.pos);
    var body := Tlv(OID, vb.oid) + ValueBytes(vb);
    TlvLonger(SEQUENCE, body);
    var e1 := EncodeValue(e, vb);
    if !e1.Ok() then e1
    else
      var e2 := EncodeOid(e1, vb.oid);
      if !e2.Ok() then e2
      else
        PrependTwice(e, ValueBytes(vb), Tlv(OID, vb.oid));
        Wrap(e, SEQUENCE, body, e2, lenPos);
        EncodeTypeLength(e2, SEQUENCE, Narrow16(lenPos - e2.pos))
  }

  /** A TLV is longer than its content. */
  lemma TlvLonger(t: byte, content: seq<byte>)
    ensures |Tlv(t, content)| >= |content| + 2
  {
  }

  /**
   * A header whose length is the distance the cursor moved since `from`
   * wraps what was written since then into one TLV.
   */
  lemma Wrap(e: Enc, t: byte, body: seq<byte>, e2: Enc, from: int)
    requires 0 <= e.pos < 0x1_0000
    ensures from == e.pos && e2.Ok() && e2 == Prepend(e, body) ==>
      var r := EncodeTypeLength(e2, t, Narrow16(from - e2.pos));
      (r.Ok() <==> e.pos >= |Tlv(t, body)|) && (r.Ok() ==> r == Prepend(e, Tlv(t, body)))
  {
    if from == e.pos && e2.Ok() && e2 == Prepend(e, body) {
      assert from - e2.pos == |body| < 0x1_0000;
      ContentThenHeader(e, t, body);
    }
  }

  /** A binding list laid out in list order. */
  function VarBindsBytes(vbs: seq<VarBind>): seq<byte>
  {
    if |vbs| == 0 then [] else VarBindsBytes(vbs[..|vbs| - 1]) + VarBindBytes(vbs[|vbs| - 1])
  }

  /**
   * The double loop of ber_encode_pdu: the last binding not yet written is
   * written next, so the list comes out in list order.
   */
  function EncodeVarBinds(e: Enc, vbs: seq<VarBind>): (r: Enc)
    requires 0 <= e.pos < 0x8000
    ensures r.Ok() <==> e.pos >= |VarBindsBytes(vbs)|
    ensures r.Ok() ==> r == Prepend(e, VarBindsBytes(vbs))
    decreases |vbs|
  {
    if |vbs| == 0 then
      assert Prepend(e, []) == e;
      e
    else
      var e1 := EncodeVarBind(e, vbs[|vbs| - 1]);
      if !e1.Ok() then e1
      else
        var r := EncodeVarBinds(e1, vbs[..|vbs| - 1]);
        PrependTwice(e, VarBindBytes(vbs[|vbs| - 1]), VarBindsBytes(vbs[..|vbs| - 1]));
        r
  }

  /** The binding part of a response: the encoded list, or the request's own bytes after an error. */
  function BindingsPart(input: span, pdu: Pdu): seq<byte>
    requires pdu.varbindIndex <= |input|
  {
    if pdu.errorStatus == NO_ERROR then Tlv(SEQUENCE, VarBindsBytes(pdu.varbinds))
    else input[pdu.varbindIndex..]
  }

  /** The X.690 layout of a response PDU: request-id, error-status, error-index, bindings. */
  function PduBytes(input: span, pdu: Pdu): seq<byte>
    requires pdu.varbindIndex <= |input|
  {
    Tlv(pdu.responseType,
      Tlv(INTEGER, IntegerContent(pdu.requestId))
      + Tlv(INTEGER, IntegerContent(pdu.errorStatus))
      + Tlv(INTEGER, IntegerContent(pdu.errorIndex))
      + BindingsPart(input, pdu))
  }

  /** Four pieces written back to front read as one concatenation. */
  lemma Regroup<T>(a: seq<T>, b: seq<T>, c: seq<T>, d: seq<T>)
    ensures a + (b + (c + d)) == a + b + c + d
  {
  }

  /** Chaining two writes, each described as a prepend. */
  lemma Then(e: Enc, b: seq<byte>, x: Enc, c: seq<byte>, y: Enc)
    requires (y.Ok() <==> x.pos >= |c|) && (y.Ok() ==> y == Prepend(x, c))
    ensures x.Ok() && x == Prepend(e, b) ==>
      (y.Ok() <==> e.pos >= |c + b|) && (y.Ok() ==> y == Prepend(e, c + b))
  {
    PrependTwice(e, b, c);
  }

  /** `x` is `e` with `b` written in front of the cursor, and fails exactly when `b` does not fit. */
  predicate Writes(e: Enc, b: seq<byte>, x: Enc)
  {
    (x.Ok() <==> e.pos >= |b|) && (x.Ok() ==> x == Prepend(e, b))
  }

  /** `r` holds exactly `s` at the end of a `maxLen`-byte buffer, and fails exactly when `s` does not fit. */
  predicate Placed(r: Enc, maxLen: int, s: seq<byte>)
  {
    (r.Ok() <==> |s| <= maxLen) && (r.Ok() ==> r == Enc(maxLen - |s|, s))
  }

  /** Two writes in a row are one write of both, even when the first already failed. */
  lemma Chain(e: Enc, b: seq<byte>, x: Enc, c: seq<byte>, y: Enc)
    requires Writes(e, b, x) && Writes(x, c, y)
    ensures Writes(e, c + b, y)
  {
    if x.Ok() {
      PrependTwice(e, b, c);
    }
  }

  /**
   * Three writes from the buffer end followed by a SEQUENCE header whose
   * length is the distance from the end: one TLV wrapping the three.
   */
  lemma EnvelopeSteps(e0: Enc, p: seq<byte>, e1: Enc, c: seq<byte>, e2: Enc, v: seq<byte>, e3: Enc, maxLen: int)
    requires e0.pos == maxLen && 0 <= maxLen < 0x8000 && e0.out == []
    requires (e1.Ok() <==> e0.pos >= |p|) && (e1.Ok() ==> e1 == Prepend(e0, p))
    requires (e2.Ok() <==> e1.pos >= |c|) && (e2.Ok() ==> e2 == Prepend(e1, c))
    requires e2.Ok() ==> (e3.Ok() <==> e2.pos >= |v|) && (e3.Ok() ==> e3 == Prepend(e2, v))
    ensures !e2.Ok() ==> e0.pos < |Tlv(SEQUENCE, v + (c + p))|
    ensures e2.Ok() && !e3.Ok() ==> e0.pos < |Tlv(SEQUENCE, v + (c + p))|
    ensures e2.Ok() && e3.Ok() ==>
      var e4 := EncodeTypeLength(e3, SEQUENCE, Narrow16(maxLen - e3.pos));
      (e4.Ok() <==> e0.pos >= |Tlv(SEQUENCE, v + (c + p))|) &&
      (e4.Ok() ==> e4 == Enc(maxLen - |Tlv(SEQUENCE, v + (c + p))|, Tlv(SEQUENCE, v + (c + p))))
  {
    TlvLonger(SEQUENCE, v + (c + p));
    if e2.Ok() {
      Then(e0, p, e1, c, e2);
      if e3.Ok() {
        Then(e0, c + p, e2, v, e3);
        Wrap(e0, SEQUENCE, v + (c + p), e3, maxLen);
        var t := Tlv(SEQUENCE, v + (c + p));
        if e0.pos >= |t| {
          assert Prepend(e0, t).out == t + [] == t;
        }
      }
    }
  }

  /**
   * The binding part of ber_encode_pdu.  With no error the bindings are
   * encoded under a SEQUENCE header whose length is the distance from
   * `maxLen` to the cursor; with an error the request's own binding bytes
   * from `varbindIndex` on are copied.
   */
  function EncodeBindings(e: Enc, input: span, pdu: Pdu, maxLen: u16): (r: Enc)
    requires 0 <= e.pos < 0x8000
    requires pdu.varbindIndex <= |input|
    ensures e.pos == maxLen ==>
      (r.Ok() <==> e.pos >= |BindingsPart(input, pdu)|) && (r.Ok() ==> r == Prepend(e, BindingsPart(input, pdu)))
  {
    if pdu.errorStatus == NO_ERROR then
      var ev := EncodeVarBinds(e, pdu.varbinds);
      if !ev.Ok() then ev
      else
        Wrap(e, SEQUENCE, VarBindsBytes(pdu.varbinds), ev, maxLen);
        EncodeTypeLength(ev, SEQUENCE, Narrow16(maxLen - ev.pos))
    else Prepend(e, input[pdu.varbindIndex..])
  }

  /**
   * ber_encode_pdu: the bindings, then error-index, error-status, request-id
   * and the PDU header, whose length is again measured from `maxLen`.  From
   * a cursor at `maxLen`, the only way the agent calls it, it writes exactly
   * the X.690 layout of the response and succeeds exactly when that layout
   * fits.
   */
  function EncodePdu(e: Enc, input: span, pdu: Pdu, maxLen: u16): (r: Enc)
    requires 0 <= e.pos < 0x8000
    requires pdu.varbindIndex <= |input|
    ensures e.pos == maxLen ==>
      (r.Ok() <==> |PduBytes(input, pdu)| <= maxLen) && (r.Ok() ==> r == Prepend(e, PduBytes(input, pdu)))
  {
    var b := BindingsPart(input, pdu);
    var i3 := Tlv(INTEGER, IntegerContent(pdu.errorIndex));
    var i2 := Tlv(INTEGER, IntegerContent(pdu.errorStatus));
    var i1 := Tlv(INTEGER, IntegerContent(pdu.requestId));
    var e1 := EncodeBindings(e, input, pdu, maxLen);
    if !e1.Ok() then e1
    else
      var e2 := EncodeInteger(e1, INTEGER, pdu.errorIndex);
      Then(e, b, e1, i3, e2);
      if !e2.Ok() then e2
      else
        var e3 := EncodeInteger(e2, INTEGER, pdu.errorStatus);
        Then(e, i3 + b, e2, i2, e3);
        if !e3.Ok() then e3
        else
          var e4 := EncodeInteger(e3, INTEGER, pdu.requestId);
          Then(e, i2 + (i3 + b), e3, i1, e4);
          if !e4.Ok() then e4
          else
            Regroup(i1, i2, i3, b);
            Wrap(e, pdu.responseType, i1 + i2 + i3 + b, e4, maxLen);
            EncodeTypeLength(e4, pdu.responseType, Narrow16(maxLen - e4.pos))
  }
}

=== FILE: ber_oid_item.dfy ===
// OBJECT IDENTIFIER sub-identifiers (ber.c: ber_encoded_oid_item_length,
// ber_encode_oid_item, ber_decode_oid_item).  X.690 section 8.19.2 writes a
// sub-identifier as base-128 groups, most significant first, with bit 8 set
// on every group but the last.

module BerOidItem {
  import opened SnmpTypes
  import opened ByteArith

  function Pow128(n: nat): (r: nat)
    ensures r >= 1
  {
    if n == 0 then 1 else 0x80 * Pow128(n - 1)
  }

  /** The standard reading of base-128 groups: low 7 bits of each byte, most significant first. */
  function Base128(s: seq<byte>): nat
  {
    if |s| == 0 then 0 else Base128(s[..|s| - 1]) * 0x80 + s[|s| - 1] % 0x80
  }

  /** ber_encoded_oid_item_length: the number of groups of the minimal encoding. */
  function OidItemLength(v: u32): (r: nat)
    ensures 1 <= r <= 5
    ensures v < Pow128(r)
    ensures r > 1 ==> Pow128(r - 1) <= v
  {
    assert Pow128(4) == 268435456 && Pow128(5) == 0x8_0000_0000;
    if v >= 268435456 then 5
    else if v >= 2097152 then 4
    else if v >= 16384 then 3
    else if v >= 128 then 2
    else 1
  }

  /**
   * The low `n` 7-bit groups of `v`, most significant first, each with bit 8
   * set: the leading bytes of an encoded sub-identifier.
   */
  function Continued(v: nat, n: nat): (r: seq<byte>)
    ensures |r| == n
    ensures forall i :: 0 <= i < n ==> r[i] >= 0x80
  {
    if n == 0 then [] else Continued(v / 0x80, n - 1) + [v % 0x80 + 0x80]
  }

  /**
   * ber_encode_oid_item: byte k (0-based) of the `n`-byte encoding holds group
   * n-1-k of `v`, that is bits 7(n-1-k) and up, and only the last byte has bit 8
   * clear.
   */
  function EncodeOidItem(v: u32): (r: seq<byte>)
    ensures |r| == OidItemLength(v)
    ensures forall i :: 0 <= i < |r| - 1 ==> r[i] >= 0x80
    ensures r[|r| - 1] < 0x80
    ensures Base128(r) == v
    ensures Base128(r[..|r| - 1]) == v / 0x80
  {
    var n := OidItemLength(v);
    ItemValue(v, n);
    Continued(v / 0x80, n - 1) + [v % 0x80]
  }

  lemma ItemValue(v: nat, n: nat)
    requires 1 <= n && v < Pow128(n)
    ensures Base128(Continued(v / 0x80, n - 1)) == v / 0x80
    ensures Base128(Continued(v / 0x80, n - 1) + [v % 0x80]) == v
  {
    HighGroups(v, n);
    AppendGroup(Continued(v / 0x80, n - 1), v % 0x80);
    DivMod128(v);
  }

  /** The groups above the lowest one, all marked as continued, carry v / 128. */
  lemma HighGroups(v: nat, n: nat)
    requires 1 <= n && v < Pow128(n)
    ensures Base128(Continued(v / 0x80, n - 1)) == v / 0x80
  {
    var p := Pow128(n - 1);
    GroupBelow(v, p);
    UniqueMod(v / 0x80, p, 0, v / 0x80);
    ContinuedValue(v / 0x80, n - 1);
  }

  /** One more group at the end shifts the value up by seven bits. */
  lemma AppendGroup(c: seq<byte>, d: byte)
    ensures Base128(c + [d]) == Base128(c) * 0x80 + d % 0x80
  {
    assert (c + [d])[..|c|] == c;
  }

  lemma DivMod128(v: nat)
    ensures v / 0x80 * 0x80 + v % 0x80 % 0x80 == v
  {
  }

  /** Dropping the low group of a value below 128 * p leaves one below p. */
  lemma GroupBelow(v: nat, p: nat)
    requires v < 0x80 * p
    ensures v / 0x80 < p
  {
  }

  lemma {:induction false} ContinuedValue(v: nat, n: nat)
    ensures Base128(Continued(v, n)) == v % Pow128(n)
  {
    if n > 0 {
      var r := Continued(v, n);
      var c := Continued(v / 0x80, n - 1);
      assert r == c + [v % 0x80 + 0x80];
      assert r[..n - 1] == c;
      ContinuedValue(v / 0x80, n - 1);
      var p := Pow128(n - 1);
      assert Base128(r) == Base128(c) * 0x80 + r[n - 1] % 0x80;
      LowGroup(v);
      ModSplitBase(v, 0x80, p);
      assert Pow128(n) == 0x80 * p;
    }
  }

  /** The low group with bit 8 set still has the low group as its low 7 bits. */
  lemma LowGroup(v: nat)
    ensures (v % 0x80 + 0x80) % 0x80 == v % 0x80
  {
  }

  // ---------------------------------------------------------------------
  // Decoding
  // ---------------------------------------------------------------------

  /** A decoded sub-identifier and the number of bytes consumed. */
  datatype Item = Item(value: u32, count: nat)

  /**
   * The loop of ber_decode_oid_item from index `i`.  After consuming byte i
   * it tests bit 8 of byte i + 1, not of byte i.
   */
  function DecodeItemFrom(mem: seq<byte>, len: nat, i: nat, v: u32): (r: Item)
    requires i < len
    requires v == U32(Base128(Window(mem, i)))
    ensures i < r.count <= len
    ensures forall k :: i < k < r.count ==> At(mem, k) >= 0x80
    ensures r.count < len ==> At(mem, r.count) < 0x80
    ensures r.value == U32(Base128(Window(mem, r.count)))
    decreases len - i
  {
    assert Window(mem, i + 1)[..i] == Window(mem, i);
    ModMulAdd(Base128(Window(mem, i)), 0x80, At(mem, i) % 0x80);
    var v' := U32(v * 0x80 + At(mem, i) % 0x80);
    if i + 1 >= len || At(mem, i + 1) < 0x80 then Item(v', i + 1)
    else DecodeItemFrom(mem, len, i + 1, v')
  }

  /**
   * ber_decode_oid_item over the `len` bytes at `mem`: the item ends at the
   * first byte after the first one whose bit 8 is clear; the first byte's
   * own bit 8 is never looked at.
   */
  function DecodeOidItem(mem: seq<byte>, len: byte): (r: Item)
    ensures len == 0 ==> r == Item(0, 0)
    ensures len > 0 ==> 1 <= r.count <= len
    ensures forall k :: 1 <= k < r.count ==> At(mem, k) >= 0x80
    ensures r.count < len ==> At(mem, r.count) < 0x80
    ensures r.value == U32(Base128(Window(mem, r.count)))
  {
    if len == 0 then Item(0, 0) else DecodeItemFrom(mem, len, 0, 0)
  }

  /**
   * A sub-identifier of two or more groups is misread: the decoder stops
   * before the last group and returns the value divided by 128.
   */
  lemma DecodeMultiGroupItem(v: u32, rest: seq<byte>, len: byte)
    requires v >= 0x80 && |EncodeOidItem(v)| <= len
    ensures DecodeOidItem(EncodeOidItem(v) + rest, len) == Item(v / 0x80, |EncodeOidItem(v)| - 1)
  {
    var e := EncodeOidItem(v);
    var n := |e|;
    var mem := e + rest;
    AtPrefix(e, rest);
    assert Window(mem, 0) == [];
    StopsBeforeLast(mem, len, n);
    var r := DecodeItemFrom(mem, len, 0, 0);
    assert Window(mem, n - 1) == e[..n - 1];
    U32Small(v / 0x80);
    assert r.value == U32(Base128(e[..n - 1]));
  }

  /** The decoder as written stops one byte early, before the byte with bit 8 clear. */
  lemma StopsBeforeLast(mem: seq<byte>, len: nat, n: nat)
    requires 2 <= n <= len
    requires forall k :: 0 <= k < n - 1 ==> At(mem, k) >= 0x80
    requires At(mem, n - 1) < 0x80
    ensures DecodeItemFrom(mem, len, 0, 0).count == n - 1
  {
    var r := DecodeItemFrom(mem, len, 0, 0);
    assert r.count == n - 1;
  }

  /**
   * A one-group sub-identifier is read back exactly when the window ends
   * after it or the next byte has bit 8 clear.
   */
  lemma DecodeOneGroupItem(v: u32, rest: seq<byte>, len: byte)
    requires v < 0x80 && len >= 1
    requires len > 1 ==> At(rest, 0) < 0x80
    ensures DecodeOidItem(EncodeOidItem(v) + rest, len) == Item(v, 1)
  {
    OneGroupEncoding(v);
    OneByteItem(v, rest, len);
  }

  /** A sub-identifier below 128 is its own single byte. */
  lemma OneGroupEncoding(v: u32)
    requires v < 0x80
    ensures EncodeOidItem(v) == [v]
  {
    OneGroupParts(v);
  }

  lemma OneGroupParts(v: u32)
    requires v < 0x80
    ensures OidItemLength(v) == 1 && Continued(v / 0x80, 0) + [v % 0x80] == [v]
  {
  }

  /** A byte with bit 8 clear, followed by one with bit 8 clear or by the window's end. */
  lemma OneByteItem(v: byte, rest: seq<byte>, len: byte)
    requires v < 0x80 && len >= 1
    requires len > 1 ==> At(rest, 0) < 0x80
    ensures DecodeOidItem([v] + rest, len) == Item(v, 1)
  {
    var mem := [v] + rest;
    AtPrefix([v], rest);
    assert Window(mem, 0) == [];
    var r := DecodeItemFrom(mem, len, 0, 0);
    assert r.count == 1;
    var w := Window(mem, 1);
    assert w == [v];
    assert Base128(w) == Base128([]) * 0x80 + v % 0x80;
    U32Small(v);
  }

  /** 300 is written 82 2C and read back as 2, one byte long. */
  lemma MisreadExample()
    ensures EncodeOidItem(300) == [0x82, 0x2C]
    ensures DecodeOidItem([0x82, 0x2C], 2) == Item(2, 1)
  {
    assert Pow128(1) == 0x80;
    assert EncodeOidItem(300) == [0x82, 0x2C];
    DecodeMultiGroupItem(300, [], 2);
  }

  /**
   * The decoder as evidently intended: an item ends at the first byte whose
   * own bit 8 is clear.
   */
  function DecodeItemFromFixed(mem: seq<byte>, len: nat, i: nat, v: u32): (r: Item)
    requires i < len
    requires v == U32(Base128(Window(mem, i)))
    ensures i < r.count <= len
    ensures forall k :: i <= k < r.count - 1 ==> At(mem, k) >= 0x80
    ensures r.count < len ==> At(mem, r.count - 1) < 0x80
    ensures r.value == U32(Base128(Window(mem, r.count)))
    decreases len - i
  {
    assert Window(mem, i + 1)[..i] == Window(mem, i);
    ModMulAdd(Base128(Window(mem, i)), 0x80, At(mem, i) % 0x80);
    var v' := U32(v * 0x80 + At(mem, i) % 0x80);
    if i + 1 >= len || At(mem, i) < 0x80 then Item(v', i + 1)
    else DecodeItemFromFixed(mem, len, i + 1, v')
  }

  function DecodeOidItemFixed(mem: seq<byte>, len: byte): (r: Item)
    ensures len > 0 ==> 1 <= r.count <= len
  {
    if len == 0 then Item(0, 0) else DecodeItemFromFixed(mem, len, 0, 0)
  }

  /** The intended decoder inverts ber_encode_oid_item for every u32. */
  lemma FixedDecodeRoundTrip(v: u32, rest: seq<byte>, len: byte)
    requires |EncodeOidItem(v)| <= len
    ensures DecodeOidItemFixed(EncodeOidItem(v) + rest, len) == Item(v, |EncodeOidItem(v)|)
  {
    var e := EncodeOidItem(v);
    var n := |e|;
    var mem := e + rest;
    AtPrefix(e, rest);
    assert Window(mem, 0) == [];
    FixedStopsAt(mem, len, n);
    var r := DecodeItemFromFixed(mem, len, 0, 0);
    assert Window(mem, n) == e;
    U32Small(v);
    assert r.value == U32(Base128(e));
  }

  /** The intended decoder reads a first byte with bit 8 clear as a whole sub-identifier. */
  lemma FixedFirstByte(mem: seq<byte>, len: byte)
    requires len >= 1 && At(mem, 0) < 0x80
    ensures DecodeOidItemFixed(mem, len) == Item(At(mem, 0), 1)
  {
    assert Window(mem, 0) == [];
    assert Window(mem, 1) == [At(mem, 0)];
    assert Base128([At(mem, 0)]) == Base128([]) * 0x80 + At(mem, 0) % 0x80;
    U32Small(At(mem, 0));
  }

  /** Reading through At inside the first part of a concatenation. */
  lemma AtPrefix(e: seq<byte>, rest: seq<byte>)
    ensures forall k :: 0 <= k < |e| ==> At(e + rest, k) == e[k]
    ensures At(e + rest, |e|) == At(rest, 0)
  {
  }

  /** The intended decoder stops after the first byte with bit 8 clear. */
  lemma FixedStopsAt(mem: seq<byte>, len: nat, n: nat)
    requires 1 <= n <= len
    requires forall k :: 0 <= k < n - 1 ==> At(mem, k) >= 0x80
    requires At(mem, n - 1) < 0x80
    ensures DecodeItemFromFixed(mem, len, 0, 0).count == n
  {
    var r := DecodeItemFromFixed(mem, len, 0, 0);
    assert r.count == n;
  }
}

=== FILE: ber_props.dfy ===
// What the decoder of ber.c makes of what the encoder of ber.c writes: the
// round trips of the length octets, headers, strings, OIDs and unsigned
// integers, the INTEGER round trip with its two misread bands, and the
// layout of an encoded PDU.

module BerProps {
  import opened SnmpTypes
  import opened ByteArith
  import opened BerDecode
  import opened BerEncode

  // ---------------------------------------------------------------------
  // Length octets and headers
  // ---------------------------------------------------------------------

  /**
   * ber_decode_length reads back every length ber_encode_length writes and
   * consumes exactly the octets written, whatever precedes or follows them.
   */
  lemma LengthRoundTrip(pre: seq<byte>, l: u16, rest: seq<byte>, prior: u16)
    requires |pre + LengthOctets(l) + rest| < 0x1_0000
    ensures DecodeLength(pre + LengthOctets(l) + rest, |pre|, prior)
      == LengthResult(0, l, |pre| + |LengthOctets(l)|)
  {
    var lo := LengthOctets(l);
    LengthOctetsValue(l);
    var input: span := pre + lo + rest;
    var p := |pre|;
    assert input[p] == lo[0];
    if l > 0xFF {
      assert input[p + 1] == lo[1] && input[p + 2] == lo[2];
      assert lo[1..][..1] == [lo[1]];
      assert BE(lo[1..][..1]) == BE([]) * 0x100 + lo[1];
      assert l == (lo[1] as int) * 0x100 + lo[2];
    } else if l > 0x7F {
      assert input[p + 1] == lo[1];
      assert lo[1..][..0] == [];
    }
  }

  /** A supported tag with its length octets decodes to that tag and length. */
  lemma HeaderRoundTrip(pre: seq<byte>, t: byte, l: u16, rest: seq<byte>, prior: u16)
    requires SupportedTag(t)
    requires |pre + [t] + LengthOctets(l) + rest| < 0x1_0000
    ensures DecodeTypeLength(pre + [t] + LengthOctets(l) + rest, |pre|, prior)
      == Ok(Header(t, l), |pre| + 1 + |LengthOctets(l)|)
  {
    var input := pre + [t] + LengthOctets(l) + rest;
    assert input == (pre + [t]) + LengthOctets(l) + rest;
    assert input[|pre|] == t;
    LengthRoundTrip(pre + [t], l, rest, prior);
  }

  /** The header of a TLV decodes to its tag and the content length. */
  lemma TlvHeader(pre: seq<byte>, t: byte, content: seq<byte>, rest: seq<byte>)
    requires SupportedTag(t)
    requires |pre + Tlv(t, content) + rest| < 0x1_0000
    ensures |content| < 0x1_0000
    ensures DecodeTypeLength(pre + Tlv(t, content) + rest, |pre|, Uninit)
      == Ok(Header(t, |content|), |pre| + 1 + |LengthOctets(|content|)|)
    ensures (pre + Tlv(t, content) + rest)[|pre| + 1 + |LengthOctets(|content|)|..][..|content|] == content
  {
    var lo := LengthOctets(|content|);
    var input := pre + Tlv(t, content) + rest;
    assert input == pre + [t] + lo + (content + rest);
    HeaderRoundTrip(pre, t, |content|, content + rest, Uninit);
    assert input[|pre| + 1 + |lo|..] == content + rest;
  }

  // ---------------------------------------------------------------------
  // Strings, OIDs, unsigned integers
  // ---------------------------------------------------------------------

  /** ber_decode_string inverts ber_encode_fixed_string, including the empty string. */
  lemma StringRoundTrip(pre: seq<byte>, s: span, rest: seq<byte>)
    requires |pre + Tlv(OCTET_STRING, s) + rest| < 0x1_0000
    ensures DecodeString(pre + Tlv(OCTET_STRING, s) + rest, |pre|)
      == Ok(s, |pre| + |Tlv(OCTET_STRING, s)|)
  {
    TlvHeader(pre, OCTET_STRING, s, rest);
    var input := pre + Tlv(OCTET_STRING, s) + rest;
    var h := |pre| + 1 + |LengthOctets(|s|)|;
    assert input[h..h + |s|] == input[h..][..|s|];
    ContentSlice(input, h, |s|);
  }

  /** ber_decode_oid inverts ber_encode_oid for every non-empty OID. */
  lemma OidRoundTrip(pre: seq<byte>, oid: span, rest: seq<byte>)
    requires |oid| >= 1
    requires |pre + Tlv(OID, oid) + rest| < 0x1_0000
    ensures DecodeOid(pre + Tlv(OID, oid) + rest, |pre|) == Ok(oid, |pre| + |Tlv(OID, oid)|)
  {
    TlvHeader(pre, OID, oid, rest);
    var input := pre + Tlv(OID, oid) + rest;
    var h := |pre| + 1 + |LengthOctets(|oid|)|;
    assert input[h..h + |oid|] == input[h..][..|oid|];
    ContentSlice(input, h, |oid|);
  }

  /** An empty OBJECT IDENTIFIER, which ber_encode_oid writes, is refused by ber_decode_oid. */
  lemma EmptyOidRejected(pre: seq<byte>, rest: seq<byte>)
    requires |pre + Tlv(OID, []) + rest| < 0x1_0000
    ensures DecodeOid(pre + Tlv(OID, []) + rest, |pre|).Fail?
  {
    TlvHeader(pre, OID, [], rest);
  }

  /**
   * ber_decode_void reads an empty NULL and skips any other value with
   * content, ending right after it; it refuses a NULL with content and any
   * other value without.
   */
  lemma VoidSkips(pre: seq<byte>, t: byte, c: seq<byte>, rest: seq<byte>)
    requires SupportedTag(t)
    requires |pre + Tlv(t, c) + rest| < 0x1_0000
    ensures var r := DecodeVoid(pre + Tlv(t, c) + rest, |pre|);
      (r.Ok? <==> (t == NULL <==> c == [])) && (r.Ok? ==> r.pos == |pre| + |Tlv(t, c)|)
  {
    TlvHeader(pre, t, c, rest);
  }

  /**
   * ber_decode_unsigned_integer inverts ber_encode_unsigned_integer for every
   * Gauge value, even though the encoder adds no leading zero octet.
   */
  lemma GaugeRoundTrip(pre: seq<byte>, v: u32, rest: seq<byte>)
    requires |pre + Tlv(GAUGE, BytesOf(v, UnsignedWidth(v))) + rest| < 0x1_0000
    ensures DecodeUnsigned(pre + Tlv(GAUGE, BytesOf(v, UnsignedWidth(v))) + rest, |pre|)
      == Ok(v, |pre| + |Tlv(GAUGE, BytesOf(v, UnsignedWidth(v)))|)
  {
    var c := BytesOf(v, UnsignedWidth(v));
    TlvHeader(pre, GAUGE, c, rest);
    var input := pre + Tlv(GAUGE, c) + rest;
    var h := |pre| + 1 + |LengthOctets(|c|)|;
    assert input[h..h + |c|] == input[h..][..|c|];
    ContentSlice(input, h, |c|);
    GaugeContentValue(v);
    U32Small(v);
    var d := DecodeUnsigned(input, |pre|);
    assert d.Ok?;
    assert d.value == U32(BE(c));
  }

  /** The unsigned content octets hold the value itself. */
  lemma GaugeContentValue(v: u32)
    ensures BE(BytesOf(v, UnsignedWidth(v))) == v
  {
    BytesOfValue(v, UnsignedWidth(v));
    UniqueMod(v, Pow256(UnsignedWidth(v)), 0, v);
  }

  // ---------------------------------------------------------------------
  // INTEGER
  // ---------------------------------------------------------------------

  /**
   * What ber_decode_integer returns for the content ber_encode_integer
   * writes for `v`.  The 3-octet band of the encoder reaches 2^24 - 1 and
   * -2^24, but three octets of two's complement only hold -2^23..2^23-1, so
   * the values in the two outer halves come back shifted by 2^24.
   */
  function IntegerReadBack(v: s32): s32
  {
    if 0x80_0000 <= v <= 0xFF_FFFF then v - 0x100_0000
    else if -0x100_0000 <= v < -0x80_0000 then v + 0x100_0000
    else v
  }

  /**
   * The `w` low octets of `x` read as two's complement: their value m is
   * taken as negative exactly when it reaches half of 256^w.
   */
  lemma SignedLowBytes(x: nat, w: nat)
    requires w >= 1
    ensures var p := Pow256(w); var m := x % p;
      SignedBE(BytesOf(x, w)) == if m >= p / 2 then m - p else m
  {
    var p := Pow256(w);
    var half := Pow256(w - 1);
    var m := x % p;
    BytesOfValue(x, w);
    BytesOfLead(x, w);
    assert p == 0x100 * half;
    LeadThreshold(m, half);
  }

  /** The leading octet has bit 8 set exactly when the value reaches half the range. */
  lemma LeadThreshold(m: nat, half: nat)
    requires half >= 1
    ensures m / half >= 0x80 <==> m >= (0x100 * half) / 2
  {
    assert (0x100 * half) / 2 == 0x80 * half;
    var d := m / half;
    assert m == half * d + m % half;
    if d >= 0x80 {
      MulLeMono(half, 0x80, d);
    } else {
      MulLeMono(half, d, 0x7F);
    }
  }

  /** The encoder's content octets read as a two's-complement number. */
  lemma IntegerContentValue(v: s32)
    ensures SignedBE(IntegerContent(v)) == IntegerReadBack(v)
  {
    var w := IntegerWidth(v);
    SignedLowBytes(FromS32(v), w);
    LowOctetsOfWidth(v, w);
  }

  /** The value of the low w octets of an s32 that fits in them as a w-octet number, p = 256^w. */
  lemma LowOctetsOfWidth(v: s32, w: nat)
    requires 1 <= w <= 4 && 0 <= v + Pow256(w) && v < Pow256(w)
    ensures FromS32(v) as int % Pow256(w) == if v >= 0 then v else v + Pow256(w)
  {
    if w == 1 {
      assert Pow256(1) == 0x100;
      LowOctets(v, 0x100, 0xFF_FFFF);
    } else if w == 2 {
      assert Pow256(2) == 0x1_0000;
      LowOctets(v, 0x1_0000, 0xFFFF);
    } else if w == 3 {
      assert Pow256(3) == 0x100_0000;
      LowOctets(v, 0x100_0000, 0xFF);
    } else {
      assert Pow256(4) == TWO32;
      LowOctets(v, TWO32, 0);
    }
  }

  lemma LowOctets(v: s32, p: nat, k: nat)
    requires p >= 1 && 0 <= v + p && v < p && p * k + p == TWO32
    ensures FromS32(v) as int % p == if v >= 0 then v else v + p
  {
    if v >= 0 {
      UniqueMod(FromS32(v), p, 0, v);
    } else {
      UniqueMod(FromS32(v), p, k, v + p);
    }
  }

  /**
   * ber_decode_integer on what ber_encode_integer writes: every s32 comes back,
   * except the two bands 2^23..2^24-1 and -2^24..-2^23-1, which come back
   * with the opposite sign.
   */
  lemma IntegerRoundTrip(pre: seq<byte>, v: s32, rest: seq<byte>)
    requires |pre + Tlv(INTEGER, IntegerContent(v)) + rest| < 0x1_0000
    ensures DecodeInteger(pre + Tlv(INTEGER, IntegerContent(v)) + rest, |pre|)
      == Ok(IntegerReadBack(v), |pre| + |Tlv(INTEGER, IntegerContent(v))|)
    ensures IntegerReadBack(v) == v <==> !(0x80_0000 <= v <= 0xFF_FFFF || -0x100_0000 <= v < -0x80_0000)
    ensures IntegerReadBack(v) != v ==> (IntegerReadBack(v) < 0 <==> v > 0)
  {
    var c := IntegerContent(v);
    TlvHeader(pre, INTEGER, c, rest);
    var input := pre + Tlv(INTEGER, c) + rest;
    var h := |pre| + 1 + |LengthOctets(|c|)|;
    assert input[h..h + |c|] == c;
    ContentSlice(input, h, |c|);
    IntegerContentValue(v);
    S32Wrap(IntegerReadBack(v));
    var d := DecodeInteger(input, |pre|);
    assert d.Ok?;
    assert d.pos == h + |c|;
  }

  /** A signed 32-bit value survives the trip through its unsigned bits. */
  lemma S32Wrap(x: s32)
    ensures ToS32(U32(x)) == x
  {
    if x < 0 {
      UniqueMod(x, TWO32, -1, x + TWO32);
    } else {
      UniqueMod(x, TWO32, 0, x);
    }
  }

  /** 2^23 is written as three octets 80 00 00 and read back as -2^23. */
  lemma IntegerBandExample()
    ensures IntegerContent(0x80_0000) == [0x80, 0, 0]
    ensures DecodeInteger(Tlv(INTEGER, IntegerContent(0x80_0000)), 0) == Ok(-0x80_0000, 5)
  {
    assert BytesOf(0x80_0000, 3) == BytesOf(0x8000, 2) + [0];
    assert BytesOf(0x8000, 2) == BytesOf(0x80, 1) + [0];
    assert BytesOf(0x80, 1) == BytesOf(0, 0) + [0x80];
    IntegerRoundTrip([], 0x80_0000, []);
    assert [] + Tlv(INTEGER, IntegerContent(0x80_0000)) + [] == Tlv(INTEGER, IntegerContent(0x80_0000));
  }

  /**
   * The integer encoder as evidently intended: the 3-octet band stops at
   * -2^23..2^23-1, the range three octets of two's complement hold.
   */
  function IntegerWidthFixed(v: s32): (r: nat)
    ensures 1 <= r <= 4
    ensures r < 4 ==> 0 <= v + Pow256(r) / 2 < Pow256(r)
  {
    assert Pow256(1) == 0x100 && Pow256(2) == 0x1_0000 && Pow256(3) == 0x100_0000;
    if v < -0x80_0000 || v > 0x7F_FFFF then 4
    else if v < -32768 || v > 32767 then 3
    else if v < -128 || v > 127 then 2
    else 1
  }

  function IntegerContentFixed(v: s32): (r: seq<byte>)
    ensures |r| == IntegerWidthFixed(v)
  {
    BytesOf(FromS32(v), IntegerWidthFixed(v))
  }

  /** With the corrected widths the content octets read back as v for every s32. */
  lemma IntegerContentFixedValue(v: s32)
    ensures SignedBE(IntegerContentFixed(v)) == v
  {
    var w := IntegerWidthFixed(v);
    SignedLowBytes(FromS32(v), w);
    assert Pow256(4) == TWO32;
    LowOctetsOfWidth(v, w);
  }

  /** The corrected integer encoding round-trips through ber_decode_integer for every s32. */
  lemma IntegerFixedRoundTrip(pre: seq<byte>, v: s32, rest: seq<byte>)
    requires |pre + Tlv(INTEGER, IntegerContentFixed(v)) + rest| < 0x1_0000
    ensures DecodeInteger(pre + Tlv(INTEGER, IntegerContentFixed(v)) + rest, |pre|)
      == Ok(v, |pre| + |Tlv(INTEGER, IntegerContentFixed(v))|)
  {
    var c := IntegerContentFixed(v);
    TlvHeader(pre, INTEGER, c, rest);
    var input := pre + Tlv(INTEGER, c) + rest;
    var h := |pre| + 1 + |LengthOctets(|c|)|;
    assert input[h..h + |c|] == c;
    ContentSlice(input, h, |c|);
    IntegerContentFixedValue(v);
    S32Wrap(v);
    var d := DecodeInteger(input, |pre|);
    assert d.Ok?;
    assert d.pos == h + |c|;
  }

  // ---------------------------------------------------------------------
  // Reading at an offset
  // ---------------------------------------------------------------------

  /** The position `i` bytes past `k`; it names the instances of `Holds`, so a fact about a part of the input stays inert until a proof asks for a position. */
  function Offset(k: nat, i: nat): nat
  {
    k + i
  }

  /** The bytes `t` lie in `input` at offset `k`. */
  predicate Holds(input: seq<byte>, k: nat, t: seq<byte>)
  {
    k + |t| <= |input| && forall i {:trigger Offset(k, i)} :: 0 <= i < |t| ==> input[Offset(k, i)] == t[i]
  }

  /** A part lying at `k`, under another name for the same bytes. */
  lemma HoldsSame(input: seq<byte>, k: nat, s: seq<byte>, t: seq<byte>)
    requires Holds(input, k, s) && s == t
    ensures Holds(input, k, t)
  {
  }

  /** A concatenation lying at `k` is its two parts lying one after the other. */
  lemma HoldsSplit(input: seq<byte>, k: nat, a: seq<byte>, b: seq<byte>)
    requires Holds(input, k, a + b)
    ensures Holds(input, k, a) && Holds(input, k + |a|, b)
  {
    forall i | 0 <= i < |a| ensures input[Offset(k, i)] == a[i] {
      assert input[Offset(k, i)] == (a + b)[i];
    }
    forall i | 0 <= i < |b| ensures input[Offset(k + |a|, i)] == b[i] {
      assert input[Offset(k, |a| + i)] == (a + b)[|a| + i];
    }
  }

  /** Three pieces laid out one after the other, with the offsets where the second and the third begin. */
  lemma HoldsThree(input: span, k: nat, a: seq<byte>, b: seq<byte>, c: seq<byte>) returns (k1: nat, k2: nat)
    requires Holds(input, k, a + (b + c))
    ensures k1 == k + |a| && k2 == k1 + |b|
    ensures Holds(input, k, a) && Holds(input, k1, b) && Holds(input, k2, c)
  {
    HoldsSplit(input, k, a, b + c);
    k1 := k + |a|;
    HoldsSplit(input, k1, b, c);
    k2 := k1 + |b|;
  }

  /** Every sequence lies in itself at offset 0. */
  lemma HoldsWhole(s: seq<byte>)
    ensures Holds(s, 0, s)
  {
    forall i | 0 <= i < |s| ensures s[Offset(0, i)] == s[i] {
    }
  }

  /** The input around a part lying at `k`. */
  lemma HoldsAround(input: seq<byte>, k: nat, t: seq<byte>)
    requires Holds(input, k, t)
    ensures input == input[..k] + t + input[k + |t|..]
  {
    var w := input[..k] + t + input[k + |t|..];
    forall i | 0 <= i < |input| ensures input[i] == w[i] {
      if k <= i < k + |t| {
        assert input[Offset(k, i - k)] == t[i - k];
      }
    }
  }

  /** A TLV lying at `k` has its header read there, and its content lies right after. */
  lemma HeaderAt(input: span, k: nat, t: byte, content: seq<byte>)
    requires SupportedTag(t) && Holds(input, k, Tlv(t, content))
    ensures |content| < 0x1_0000
    ensures DecodeTypeLength(input, k, Uninit) == Ok(Header(t, |content|), k + 1 + |LengthOctets(|content|)|)
    ensures Holds(input, k + 1 + |LengthOctets(|content|)|, content)
  {
    HeaderReads(input, k, t, content);
    Narrow16Small(|content|);
    HoldsSplit(input, k, [t] + LengthOctets(|content|), content);
  }

  lemma HeaderReads(input: span, k: nat, t: byte, content: seq<byte>)
    requires SupportedTag(t) && Holds(input, k, Tlv(t, content))
    ensures |content| < 0x1_0000
    ensures DecodeTypeLength(input, k, Uninit) == Ok(Header(t, |content|), k + 1 + |LengthOctets(|content|)|)
  {
    HoldsAround(input, k, Tlv(t, content));
    TlvHeader(input[..k], t, content, input[k + |Tlv(t, content)|..]);
  }

  /** A SEQUENCE header reaching exactly to the end of the input reads as an exact-length SEQUENCE. */
  lemma SequenceAt(input: span, k: nat, content: seq<byte>)
    requires Holds(input, k, Tlv(SEQUENCE, content)) && k + |Tlv(SEQUENCE, content)| == |input|
    ensures DecodeSequence(input, k) == Ok(|content|, k + 1 + |LengthOctets(|content|)|)
    ensures Holds(input, |input| - |content|, content)
  {
    HeaderAt(input, k, SEQUENCE, content);
    Narrow16Small(|content|);
  }

  /** A SEQUENCE header followed by its content: the header reads back and the content lies behind it. */
  lemma SequenceThen(input: span, k: nat, content: seq<byte>) returns (k1: nat)
    requires Holds(input, k, Tlv(SEQUENCE, content))
    ensures DecodeSequenceLength(input, k) == Ok(|content|, k1) && Holds(input, k1, content)
    ensures k1 == k + 1 + |LengthOctets(|content|)| && k + |Tlv(SEQUENCE, content)| == k1 + |content|
  {
    HeaderAt(input, k, SEQUENCE, content);
    Narrow16Small(|content|);
    k1 := k + 1 + |LengthOctets(|content|)|;
  }

  /** A whole SEQUENCE TLV reads as an exact-length SEQUENCE with its content behind the header. */
  lemma WholeSequence(out: span, content: seq<byte>)
    requires out == Tlv(SEQUENCE, content)
    ensures DecodeSequence(out, 0) == Ok(|content|, |out| - |content|)
    ensures Holds(out, |out| - |content|, content)
  {
    assert Holds(out, 0, out);
    SequenceAt(out, 0, content);
  }

  /** An OCTET STRING lying at `k` is read back. */
  lemma StringAt(input: span, k: nat, s: span)
    requires Holds(input, k, Tlv(OCTET_STRING, s))
    ensures DecodeString(input, k) == Ok(s, k + |Tlv(OCTET_STRING, s)|)
  {
    HoldsAround(input, k, Tlv(OCTET_STRING, s));
    StringRoundTrip(input[..k], s, input[k + |Tlv(OCTET_STRING, s)|..]);
  }

  /** An INTEGER the agent wrote lying at `k` is read back, up to the two misread bands. */
  lemma IntegerAt(input: span, k: nat, v: s32)
    requires Holds(input, k, Tlv(INTEGER, IntegerContent(v)))
    ensures DecodeInteger(input, k) == Ok(IntegerReadBack(v), k + |Tlv(INTEGER, IntegerContent(v))|)
  {
    HoldsAround(input, k, Tlv(INTEGER, IntegerContent(v)));
    IntegerRoundTrip(input[..k], v, input[k + |Tlv(INTEGER, IntegerContent(v))|..]);
  }

  /** An OCTET STRING followed by anything: the string reads back and the rest lies behind it. */
  lemma StringThen(input: span, k: nat, x: span, rest: seq<byte>) returns (k1: nat)
    requires Holds(input, k, Tlv(OCTET_STRING, x) + rest)
    ensures DecodeString(input, k) == Ok(x, k1) && Holds(input, k1, rest)
    ensures k1 == k + |Tlv(OCTET_STRING, x)|
  {
    HoldsSplit(input, k, Tlv(OCTET_STRING, x), rest);
    StringAt(input, k, x);
    k1 := k + |Tlv(OCTET_STRING, x)|;
  }

  /** An INTEGER followed by anything: the value reads back and the rest lies behind it. */
  lemma IntegerThen(input: span, k: nat, v: s32, rest: seq<byte>) returns (k1: nat)
    requires Holds(input, k, Tlv(INTEGER, IntegerContent(v)) + rest)
    ensures DecodeInteger(input, k) == Ok(IntegerReadBack(v), k1) && Holds(input, k1, rest)
    ensures k1 == k + |Tlv(INTEGER, IntegerContent(v))|
  {
    HoldsSplit(input, k, Tlv(INTEGER, IntegerContent(v)), rest);
    IntegerAt(input, k, v);
    k1 := k + |Tlv(INTEGER, IntegerContent(v))|;
  }

  /** Two OCTET STRINGs in a row read back. */
  lemma TwoStrings(input: span, k: nat, y: span, z: span) returns (k1: nat, k2: nat)
    requires Holds(input, k, Tlv(OCTET_STRING, y) + Tlv(OCTET_STRING, z))
    ensures DecodeString(input, k) == Ok(y, k1) && DecodeString(input, k1) == Ok(z, k2)
    ensures k1 == k + |Tlv(OCTET_STRING, y)| && k2 == k1 + |Tlv(OCTET_STRING, z)|
  {
    HoldsSplit(input, k, Tlv(OCTET_STRING, y), Tlv(OCTET_STRING, z));
    StringAt(input, k, y);
    k1 := k + |Tlv(OCTET_STRING, y)|;
    StringAt(input, k1, z);
    k2 := k1 + |Tlv(OCTET_STRING, z)|;
  }

  /** Three OCTET STRINGs in a row read back. */
  lemma ThreeStrings(input: span, k: nat, x: span, y: span, z: span) returns (k1: nat, k2: nat, k3: nat)
    requires Holds(input, k, Tlv(OCTET_STRING, x) + (Tlv(OCTET_STRING, y) + Tlv(OCTET_STRING, z)))
    ensures DecodeString(input, k) == Ok(x, k1) && DecodeString(input, k1) == Ok(y, k2)
    ensures DecodeString(input, k2) == Ok(z, k3)
    ensures k1 == k + |Tlv(OCTET_STRING, x)| && k2 == k1 + |Tlv(OCTET_STRING, y)|
    ensures k3 == k2 + |Tlv(OCTET_STRING, z)|
  {
    k1 := StringThen(input, k, x, Tlv(OCTET_STRING, y) + Tlv(OCTET_STRING, z));
    k2, k3 := TwoStrings(input, k1, y, z);
  }

  /** Two INTEGERs in a row read back. */
  lemma TwoIntegers(input: span, k: nat, v: s32, w: s32) returns (k1: nat, k2: nat)
    requires Holds(input, k, Tlv(INTEGER, IntegerContent(v)) + Tlv(INTEGER, IntegerContent(w)))
    ensures DecodeInteger(input, k) == Ok(IntegerReadBack(v), k1) && DecodeInteger(input, k1) == Ok(IntegerReadBack(w), k2)
    ensures k1 == k + |Tlv(INTEGER, IntegerContent(v))| && k2 == k1 + |Tlv(INTEGER, IntegerContent(w))|
  {
    k1 := IntegerThen(input, k, v, Tlv(INTEGER, IntegerContent(w)));
    IntegerAt(input, k1, w);
    k2 := k1 + |Tlv(INTEGER, IntegerContent(w))|;
  }
}

=== FILE: cmd_responder.dfy ===
// The command responder (cmd-responder.c): GET and GETNEXT binding by
// binding, the two-phase SET, and the dispatch on the PDU type.

module CmdResponder {
  import opened SnmpTypes
  import opened OidUtils
  import opened Mib

  /**
   * A binding lookup with its handlers bound: mib_get or mib_get_next on
   * the registry as it stands.  The loops below are written over it.
   */
  type Lookup = (Registry, VarBind) -> Found

  function GetLookup(cb: Callbacks): Lookup { (m, v) => MibGet(m, cb, v) }

  function NextLookup(cb: Callbacks): Lookup { (m, v) => MibGetNext(m, cb, v) }

  /** What both lookups promise: only cells are rewritten, and a found object is registered. */
  ghost predicate Local(look: Lookup)
  {
    forall m, v :: CellsOnly(look(m, v).mib, m) && (look(m, v).obj.Some? ==> look(m, v).obj.value < |m|)
  }

  /** A lookup that leaves the registry as it was. */
  ghost predicate Still(look: Lookup)
  {
    forall m, v :: look(m, v).mib == m
  }

  lemma LookupsLocal(cb: Callbacks)
    ensures Local(GetLookup(cb)) && Local(NextLookup(cb))
    ensures Quiet(cb) ==> Still(GetLookup(cb)) && Still(NextLookup(cb))
    ensures forall m, v :: GetLookup(cb)(m, v).req.oid == v.oid
  {
  }

  /** The registry and the PDU after the responder ran. */
  datatype Served = Served(mib: Registry, pdu: Pdu)

  /** Everything of the PDU but the bindings, the error status and index. */
  predicate SameFrame(a: Pdu, b: Pdu)
  {
    a.requestType == b.requestType && a.responseType == b.responseType &&
    a.requestId == b.requestId && a.varbindIndex == b.varbindIndex
  }

  /** The loop's result: registry, PDU, and the binding it stopped at, if any. */
  datatype Walk = Walk(mib: Registry, pdu: Pdu, stop: Option<nat>)

  /**
   * The loops of snmp_get and snmp_get_next from binding i on: each binding
   * takes what the lookup leaves in it.  In version 1 the first binding
   * that finds nothing sets noSuchName with its 1-based index and ends the
   * loop; in version 3 the exception type stays in the binding and the
   * error status is not touched.
   */
  function Retrieve(version: byte, mib: Registry, look: Lookup, pdu: Pdu, i: nat): (r: Walk)
    requires i <= |pdu.varbinds| && Local(look)
    ensures SameFrame(r.pdu, pdu) && |r.pdu.varbinds| == |pdu.varbinds|
    ensures r.pdu.varbinds[..i] == pdu.varbinds[..i]
    ensures CellsOnly(r.mib, mib)
    ensures r.stop.None? ==> r.pdu.errorStatus == pdu.errorStatus && r.pdu.errorIndex == pdu.errorIndex
    ensures r.stop.Some? ==>
      version == VERSION_1 && i <= r.stop.value < |pdu.varbinds| &&
      r.pdu.errorStatus == NO_SUCH_NAME && r.pdu.errorIndex == Narrow8(r.stop.value + 1) &&
      r.pdu.varbinds[r.stop.value + 1..] == pdu.varbinds[r.stop.value + 1..]
    decreases |pdu.varbinds| - i
  {
    if i == |pdu.varbinds| then Walk(mib, pdu, None)
    else
      var f := look(mib, pdu.varbinds[i]);
      var pdu' := pdu.(varbinds := pdu.varbinds[i := f.req]);
      if f.obj.None? && version == VERSION_1 then
        Walk(f.mib, pdu'.(errorStatus := NO_SUCH_NAME, errorIndex := Narrow8(i + 1)), Some(i))
      else
        var r := Retrieve(version, f.mib, look, pdu', i + 1);
        assert r.pdu.varbinds[..i] == r.pdu.varbinds[..i + 1][..i];
        CellsOnlyTrans(r.mib, f.mib, mib);
        r
  }

  /**
   * With getters that leave cells alone, the loop stops exactly at the
   * first binding whose lookup fails, and only in version 1; every binding
   * it passed holds its lookup's answer, and the registry is unchanged.
   */
  lemma {:induction false} RetrieveQuiet(version: byte, mib: Registry, look: Lookup, pdu: Pdu, i: nat)
    requires i <= |pdu.varbinds| && Local(look) && Still(look)
    ensures var r := Retrieve(version, mib, look, pdu, i);
      var end := if r.stop.Some? then r.stop.value + 1 else |pdu.varbinds|;
      r.mib == mib && end <= |pdu.varbinds| &&
      (forall j :: i <= j < end ==> r.pdu.varbinds[j] == look(mib, pdu.varbinds[j]).req) &&
      (r.stop.Some? ==> look(mib, pdu.varbinds[r.stop.value]).obj.None?) &&
      (version == VERSION_1 ==>
        forall j :: i <= j < end - 1 || (r.stop.None? && i <= j < end) ==>
          look(mib, pdu.varbinds[j]).obj.Some?)
    decreases |pdu.varbinds| - i
  {
    if i < |pdu.varbinds| {
      var f := look(mib, pdu.varbinds[i]);
      assert f.mib == mib;
      var pdu' := pdu.(varbinds := pdu.varbinds[i := f.req]);
      RetrieveStep(version, mib, look, pdu, i);
      if !(f.obj.None? && version == VERSION_1) {
        RetrieveQuiet(version, mib, look, pdu', i + 1);
      }
    }
  }

  /** One turn of the loop, seen from the binding's lookup. */
  lemma RetrieveStep(version: byte, mib: Registry, look: Lookup, pdu: Pdu, i: nat)
    requires i < |pdu.varbinds| && Local(look)
    ensures var f := look(mib, pdu.varbinds[i]);
      var pdu' := pdu.(varbinds := pdu.varbinds[i := f.req]);
      var r := Retrieve(version, mib, look, pdu, i);
      (f.obj.None? && version == VERSION_1 ==> r.stop == Some(i) && r.mib == f.mib && r.pdu.varbinds == pdu'.varbinds) &&
      (!(f.obj.None? && version == VERSION_1) ==>
        r == Retrieve(version, f.mib, look, pdu', i + 1) && r.pdu.varbinds[i] == f.req &&
        forall j :: i < j < |pdu.varbinds| ==> pdu'.varbinds[j] == pdu.varbinds[j])
  {
    var f := look(mib, pdu.varbinds[i]);
    var pdu' := pdu.(varbinds := pdu.varbinds[i := f.req]);
    if !(f.obj.None? && version == VERSION_1) {
      var r := Retrieve(version, f.mib, look, pdu', i + 1);
      assert r.pdu.varbinds[i] == r.pdu.varbinds[..i + 1][i];
    }
  }

  // ---------------------------------------------------------------------
  // SET
  // ---------------------------------------------------------------------

  /**
   * Phase one of snmp_set: the objects found so far, the registry after
   * the lookups, and the error status and index it recorded (0 for none).
   */
  datatype Checked = Checked(mib: Registry, objs: seq<nat>, status: byte, index: byte, at: nat)

  function NotFoundStatus(version: byte): byte { if version == VERSION_1 then NO_SUCH_NAME else NOT_WRITABLE }
  function WrongTypeStatus(version: byte): byte { if version == VERSION_1 then BAD_VALUE else WRONG_TYPE }
  function ReadOnlyStatus(version: byte): byte { if version == VERSION_1 then READONLY else NOT_WRITABLE }

  /** Every recorded object exists and is not read-only. */
  predicate Recorded(mib: Registry, objs: seq<nat>)
  {
    forall j :: 0 <= j < |objs| ==> objs[j] < |mib| && !HasFlag(mib[objs[j]].attrs, FLAG_ACCESS_READONLY)
  }

  /** A registry whose cells alone were rewritten keeps what was recorded. */
  lemma RecordedKept(a: Registry, b: Registry, objs: seq<nat>, k: nat)
    requires CellsOnly(a, b) && Recorded(b, objs) && k < |b| && !HasFlag(b[k].attrs, FLAG_ACCESS_READONLY)
    ensures Recorded(a, objs + [k])
  {
    assert forall j :: 0 <= j < |b| ==> a[j].attrs == b[j].attrs;
  }

  /**
   * A binding passes phase one against the registry: its lookup finds an
   * object of the binding's type that is not read-only.
   */
  predicate Writable(f: Found, vb: VarBind)
  {
    f.obj.Some? && f.obj.value < |f.mib| &&
    f.req.valueType == vb.valueType && !HasFlag(f.mib[f.obj.value].attrs, FLAG_ACCESS_READONLY)
  }

  /**
   * Phase one from binding i on: look each binding up on a copy, record
   * the object, and stop at the first binding not found, of another type,
   * or read-only, with that binding's 1-based u8 index.
   */
  function Validate(version: byte, mib: Registry, look: Lookup, vbs: seq<VarBind>, i: nat, objs: seq<nat>): (r: Checked)
    requires i <= |vbs| && Local(look) && Recorded(mib, objs)
    ensures CellsOnly(r.mib, mib)
    ensures r.status != 0 ==>
      i <= r.at < |vbs| && r.index == Narrow8(r.at + 1) &&
      (r.status == NotFoundStatus(version) || r.status == WrongTypeStatus(version) || r.status == ReadOnlyStatus(version))
    ensures r.status == 0 ==>
      |r.objs| == |objs| + |vbs| - i && r.objs[..|objs|] == objs && Recorded(r.mib, r.objs)
    decreases |vbs| - i
  {
    if i == |vbs| then Checked(mib, objs, 0, 0, i)
    else
      var f := look(mib, vbs[i]);
      var idx := Narrow8(i + 1);
      if f.obj.None? then Checked(f.mib, objs, NotFoundStatus(version), idx, i)
      else
        var k := f.obj.value;
        if f.req.valueType != vbs[i].valueType then Checked(f.mib, objs + [k], WrongTypeStatus(version), idx, i)
        else if HasFlag(f.mib[k].attrs, FLAG_ACCESS_READONLY) then Checked(f.mib, objs + [k], ReadOnlyStatus(version), idx, i)
        else
          RecordedKept(f.mib, mib, objs, k);
          var r := Validate(version, f.mib, look, vbs, i + 1, objs + [k]);
          assert r.status == 0 ==> r.objs[..|objs|] == r.objs[..|objs| + 1][..|objs|];
          CellsOnlyTrans(r.mib, f.mib, mib);
          r
  }

  /** Phase two: the error status, index and code of the first failing mib_set, or none. */
  datatype Applied = Applied(mib: Registry, failed: bool, status: byte, index: byte, at: nat)

  /**
   * Phase two from binding i on: mib_set on each recorded object in
   * binding order, stopping at the first nonzero code, whose low byte
   * becomes the error status.  Sets before it stay applied.
   */
  function Apply(mib: Registry, cb: Callbacks, vbs: seq<VarBind>, objs: seq<nat>, i: nat): (r: Applied)
    requires i <= |vbs| == |objs|
    requires forall j :: 0 <= j < |objs| ==> objs[j] < |mib|
    ensures SameKeys(r.mib, mib)
    ensures !r.failed ==> r.status == 0 && r.index == 0
    ensures r.failed ==> i <= r.at < |vbs| && r.index == Narrow8(r.at + 1)
    decreases |vbs| - i
  {
    if i == |vbs| then Applied(mib, false, 0, 0, i)
    else
      var s := MibSet(mib, cb, objs[i], vbs[i]);
      if s.0 != 0 then Applied(s.1, true, Narrow8(s.0), Narrow8(i + 1), i)
      else Apply(s.1, cb, vbs, objs, i + 1)
  }

  /**
   * The registry after mib_set on the recorded objects of bindings i to
   * n - 1, one after the other, whatever each set answered.
   */
  function SetsFrom(mib: Registry, cb: Callbacks, vbs: seq<VarBind>, objs: seq<nat>, i: nat, n: nat): (r: Registry)
    requires i <= n <= |vbs| == |objs|
    requires forall j :: 0 <= j < |objs| ==> objs[j] < |mib|
    ensures |r| == |mib|
    decreases n - i
  {
    if i == n then mib
    else SetsFrom(MibSet(mib, cb, objs[i], vbs[i]).1, cb, vbs, objs, i + 1, n)
  }

  /** Each of the sets of bindings i to n - 1, done in order, answers 0. */
  predicate SetsSucceed(mib: Registry, cb: Callbacks, vbs: seq<VarBind>, objs: seq<nat>, i: nat, n: nat)
    requires i <= n <= |vbs| == |objs|
    requires forall j :: 0 <= j < |objs| ==> objs[j] < |mib|
    decreases n - i
  {
    i == n ||
    (MibSet(mib, cb, objs[i], vbs[i]).0 == 0 && SetsSucceed(MibSet(mib, cb, objs[i], vbs[i]).1, cb, vbs, objs, i + 1, n))
  }

  /**
   * Phase two is the sets done in binding order with no rollback: when
   * none fails the registry holds all of them; when the set of binding
   * `at` fails, every set before it answered 0 and stays applied, the
   * failing set's own effect is kept too, its code's low byte is the error
   * status, and nothing after it runs.
   */
  lemma {:induction false} ApplyKeepsEarlierSets(mib: Registry, cb: Callbacks, vbs: seq<VarBind>, objs: seq<nat>, i: nat)
    requires i <= |vbs| == |objs|
    requires forall j :: 0 <= j < |objs| ==> objs[j] < |mib|
    ensures var r := Apply(mib, cb, vbs, objs, i);
      !r.failed ==> SetsSucceed(mib, cb, vbs, objs, i, |vbs|) && r.mib == SetsFrom(mib, cb, vbs, objs, i, |vbs|)
    ensures var r := Apply(mib, cb, vbs, objs, i);
      r.failed ==>
        i <= r.at < |vbs| && SetsSucceed(mib, cb, vbs, objs, i, r.at) &&
        var s := MibSet(SetsFrom(mib, cb, vbs, objs, i, r.at), cb, objs[r.at], vbs[r.at]);
        s.0 != 0 && r.status == Narrow8(s.0) && r.mib == s.1
    decreases |vbs| - i
  {
    if i < |vbs| {
      var s := MibSet(mib, cb, objs[i], vbs[i]);
      if s.0 == 0 {
        ApplyKeepsEarlierSets(s.1, cb, vbs, objs, i + 1);
      }
    }
  }

  /**
   * snmp_set: phase two runs only when phase one recorded no error, so a
   * rejected request calls no setter and stores nothing.  The bindings of
   * the PDU are never rewritten.  Answers -1 when a set failed.
   */
  function SnmpSet(version: byte, mib: Registry, cb: Callbacks, pdu: Pdu): (r: (int, Served))
    ensures r.1.pdu.varbinds == pdu.varbinds && SameFrame(r.1.pdu, pdu)
    ensures var c := Validate(version, mib, GetLookup(cb), pdu.varbinds, 0, []);
      (c.status != 0 ==> r == (0, Served(c.mib, pdu.(errorStatus := c.status, errorIndex := c.index)))) &&
      (c.status == 0 && pdu.errorStatus != 0 ==> r == (0, Served(c.mib, pdu))) &&
      (c.status == 0 && pdu.errorStatus == 0 ==>
        var a := Apply(c.mib, cb, pdu.varbinds, c.objs, 0);
        r.1.mib == a.mib && (r.0 == -1 <==> a.failed) &&
        (a.failed ==> r.1.pdu.errorStatus == a.status && r.1.pdu.errorIndex == a.index))
    ensures r.0 == 0 || r.0 == -1
  {
    var c := Validate(version, mib, GetLookup(cb), pdu.varbinds, 0, []);
    if c.status != 0 then (0, Served(c.mib, pdu.(errorStatus := c.status, errorIndex := c.index)))
    else if pdu.errorStatus != 0 then (0, Served(c.mib, pdu))
    else
      var a := Apply(c.mib, cb, pdu.varbinds, c.objs, 0);
      if a.failed then (-1, Served(a.mib, pdu.(errorStatus := a.status, errorIndex := a.index)))
      else (0, Served(a.mib, pdu))
  }

  /**
   * With quiet getters, phase one rejects exactly when some binding is not
   * writable, reports the first such binding, and leaves the registry as
   * it was.
   */
  lemma RejectedSetChangesNothing(version: byte, mib: Registry, cb: Callbacks, pdu: Pdu)
    requires Quiet(cb)
    requires Validate(version, mib, GetLookup(cb), pdu.varbinds, 0, []).status != 0
    ensures SnmpSet(version, mib, cb, pdu).1.mib == mib
  {
    LookupsLocal(cb);
    ValidateQuiet(version, mib, GetLookup(cb), pdu.varbinds, 0, []);
  }

  /** The binding passes phase one against the registry as it stands. */
  predicate Accepts(mib: Registry, look: Lookup, vb: VarBind)
  {
    Writable(look(mib, vb), vb)
  }

  lemma {:induction false} ValidateQuiet(version: byte, mib: Registry, look: Lookup, vbs: seq<VarBind>, i: nat, objs: seq<nat>)
    requires i <= |vbs| && Local(look) && Still(look) && Recorded(mib, objs)
    ensures var r := Validate(version, mib, look, vbs, i, objs);
      r.mib == mib &&
      (r.status == 0 ==> forall j :: i <= j < |vbs| ==> Accepts(mib, look, vbs[j])) &&
      (r.status != 0 ==> !Accepts(mib, look, vbs[r.at]) && forall j :: i <= j < r.at ==> Accepts(mib, look, vbs[j]))
    decreases |vbs| - i
  {
    if i < |vbs| {
      var f := look(mib, vbs[i]);
      assert f.mib == mib;
      ValidateStep(version, mib, look, vbs, i, objs);
      if Writable(f, vbs[i]) {
        var k := f.obj.value;
        RecordedKept(mib, mib, objs, k);
        ValidateQuiet(version, mib, look, vbs, i + 1, objs + [k]);
      }
    }
  }

  /** One turn of phase one, seen from the binding's lookup. */
  lemma ValidateStep(version: byte, mib: Registry, look: Lookup, vbs: seq<VarBind>, i: nat, objs: seq<nat>)
    requires i < |vbs| && Local(look) && Recorded(mib, objs)
    ensures var f := look(mib, vbs[i]);
      var r := Validate(version, mib, look, vbs, i, objs);
      (!Writable(f, vbs[i]) ==> r.at == i && r.status != 0 && r.mib == f.mib) &&
      (Writable(f, vbs[i]) ==>
        Recorded(f.mib, objs + [f.obj.value]) &&
        r == Validate(version, f.mib, look, vbs, i + 1, objs + [f.obj.value]))
  {
    var f := look(mib, vbs[i]);
    if Writable(f, vbs[i]) {
      assert f.mib[f.obj.value].attrs == mib[f.obj.value].attrs;
      RecordedKept(f.mib, mib, objs, f.obj.value);
    }
  }

  // ---------------------------------------------------------------------
  // handle
  // ---------------------------------------------------------------------

  datatype Handled = Handled(code: int, mib: Registry, pdu: Pdu)

  /**
   * handle: a PDU that already carries an error skips processing but is
   * still turned into a response.  REPORT PDUs are left alone with 0, and
   * other types than GET, GETNEXT, SET and REPORT fail without becoming a
   * response.
   */
  function Handle(version: byte, mib: Registry, cb: Callbacks, pdu: Pdu): (r: Handled)
    ensures r.pdu.varbindIndex == pdu.varbindIndex && r.pdu.requestId == pdu.requestId
    ensures pdu.errorStatus != NO_ERROR ==> r == Handled(0, mib, pdu.(responseType := RESPONSE))
    ensures pdu.errorStatus == NO_ERROR && pdu.requestType == REPORT ==> r == Handled(0, mib, pdu)
    ensures pdu.errorStatus == NO_ERROR && !(pdu.requestType in {GET, GETNEXT, SET, REPORT}) ==>
      r == Handled(FAILURE, mib, pdu)
    ensures pdu.errorStatus == NO_ERROR && pdu.requestType in {GET, GETNEXT, SET} ==>
      r.code == 0 && r.pdu.responseType == RESPONSE && r.pdu.requestId == pdu.requestId &&
      |r.pdu.varbinds| == |pdu.varbinds|
    ensures pdu.errorStatus == NO_ERROR && pdu.requestType == SET ==> r.pdu.varbinds == pdu.varbinds
    ensures pdu.errorStatus == NO_ERROR && pdu.requestType == GET ==>
      forall j :: 0 <= j < |pdu.varbinds| ==> r.pdu.varbinds[j].oid == pdu.varbinds[j].oid
  {
    if pdu.errorStatus != NO_ERROR then Handled(0, mib, pdu.(responseType := RESPONSE))
    else if pdu.requestType == GET then
      LookupsLocal(cb);
      var s := Retrieve(version, mib, GetLookup(cb), pdu, 0);
      GetKeepsOids(version, mib, GetLookup(cb), pdu, 0);
      Handled(0, s.mib, s.pdu.(responseType := RESPONSE))
    else if pdu.requestType == GETNEXT then
      LookupsLocal(cb);
      var s := Retrieve(version, mib, NextLookup(cb), pdu, 0);
      Handled(0, s.mib, s.pdu.(responseType := RESPONSE))
    else if pdu.requestType == SET then
      var s := SnmpSet(version, mib, cb, pdu).1;
      Handled(0, s.mib, s.pdu.(responseType := RESPONSE))
    else if pdu.requestType == REPORT then Handled(0, mib, pdu)
    else Handled(FAILURE, mib, pdu)
  }

  /** A lookup that answers in place, as mib_get does: no binding's OID changes. */
  lemma {:induction false} GetKeepsOids(version: byte, mib: Registry, look: Lookup, pdu: Pdu, i: nat)
    requires i <= |pdu.varbinds| && Local(look)
    requires forall m, v :: look(m, v).req.oid == v.oid
    ensures var r := Retrieve(version, mib, look, pdu, i);
      forall j :: 0 <= j < |pdu.varbinds| ==> r.pdu.varbinds[j].oid == pdu.varbinds[j].oid
    decreases |pdu.varbinds| - i
  {
    if i < |pdu.varbinds| {
      var f := look(mib, pdu.varbinds[i]);
      var pdu' := pdu.(varbinds := pdu.varbinds[i := f.req]);
      if !(f.obj.None? && version == VERSION_1) {
        GetKeepsOids(version, f.mib, look, pdu', i + 1);
      }
    }
  }
}

=== FILE: dispatcher.dfy ===
// The dispatcher (dispatcher.c): the SNMP entity's entry point for one
// datagram.  It counts the datagram, discards an oversized one, reads the
// outer SEQUENCE and the version, hands the message to the version's
// message processing model, lets the command responder serve the PDU and
// has the response encoded; the snmpInPkts, snmpInBadVersions,
// snmpInASNParseErrs and snmpSilentDrops counters of RFC 3418 record what
// happened.

module Dispatcher {
  import opened SnmpTypes
  import opened BerDecode
  import opened Mib
  import opened Usm
  import opened CmdResponder
  import MsgV1
  import MsgV3

  /** What outlives a datagram: the counters, the MIB and the USM statistics. */
  datatype Agent = Agent(counters: Counters, mib: Registry, usm: UsmStats)

  /** dispatch's return code, the response it produced (if any) and the agent afterwards. */
  datatype Dispatched = Dispatched(code: int, output: Option<seq<byte>>, agent: Agent)

  /**
   * The counters after one datagram: snmpInPkts always moves, and with it
   * at most one other counter, chosen by the outcome.  A served request
   * and an oversized datagram move no other counter; an unsupported
   * version moves snmpInBadVersions; any other failure moves either
   * snmpInASNParseErrs or snmpSilentDrops.
   */
  predicate Counted(before: Counters, after: Counters, code: int, oversized: bool)
  {
    var pkts := before.(inPkts := Inc(before.inPkts));
    if oversized || code == 0 then after == pkts
    else if code == ERR_UNSUPPORTED_VERSION then after == pkts.(inBadVersions := Inc(before.inBadVersions))
    else
      (after == pkts.(inASNParseErrs := Inc(before.inASNParseErrs)) ||
       after == pkts.(silentDrops := Inc(before.silentDrops)))
  }

  function ParseError(c: Counters): Counters { c.(inASNParseErrs := Inc(c.inASNParseErrs)) }

  /**
   * dispatch: a datagram longer than MAX_BUF_SIZE (484 bytes) is
   * discarded.  A message whose outer SEQUENCE or version does not decode
   * counts a parse error; a version other than 1 (0 on the wire) and 3
   * counts a bad version and is discarded with ERR_UNSUPPORTED_VERSION.
   */
  function Dispatch(input: span, maxLen: u16, a: Agent, cb: Callbacks, env: MsgV3.Env): (r: Dispatched)
    ensures r.code == 0 || r.code == FAILURE || r.code == ERR_UNSUPPORTED_VERSION
    ensures r.output.Some? ==> r.code == 0
    ensures Counted(a.counters, r.agent.counters, r.code, |input| > MAX_BUF_SIZE)
    ensures |input| > MAX_BUF_SIZE ==>
      r == Dispatched(FAILURE, None, a.(counters := a.counters.(inPkts := Inc(a.counters.inPkts))))
    ensures |input| <= MAX_BUF_SIZE && (DecodeSequence(input, 0).Fail? || DecodeInteger(input, DecodeSequence(input, 0).pos).Fail?) ==>
      r == Dispatched(FAILURE, None, a.(counters := ParseError(a.counters.(inPkts := Inc(a.counters.inPkts)))))
    ensures r.code == ERR_UNSUPPORTED_VERSION <==>
      |input| <= MAX_BUF_SIZE && DecodeSequence(input, 0).Ok? &&
      var v := DecodeInteger(input, DecodeSequence(input, 0).pos);
      v.Ok? && v.value != VERSION_1 as s32 && v.value != VERSION_3 as s32
    ensures r.code == ERR_UNSUPPORTED_VERSION ==> r.output.None? && r.agent.mib == a.mib && r.agent.usm == a.usm
  {
    var c := a.counters.(inPkts := Inc(a.counters.inPkts));
    if |input| > MAX_BUF_SIZE then Dispatched(FAILURE, None, a.(counters := c))
    else
      var s := DecodeSequence(input, 0);
      var v := if s.Ok? then DecodeInteger(input, s.pos) else Fail;
      if v.Fail? then Dispatched(FAILURE, None, a.(counters := ParseError(c)))
      else if v.value == VERSION_1 as s32 then ServeV1(input, v.pos, maxLen, a.(counters := c), cb, env.budget)
      else if v.value == VERSION_3 as s32 then ServeV3(input, v.pos, maxLen, a.(counters := c), cb, env)
      else Dispatched(ERR_UNSUPPORTED_VERSION, None, a.(counters := c.(inBadVersions := Inc(c.inBadVersions))))
  }

  /**
   * The version 1 path: a message the model rejects counts a parse error;
   * otherwise the PDU is served and the response encoded, a response that
   * is dropped even as tooBig counting a silent drop and failing.
   */
  function ServeV1(input: span, pos: nat, maxLen: u16, a: Agent, cb: Callbacks, budget: nat): (r: Dispatched)
    ensures r.code == 0 || r.code == FAILURE
    ensures r.output.Some? <==> r.code == 0
    ensures r.agent.usm == a.usm
    ensures var p := MsgV1.PrepareDataElements(input, pos, budget);
      p.code != 0 ==> r == Dispatched(FAILURE, None, a.(counters := ParseError(a.counters)))
    ensures var p := MsgV1.PrepareDataElements(input, pos, budget);
      p.code == 0 ==>
        var h := Handle(VERSION_1, a.mib, cb, p.pdu);
        r.agent.mib == h.mib &&
        r.output == MsgV1.PrepareResponse(VERSION_1, input, h.pdu, maxLen).output &&
        r.agent.counters == if r.code == 0 then a.counters else a.counters.(silentDrops := Inc(a.counters.silentDrops))
  {
    var p := MsgV1.PrepareDataElements(input, pos, budget);
    if p.code != ERR_NO_ERROR then Dispatched(FAILURE, None, a.(counters := ParseError(a.counters)))
    else
      var h := Handle(VERSION_1, a.mib, cb, p.pdu);
      var resp := MsgV1.PrepareResponse(VERSION_1, input, h.pdu, maxLen);
      var c := if resp.dropped then a.counters.(silentDrops := Inc(a.counters.silentDrops)) else a.counters;
      Dispatched(if resp.code != ERR_NO_ERROR then FAILURE else 0, resp.output, Agent(c, h.mib, a.usm))
  }

  /**
   * The version 3 path, on the zero-filled message: a message the model
   * rejects counts a parse error (the USM statistics it bumped stay
   * bumped); otherwise the PDU is served and the response prepared from
   * the request buffer as the USM left it, which always returns 0.
   */
  function ServeV3(input: span, pos: nat, maxLen: u16, a: Agent, cb: Callbacks, env: MsgV3.Env): (r: Dispatched)
    ensures r.code == 0 || r.code == FAILURE
    ensures r.output.Some? ==> r.code == 0
    ensures var p := MsgV3.PrepareDataElements(input, pos, FreshV3, env, a.usm);
      r.agent.usm == p.stats &&
      (p.code != 0 ==> r == Dispatched(FAILURE, None, Agent(ParseError(a.counters), a.mib, p.stats))) &&
      (p.code == 0 ==>
        var h := Handle(VERSION_3, a.mib, cb, p.msg.pdu);
        p.msg.pdu.varbindIndex <= |p.input| &&
        r == Dispatched(0, MsgV3.PrepareResponse(p.msg.(pdu := h.pdu), p.input, maxLen, env).output,
          Agent(a.counters, h.mib, p.stats)))
  {
    var p := MsgV3.PrepareDataElements(input, pos, FreshV3, env, a.usm);
    if p.code != ERR_NO_ERROR then Dispatched(FAILURE, None, Agent(ParseError(a.counters), a.mib, p.stats))
    else
      var h := Handle(VERSION_3, a.mib, cb, p.msg.pdu);
      var resp := MsgV3.PrepareResponse(p.msg.(pdu := h.pdu), p.input, maxLen, env);
      Dispatched(0, resp.output, Agent(a.counters, h.mib, p.stats))
  }

  // ---------------------------------------------------------------------
  // A run of datagrams
  // ---------------------------------------------------------------------

  /** One datagram as the transport hands it over, with the environment it meets. */
  datatype Datagram = Datagram(input: span, maxLen: u16, env: MsgV3.Env)

  /** The agent serving datagrams one after the other: the agent at the end and each datagram's return code. */
  function Serve(ds: seq<Datagram>, a: Agent, cb: Callbacks): (r: (Agent, seq<int>))
    ensures |r.1| == |ds|
  {
    if |ds| == 0 then (a, [])
    else
      var d := Dispatch(ds[0].input, ds[0].maxLen, a, cb, ds[0].env);
      var rest := Serve(ds[1..], d.agent, cb);
      (rest.0, [d.code] + rest.1)
  }

  /** How many of the codes are 0, that is, how many datagrams were answered. */
  function Answered(codes: seq<int>): nat
  {
    if |codes| == 0 then 0 else (if codes[0] == 0 then 1 else 0) + Answered(codes[1..])
  }

  /** How many of the datagrams exceed MAX_BUF_SIZE. */
  function Oversized(ds: seq<Datagram>): nat
  {
    if |ds| == 0 then 0 else (if |ds[0].input| > MAX_BUF_SIZE then 1 else 0) + Oversized(ds[1..])
  }

  /** The three error counters together, as unbounded integers. */
  function Errors(c: Counters): int { c.inBadVersions + c.inASNParseErrs + c.silentDrops }

  /** One datagram moves snmpInPkts by one and the error counters by one exactly when it was neither answered nor oversized. */
  lemma CountedStep(before: Counters, after: Counters, code: int, oversized: bool)
    requires Counted(before, after, code, oversized)
    requires before.inPkts < 0xFFFF_FFFF && Errors(before) < 0xFFFF_FFFF
    ensures after.inPkts == before.inPkts + 1
    ensures Errors(after) == Errors(before) + (if oversized || code == 0 then 0 else 1)
  {
  }

  /**
   * Every datagram is accounted for exactly once: until a counter wraps,
   * snmpInPkts grows by the number of datagrams, and the error counters
   * together grow by the number of datagrams that were neither answered
   * with 0 nor discarded as oversized.
   */
  lemma {:induction false} ServeAccounts(ds: seq<Datagram>, a: Agent, cb: Callbacks)
    requires a.counters.inPkts + |ds| < 0x1_0000_0000 && Errors(a.counters) + |ds| < 0x1_0000_0000
    ensures var r := Serve(ds, a, cb);
      r.0.counters.inPkts == a.counters.inPkts + |ds| &&
      Errors(r.0.counters) + Answered(r.1) + Oversized(ds) == Errors(a.counters) + |ds|
  {
    if |ds| > 0 {
      var d := Dispatch(ds[0].input, ds[0].maxLen, a, cb, ds[0].env);
      CountedStep(a.counters, d.agent.counters, d.code, |ds[0].input| > MAX_BUF_SIZE);
      ServeAccounts(ds[1..], d.agent, cb);
      var r := Serve(ds, a, cb);
      assert r.1 == [d.code] + Serve(ds[1..], d.agent, cb).1;
      assert ([d.code] + Serve(ds[1..], d.agent, cb).1)[1..] == Serve(ds[1..], d.agent, cb).1;
    }
  }
}

=== FILE: hmac_md5.dfy ===
// hmac_md5_96 (usm.c) over the MD5 of md5.c: each of its two passes is
// MD5Init, MD5Update with the 64-byte pad, MD5Update with the data and
// MD5Final, and that is the MD5 digest of the pad followed by the data.
// So the USM's HMAC, whose digest is a parameter, is HMAC-MD5 once that
// parameter is the MD5 of md5.c.

module HmacMd5 {
  import opened SnmpTypes
  import opened ByteArith
  import Md5
  import Usm

  /** One pass of hmac_md5_96: MD5Init, MD5Update with the pad, MD5Update with the data, MD5Final. */
  function Pass(f: Md5.Compress, pad: seq<byte>, data: seq<byte>): (r: seq<byte>)
    requires |pad| == 64 && |data| < 0x1_0000
    ensures |r| == 16
  {
    var c1 := Md5.Update(Md5.Init(), pad, f);
    Md5.Final(Md5.Update(c1, data, f), f)
  }

  /** hmac_md5_96: the inner pass over the message, then the outer pass over the 16 inner bytes. */
  function HmacMd596(f: Md5.Compress, key: seq<byte>, input: seq<byte>): (r: seq<byte>)
    requires |input| < 0x1_0000
    ensures |r| == 16
  {
    Pass(f, Usm.Pad(key, 0x5C), Pass(f, Usm.Pad(key, 0x36), input))
  }

  /**
   * The MD5 of md5.c as the USM's digest of a whole message.  A message
   * longer than MD5Update's 16-bit length can take has no digest here.
   */
  function Md5Of(f: Md5.Compress): Usm.Hash
  {
    m => if |m| < 0x1_0000 then Md5.Md5Sum(m, f) else []
  }

  /** Two counts held as (low, high) words are equal only when both words are. */
  lemma Count64Injective(lo1: u32, hi1: u32, lo2: u32, hi2: u32)
    requires Md5.Count64(lo1, hi1) == Md5.Count64(lo2, hi2)
    ensures lo1 == lo2 && hi1 == hi2
  {
  }

  /** A pass of hmac_md5_96 is the MD5 digest of the pad followed by the data. */
  lemma PassIsMd5Sum(f: Md5.Compress, pad: seq<byte>, data: seq<byte>)
    requires |pad| == 64 && |pad + data| < 0x1_0000
    ensures Pass(f, pad, data) == Md5.Md5Sum(pad + data, f)
  {
    var c0 := Md5.Init();
    var c1 := Md5.Update(c0, pad, f);
    var c2 := Md5.Update(c1, data, f);
    var c := Md5.Update(c0, pad + data, f);
    Md5.TwoUpdates(c0, c1, c2, pad, data, f);
    assert c0.pending + (pad + data) == pad + data;
    assert Md5.Bits(c2) == Md5.Bits(c);
    Count64Injective(c2.lo, c2.hi, c.lo, c.hi);
    assert c2 == c;
  }

  /**
   * hmac_md5_96 over the MD5 of md5.c is the USM's HMAC with that MD5 as
   * its digest, and so, by Usm.HmacIsRfc2104, HMAC-MD5 of section 2 of
   * RFC 2104.
   */
  lemma HmacMd596IsHmac(f: Md5.Compress, key: seq<byte>, input: seq<byte>)
    requires 64 + |input| < 0x1_0000
    ensures HmacMd596(f, key, input) == Usm.Hmac(Md5Of(f), key, input)
  {
    var ipad, opad := Usm.Pad(key, 0x36), Usm.Pad(key, 0x5C);
    var inner := Pass(f, ipad, input);
    PassIsMd5Sum(f, ipad, input);
    PassIsMd5Sum(f, opad, inner);
    FitSixteen(Md5Of(f)(ipad + input));
    FitSixteen(Md5Of(f)(opad + inner));
  }

  /** A 16-byte digest is taken whole. */
  lemma FitSixteen(d: seq<byte>)
    requires |d| == 16
    ensures Usm.Fit(d, 16) == d
  {
  }
}

=== FILE: mcast.dfy ===
// The list of IPv6 multicast addresses the node listens on
// (core/net/uip-mcast6.c): a doubly linked list of heap nodes, appended to
// by uip_maddr_add, searched by uip_my_maddr and uip_maddr_exists, and
// unlinked from by uip_maddr_rm.

module Mcast6 {
  import opened SnmpTypes

  /** A uip_ipaddr_t: sixteen bytes, compared byte for byte by uip_ipaddr_cmp. */
  type Addr = a: seq<byte> | |a| == 16 witness seq(16, _ => 0)

  /** A node of the list; `next` and `prev` are node pointers, None for NULL. */
  datatype Node = Node(addr: Addr, next: Option<nat>, prev: Option<nat>)

  /** The static `list` pointer and the heap nodes reachable from it, by address. */
  datatype MList = MList(head: Option<nat>, nodes: map<nat, Node>)

  const EMPTY: MList := MList(None, map[])

  // ---------------------------------------------------------------------
  // The list a heap holds
  // ---------------------------------------------------------------------

  /** Node `ids[i]` links forward to `ids[i + 1]` and back to `ids[i - 1]`, NULL at the ends. */
  predicate Linked(l: MList, ids: seq<nat>, i: nat)
    requires i < |ids| && ids[i] in l.nodes
  {
    l.nodes[ids[i]].next == (if i + 1 < |ids| then Some(ids[i + 1]) else None) &&
    l.nodes[ids[i]].prev == (if i > 0 then Some(ids[i - 1]) else None)
  }

  /**
   * The heap holds exactly the distinct nodes `ids` (as many nodes as
   * positions, each position's node on the heap), the list pointer names
   * the first, and every node's next and prev links agree with the order.
   */
  predicate Valid(l: MList, ids: seq<nat>)
  {
    Distinct(ids) && Chained(l, ids) && |l.nodes| == |ids| &&
    l.head == (if |ids| == 0 then None else Some(ids[0]))
  }

  /** No node appears at two positions. */
  predicate Distinct(ids: seq<nat>)
  {
    forall i, j :: 0 <= i < j < |ids| ==> ids[i] != ids[j]
  }

  /** Every position's node is on the heap and linked to its neighbours. */
  predicate Chained(l: MList, ids: seq<nat>)
  {
    (forall i :: 0 <= i < |ids| ==> ids[i] in l.nodes) &&
    forall i {:trigger Linked(l, ids, i)} :: 0 <= i < |ids| ==> Linked(l, ids, i)
  }

  /** The addresses of the list, front to back. */
  function Addrs(l: MList, ids: seq<nat>): (r: seq<Addr>)
    requires forall i :: 0 <= i < |ids| ==> ids[i] in l.nodes
    ensures |r| == |ids| && forall i :: 0 <= i < |ids| ==> r[i] == l.nodes[ids[i]].addr
  {
    seq(|ids|, i requires 0 <= i < |ids| => l.nodes[ids[i]].addr)
  }

  /** Reference: the position of the first occurrence of `x` in `s`. */
  function IndexOf(s: seq<Addr>, x: Addr): (r: Option<nat>)
    ensures r.None? <==> x !in s
    ensures r.Some? ==> r.value < |s| && s[r.value] == x && x !in s[..r.value]
  {
    if |s| == 0 then None
    else if s[0] == x then Some(0)
    else
      var r := IndexOf(s[1..], x);
      if r.None? then None
      else
        assert s[1..][..r.value] == s[1..r.value + 1];
        Some(r.value + 1)
  }

  // ---------------------------------------------------------------------
  // The walks
  // ---------------------------------------------------------------------

  /**
   * The search of uip_my_maddr from node `cur` on: the first node whose
   * address equals `addr`, or NULL.  `steps` bounds the walk by the
   * number of nodes on the heap.
   */
  function Find(l: MList, cur: Option<nat>, addr: Addr, steps: nat): (r: Option<nat>)
    ensures r.Some? ==> r.value in l.nodes && l.nodes[r.value].addr == addr
    decreases steps
  {
    if steps == 0 || cur.None? || cur.value !in l.nodes then None
    else if l.nodes[cur.value].addr == addr then cur
    else Find(l, l.nodes[cur.value].next, addr, steps - 1)
  }

  /** The walk of uip_maddr_add to the node whose `next` is NULL. */
  function Last(l: MList, cur: nat, steps: nat): (r: nat)
    requires cur in l.nodes
    ensures r in l.nodes
    decreases steps
  {
    var nx := l.nodes[cur].next;
    if steps == 0 || nx.None? || nx.value !in l.nodes then cur else Last(l, nx.value, steps - 1)
  }

  /** uip_my_maddr: the search from the head of the list. */
  function MyMaddr(l: MList, addr: Addr): (r: Option<nat>)
    ensures r.Some? ==> r.value in l.nodes && l.nodes[r.value].addr == addr
  {
    Find(l, l.head, addr, |l.nodes|)
  }

  /** uip_maddr_exists: 1 when the search finds a node, else 0. */
  function Exists(l: MList, addr: Addr): (r: int)
    ensures r == 0 || r == 1
    ensures r == 1 <==> MyMaddr(l, addr).Some?
  {
    if MyMaddr(l, addr).Some? then 1 else 0
  }

  // ---------------------------------------------------------------------
  // Adding and removing
  // ---------------------------------------------------------------------

  /**
   * uip_maddr_add: the node `p` that malloc returned takes `addr` and is
   * linked in at the tail, after the node whose `next` is NULL; an empty
   * list becomes the one node.  There is no duplicate check; it answers 0.
   */
  function Add(l: MList, p: nat, addr: Addr): (r: (int, MList))
    requires l.head.Some? ==> l.head.value in l.nodes
    ensures r.0 == 0 && p in r.1.nodes && r.1.nodes[p].addr == addr
  {
    if l.head.None? then (0, MList(Some(p), l.nodes[p := Node(addr, None, None)]))
    else
      var last := Last(l, l.head.value, |l.nodes|);
      var nodes := l.nodes[last := l.nodes[last].(next := Some(p))];
      (0, MList(l.head, nodes[p := Node(addr, None, Some(last))]))
  }

  /**
   * uip_maddr_rm as written: the first node holding `addr` is unlinked and
   * freed.  It answers 0 when that node was the only, the first or the
   * last one, but 1 after unlinking a node in the middle, the same answer
   * as for an address that is not in the list.
   */
  function RmAsWritten(l: MList, addr: Addr): (r: (int, MList))
  {
    var t := MyMaddr(l, addr);
    if t.None? then (1, l)
    else (if Middle(l, t.value) then 1 else 0, Unlink(l, t.value))
  }

  /** uip_maddr_rm as evidently intended: 0 whenever a node was removed, 1 when there was none. */
  function Rm(l: MList, addr: Addr): (r: (int, MList))
    ensures r.0 == 0 || r.0 == 1
    ensures r.0 == 1 <==> MyMaddr(l, addr).None?
    ensures r.0 == 1 ==> r.1 == l
  {
    var t := MyMaddr(l, addr);
    if t.None? then (1, l) else (0, Unlink(l, t.value))
  }

  /** A node with both a predecessor and a successor. */
  predicate Middle(l: MList, t: nat)
    requires t in l.nodes
  {
    l.nodes[t].prev.Some? && l.nodes[t].next.Some?
  }

  /**
   * The unlinking in uip_maddr_rm, by the node's four cases: the only node
   * empties the list; the first hands the head to its successor; the last
   * cuts its predecessor's `next`; a middle node joins its neighbours.
   * The node is freed in every case.
   */
  function Unlink(l: MList, t: nat): (r: MList)
    requires t in l.nodes
    ensures t !in r.nodes
  {
    var n := l.nodes[t];
    var rest := l.nodes - {t};
    if n.next.None? && n.prev.None? then MList(None, rest)
    else if n.prev.None? then
      var nx := n.next.value;
      if nx in rest then MList(Some(nx), rest[nx := rest[nx].(prev := None)]) else MList(Some(nx), rest)
    else if n.next.None? then
      var pv := n.prev.value;
      if pv in rest then MList(l.head, rest[pv := rest[pv].(next := None)]) else MList(l.head, rest)
    else
      var pv, nx := n.prev.value, n.next.value;
      if pv in rest && nx in rest && pv != nx then
        MList(l.head, rest[pv := rest[pv].(next := Some(nx))][nx := rest[nx].(prev := Some(pv))])
      else MList(l.head, rest)
  }

  // ---------------------------------------------------------------------
  // What the operations do to the list of addresses
  // ---------------------------------------------------------------------

  lemma EmptyValid()
    ensures Valid(EMPTY, []) && Addrs(EMPTY, []) == []
  {
  }

  /**
   * The search from position j stops at `m`, the first position from j on
   * holding `addr`, or at the end of the list when there is none.
   */
  lemma {:induction false} FindFrom(l: MList, ids: seq<nat>, j: nat, cur: Option<nat>, addr: Addr, steps: nat)
    returns (m: nat)
    requires Chained(l, ids) && j <= |ids| && steps >= |ids| - j
    requires cur == if j < |ids| then Some(ids[j]) else None
    ensures j <= m <= |ids| && forall k :: j <= k < m ==> l.nodes[ids[k]].addr != addr
    ensures m < |ids| ==> l.nodes[ids[m]].addr == addr
    ensures Find(l, cur, addr, steps) == if m < |ids| then Some(ids[m]) else None
    decreases |ids| - j
  {
    if j == |ids| {
      m := j;
    } else {
      assert Linked(l, ids, j);
      var nx := if j + 1 < |ids| then Some(ids[j + 1]) else None;
      if l.nodes[ids[j]].addr == addr {
        m := j;
      } else {
        m := FindFrom(l, ids, j + 1, nx, addr, steps - 1);
      }
    }
  }

  /** A position before which `x` does not occur, and which holds it unless at the end, is where IndexOf finds it. */
  lemma IndexOfAt(a: seq<Addr>, x: Addr, m: nat)
    requires m <= |a| && (forall k :: 0 <= k < m ==> a[k] != x) && (m < |a| ==> a[m] == x)
    ensures IndexOf(a, x) == if m < |a| then Some(m) else None
  {
  }

  /** uip_my_maddr answers the node at the first position holding `addr`. */
  lemma MyMaddrFirst(l: MList, ids: seq<nat>, addr: Addr)
    requires Valid(l, ids)
    ensures var i := IndexOf(Addrs(l, ids), addr);
      MyMaddr(l, addr) == if i.None? then None else Some(ids[i.value])
  {
    var m := FindFrom(l, ids, 0, l.head, addr, |l.nodes|);
    IndexOfAt(Addrs(l, ids), addr, m);
  }

  /** uip_maddr_exists answers 1 exactly when the address is in the list. */
  lemma ExistsIffIn(l: MList, ids: seq<nat>, addr: Addr)
    requires Valid(l, ids)
    ensures Exists(l, addr) == 1 <==> addr in Addrs(l, ids)
  {
    MyMaddrFirst(l, ids, addr);
  }

  /** The walk to the tail from position j ends at the last node. */
  lemma {:induction false} LastFrom(l: MList, ids: seq<nat>, j: nat, steps: nat)
    requires Chained(l, ids) && j < |ids| && steps >= |ids| - 1 - j
    ensures Last(l, ids[j], steps) == ids[|ids| - 1]
    decreases |ids| - j
  {
    assert Linked(l, ids, j);
    if j + 1 < |ids| {
      LastFrom(l, ids, j + 1, steps - 1);
    }
  }

  /**
   * uip_maddr_add appends: the list gets the new node at its tail, links
   * consistent, and its addresses are the old ones followed by `addr`.
   */
  lemma AddAppends(l: MList, ids: seq<nat>, p: nat, addr: Addr)
    requires Valid(l, ids) && p !in l.nodes
    ensures Valid(Add(l, p, addr).1, ids + [p])
    ensures Addrs(Add(l, p, addr).1, ids + [p]) == Addrs(l, ids) + [addr]
  {
    var r := Add(l, p, addr).1;
    if |ids| > 0 {
      LastFrom(l, ids, 0, |l.nodes|);
      assert Linked(l, ids, |ids| - 1);
    }
    AppendedChained(l, ids, p, r);
    assert Distinct(ids + [p]);
    assert Addrs(r, ids + [p]) == Addrs(l, ids) + [addr];
  }

  /**
   * A heap that keeps every node of the list but the last as it was,
   * points the last one at `p`, and holds `p` with the last one before it
   * and nothing after, chains the longer list.
   */
  lemma AppendedChained(l: MList, ids: seq<nat>, p: nat, r: MList)
    requires Chained(l, ids) && p !in l.nodes && Distinct(ids)
    requires forall k :: 0 <= k < |ids| - 1 ==> ids[k] in r.nodes && r.nodes[ids[k]] == l.nodes[ids[k]]
    requires |ids| > 0 ==>
      ids[|ids| - 1] in r.nodes && r.nodes[ids[|ids| - 1]] == l.nodes[ids[|ids| - 1]].(next := Some(p))
    requires p in r.nodes && r.nodes[p].next == None
    requires r.nodes[p].prev == if |ids| > 0 then Some(ids[|ids| - 1]) else None
    ensures Chained(r, ids + [p])
  {
    var ids' := ids + [p];
    forall k | 0 <= k < |ids'|
      ensures ids'[k] in r.nodes && Linked(r, ids', k)
    {
      if k < |ids| {
        assert Linked(l, ids, k);
      }
    }
  }

  /** The list with position i taken out. */
  function Without<T>(s: seq<T>, i: nat): (r: seq<T>)
    requires i < |s|
    ensures |r| == |s| - 1
    ensures forall k :: 0 <= k < |r| ==> r[k] == if k < i then s[k] else s[k + 1]
  {
    s[..i] + s[i + 1..]
  }

  /**
   * uip_maddr_rm (either version) unlinks exactly the first node holding
   * `addr`: the list stays consistent and its addresses lose that one
   * occurrence; an address not in the list leaves it as it was.
   */
  lemma RmRemovesFirst(l: MList, ids: seq<nat>, addr: Addr)
    requires Valid(l, ids)
    ensures var i := IndexOf(Addrs(l, ids), addr);
      i.None? ==> Rm(l, addr) == (1, l) && RmAsWritten(l, addr) == (1, l)
    ensures var i := IndexOf(Addrs(l, ids), addr);
      i.Some? ==>
        Rm(l, addr).0 == 0 && RmAsWritten(l, addr).1 == Rm(l, addr).1 &&
        Valid(Rm(l, addr).1, Without(ids, i.value)) &&
        Addrs(Rm(l, addr).1, Without(ids, i.value)) == Without(Addrs(l, ids), i.value)
  {
    MyMaddrFirst(l, ids, addr);
    var i := IndexOf(Addrs(l, ids), addr);
    if i.Some? {
      UnlinkValid(l, ids, i.value);
    }
  }

  /** Unlinking the node at position i leaves the list without it. */
  lemma UnlinkValid(l: MList, ids: seq<nat>, i: nat)
    requires Valid(l, ids) && i < |ids|
    ensures Valid(Unlink(l, ids[i]), Without(ids, i))
    ensures Addrs(Unlink(l, ids[i]), Without(ids, i)) == Without(Addrs(l, ids), i)
  {
    var t := ids[i];
    var r := Unlink(l, t);
    assert Linked(l, ids, i);
    if i > 0 { assert Linked(l, ids, i - 1); }
    if i + 1 < |ids| { assert Linked(l, ids, i + 1); }
    if i > 0 && i + 1 < |ids| {
      assert ids[i - 1] != ids[i + 1];
    }
    Relinked(l, ids, i, r);
  }

  /**
   * A heap that keeps every other node's address, joins the neighbours of
   * position i to each other, leaves the nodes further away as they were,
   * has one node fewer and heads the shorter list holds the list without
   * position i.
   */
  lemma Relinked(l: MList, ids: seq<nat>, i: nat, r: MList)
    requires Valid(l, ids) && i < |ids|
    requires forall k :: 0 <= k < |ids| && k != i ==> ids[k] in r.nodes && r.nodes[ids[k]].addr == l.nodes[ids[k]].addr
    requires i > 0 ==>
      r.nodes[ids[i - 1]].next == (if i + 1 < |ids| then Some(ids[i + 1]) else None) &&
      r.nodes[ids[i - 1]].prev == l.nodes[ids[i - 1]].prev
    requires i + 1 < |ids| ==>
      r.nodes[ids[i + 1]].prev == (if i > 0 then Some(ids[i - 1]) else None) &&
      r.nodes[ids[i + 1]].next == l.nodes[ids[i + 1]].next
    requires forall k :: 0 <= k < |ids| && (k < i - 1 || k > i + 1) ==> r.nodes[ids[k]] == l.nodes[ids[k]]
    requires |r.nodes| + 1 == |ids| && r.head == (if |ids| == 1 then None else if i == 0 then Some(ids[1]) else l.head)
    ensures Valid(r, Without(ids, i)) && Addrs(r, Without(ids, i)) == Without(Addrs(l, ids), i)
  {
    RelinkedChained(l, ids, i, r);
    DistinctWithout(ids, i);
    AddrsWithout(l, ids, i, r);
  }

  lemma RelinkedChained(l: MList, ids: seq<nat>, i: nat, r: MList)
    requires Chained(l, ids) && i < |ids|
    requires forall k :: 0 <= k < |ids| && k != i ==> ids[k] in r.nodes
    requires i > 0 ==>
      r.nodes[ids[i - 1]].next == (if i + 1 < |ids| then Some(ids[i + 1]) else None) &&
      r.nodes[ids[i - 1]].prev == l.nodes[ids[i - 1]].prev
    requires i + 1 < |ids| ==>
      r.nodes[ids[i + 1]].prev == (if i > 0 then Some(ids[i - 1]) else None) &&
      r.nodes[ids[i + 1]].next == l.nodes[ids[i + 1]].next
    requires forall k :: 0 <= k < |ids| && (k < i - 1 || k > i + 1) ==> r.nodes[ids[k]] == l.nodes[ids[k]]
    ensures Chained(r, Without(ids, i))
  {
    var ids' := Without(ids, i);
    forall k | 0 <= k < |ids'|
      ensures ids'[k] in r.nodes && Linked(r, ids', k)
    {
      if k < i {
        assert Linked(l, ids, k);
      } else {
        assert Linked(l, ids, k + 1);
      }
    }
  }

  lemma DistinctWithout(ids: seq<nat>, i: nat)
    requires Distinct(ids) && i < |ids|
    ensures Distinct(Without(ids, i))
  {
  }

  lemma AddrsWithout(l: MList, ids: seq<nat>, i: nat, r: MList)
    requires i < |ids| && forall k :: 0 <= k < |ids| ==> ids[k] in l.nodes
    requires forall k :: 0 <= k < |ids| && k != i ==> ids[k] in r.nodes && r.nodes[ids[k]].addr == l.nodes[ids[k]].addr
    ensures Addrs(r, Without(ids, i)) == Without(Addrs(l, ids), i)
  {
  }

  /**
   * As written, removing the middle one of three addresses unlinks it and
   * yet answers 1, as if it had not been found.
   */
  lemma RmMiddleAnswersOne(l: MList, ids: seq<nat>)
    requires Valid(l, ids) && |ids| == 3
    requires var s := Addrs(l, ids); s[1] != s[0]
    ensures var s := Addrs(l, ids);
      RmAsWritten(l, s[1]).0 == 1 && Rm(l, s[1]).0 == 0 &&
      Valid(RmAsWritten(l, s[1]).1, Without(ids, 1)) &&
      Addrs(RmAsWritten(l, s[1]).1, Without(ids, 1)) == [s[0], s[2]]
  {
    var s := Addrs(l, ids);
    MyMaddrFirst(l, ids, s[1]);
    assert IndexOf(s, s[1]) == Some(1);
    assert Linked(l, ids, 1);
    RmRemovesFirst(l, ids, s[1]);
  }
}

=== FILE: md5.dfy ===
// MD5 as md5.c computes it (RFC 1321): the 64-bit bit count kept in two
// words, the bytes buffered until a 64-byte block is complete, the final
// padding and the little-endian serialisation of the state.  The
// compression function (Transform) is a parameter.

module Md5 {
  import opened SnmpTypes
  import opened ByteArith

  /** The four state words A, B, C, D. */
  datatype State = State(a: u32, b: u32, c: u32, d: u32)

  /** Transform: one block, as sixteen words, folded into the state. */
  type Compress = (State, seq<u32>) -> State

  /**
   * MD5_CTX: the bit count (low word, high word), the state and the bytes
   * of the current block received so far.  The buffer bytes past those are
   * never read, so the model keeps only the received ones.
   */
  datatype Ctx = Ctx(lo: u32, hi: u32, buf: State, pending: seq<byte>)

  const TWO64: int := 0x1_0000_0000_0000_0000

  /** The bit count as one 64-bit number. */
  function Bits(c: Ctx): nat { Count64(c.lo, c.hi) }

  /** The 64-bit count held as a low and a high word. */
  function Count64(lo: u32, hi: u32): nat { hi * TWO32 + lo }

  /** The number of buffered bytes as md5.c derives it from the count: (i[0] >> 3) & 0x3F. */
  function Mdi(lo: u32): nat { (lo / 8) % 64 }

  /** The buffer holds exactly as many bytes as the bit count says. */
  predicate Valid(c: Ctx) { |c.pending| == Mdi(c.lo) }

  // ---------------------------------------------------------------------
  // Words and bytes, little-endian (section 2 of RFC 1321)
  // ---------------------------------------------------------------------

  function LeBytes(w: u32): seq<byte>
  {
    [w % 0x100, (w / 0x100) % 0x100, (w / 0x1_0000) % 0x100, w / 0x100_0000]
  }

  function LeWord(b: seq<byte>): u32
    requires |b| == 4
  {
    b[0] as int + 0x100 * (b[1] as int) + 0x1_0000 * (b[2] as int) + 0x100_0000 * (b[3] as int)
  }

  /** Packing bytes into a word and serialising it back are inverse. */
  lemma LeRoundTrip(w: u32, b: seq<byte>)
    ensures LeWord(LeBytes(w)) == w
    ensures |b| == 4 ==> LeBytes(LeWord(b)) == b
  {
    var q1 := w / 0x100;
    var q2 := q1 / 0x100;
    assert w == 0x100 * q1 + w % 0x100;
    assert q1 == 0x100 * q2 + q1 % 0x100;
    assert w / 0x1_0000 == q2 by { DivSplit(q1, w % 0x100, 0x100); }
    assert q2 == 0x100 * (q2 / 0x100) + q2 % 0x100;
    assert w / 0x100_0000 == q2 / 0x100 by { DivSplit(q1, w % 0x100, 0x1_0000); DivSplit(q2, q1 % 0x100, 0x100); }
    if |b| == 4 {
      var x := LeWord(b);
      var y: int := b[1] as int + 0x100 * (b[2] as int) + 0x1_0000 * (b[3] as int);
      var z: int := b[2] as int + 0x100 * (b[3] as int);
      UniqueMod(x, 0x100, y, b[0]);
      UniqueMod(y, 0x100, z, b[1]);
      UniqueMod(z, 0x100, b[3], b[2]);
      DivSplit(y, b[0], 0x100);
      DivSplit(z, b[1], 0x100);
      DivSplit(y, b[0], 0x1_0000);
      UniqueMod(y, 0x1_0000, b[3], b[1] as int + 0x100 * (b[2] as int));
    }
  }

  /** The first n words of a block, four bytes each, least significant first. */
  function Words(block: seq<byte>, n: nat): (r: seq<u32>)
    requires |block| >= 4 * n
    ensures |r| == n
  {
    seq(n, i requires 0 <= i < n => LeWord(block[4 * i..4 * i + 4]))
  }

  /** The digest: the four state words, each least significant byte first. */
  function Serialize(s: State): (r: seq<byte>)
    ensures |r| == 16
  {
    LeBytes(s.a) + LeBytes(s.b) + LeBytes(s.c) + LeBytes(s.d)
  }

  // ---------------------------------------------------------------------
  // The reference: whole blocks folded through Transform
  // ---------------------------------------------------------------------

  /**
   * The data cut into 64-byte blocks (section 3.4 of RFC 1321): the state
   * after every complete block, and the bytes of the incomplete last one.
   */
  function Blocks(s: State, d: seq<byte>, f: Compress): (r: (State, seq<byte>))
    ensures |r.1| == |d| % 64
    decreases |d|
  {
    if |d| < 64 then (s, d) else Blocks(f(s, Words(d[..64], 16)), d[64..], f)
  }

  /** Cutting d + y is cutting d, then cutting what was left of d followed by y. */
  lemma {:induction false} BlocksAppend(s: State, d: seq<byte>, y: seq<byte>, f: Compress)
    ensures var b := Blocks(s, d, f);
      Blocks(s, d + y, f) == Blocks(b.0, b.1 + y, f)
    decreases |d|
  {
    if |d| >= 64 {
      assert (d + y)[..64] == d[..64];
      assert (d + y)[64..] == d[64..] + y;
      BlocksAppend(f(s, Words(d[..64], 16)), d[64..], y, f);
    }
  }

  // ---------------------------------------------------------------------
  // MD5Init, MD5Update
  // ---------------------------------------------------------------------

  /** MD5Init: no bits counted, nothing buffered, and the state words A..D of section 3.3 of RFC 1321. */
  function Init(): (r: Ctx)
    ensures Valid(r) && Bits(r) == 0 && r.pending == []
    ensures LeBytes(r.buf.a) == [0x01, 0x23, 0x45, 0x67] && LeBytes(r.buf.b) == [0x89, 0xab, 0xcd, 0xef]
    ensures LeBytes(r.buf.c) == [0xfe, 0xdc, 0xba, 0x98] && LeBytes(r.buf.d) == [0x76, 0x54, 0x32, 0x10]
  {
    Ctx(0, 0, State(0x67452301, 0xefcdab89, 0x98badcfe, 0x10325476), [])
  }

  /**
   * The byte loop of MD5Update: each byte joins the buffer, and a full
   * buffer of 64 goes through Transform and empties.  It is the blockwise
   * cut of the buffered bytes followed by the input.
   */
  function Absorb(buf: State, pending: seq<byte>, input: seq<byte>, f: Compress): (r: (State, seq<byte>))
    requires |pending| < 64
    ensures r == Blocks(buf, pending + input, f)
    decreases |input|
  {
    if |input| == 0 then
      assert pending + input == pending;
      (buf, pending)
    else
      var p := pending + [input[0]];
      assert pending + input == p + input[1..];
      if |p| == 64 then
        assert (p + input[1..])[..64] == p;
        assert (p + input[1..])[64..] == [] + input[1..] == input[1..];
        Absorb(f(buf, Words(p, 16)), [], input[1..], f)
      else Absorb(buf, p, input[1..], f)
  }

  /**
   * The count arithmetic of MD5Update: 8n added to the low word, a carry
   * into the high word when the low word wraps (it is smaller afterwards),
   * and n >> 29 added to the high word as well.  The pair is the 64-bit
   * count plus 8n, modulo 2^64, and the buffered-byte count moves by n.
   */
  function AddCount(lo: u32, hi: u32, n: nat): (r: (u32, u32))
    requires n < 0x1_0000
    ensures Count64(r.0, r.1) == (Count64(lo, hi) + 8 * n) % TWO64
    ensures Mdi(r.0) == (Mdi(lo) + n) % 64
  {
    var lo' := U32(lo + 8 * n);
    var hi' := U32(U32(hi + (if lo' < lo then 1 else 0)) + n / 0x2000_0000);
    LowStep(lo, n);
    CarryStep(lo, hi, n);
    (lo', hi')
  }

  /** The buffered-byte count read from the new low word. */
  lemma LowStep(lo: u32, n: nat)
    requires n < 0x1_0000
    ensures Mdi(U32(lo + 8 * n)) == (Mdi(lo) + n) % 64
  {
    var x := lo + 8 * n;
    var q := lo / 8;
    var k := if x < TWO32 then 0 else 1;
    UniqueMod(x, TWO32, k, x - k * TWO32);
    var lo' := x - k * TWO32;
    assert lo' == 8 * (q + n - k * 0x2000_0000) + lo % 8;
    UniqueMod(lo', 8, q + n - k * 0x2000_0000, lo % 8);
    ShiftMod64(q + n, k);
    SumMod64(q, n);
  }

  /** Removing a multiple of 2^29 does not change a value mod 64. */
  lemma ShiftMod64(y: int, k: int)
    ensures (y - k * 0x2000_0000) % 64 == y % 64
  {
    var r := y % 64;
    var j := y / 64;
    assert y - k * 0x2000_0000 == 64 * (j - k * 0x80_0000) + r;
    UniqueMod(y - k * 0x2000_0000, 64, j - k * 0x80_0000, r);
  }

  /** (q + n) mod 64 only depends on q mod 64. */
  lemma SumMod64(q: nat, n: nat)
    ensures (q + n) % 64 == (q % 64 + n) % 64
  {
    var t := (q % 64 + n) % 64;
    var j := (q % 64 + n) / 64;
    assert q + n == 64 * (q / 64 + j) + t;
    UniqueMod(q + n, 64, q / 64 + j, t);
  }

  /** The 64-bit count with the carry. */
  lemma CarryStep(lo: u32, hi: u32, n: nat)
    requires n < 0x1_0000
    ensures var lo' := U32(lo + 8 * n);
      U32(U32(hi + (if lo' < lo then 1 else 0)) + n / 0x2000_0000) * TWO32 + lo' == (hi * TWO32 + lo + 8 * n) % TWO64
  {
    var x := lo + 8 * n;
    var k := if x < TWO32 then 0 else 1;
    UniqueMod(x, TWO32, k, x - k * TWO32);
    var lo' := x - k * TWO32;
    assert (lo' < lo) == (k == 1);
    assert n / 0x2000_0000 == 0;
    var j := if hi + k < TWO32 then 0 else 1;
    UniqueMod(hi + k, TWO32, j, hi + k - j * TWO32);
    UniqueMod(hi + k - j * TWO32, TWO32, 0, hi + k - j * TWO32);
    assert hi * TWO32 + x == TWO64 * j + ((hi + k - j * TWO32) * TWO32 + lo');
    UniqueMod(hi * TWO32 + x, TWO64, j, (hi + k - j * TWO32) * TWO32 + lo');
  }

  /**
   * MD5Update (inLen is a u16t): the bit count grows by 8 * inLen modulo
   * 2^64, and the buffered bytes plus the input are cut into blocks, the
   * incomplete last one staying buffered.
   */
  function Update(c: Ctx, input: seq<byte>, f: Compress): (r: Ctx)
    requires Valid(c) && |input| < 0x1_0000
    ensures Valid(r)
    ensures Bits(r) == (Bits(c) + 8 * |input|) % TWO64
    ensures (r.buf, r.pending) == Blocks(c.buf, c.pending + input, f)
  {
    var count := AddCount(c.lo, c.hi, |input|);
    var absorbed := Absorb(c.buf, c.pending, input, f);
    assert |absorbed.1| == (|c.pending| + |input|) % 64;
    Ctx(count.0, count.1, absorbed.0, absorbed.1)
  }

  // ---------------------------------------------------------------------
  // MD5Final
  // ---------------------------------------------------------------------

  function Zeros(n: nat): (r: seq<byte>)
    ensures |r| == n && forall i :: 0 <= i < n ==> r[i] == 0
  {
    seq(n, i => 0)
  }

  /** MD5Final's padding length: up to 56 bytes modulo 64, never none. */
  function PadLen(mdi: nat): nat
    requires mdi < 64
  {
    if mdi < 56 then 56 - mdi else 120 - mdi
  }

  /** The padding brings the buffer to 56 bytes. */
  lemma PadFills(mdi: nat, k: nat)
    requires mdi < 64 && k == PadLen(mdi) - 1
    ensures (mdi + (1 + k)) % 64 == 56
  {
  }

  /** The padding loop of MD5Final: one MD5Update per zero byte. */
  function ZeroUpdates(c: Ctx, n: nat, f: Compress): (r: Ctx)
    requires Valid(c)
    ensures Valid(r) && (r.buf, r.pending) == Blocks(c.buf, c.pending + Zeros(n), f)
    decreases n
  {
    if n == 0 then
      assert c.pending + Zeros(0) == c.pending;
      c
    else
      var c1 := Update(c, [0], f);
      var r := ZeroUpdates(c1, n - 1, f);
      TwoUpdates(c, c1, r, [0], Zeros(n - 1), f);
      ZerosCons(n);
      r
  }

  lemma ZerosCons(n: nat)
    requires n >= 1
    ensures [0] + Zeros(n - 1) == Zeros(n)
  {
  }

  /** Two updates in a row cut the buffered bytes and both inputs into blocks. */
  lemma TwoUpdates(c: Ctx, c1: Ctx, r: Ctx, x: seq<byte>, y: seq<byte>, f: Compress)
    requires (c1.buf, c1.pending) == Blocks(c.buf, c.pending + x, f)
    requires (r.buf, r.pending) == Blocks(c1.buf, c1.pending + y, f)
    ensures (r.buf, r.pending) == Blocks(c.buf, c.pending + (x + y), f)
    ensures |r.pending| == (|c.pending| + (|x| + |y|)) % 64
  {
    var d := c.pending + x;
    BlocksAppend(c.buf, d, y, f);
    var b := Blocks(c.buf, d, f);
    assert b.0 == c1.buf && b.1 == c1.pending;
    assert Blocks(c.buf, d + y, f) == Blocks(c1.buf, c1.pending + y, f);
    AppendAssoc(c.pending, x, y);
  }

  /**
   * The padded context of MD5Final: after 0x80 and PadLen - 1 zeros, the
   * buffer holds exactly 56 bytes, and the state has taken in the same
   * blocks as one update with all the padding bytes would give.
   */
  function Pad(c: Ctx, f: Compress): (r: Ctx)
    requires Valid(c)
    ensures |r.pending| == 56
    ensures (r.buf, r.pending) == Blocks(c.buf, c.pending + ([0x80] + Zeros(PadLen(Mdi(c.lo)) - 1)), f)
  {
    var k := PadLen(Mdi(c.lo)) - 1;
    var zeros := Zeros(k);
    var c1 := Update(c, [0x80], f);
    var r := ZeroUpdates(c1, k, f);
    TwoUpdates(c, c1, r, [0x80], zeros, f);
    PadFills(|c.pending|, k);
    r
  }

  /**
   * MD5Final: the padded buffer's fourteen words and the two words of the
   * bit count saved before padding go through Transform; the digest is
   * the state, little-endian.
   */
  function Final(c: Ctx, f: Compress): (digest: seq<byte>)
    requires Valid(c)
    ensures |digest| == 16
    ensures var p := Pad(c, f);
      digest == Serialize(f(p.buf, Words(p.pending + (LeBytes(c.lo) + LeBytes(c.hi)), 16)))
  {
    var p := Pad(c, f);
    var words := Words(p.pending, 14) + [c.lo, c.hi];
    FinalWords(p.pending, c.lo, c.hi);
    Serialize(f(p.buf, words))
  }

  /** The last block's words: the buffered fourteen, then the count's low and high word. */
  lemma FinalWords(p: seq<byte>, lo: u32, hi: u32)
    requires |p| == 56
    ensures Words(p + (LeBytes(lo) + LeBytes(hi)), 16) == Words(p, 14) + [lo, hi]
  {
    var d := p + (LeBytes(lo) + LeBytes(hi));
    forall i | 0 <= i < 14
      ensures d[4 * i..4 * i + 4] == p[4 * i..4 * i + 4]
    {
    }
    assert d[56..60] == LeBytes(lo);
    assert d[60..64] == LeBytes(hi);
    LeRoundTrip(lo, []);
    LeRoundTrip(hi, []);
  }

  // ---------------------------------------------------------------------
  // The whole digest
  // ---------------------------------------------------------------------

  /**
   * The padded message of sections 3.1 and 3.2 of RFC 1321: a 0x80 byte,
   * the fewest zeros that make the length 56 modulo 64, and the bit length
   * modulo 2^64 as two little-endian words, low word first.
   */
  function Padded(m: seq<byte>): seq<byte>
  {
    var bits := (8 * |m|) % TWO64;
    m + [0x80] + Zeros((55 - |m|) % 64) + LeBytes(bits % TWO32) + LeBytes(bits / TWO32)
  }

  /**
   * One MD5Init, one MD5Update with the message and one MD5Final, as
   * hmac_md5_96 uses them: the digest of section 3.5 of RFC 1321, the
   * state after every block of the padded message.
   */
  function Md5Sum(m: seq<byte>, f: Compress): (digest: seq<byte>)
    requires |m| < 0x1_0000
    ensures digest == Serialize(Blocks(Init().buf, Padded(m), f).0)
  {
    var c := Update(Init(), m, f);
    Md5SumIsReference(m, c, f);
    Final(c, f)
  }

  lemma Md5SumIsReference(m: seq<byte>, c: Ctx, f: Compress)
    requires |m| < 0x1_0000 && c == Update(Init(), m, f)
    ensures Final(c, f) == Serialize(Blocks(Init().buf, Padded(m), f).0)
  {
    assert Bits(c) == (Bits(Init()) + 8 * |m|) % TWO64;
    CountOfMessage(|m|, c.lo, c.hi);
    assert Init().pending + m == m;
    var pad := [0x80] + Zeros(PadLen(Mdi(c.lo)) - 1);
    var tail := LeBytes(c.lo) + LeBytes(c.hi);
    PaddedSplit(m, c.lo, c.hi, pad);
    var p := Pad(c, f);
    PadIsOneUpdate(c, f, pad, p);
    BlockChain(Init().buf, m, pad, tail, c, p, f);
  }

  /** The blocks of m, then of the padding, then of the count make the padded message's blocks. */
  lemma BlockChain(s0: State, m: seq<byte>, pad: seq<byte>, tail: seq<byte>, c: Ctx, p: Ctx, f: Compress)
    requires (c.buf, c.pending) == Blocks(s0, m, f)
    requires (p.buf, p.pending) == Blocks(c.buf, c.pending + pad, f) && |p.pending| == 56 && |tail| == 8
    ensures Blocks(s0, (m + pad) + tail, f).0 == f(p.buf, Words(p.pending + tail, 16))
  {
    BlocksAppend(s0, m, pad, f);
    BlocksAppend(s0, m + pad, tail, f);
    LastBlock(p, tail, f);
  }

  /** A count of 8n bits, n below 2^16: all in the low word, and n mod 64 bytes buffered. */
  lemma CountOfMessage(n: nat, lo: u32, hi: u32)
    requires n < 0x1_0000 && hi * TWO32 + lo == (0 + 8 * n) % TWO64
    ensures lo == 8 * n && hi == 0 && Mdi(lo) == n % 64
  {
    UniqueMod(8 * n, TWO64, 0, 8 * n);
    UniqueMod(8 * n, TWO32, hi, lo);
    UniqueMod(8 * n, TWO32, 0, 8 * n);
    UniqueMod(8 * n, 8, n, 0);
  }

  /** The padded message is m, then MD5Final's padding bytes, then the two count words. */
  lemma PaddedSplit(m: seq<byte>, lo: u32, hi: u32, pad: seq<byte>)
    requires |m| < 0x1_0000 && lo == 8 * |m| && hi == 0 && Mdi(lo) == |m| % 64
    requires pad == [0x80] + Zeros(PadLen(Mdi(lo)) - 1)
    ensures Padded(m) == (m + pad) + (LeBytes(lo) + LeBytes(hi))
  {
    UniqueMod(8 * |m|, TWO64, 0, 8 * |m|);
    UniqueMod(8 * |m|, TWO32, 0, 8 * |m|);
    PadCount(|m|);
  }

  /** RFC 1321's count of zeros, (55 - n) mod 64, is MD5Final's padLen - 1. */
  lemma PadCount(n: nat)
    ensures (55 - n) % 64 == PadLen(n % 64) - 1
  {
    UniqueMod(n, 64, n / 64, n % 64);
    if n % 64 < 56 {
      UniqueMod(55 - n, 64, -(n / 64), 55 - n % 64);
    } else {
      UniqueMod(55 - n, 64, -(n / 64) - 1, 119 - n % 64);
    }
  }

  lemma PadIsOneUpdate(c: Ctx, f: Compress, pad: seq<byte>, p: Ctx)
    requires Valid(c) && pad == [0x80] + Zeros(PadLen(Mdi(c.lo)) - 1) && p == Pad(c, f)
    ensures (p.buf, p.pending) == Blocks(c.buf, c.pending + pad, f) && |p.pending| == 56
  {
  }

  /** A buffer of 56 bytes and the 8 count bytes make the last block. */
  lemma LastBlock(p: Ctx, tail: seq<byte>, f: Compress)
    requires |p.pending| == 56 && |tail| == 8
    ensures Blocks(p.buf, p.pending + tail, f) == (f(p.buf, Words(p.pending + tail, 16)), [])
  {
    var last := p.pending + tail;
    assert last[..64] == last && last[64..] == [];
  }
}

=== FILE: mdns.dfy ===
// The field extraction of the mDNS listener example
// (examples/mdns-aleks/mdns.c): the DNS header of section 4.1.1 of RFC
// 1035, big-endian 16- and 32-bit fields, the class field whose top bit
// is the unicast-response or cache-flush bit of sections 5.4 and 10.2 of
// RFC 6762, and the reading of domain names with compression pointers
// (section 4.1.4 of RFC 1035).

module Mdns {
  import opened SnmpTypes
  import opened ByteArith

  // ---------------------------------------------------------------------
  // Fixed-width fields
  // ---------------------------------------------------------------------

  /** combineTwo: the two bytes at `at`, most significant first. */
  function CombineTwo(data: seq<byte>, at: nat): (r: u16)
    requires at + 2 <= |data|
    ensures r == BE(data[at..at + 2])
  {
    BE2(data[at..at + 2]);
    data[at] as int * 0x100 + data[at + 1]
  }

  /** extractClass: the 16-bit field at `at` with its top bit cleared. */
  function ExtractClass(data: seq<byte>, at: nat): (r: u16)
    requires at + 2 <= |data|
    ensures r < 0x8000
  {
    CombineTwo(data, at) % 0x8000
  }

  /** extractFirst: the top bit of the 16-bit field at `at`. */
  function ExtractFirst(data: seq<byte>, at: nat): (r: u16)
    requires at + 2 <= |data|
    ensures r == 0 || r == 1
    ensures r == 1 <==> data[at] >= 0x80
  {
    CombineTwo(data, at) / 0x8000
  }

  /** The class field is its top bit followed by the fifteen class bits. */
  lemma ClassSplit(data: seq<byte>, at: nat)
    requires at + 2 <= |data|
    ensures CombineTwo(data, at) == ExtractFirst(data, at) * 0x8000 + ExtractClass(data, at)
  {
  }

  /** extractTTL: the four bytes at `at`, most significant first. */
  function ExtractTtl(data: seq<byte>, at: nat): (r: u32)
    requires at + 4 <= |data|
  {
    data[at] as int * 0x100_0000 + data[at + 1] as int * 0x1_0000 + data[at + 2] as int * 0x100 + data[at + 3]
  }

  lemma BE2(s: seq<byte>)
    requires |s| == 2
    ensures BE(s) == s[0] as int * 0x100 + s[1]
  {
    assert s[..1][..0] == [];
    assert BE(s[..1]) == s[0];
  }

  lemma BE4(s: seq<byte>)
    requires |s| == 4
    ensures BE(s) == s[0] as int * 0x100_0000 + s[1] as int * 0x1_0000 + s[2] as int * 0x100 + s[3]
  {
    BE2(s[..2]);
    assert s[..3][..2] == s[..2];
    assert BE(s[..3]) == BE(s[..2]) * 0x100 + s[2];
  }

  /** The TTL is the big-endian value of its four bytes, and writing a word out in four bytes reads back. */
  lemma TtlIsBigEndian(data: seq<byte>, at: nat, w: u32)
    requires at + 4 <= |data|
    ensures ExtractTtl(data, at) == BE(data[at..at + 4])
    ensures ExtractTtl(BytesOf(w, 4), 0) == w
  {
    BE4(data[at..at + 4]);
    BytesOfValue(w, 4);
    BE4(BytesOf(w, 4));
  }

  /** Writing a 16-bit value out in two bytes reads back through combineTwo. */
  lemma CombineTwoRoundTrip(v: u16)
    ensures CombineTwo(BytesOf(v, 2), 0) == v
  {
    BytesOfValue(v, 2);
    assert BytesOf(v, 2)[0..2] == BytesOf(v, 2);
  }

  // ---------------------------------------------------------------------
  // The header
  // ---------------------------------------------------------------------

  /** The fields tcpip_handler takes from the twelve header bytes. */
  datatype Header = Header(
    id: u16, qr: byte, opcode: byte, aa: byte, tc: byte, rd: byte,
    ra: byte, z: byte, ad: byte, cd: byte, rcode: byte,
    questions: u16, answers: u16, authorities: u16, additionals: u16)

  /** Flags are single bits; opcode and rcode are four bits wide. */
  predicate HeaderFits(h: Header)
  {
    h.qr < 2 && h.opcode < 16 && h.aa < 2 && h.tc < 2 && h.rd < 2 &&
    h.ra < 2 && h.z < 2 && h.ad < 2 && h.cd < 2 && h.rcode < 16
  }

  /**
   * The header decode of tcpip_handler: the identification and the four
   * counts are big-endian 16-bit words at offsets 0, 4, 6, 8 and 10; byte 2
   * holds qr, opcode, aa, tc and rd from the top bit down, byte 3 holds ra,
   * z, ad, cd and the rcode.
   */
  function DecodeHeader(data: seq<byte>): (h: Header)
    requires |data| >= 12
    ensures HeaderFits(h)
  {
    var b2, b3 := data[2], data[3];
    Header(CombineTwo(data, 0),
      b2 / 0x80, (b2 / 8) % 16, (b2 / 4) % 2, (b2 / 2) % 2, b2 % 2,
      (b3 / 0x80) % 2, (b3 / 0x40) % 2, (b3 / 0x20) % 2, (b3 / 0x10) % 2, b3 % 16,
      CombineTwo(data, 4), CombineTwo(data, 6), CombineTwo(data, 8), CombineTwo(data, 10))
  }

  /** totalRRs: the three record counts added in 16-bit arithmetic. */
  function TotalRecords(h: Header): (r: u16)
    ensures h.answers + h.authorities + h.additionals < 0x1_0000 ==> r == h.answers + h.authorities + h.additionals
  {
    (h.answers + h.authorities + h.additionals) % 0x1_0000
  }

  /** The twelve header bytes as section 4.1.1 of RFC 1035 lays them out. */
  function EncodeHeader(h: Header): (r: seq<byte>)
    requires HeaderFits(h)
    ensures |r| == 12
  {
    BytesOf(h.id, 2) +
    [h.qr * 0x80 + h.opcode * 8 + h.aa * 4 + h.tc * 2 + h.rd,
     h.ra * 0x80 + h.z * 0x40 + h.ad * 0x20 + h.cd * 0x10 + h.rcode] +
    BytesOf(h.questions, 2) + BytesOf(h.answers, 2) + BytesOf(h.authorities, 2) + BytesOf(h.additionals, 2)
  }

  /** Every header the layout can carry is decoded as it was written. */
  lemma HeaderRoundTrip(h: Header)
    requires HeaderFits(h)
    ensures DecodeHeader(EncodeHeader(h)) == h
  {
    var e := EncodeHeader(h);
    var b2 := h.qr * 0x80 + h.opcode * 8 + h.aa * 4 + h.tc * 2 + h.rd;
    var b3 := h.ra * 0x80 + h.z * 0x40 + h.ad * 0x20 + h.cd * 0x10 + h.rcode;
    assert e[2] == b2 && e[3] == b3;
    assert e[0..2] == BytesOf(h.id, 2) && e[4..6] == BytesOf(h.questions, 2) && e[6..8] == BytesOf(h.answers, 2);
    assert e[8..10] == BytesOf(h.authorities, 2) && e[10..12] == BytesOf(h.additionals, 2);
    WordAt(e, 0, h.id);
    WordAt(e, 4, h.questions);
    WordAt(e, 6, h.answers);
    WordAt(e, 8, h.authorities);
    WordAt(e, 10, h.additionals);
    FlagsRoundTrip(h.qr, h.opcode, h.aa, h.tc, h.rd);
    FlagsRoundTrip(h.ra, h.z * 4 + h.ad * 2 + h.cd, 0, 0, 0);
    NibbleRoundTrip(h.ra, h.z, h.ad, h.cd, h.rcode);
  }

  /** Byte 2: qr in the top bit, four opcode bits, then aa, tc and rd. */
  lemma FlagsRoundTrip(qr: byte, opcode: byte, aa: byte, tc: byte, rd: byte)
    requires qr < 2 && opcode < 16 && aa < 2 && tc < 2 && rd < 2
    ensures var b := qr * 0x80 + opcode * 8 + aa * 4 + tc * 2 + rd;
      b / 0x80 == qr && (b / 8) % 16 == opcode && (b / 4) % 2 == aa && (b / 2) % 2 == tc && b % 2 == rd
  {
  }

  /** Byte 3: ra, z, ad and cd from the top bit down, then the four rcode bits. */
  lemma NibbleRoundTrip(ra: byte, z: byte, ad: byte, cd: byte, rcode: byte)
    requires ra < 2 && z < 2 && ad < 2 && cd < 2 && rcode < 16
    ensures var b := ra * 0x80 + z * 0x40 + ad * 0x20 + cd * 0x10 + rcode;
      (b / 0x80) % 2 == ra && (b / 0x40) % 2 == z && (b / 0x20) % 2 == ad && (b / 0x10) % 2 == cd && b % 16 == rcode
  {
  }

  /** Every twelve bytes are the encoding of the header they decode to. */
  lemma HeaderBytesRoundTrip(data: seq<byte>)
    requires |data| >= 12
    ensures EncodeHeader(DecodeHeader(data)) == data[..12]
  {
    var h := DecodeHeader(data);
    var e := EncodeHeader(h);
    WordBytes(data, 0);
    WordBytes(data, 4);
    WordBytes(data, 6);
    WordBytes(data, 8);
    WordBytes(data, 10);
    BitsOf(data[2]);
    BitsOf(data[3]);
    assert e[2] == data[2] && e[3] == data[3];
    assert e[0..2] == data[0..2] && e[4..6] == data[4..6] && e[6..8] == data[6..8];
    assert e[8..10] == data[8..10] && e[10..12] == data[10..12];
    assert forall i :: 0 <= i < 12 ==> e[i] == data[i];
  }

  /** A byte is its bits put back together, read either way the two flag bytes split. */
  lemma BitsOf(b: byte)
    ensures b == (b / 0x80) * 0x80 + ((b / 8) % 16) * 8 + ((b / 4) % 2) * 4 + ((b / 2) % 2) * 2 + b % 2
    ensures b == ((b / 0x80) % 2) * 0x80 + ((b / 0x40) % 2) * 0x40 + ((b / 0x20) % 2) * 0x20 + ((b / 0x10) % 2) * 0x10 + b % 16
  {
    var hi, r := b / 0x80, b % 0x80;
    var o, r2 := r / 8, r % 8;
    var a, r3 := r2 / 4, r2 % 4;
    FlagsRoundTrip(hi, o, a, r3 / 2, r3 % 2);
    var z, q := r / 0x40, r % 0x40;
    var ad, q2 := q / 0x20, q % 0x20;
    NibbleRoundTrip(hi, z, ad, q2 / 0x10, q2 % 0x10);
  }

  /** The word written at `at` is read back there. */
  lemma WordAt(e: seq<byte>, at: nat, v: u16)
    requires at + 2 <= |e| && e[at..at + 2] == BytesOf(v, 2)
    ensures CombineTwo(e, at) == v
  {
    BytesOfValue(v, 2);
  }

  /** The two bytes at `at` are the two-byte form of the word read there. */
  lemma WordBytes(data: seq<byte>, at: nat)
    requires at + 2 <= |data|
    ensures BytesOf(CombineTwo(data, at), 2) == data[at..at + 2]
  {
    var v := CombineTwo(data, at);
    assert BytesOf(v, 2) == BytesOf(v / 0x100, 1) + [v % 0x100];
    assert BytesOf(v / 0x100, 1) == [(v / 0x100) % 0x100];
  }

  // ---------------------------------------------------------------------
  // Domain names
  // ---------------------------------------------------------------------

  /** The one byte the code takes for a compression pointer, and the end of a name. */
  const COMPRESSED: byte := 192
  const END: byte := 0
  const DOT: byte := '.' as int

  /**
   * strncpy of `src`: the bytes up to the first NUL, then NULs to the
   * same length.
   */
  function Strncpy(src: seq<byte>): (r: seq<byte>)
    ensures |r| == |src|
    ensures forall i :: 0 <= i < NulAt(src) ==> r[i] == src[i]
    ensures forall i :: NulAt(src) <= i < |src| ==> r[i] == 0
  {
    var n := NulAt(src);
    src[..n] + seq(|src| - n, _ => 0)
  }

  /** The position of the first NUL in `src`, or its length when it has none. */
  function NulAt(src: seq<byte>): (n: nat)
    ensures n <= |src| && (n < |src| ==> src[n] == 0)
    ensures forall i :: 0 <= i < n ==> src[i] != 0
  {
    if |src| == 0 || src[0] == 0 then 0 else 1 + NulAt(src[1..])
  }

  /**
   * One run of labels, read as the loop of composeLabel and decompress
   * reads it: from `ptr`, each length byte is followed by that many bytes,
   * copied with strncpy and followed by a dot, until a byte 0 ends the
   * name or a byte 192 hands over to the offset in the byte after it.
   */
  datatype Segment = Seg(text: seq<byte>, stop: nat, jump: Option<byte>) | SegOverrun

  function ReadSegment(data: seq<byte>, ptr: nat): (r: Segment)
    ensures r.Seg? ==> ptr <= r.stop < |data| && (data[r.stop] == END || data[r.stop] == COMPRESSED)
    ensures r.Seg? && data[r.stop] == END ==> r.jump.None?
    ensures r.Seg? && data[r.stop] == COMPRESSED ==> r.stop + 1 < |data| && r.jump == Some(data[r.stop + 1])
    ensures r.Seg? && ptr < r.stop ==> data[ptr] != END && data[ptr] != COMPRESSED
    decreases |data| - ptr
  {
    if ptr >= |data| then SegOverrun
    else if data[ptr] == COMPRESSED then
      if ptr + 1 < |data| then Seg([], ptr, Some(data[ptr + 1])) else SegOverrun
    else if data[ptr] == END then Seg([], ptr, None)
    else
      var n := data[ptr];
      if ptr + 1 + n >= |data| then SegOverrun
      else
        match ReadSegment(data, ptr + 1 + n)
        case Seg(t, stop, jump) => Seg(Strncpy(data[ptr + 1..ptr + 1 + n]) + [DOT] + t, stop, jump)
        case SegOverrun => SegOverrun
  }

  /** The outcome of reading a name: its text, a read past the packet, or a pointer chain that returns on itself. */
  datatype NameRead = Name(text: seq<byte>) | Overrun | Loop | Running

  /** Membership of an offset in a range, a term for the range's quantifier to hang on. */
  predicate Below(x: nat, n: nat) { x < n }

  /** The offsets below n. */
  function Range(n: nat): (r: set<nat>)
    ensures |r| == n
  {
    RangeCount(n);
    set x: nat | x < n && Below(x, n)
  }

  lemma {:induction false} RangeCount(n: nat)
    ensures |set x: nat | x < n && Below(x, n)| == n
  {
    if n > 0 {
      var m := n - 1;
      RangeCount(m);
      assert (set x: nat | x < n && Below(x, n)) == (set x: nat | x < m && Below(x, m)) + {m};
    }
  }

  /** Every offset a one-byte pointer can name. */
  function Targets(): set<nat> { Range(0x100) }

  /** The text of one run put in front of what the rest of the walk read. */
  function Join(t: seq<byte>, rest: NameRead): (r: NameRead)
    ensures rest.Name? ==> r == Name(t + rest.text)
    ensures !rest.Name? ==> r == rest
  {
    if rest.Name? then Name(t + rest.text) else rest
  }

  /**
   * composeLabel as evidently intended: the runs of labels joined along
   * the pointers, refusing a pointer to an offset the walk already jumped
   * to, from where the same runs would be read again forever.
   */
  function Walk(data: seq<byte>, ptr: nat, visited: set<nat>): (r: NameRead)
    requires visited <= Targets()
    ensures r != Running
    decreases Targets() - visited
  {
    match ReadSegment(data, ptr)
    case SegOverrun => Overrun
    case Seg(t, _, jump) =>
      if jump.None? then Name(t)
      else if jump.value in visited then Loop
      else
        Join(t, Walk(data, jump.value, visited + {jump.value}))
  }

  function ComposeLabel(data: seq<byte>, ptr: nat): (r: NameRead)
    ensures r != Running
  {
    Walk(data, ptr, {})
  }

  /**
   * composeLabel and decompress as written: every pointer is followed,
   * with no check for a chain that returns on itself.  `fuel` counts the
   * pointers followed; Running means the walk has not ended yet.
   */
  function WalkAsWritten(data: seq<byte>, ptr: nat, fuel: nat): (r: NameRead)
    ensures r != Loop
    decreases fuel
  {
    if fuel == 0 then Running
    else
      match ReadSegment(data, ptr)
      case SegOverrun => Overrun
      case Seg(t, _, jump) =>
        if jump.None? then Name(t)
        else
          Join(t, WalkAsWritten(data, jump.value, fuel - 1))
  }

  /**
   * Where the corrected walk reads a name or runs off the packet, the walk
   * as written does the same once it may follow as many pointers as there
   * are offsets left to jump to.
   */
  lemma {:induction false} WalkAgrees(data: seq<byte>, ptr: nat, visited: set<nat>, fuel: nat)
    requires visited <= Targets() && fuel > |Targets() - visited|
    requires Walk(data, ptr, visited) != Loop
    ensures WalkAsWritten(data, ptr, fuel) == Walk(data, ptr, visited)
    decreases Targets() - visited
  {
    var seg := ReadSegment(data, ptr);
    if seg.Seg? && seg.jump.Some? {
      var j := seg.jump.value;
      if j !in visited {
        var v' := visited + {j};
        assert j in Targets() - visited;
        assert Targets() - v' == (Targets() - visited) - {j};
        WalkAgrees(data, j, v', fuel - 1);
        assert Walk(data, ptr, visited) == Join(seg.text, Walk(data, j, v'));
        assert WalkAsWritten(data, ptr, fuel) == Join(seg.text, WalkAsWritten(data, j, fuel - 1));
      }
    }
  }

  /** A name's reading as written agrees with the corrected one: 257 pointer jumps always suffice. */
  lemma ComposeLabelAgrees(data: seq<byte>, ptr: nat)
    requires ComposeLabel(data, ptr) != Loop
    ensures WalkAsWritten(data, ptr, 0x101) == ComposeLabel(data, ptr)
  {
    WalkAgrees(data, ptr, {}, 0x101);
  }

  /**
   * The two-byte packet C0 00 points at itself: as written the walk never
   * ends, however many pointers it may follow; the corrected walk reports
   * the loop.
   */
  lemma SelfPointerNeverEnds(fuel: nat)
    ensures WalkAsWritten([COMPRESSED, 0], 0, fuel) == Running
    ensures ComposeLabel([COMPRESSED, 0], 0) == Loop
  {
    if fuel > 0 {
      SelfPointerNeverEnds(fuel - 1);
    }
    assert ReadSegment([COMPRESSED, 0], 0) == Seg([], 0, Some(0));
    assert 0 in Targets();
  }

  /** The offset the run of labels at `v` jumps to, when it reads and ends in a pointer. */
  function JumpOf(data: seq<byte>, v: nat): (r: Option<nat>)
  {
    var s := ReadSegment(data, v);
    if s.Seg? && s.jump.Some? then Some(s.jump.value as nat) else None
  }

  /** `n` pointer jumps lead from the run at `a` to the run at `b`. */
  predicate Leads(data: seq<byte>, a: nat, b: nat, n: nat)
    decreases n
  {
    if n == 0 then a == b
    else JumpOf(data, a).Some? && Leads(data, JumpOf(data, a).value, b, n - 1)
  }

  /** Some number of pointer jumps lead from `a` to `b`. */
  ghost predicate Reaches(data: seq<byte>, a: nat, b: nat)
  {
    exists k: nat :: Leads(data, a, b, k)
  }

  /** A chain that reaches `b` reaches where `b` jumps to one jump later. */
  lemma {:induction false} LeadsOn(data: seq<byte>, a: nat, b: nat, k: nat, j: nat)
    requires Leads(data, a, b, k) && JumpOf(data, b) == Some(j)
    ensures Leads(data, a, j, k + 1)
    decreases k
  {
    if k > 0 {
      LeadsOn(data, JumpOf(data, a).value, b, k - 1, j);
    }
  }

  /**
   * A walk as written that enters a chain of pointers leading from `p`
   * back to `p` goes round it for as long as it may follow pointers.
   */
  lemma {:induction false} CycleRuns(data: seq<byte>, a: nat, p: nat, k: nat, n: nat, fuel: nat)
    requires Leads(data, a, p, k) && n >= 1 && Leads(data, p, p, n)
    ensures WalkAsWritten(data, a, fuel) == Running
    decreases fuel
  {
    if fuel > 0 {
      if k > 0 {
        CycleRuns(data, JumpOf(data, a).value, p, k - 1, n, fuel - 1);
      } else {
        CycleRuns(data, JumpOf(data, p).value, p, n - 1, n, fuel - 1);
      }
      JumpRuns(data, a, fuel);
    }
  }

  /** A walk as written whose run ends in a pointer is still running if it is from where that pointer leads. */
  lemma JumpRuns(data: seq<byte>, a: nat, fuel: nat)
    requires fuel > 0 && JumpOf(data, a).Some? && WalkAsWritten(data, JumpOf(data, a).value, fuel - 1) == Running
    ensures WalkAsWritten(data, a, fuel) == Running
  {
    var s := ReadSegment(data, a);
    assert WalkAsWritten(data, a, fuel) == Join(s.text, WalkAsWritten(data, JumpOf(data, a).value, fuel - 1));
  }

  /**
   * Where the corrected walk from `c` finds a loop, and every offset it
   * already jumped to leads on to `c`, the walk as written never ends.
   */
  lemma {:induction false} LoopRuns(data: seq<byte>, c: nat, visited: set<nat>, fuel: nat)
    requires visited <= Targets()
    requires forall v :: v in visited ==> Reaches(data, v, c)
    requires Walk(data, c, visited) == Loop
    ensures WalkAsWritten(data, c, fuel) == Running
    decreases Targets() - visited
  {
    var s := ReadSegment(data, c);
    assert s.Seg? && s.jump.Some?;
    var j: nat := s.jump.value;
    assert JumpOf(data, c) == Some(j);
    if j in visited {
      var k: nat :| Leads(data, j, c, k);
      LeadsOn(data, j, c, k, j);
      assert Leads(data, c, j, 1);
      CycleRuns(data, c, j, 1, k + 1, fuel);
    } else {
      var v' := visited + {j};
      LeadAll(data, visited, c, j);
      assert j in Targets() - visited;
      assert Targets() - v' == (Targets() - visited) - {j};
      assert Walk(data, c, visited) == Join(s.text, Walk(data, j, v'));
      if fuel > 0 {
        LoopRuns(data, j, v', fuel - 1);
        assert WalkAsWritten(data, c, fuel) == Join(s.text, WalkAsWritten(data, j, fuel - 1));
      }
    }
  }

  /** When every offset in `visited` leads to `c`, every one of them and `j` lead to where `c` jumps, `j`. */
  lemma LeadAll(data: seq<byte>, visited: set<nat>, c: nat, j: nat)
    requires forall v :: v in visited ==> Reaches(data, v, c)
    requires JumpOf(data, c) == Some(j)
    ensures forall v :: v in visited + {j} ==> Reaches(data, v, j)
  {
    forall v | v in visited + {j}
      ensures Reaches(data, v, j)
    {
      if v == j {
        assert Leads(data, j, j, 0);
      } else {
        var k: nat :| Leads(data, v, c, k);
        LeadsOn(data, v, c, k, j);
      }
    }
  }

  /** Where the corrected walk reports a loop, composeLabel as written never returns. */
  lemma LoopNeverEnds(data: seq<byte>, ptr: nat, fuel: nat)
    requires ComposeLabel(data, ptr) == Loop
    ensures WalkAsWritten(data, ptr, fuel) == Running
  {
    LoopRuns(data, ptr, {}, fuel);
  }

  /**
   * composeLabel as written, allowed the 257 pointer jumps after which it
   * either has returned or never will.
   */
  function ComposeLabelAsWritten(data: seq<byte>, ptr: nat): (r: NameRead)
    ensures r != Loop
  {
    WalkAsWritten(data, ptr, ENOUGH_JUMPS)
  }

  /** One more pointer jump than there are offsets a pointer can name. */
  const ENOUGH_JUMPS: nat := 0x101

  /**
   * composeLabel as written is still running after 257 pointer jumps
   * exactly when the corrected walk finds a loop, and then it runs
   * forever; otherwise it has returned the corrected walk's name or
   * overrun, and more jumps change nothing.
   */
  lemma ComposeLabelAsWrittenMeans(data: seq<byte>, ptr: nat)
    ensures ComposeLabelAsWritten(data, ptr) == Running <==> ComposeLabel(data, ptr) == Loop
    ensures ComposeLabelAsWritten(data, ptr) == Running ==> forall fuel :: WalkAsWritten(data, ptr, fuel) == Running
    ensures ComposeLabelAsWritten(data, ptr) != Running ==>
      forall fuel :: fuel > 0x100 ==> WalkAsWritten(data, ptr, fuel) == ComposeLabel(data, ptr)
  {
    if ComposeLabel(data, ptr) == Loop {
      forall fuel
        ensures WalkAsWritten(data, ptr, fuel) == Running
      {
        LoopNeverEnds(data, ptr, fuel);
      }
    } else {
      forall fuel | fuel > 0x100
        ensures WalkAsWritten(data, ptr, fuel) == ComposeLabel(data, ptr)
      {
        WalkAgrees(data, ptr, {}, fuel);
      }
      ComposeLabelAgrees(data, ptr);
    }
  }

  /** composeLabel as written, allowed 257 jumps, as the corrected walk's outcome. */
  lemma AsWrittenIsCorrected(data: seq<byte>, ptr: nat)
    ensures ComposeLabelAsWritten(data, ptr) == if ComposeLabel(data, ptr) == Loop then Running else ComposeLabel(data, ptr)
  {
    ComposeLabelAsWrittenMeans(data, ptr);
  }

  // ---------------------------------------------------------------------
  // labelLength
  // ---------------------------------------------------------------------

  /** The scan of labelLength: the first position from `i` on holding 0 or 192. */
  function ScanStop(data: seq<byte>, i: nat): (r: Option<nat>)
    ensures r.Some? ==> i <= r.value < |data| && (data[r.value] == END || data[r.value] == COMPRESSED)
    ensures r.Some? ==> forall k :: i <= k < r.value ==> data[k] != END && data[k] != COMPRESSED
    ensures r.None? ==> forall k :: i <= k < |data| ==> data[k] != END && data[k] != COMPRESSED
    decreases |data| - i
  {
    if i >= |data| then None
    else if data[i] == END || data[i] == COMPRESSED then Some(i)
    else ScanStop(data, i + 1)
  }

  /**
   * labelLength: the bytes before the first 0 or 192, plus one for a 0 or
   * two for a pointer.  None when the scan would run past the packet.
   */
  function LabelLength(data: seq<byte>, ptr: nat): (r: Option<nat>)
    ensures r.Some? ==> r.value >= 1
  {
    match ScanStop(data, ptr)
    case None => None
    case Some(p) => Some(p - ptr + if data[p] == COMPRESSED then 2 else 1)
  }

  /** The bytes one run of labels takes, terminator or pointer included. */
  function SegmentLength(s: Segment, ptr: nat): nat
    requires s.Seg? && s.stop >= ptr
  {
    s.stop - ptr + if s.jump.Some? then 2 else 1
  }

  /**
   * The scan of labelLength ends where the run of labels composeLabel
   * reads ends exactly when no byte before that end is 0 or 192, that is
   * when no label holds such a byte; then labelLength is the run's length.
   * Otherwise it stops inside a label and comes out no longer.
   */
  lemma LabelLengthAgrees(data: seq<byte>, ptr: nat)
    requires ReadSegment(data, ptr).Seg?
    ensures var s := ReadSegment(data, ptr);
      ScanStop(data, ptr) == Some(s.stop) <==> forall k :: ptr <= k < s.stop ==> data[k] != END && data[k] != COMPRESSED
    ensures var s := ReadSegment(data, ptr);
      (forall k :: ptr <= k < s.stop ==> data[k] != END && data[k] != COMPRESSED) ==>
        LabelLength(data, ptr) == Some(SegmentLength(s, ptr))
    ensures var s := ReadSegment(data, ptr);
      LabelLength(data, ptr).Some? && LabelLength(data, ptr).value <= SegmentLength(s, ptr)
  {
    var s := ReadSegment(data, ptr);
    var p := ScanStop(data, ptr);
    assert p.Some? && p.value <= s.stop;
  }

  // ---------------------------------------------------------------------
  // Questions and resource records
  // ---------------------------------------------------------------------

  /**
   * How reading an entry ends: read, cut short by the end of the packet,
   * or never, because composeLabel does not return.
   */
  datatype Read<T> = Got(value: T) | Short | Hangs

  /** A question entry: its name, type, class, the unicast-response bit, and where the next entry starts. */
  datatype Question = Question(name: NameRead, qtype: u16, qclass: u16, unicast: u16, next: nat)

  /**
   * The name at the head of a question or a record: composeLabel as
   * written reads it, labelLength skips it.  Hangs when composeLabel never
   * returns; Short when labelLength's scan runs off the packet.
   */
  function ReadName(data: seq<byte>, ptr: nat): (r: Read<(NameRead, nat)>)
    ensures r.Hangs? <==> ComposeLabel(data, ptr) == Loop
    ensures r.Short? <==> ComposeLabel(data, ptr) != Loop && LabelLength(data, ptr).None?
    ensures r.Got? ==> r.value == (ComposeLabel(data, ptr), ptr + LabelLength(data, ptr).value)
  {
    AsWrittenIsCorrected(data, ptr);
    var name := ComposeLabelAsWritten(data, ptr);
    var n := LabelLength(data, ptr);
    if name.Running? then Hangs else if n.None? then Short else Got((name, ptr + n.value))
  }

  /**
   * One turn of the question loop: the name is read by composeLabel as
   * written, the pointer skips it by labelLength, then come the type and
   * the class field.  Hangs when composeLabel never returns; Short when
   * the fixed fields lie past the packet.  A name read is the corrected
   * walk's.
   */
  function ReadQuestion(data: seq<byte>, ptr: nat): (r: Read<Question>)
    ensures r.Got? ==> ptr + 5 <= r.value.next <= |data|
    ensures r.Hangs? <==> ComposeLabel(data, ptr) == Loop
    ensures r.Got? ==> r.value.name == ComposeLabel(data, ptr)
  {
    match ReadName(data, ptr)
    case Hangs => Hangs
    case Short => Short
    case Got((name, p)) =>
      if p + 4 > |data| then Short
      else Got(Question(name, CombineTwo(data, p), ExtractClass(data, p + 2), ExtractFirst(data, p + 2), p + 4))
  }

  /** The record types whose data the answer loop reads a name from. */
  const PTR: u16 := 12
  const SRV: u16 := 33

  /**
   * Where the switch of the answer loop reads a name in a record's data
   * starting at `start`: a PTR's data is the domain name, an SRV's target
   * follows priority, weight and port.  No other type has one.
   */
  function DataNameAt(rtype: u16, start: nat): (r: Option<nat>)
    ensures r.Some? <==> rtype == PTR || rtype == SRV
    ensures r.Some? ==> r.value == start + if rtype == SRV then 6 else 0
  {
    if rtype == PTR then Some(start) else if rtype == SRV then Some(start + 6) else None
  }

  /**
   * A resource record: name, type, class, the cache-flush bit, TTL, data
   * length, the name in its data for PTR and SRV, and where the next
   * record starts.
   */
  datatype Record = Record(name: NameRead, rtype: u16, rclass: u16, flush: u16, ttl: u32, rdLength: u16,
    target: Option<NameRead>, next: nat)

  /**
   * The fixed fields at `p` are inside the packet, and the record's data
   * holds a name whose pointer chain the corrected walk finds to loop.
   */
  predicate DataLoopsAt(data: seq<byte>, p: nat)
  {
    p + 10 <= |data| &&
    var at := DataNameAt(CombineTwo(data, p), p + 10);
    at.Some? && ComposeLabel(data, at.value) == Loop
  }

  /** The record at `ptr`, whose name ends, has a data name that loops. */
  predicate DataLoops(data: seq<byte>, ptr: nat)
  {
    var n := LabelLength(data, ptr);
    n.Some? && DataLoopsAt(data, ptr + n.value)
  }

  /**
   * One turn of the answer loop: the name is read by composeLabel as
   * written, then come type, class, TTL and data length; for PTR and SRV
   * the switch reads the name in the data by composeLabel too; the next
   * record starts after the data.  Hangs when a composeLabel never
   * returns; Short when the fixed fields lie past the packet.
   */
  function ReadRecord(data: seq<byte>, ptr: nat): (r: Read<Record>)
    ensures r.Got? ==> r.value.next >= ptr + 11 + r.value.rdLength
    ensures r.Hangs? <==> ComposeLabel(data, ptr) == Loop || DataLoops(data, ptr)
    ensures r.Got? ==> r.value.name == ComposeLabel(data, ptr)
    ensures r.Got? ==> var at := DataNameAt(r.value.rtype, r.value.next - r.value.rdLength);
      r.value.target == if at.Some? then Some(ComposeLabel(data, at.value)) else None
  {
    match ReadName(data, ptr)
    case Hangs => Hangs
    case Short => Short
    case Got((name, p)) =>
      if p + 10 > |data| then Short else RecordRest(data, name, p)
  }

  /**
   * The rest of a turn of the answer loop once the name is read: the fixed
   * fields at `p`, then the switch's composeLabel of the name in a PTR's or
   * SRV's data, which hangs the handler when it never returns.
   */
  function RecordRest(data: seq<byte>, name: NameRead, p: nat): (r: Read<Record>)
    requires p + 10 <= |data|
    ensures !r.Short?
    ensures r.Hangs? <==> DataLoopsAt(data, p)
    ensures r.Got? ==> r.value.name == name && r.value.rtype == CombineTwo(data, p)
    ensures r.Got? ==> r.value.rdLength == CombineTwo(data, p + 8) && r.value.next == p + 10 + r.value.rdLength
    ensures r.Got? ==> var at := DataNameAt(r.value.rtype, p + 10);
      r.value.target == if at.Some? then Some(ComposeLabel(data, at.value)) else None
  {
    var rtype := CombineTwo(data, p);
    var len := CombineTwo(data, p + 8);
    var at := DataNameAt(rtype, p + 10);
    if at.None? then
      Got(Record(name, rtype, ExtractClass(data, p + 2), ExtractFirst(data, p + 2),
        ExtractTtl(data, p + 4), len, None, p + 10 + len))
    else
      AsWrittenIsCorrected(data, at.value);
      var target := ComposeLabelAsWritten(data, at.value);
      if target.Running? then Hangs
      else
        Got(Record(name, rtype, ExtractClass(data, p + 2), ExtractFirst(data, p + 2),
          ExtractTtl(data, p + 4), len, Some(target), p + 10 + len))
  }

  /**
   * `n` entries read one after the other from `ptr`, each starting where
   * the previous one said the next begins, and where the last one ends.
   * The first entry that cannot be read decides how the loop ends.
   */
  function Repeat<T>(step: nat -> Read<T>, next: T -> nat, ptr: nat, n: nat): (r: Read<(seq<T>, nat)>)
    ensures r.Got? ==> |r.value.0| == n
    ensures n > 0 ==> (r.Got? ==> step(ptr).Got? && r.value.0[0] == step(ptr).value)
    ensures n > 0 && !step(ptr).Got? ==> (r.Hangs? <==> step(ptr).Hangs?) && !r.Got?
    decreases n
  {
    if n == 0 then Got(([], ptr))
    else
      var e := step(ptr);
      if e.Short? then Short
      else if e.Hangs? then Hangs
      else
        var rest := Repeat(step, next, next(e.value), n - 1);
        if rest.Got? then Got(([e.value] + rest.value.0, rest.value.1)) else rest
  }

  /** Reading m + n entries is reading m of them, then n more from where those end. */
  lemma {:induction false} RepeatSplit<T>(step: nat -> Read<T>, next: T -> nat, ptr: nat, m: nat, n: nat)
    ensures Repeat(step, next, ptr, m + n) ==
      var first := Repeat(step, next, ptr, m);
      if !first.Got? then first
      else
        var second := Repeat(step, next, first.value.1, n);
        if !second.Got? then second
        else Got((first.value.0 + second.value.0, second.value.1))
    decreases m
  {
    if m > 0 {
      var e := step(ptr);
      if e.Got? {
        var p := next(e.value);
        RepeatSplit(step, next, p, m - 1, n);
        assert m + n - 1 == (m - 1) + n;
        var first := Repeat(step, next, p, m - 1);
        if first.Got? {
          var second := Repeat(step, next, first.value.1, n);
          if second.Got? {
            assert [e.value] + (first.value.0 + second.value.0) == ([e.value] + first.value.0) + second.value.0;
          }
        }
      }
    } else {
      var r := Repeat(step, next, ptr, n);
      if r.Got? {
        assert [] + r.value.0 == r.value.0;
      }
    }
  }

  /** The question loop of tcpip_handler: `n` questions, and where the first record starts. */
  function ReadQuestions(data: seq<byte>, ptr: nat, n: nat): (r: Read<(seq<Question>, nat)>)
    ensures r.Got? ==> |r.value.0| == n
  {
    Repeat(p => ReadQuestion(data, p), (q: Question) => q.next, ptr, n)
  }

  /**
   * The answer loop of tcpip_handler over the answer, authority and
   * additional records together: `n` records, each followed by its data.
   */
  function ReadRecords(data: seq<byte>, ptr: nat, n: nat): (r: Read<(seq<Record>, nat)>)
    ensures r.Got? ==> |r.value.0| == n
  {
    Repeat(p => ReadRecord(data, p), (rr: Record) => rr.next, ptr, n)
  }

  /**
   * The records after the questions: a packet whose questions read back
   * reads as the record loop started where the questions end, over the
   * 16-bit total of the three counts.  A question whose name never ends
   * hangs the handler before any record is read; so does a first record,
   * when there is no question, whose name or PTR or SRV data never ends.
   */
  function ReadPacket(data: seq<byte>): (r: Read<(Header, seq<Question>, seq<Record>)>)
    ensures r.Got? ==> |data| >= 12 && |r.value.1| == r.value.0.questions && |r.value.2| == TotalRecords(r.value.0)
    ensures |data| >= 12 && DecodeHeader(data).questions > 0 && ComposeLabel(data, 12) == Loop ==> r.Hangs?
    ensures (|data| >= 12 && DecodeHeader(data).questions == 0 && TotalRecords(DecodeHeader(data)) > 0 &&
      (ComposeLabel(data, 12) == Loop || DataLoops(data, 12))) ==> r.Hangs?
  {
    if |data| < 12 then Short
    else
      var h := DecodeHeader(data);
      var qs := ReadQuestions(data, 12, h.questions);
      if qs.Short? then Short
      else if qs.Hangs? then Hangs
      else
        var rs := ReadRecords(data, qs.value.1, TotalRecords(h));
        if rs.Short? then Short
        else if rs.Hangs? then Hangs
        else Got((h, qs.value.0, rs.value.0))
  }

  /**
   * A packet with one question whose name is a pointer to itself, C0 0C
   * at offset 12: the handler as written never returns from composeLabel,
   * where the corrected walk reports the loop.
   */
  lemma LoopingQuestionHangs()
    ensures var data := [0, 0, 0, 0, 0, 1, 0, 0, 0, 0, 0, 0, COMPRESSED, 12, 0, 1, 0, 1];
      ReadPacket(data) == Hangs && forall fuel :: WalkAsWritten(data, 12, fuel) == Running
  {
    var data: seq<byte> := [0, 0, 0, 0, 0, 1, 0, 0, 0, 0, 0, 0, COMPRESSED, 12, 0, 1, 0, 1];
    assert DecodeHeader(data).questions == 1;
    assert ReadSegment(data, 12) == Seg([], 12, Some(12));
    assert 12 in Targets();
    assert Walk(data, 12, {12}) == Loop;
    assert ComposeLabel(data, 12) == Loop;
    ComposeLabelAsWrittenMeans(data, 12);
  }

  /**
   * A packet with no question and one answer, a PTR record whose data
   * C0 17 at offset 23 points at itself: the handler as written never
   * returns from the composeLabel of the switch, though the record's own
   * name is the root.
   */
  lemma LoopingPtrHangs()
    ensures var data := [0, 0, 0, 0, 0, 0, 0, 1, 0, 0, 0, 0, 0, 0, 12, 0, 1, 0, 0, 0, 0, 0, 2, COMPRESSED, 23];
      ReadPacket(data) == Hangs && forall fuel :: WalkAsWritten(data, 23, fuel) == Running
  {
    var data: seq<byte> := [0, 0, 0, 0, 0, 0, 0, 1, 0, 0, 0, 0, 0, 0, 12, 0, 1, 0, 0, 0, 0, 0, 2, COMPRESSED, 23];
    var h := DecodeHeader(data);
    assert data[6] == 0 && data[7] == 1;
    assert CombineTwo(data, 4) == 0;
    assert CombineTwo(data, 6) == 1;
    assert CombineTwo(data, 8) == 0 && CombineTwo(data, 10) == 0;
    assert h.questions == 0 && TotalRecords(h) == 1;
    assert ReadSegment(data, 12) == Seg([], 12, None);
    assert ComposeLabel(data, 12) == Name([]);
    assert LabelLength(data, 12) == Some(1);
    assert CombineTwo(data, 13) == PTR;
    assert ReadSegment(data, 23) == Seg([], 23, Some(23));
    assert 23 in Targets();
    assert Walk(data, 23, {23}) == Loop;
    assert ComposeLabel(data, 23) == Loop;
    assert DataLoops(data, 12);
    ComposeLabelAsWrittenMeans(data, 23);
    assert ReadRecord(data, 12) == Hangs;
    assert ReadQuestions(data, 12, 0) == Got(([], 12));
  }

  /** The fixed fields of a record as section 4.1.3 of RFC 1035 lays them out, the class's top bit the flush bit. */
  function RecordFields(rtype: u16, rclass: u16, flush: u16, ttl: u32, rdLength: u16): (r: seq<byte>)
    requires rclass < 0x8000 && flush < 2
    ensures |r| == 10
  {
    BytesOf(rtype, 2) + BytesOf(flush * 0x8000 + rclass, 2) + BytesOf(ttl, 4) + BytesOf(rdLength, 2)
  }

  /**
   * A record whose name is a run of labels ending in 0 with no 0 or 192
   * inside a label, followed by the fixed fields, reads back field by field,
   * with the corrected walk's name from a PTR's or SRV's data; the next
   * record starts after its data.  When that name's pointers loop, the
   * handler hangs instead.
   */
  lemma RecordRoundTrip(data: seq<byte>, ptr: nat, rtype: u16, rclass: u16, flush: u16, ttl: u32, rdLength: u16)
    requires rclass < 0x8000 && flush < 2
    requires var s := ReadSegment(data, ptr);
      s.Seg? && s.jump.None? && (forall k :: ptr <= k < s.stop ==> data[k] != END && data[k] != COMPRESSED) &&
      var p := s.stop + 1;
      p + 10 <= |data| && data[p..p + 10] == RecordFields(rtype, rclass, flush, ttl, rdLength)
    ensures var s := ReadSegment(data, ptr);
      var p := s.stop + 1;
      var at := DataNameAt(rtype, p + 10);
      if at.Some? && ComposeLabel(data, at.value) == Loop then ReadRecord(data, ptr) == Hangs
      else ReadRecord(data, ptr) == Got(Record(Name(s.text), rtype, rclass, flush, ttl, rdLength,
        if at.Some? then Some(ComposeLabel(data, at.value)) else None, p + 10 + rdLength))
  {
    var s := ReadSegment(data, ptr);
    PlainName(data, ptr);
    assert ReadRecord(data, ptr) == RecordRest(data, Name(s.text), s.stop + 1);
    RestRoundTrip(data, Name(s.text), s.stop + 1, rtype, rclass, flush, ttl, rdLength);
  }

  /** A run of labels ending in 0 with no 0 or 192 inside a label is read whole by both scans. */
  lemma PlainName(data: seq<byte>, ptr: nat)
    requires var s := ReadSegment(data, ptr);
      s.Seg? && s.jump.None? && (forall k :: ptr <= k < s.stop ==> data[k] != END && data[k] != COMPRESSED)
    ensures var s := ReadSegment(data, ptr);
      ComposeLabel(data, ptr) == Name(s.text) && ReadName(data, ptr) == Got((Name(s.text), s.stop + 1))
  {
    LabelLengthAgrees(data, ptr);
  }

  /** Fixed fields written at `p` read back, followed by the name in a PTR's or SRV's data. */
  lemma RestRoundTrip(data: seq<byte>, name: NameRead, p: nat, rtype: u16, rclass: u16, flush: u16, ttl: u32, rdLength: u16)
    requires rclass < 0x8000 && flush < 2
    requires p + 10 <= |data| && data[p..p + 10] == RecordFields(rtype, rclass, flush, ttl, rdLength)
    ensures var at := DataNameAt(rtype, p + 10);
      RecordRest(data, name, p) ==
        if at.Some? && ComposeLabel(data, at.value) == Loop then Hangs
        else Got(Record(name, rtype, rclass, flush, ttl, rdLength,
          if at.Some? then Some(ComposeLabel(data, at.value)) else None, p + 10 + rdLength))
  {
    FieldsAt(data, p, rtype, rclass, flush, ttl, rdLength);
    RestAt(data, name, p);
  }

  /** The rest of a record once its name is read, field by field. */
  lemma RestAt(data: seq<byte>, name: NameRead, p: nat)
    requires p + 10 <= |data|
    ensures var rtype := CombineTwo(data, p);
      var at := DataNameAt(rtype, p + 10);
      RecordRest(data, name, p) ==
        if at.Some? && ComposeLabel(data, at.value) == Loop then Hangs
        else Got(Record(name, rtype, ExtractClass(data, p + 2), ExtractFirst(data, p + 2),
          ExtractTtl(data, p + 4), CombineTwo(data, p + 8),
          if at.Some? then Some(ComposeLabel(data, at.value)) else None, p + 10 + CombineTwo(data, p + 8)))
  {
    var at := DataNameAt(CombineTwo(data, p), p + 10);
    if at.Some? {
      AsWrittenIsCorrected(data, at.value);
    }
  }

  /** The fixed fields written at `p` are read back field by field. */
  lemma FieldsAt(data: seq<byte>, p: nat, rtype: u16, rclass: u16, flush: u16, ttl: u32, rdLength: u16)
    requires rclass < 0x8000 && flush < 2
    requires p + 10 <= |data| && data[p..p + 10] == RecordFields(rtype, rclass, flush, ttl, rdLength)
    ensures CombineTwo(data, p) == rtype && CombineTwo(data, p + 8) == rdLength
    ensures ExtractClass(data, p + 2) == rclass && ExtractFirst(data, p + 2) == flush
    ensures ExtractTtl(data, p + 4) == ttl
  {
    var a, b, c, d := BytesOf(rtype, 2), BytesOf(flush * 0x8000 + rclass, 2), BytesOf(ttl, 4), BytesOf(rdLength, 2);
    FourParts(data, p, a, b, c, d);
    WordAt(data, p, rtype);
    WordAt(data, p + 2, flush * 0x8000 + rclass);
    WordAt(data, p + 8, rdLength);
    TtlAt(data, p + 4, ttl);
  }

  /** Four parts lying one after the other at `p`, each found at its offset. */
  lemma FourParts(data: seq<byte>, p: nat, a: seq<byte>, b: seq<byte>, c: seq<byte>, d: seq<byte>)
    requires p + |a + b + c + d| <= |data| && data[p..p + |a + b + c + d|] == a + b + c + d
    ensures data[p..p + |a|] == a
    ensures data[p + |a|..p + |a| + |b|] == b
    ensures data[p + |a| + |b|..p + |a| + |b| + |c|] == c
    ensures data[p + |a| + |b| + |c|..p + |a| + |b| + |c| + |d|] == d
  {
    var x := a + b + c + d;
    var i, j, k := |a|, |a| + |b|, |a| + |b| + |c|;
    Sub(data, p, x, 0, i);
    Sub(data, p, x, i, j);
    Sub(data, p, x, j, k);
    Sub(data, p, x, k, |x|);
    assert x[..i] == a && x[i..j] == b && x[j..k] == c && x[k..] == d;
  }

  /** A part of what lies at `p` lies at the matching offset past `p`. */
  lemma Sub(data: seq<byte>, p: nat, x: seq<byte>, i: nat, j: nat)
    requires p + |x| <= |data| && data[p..p + |x|] == x && i <= j <= |x|
    ensures data[p + i..p + j] == x[i..j]
  {
    assert forall k :: p + i <= k < p + j ==> data[k] == x[k - p];
  }

  lemma TtlAt(data: seq<byte>, at: nat, w: u32)
    requires at + 4 <= |data| && data[at..at + 4] == BytesOf(w, 4)
    ensures ExtractTtl(data, at) == w
  {
    BE4(data[at..at + 4]);
    BytesOfValue(w, 4);
  }
}

=== FILE: mib.dfy ===
// The MIB engine (mib.c): an ordered registry of scalar and table objects,
// the GET lookup (exact match for scalars, proper prefix for tables), the
// GETNEXT successor search and the generic or delegated SET.

module Mib {
  import opened SnmpTypes
  import opened OidUtils

  const FLAG_ACCESS_READONLY: byte := 0x80
  const FLAG_SET_VALUE: byte := 0x40

  /** The value part of an object's variable binding: its type and its value. */
  datatype Cell = Cell(valueType: byte, value: Value)

  /**
   * What a handler receives of the request OID: the memory that starts just
   * past the object's own OID, and the u8 length argument.
   */
  datatype Arg = Arg(mem: seq<byte>, len: byte)

  /**
   * A registered object.  Handlers are named by ids; a Callbacks record
   * gives their meaning.  An object with a get-next handler is a table.
   */
  datatype MibObject = MibObject(
    attrs: byte,
    oid: span,
    cell: Cell,
    getFn: Option<nat>,
    nextFn: Option<nat>,
    setFn: Option<nat>)
  {
    predicate IsTable() { nextFn.Some? }
  }

  /**
   * The handlers: a getter may rewrite the object's cell and answers -1 for
   * "no such instance"; get-next answers the OID suffix of the next row or
   * None; a setter may rewrite the cell and answers an error status.
   */
  datatype Callbacks = Callbacks(
    getValue: (nat, Cell, Arg) -> (int, Cell),
    getNextOid: (nat, Arg) -> Option<span>,
    setValue: (nat, Cell, Arg, Value) -> (int, Cell))

  /** The MIB as a list in insertion order (mib_head .. mib_tail). */
  type Registry = seq<MibObject>

  datatype Reg = Reg(code: int, mib: Registry)

  /** Two registries with the same objects in the same places, cells aside. */
  predicate SameKeys(a: Registry, b: Registry)
  {
    |a| == |b| &&
    forall j :: 0 <= j < |a| ==> a[j].oid == b[j].oid && a[j].nextFn == b[j].nextFn
  }

  /** `a` is `b` with at most the cells rewritten, as after a lookup. */
  predicate CellsOnly(a: Registry, b: Registry)
  {
    |a| == |b| && forall j :: 0 <= j < |a| ==> a[j] == b[j].(cell := a[j].cell)
  }

  /** Rewriting cells twice is rewriting cells. */
  lemma CellsOnlyTrans(a: Registry, b: Registry, c: Registry)
    requires CellsOnly(a, b) && CellsOnly(b, c)
    ensures CellsOnly(a, c)
  {
    forall j | 0 <= j < |a|
      ensures a[j] == c[j].(cell := a[j].cell)
    {
      assert b[j] == c[j].(cell := b[j].cell);
    }
  }

  /** Handlers whose getters leave the cell as it was. */
  ghost predicate Quiet(cb: Callbacks)
  {
    forall id, c, a :: cb.getValue(id, c, a).1 == c
  }

  // ---------------------------------------------------------------------
  // Registration
  // ---------------------------------------------------------------------

  /** The initial value handed to add_scalar, if any. */
  datatype Initial = NoValue | Text(s: span) | Word(w: u32) | Ref(p: span)

  predicate StringType(t: byte) { t == IPADDRESS || t == OCTET_STRING }
  predicate WordType(t: byte) { t == INTEGER || t == COUNTER || t == TIME_TICKS || t == GAUGE }
  predicate RefType(t: byte) { t == OPAQUE || t == OID }

  /**
   * add_scalar reads its value pointer according to the value type: a C
   * string, a 32-bit word or a ptr_t.  Other types ignore the value.
   */
  predicate Fits(valueType: byte, init: Initial)
  {
    match init
    case NoValue => true
    case Text(s) => HasNul(s) && (StringType(valueType) || !(WordType(valueType) || RefType(valueType)))
    case Word(_) => !(StringType(valueType) || RefType(valueType))
    case Ref(_) => !(StringType(valueType) || WordType(valueType))
  }

  /** The value an object starts with; a zeroed union when nothing is stored. */
  function InitialValue(valueType: byte, init: Initial): (v: Value)
    requires Fits(valueType, init)
    ensures init.NoValue? ==> v == Num(0)
    ensures init.Text? && StringType(valueType) ==>
              v.Bytes? && |v.b| < |init.s| && init.s[..|v.b|] == v.b && init.s[|v.b|] == 0 &&
              forall k :: 0 <= k < |v.b| ==> v.b[k] != 0
    ensures init.Word? && WordType(valueType) ==> v == Num(init.w)
    ensures init.Ref? && RefType(valueType) ==> v == Bytes(init.p)
    ensures !(StringType(valueType) || WordType(valueType) || RefType(valueType)) ==> v == Num(0)
  {
    match init
    case NoValue => Num(0)
    case Text(s) =>
      if StringType(valueType) then Bytes(s[..StrLen(s)])
      else Num(0)
    case Word(w) => if WordType(valueType) then Num(w) else Num(0)
    case Ref(p) => if RefType(valueType) then Bytes(p) else Num(0)
  }

  /**
   * add_scalar: a scalar object with the given flags, value type and
   * initial value, appended at the tail.  The object's allocation is
   * assumed to succeed.
   */
  function AddScalar(mib: Registry, oid: span, flags: byte, valueType: byte, init: Initial,
                     getFn: Option<nat>, setFn: Option<nat>): (r: Reg)
    requires Fits(valueType, init)
    ensures r.code == ERR_NO_ERROR
    ensures |r.mib| == |mib| + 1 && r.mib[..|mib|] == mib
    ensures var o := r.mib[|mib|];
      o.oid == oid && !o.IsTable() && o.attrs == flags && o.getFn == getFn && o.setFn == setFn &&
      o.cell == Cell(valueType, InitialValue(valueType, init))
  {
    Reg(ERR_NO_ERROR, mib + [MibObject(flags, oid, Cell(valueType, InitialValue(valueType, init)), getFn, None, setFn)])
  }

  /**
   * add_table: refuses (-1) a table without a getter or a get-next handler,
   * or when the object cannot be allocated.  A table without a setter is
   * read-only; the attributes of one with a setter are left as they were
   * (modelled as 0), and the value type NULL marks the entry as a table.
   */
  function AddTable(mib: Registry, oid: span, getFn: Option<nat>, nextFn: Option<nat>, setFn: Option<nat>,
                    allocOk: bool): (r: Reg)
    ensures r.code == -1 || r.code == ERR_NO_ERROR
    ensures r.code == -1 <==> getFn.None? || nextFn.None? || !allocOk
    ensures r.code == -1 ==> r.mib == mib
    ensures r.code == ERR_NO_ERROR ==> |r.mib| == |mib| + 1 && r.mib[..|mib|] == mib
    ensures r.code == ERR_NO_ERROR ==>
      var o := r.mib[|mib|];
      o.oid == oid && o.IsTable() && o.cell.valueType == NULL && o.getFn == getFn && o.nextFn == nextFn && o.setFn == setFn &&
      (setFn.None? <==> HasFlag(o.attrs, FLAG_ACCESS_READONLY))
  {
    if getFn.None? || nextFn.None? then Reg(-1, mib)
    else if !allocOk then Reg(-1, mib)
    else
      var attrs := if setFn.Some? then 0 else FLAG_ACCESS_READONLY;
      Reg(ERR_NO_ERROR, mib + [MibObject(attrs, oid, Cell(NULL, Num(0)), getFn, nextFn, setFn)])
  }

  /** One call of a mib_init function. */
  datatype Step =
    | Scalar(oid: span, flags: byte, valueType: byte, init: Initial, getFn: Option<nat>, setFn: Option<nat>)
    | Table(oid: span, getFn: Option<nat>, nextFn: Option<nat>, setFn: Option<nat>)

  predicate StepFits(s: Step) { s.Scalar? ==> Fits(s.valueType, s.init) }

  /** The step succeeds: scalars always, tables with both handlers and memory. */
  predicate StepSucceeds(s: Step, allocOk: bool)
  {
    s.Scalar? || (s.getFn.Some? && s.nextFn.Some? && allocOk)
  }

  function RunStep(mib: Registry, s: Step, allocOk: bool): (r: Reg)
    requires StepFits(s)
    ensures r.code == ERR_NO_ERROR <==> StepSucceeds(s, allocOk)
    ensures r.code != ERR_NO_ERROR ==> r.code == -1 && r.mib == mib
    ensures r.code == ERR_NO_ERROR ==> |r.mib| == |mib| + 1 && r.mib[..|mib|] == mib && r.mib[|mib|].oid == s.oid
    ensures r.code == ERR_NO_ERROR ==> (r.mib[|mib|].IsTable() <==> s.Table?)
  {
    match s
    case Scalar(oid, flags, t, init, getFn, setFn) => AddScalar(mib, oid, flags, t, init, getFn, setFn)
    case Table(oid, getFn, nextFn, setFn) => AddTable(mib, oid, getFn, nextFn, setFn, allocOk)
  }

  /**
   * A mib_init body: registers the steps in order and returns -1 at the
   * first one that fails.  `allocOk(i)` says whether the i-th step's
   * object can be allocated.
   */
  function RegisterAll(mib: Registry, steps: seq<Step>, allocOk: nat -> bool, i: nat): (r: Reg)
    requires i <= |steps|
    requires forall k :: 0 <= k < |steps| ==> StepFits(steps[k])
    ensures r.code == ERR_NO_ERROR <==> forall k :: i <= k < |steps| ==> StepSucceeds(steps[k], allocOk(k))
    ensures r.code != ERR_NO_ERROR ==> r.code == -1
    ensures r.code == ERR_NO_ERROR ==>
      |r.mib| == |mib| + |steps| - i && r.mib[..|mib|] == mib &&
      forall k :: i <= k < |steps| ==> r.mib[|mib| + k - i].oid == steps[k].oid &&
                                       (r.mib[|mib| + k - i].IsTable() <==> steps[k].Table?)
    decreases |steps| - i
  {
    if i == |steps| then Reg(ERR_NO_ERROR, mib)
    else
      var r1 := RunStep(mib, steps[i], allocOk(i));
      if r1.code != ERR_NO_ERROR then r1
      else
        var r2 := RegisterAll(r1.mib, steps, allocOk, i + 1);
        assert r2.code == ERR_NO_ERROR ==> r2.mib[..|mib|] == r1.mib[..|r1.mib|][..|mib|];
        r2
  }

  // ---------------------------------------------------------------------
  // GET
  // ---------------------------------------------------------------------

  /** The GET scan answers with `o`: a scalar with exactly the request OID, or a table prefixing it. */
  predicate Claims(o: MibObject, req: seq<byte>)
  {
    if o.IsTable() then |o.oid| < |req| && IsPrefix(o.oid, req)
    else o.oid == req
  }

  /**
   * The GET scan stops at scalar `o` with noSuchInstance: the request is at
   * most two bytes shorter than `o`'s OID and agrees with `o`'s OID less
   * its last byte on their common length.
   */
  predicate Shadows(o: MibObject, req: seq<byte>)
  {
    var m := Min(|req|, Narrow8(|o.oid| - 1));
    !o.IsTable() && |o.oid| <= |req| + 2 && Window(req, m) == Window(o.oid, m)
  }

  /** The GET scan passes objects i .. k-1 by. */
  predicate Passed(mib: Registry, req: seq<byte>, i: nat, k: nat)
    requires i <= k <= |mib|
  {
    forall j :: i <= j < k ==> !Claims(mib[j], req) && !Shadows(mib[j], req)
  }

  datatype GetScan = Match(k: nat) | NoInstance(k: nat) | NoObject

  /** The scan loop of mib_get from object i on. */
  function ScanGet(mib: Registry, req: seq<byte>, i: nat): (r: GetScan)
    requires i <= |mib|
    ensures !r.NoObject? ==> i <= r.k < |mib|
    decreases |mib| - i
  {
    if i == |mib| then NoObject
    else
      var o := mib[i];
      var n := |o.oid|;
      if !o.IsTable() && n == |req| && OidCmp(req, o.oid) == 0 then Match(i)
      else if !o.IsTable() && n - 1 <= |req| + 1 && OidCmpn(req, o.oid, Narrow8(n - 1)) == 0 then NoInstance(i)
      else if o.IsTable() && n < |req| && OidCmp(req, o.oid) == 0 then Match(i)
      else ScanGet(mib, req, i + 1)
  }

  /** The tests of the scan loop, read as Claims and Shadows. */
  lemma GetTests(o: MibObject, req: seq<byte>)
    ensures Claims(o, req) <==>
      (!o.IsTable() && |o.oid| == |req| && OidCmp(req, o.oid) == 0) ||
      (o.IsTable() && |o.oid| < |req| && OidCmp(req, o.oid) == 0)
    ensures Shadows(o, req) <==>
      !o.IsTable() && |o.oid| - 1 <= |req| + 1 && OidCmpn(req, o.oid, Narrow8(|o.oid| - 1)) == 0
  {
    if !o.IsTable() && |o.oid| == |req| && OidCmp(req, o.oid) == 0 {
      assert req == o.oid[..|req|];
    }
  }

  /**
   * The GET scan stops at the first object that claims the request
   * (Match) or that shadows it (NoInstance), and runs off the end
   * (NoObject) exactly when every object is passed by.
   */
  lemma {:induction false} ScanGetSpec(mib: Registry, req: seq<byte>, i: nat)
    requires i <= |mib|
    ensures var r := ScanGet(mib, req, i);
      (r.Match? ==> Claims(mib[r.k], req) && Passed(mib, req, i, r.k)) &&
      (r.NoInstance? ==> !Claims(mib[r.k], req) && Shadows(mib[r.k], req) && Passed(mib, req, i, r.k)) &&
      (r.NoObject? <==> Passed(mib, req, i, |mib|))
    decreases |mib| - i
  {
    if i < |mib| {
      GetTests(mib[i], req);
      ScanGetSpec(mib, req, i + 1);
    }
  }

  /** The scan depends only on the objects' OIDs and kinds. */
  lemma {:induction false} ScanGetKeys(a: Registry, b: Registry, req: seq<byte>, i: nat)
    requires SameKeys(a, b) && i <= |a|
    ensures ScanGet(a, req, i) == ScanGet(b, req, i)
    decreases |a| - i
  {
    if i < |a| {
      ScanGetKeys(a, b, req, i + 1);
    }
  }

  /** The result of mib_get / mib_get_next: the object found, the MIB after any getter ran, the binding. */
  datatype Found = Found(obj: Option<nat>, mib: Registry, req: VarBind)

  /** The memory at &req->oid_ptr->ptr[n]. */
  function Suffix(req: VarBind, n: nat): seq<byte>
  {
    var mem := req.oid + req.tail;
    if n <= |mem| then mem[n..] else []
  }

  /** The handler arguments for an object whose OID is `n` bytes long. */
  function ArgAt(req: VarBind, n: nat): Arg
  {
    Arg(Suffix(req, n), Narrow8(|req.oid| - n))
  }

  /** Calls object k's getter, if it has one, and keeps the cell it leaves behind. */
  function RunGetter(mib: Registry, cb: Callbacks, k: nat, a: Arg): (r: (int, Registry))
    requires k < |mib|
    ensures |r.1| == |mib| && r.1[k] == mib[k].(cell := r.1[k].cell)
    ensures forall j :: 0 <= j < |mib| && j != k ==> r.1[j] == mib[j]
    ensures mib[k].getFn.None? || Quiet(cb) ==> r.1 == mib
    ensures mib[k].getFn.None? ==> r.0 == 0
    ensures mib[k].getFn.Some? ==> r.1[k].cell == cb.getValue(mib[k].getFn.value, mib[k].cell, a).1
  {
    var o := mib[k];
    if o.getFn.None? then (0, mib)
    else
      var res := cb.getValue(o.getFn.value, o.cell, a);
      (res.0, mib[k := o.(cell := res.1)])
  }

  /**
   * mib_get: the first object that claims the request answers it, unless a
   * scalar that shadows the request comes first.  The binding receives the
   * object's value and type, or an exception type when nothing answers.
   */
  function MibGet(mib: Registry, cb: Callbacks, req: VarBind): (r: Found)
    ensures SameKeys(r.mib, mib) && CellsOnly(r.mib, mib)
    ensures Quiet(cb) ==> r.mib == mib
    ensures r.req.oid == req.oid && r.req.tail == req.tail
    ensures r.obj.Some? ==>
      r.obj.value < |mib| && r.req.valueType == r.mib[r.obj.value].cell.valueType &&
      r.req.value == r.mib[r.obj.value].cell.value
  {
    match ScanGet(mib, req.oid, 0)
    case NoObject => Found(None, mib, req.(valueType := NO_SUCH_OBJECT))
    case NoInstance(_) => Found(None, mib, req.(valueType := NO_SUCH_INSTANCE))
    case Match(k) =>
      var g := RunGetter(mib, cb, k, ArgAt(req, |mib[k].oid|));
      if g.0 == -1 then Found(None, g.1, req.(valueType := NO_SUCH_INSTANCE))
      else Found(Some(k), g.1, req.(valueType := g.1[k].cell.valueType, value := g.1[k].cell.value))
  }

  /**
   * What mib_get answers: the object it returns claims the request and
   * every object before it neither claims nor shadows it; without an
   * answer the binding keeps its value and receives noSuchObject exactly
   * when every object was passed by, noSuchInstance otherwise.  Only the
   * cell of the claiming object, and only through its getter, can change.
   */
  lemma MibGetSpec(mib: Registry, cb: Callbacks, req: VarBind)
    ensures var r := MibGet(mib, cb, req);
      (r.obj.Some? ==> Claims(mib[r.obj.value], req.oid) && Passed(mib, req.oid, 0, r.obj.value)) &&
      (r.obj.None? ==>
        r.req.value == req.value && (r.req.valueType == NO_SUCH_OBJECT || r.req.valueType == NO_SUCH_INSTANCE)) &&
      (Passed(mib, req.oid, 0, |mib|) <==> r.obj.None? && r.req.valueType == NO_SUCH_OBJECT) &&
      (Passed(mib, req.oid, 0, |mib|) ==> r.mib == mib) &&
      (forall j :: 0 <= j < |mib| && r.mib[j] != mib[j] ==>
        Claims(mib[j], req.oid) && Passed(mib, req.oid, 0, j) && mib[j].getFn.Some?)
  {
    ScanGetSpec(mib, req.oid, 0);
  }

  // ---------------------------------------------------------------------
  // GETNEXT
  // ---------------------------------------------------------------------

  /** The get-next handler's arguments: nothing before the table, the suffix inside it. */
  function NextArg(req: VarBind, o: MibObject): Arg
  {
    if OidCmp(req.oid, o.oid) < 0 then Arg([], 0) else ArgAt(req, |o.oid|)
  }

  /**
   * `o` offers a successor of the request: a scalar lexicographically
   * above it, or a table whose subtree is not wholly below the request and
   * whose get-next handler answers a row.
   */
  predicate Offers(o: MibObject, cb: Callbacks, req: VarBind)
  {
    if !o.IsTable() then LexLess(req.oid, o.oid)
    else (LexLess(req.oid, o.oid) || IsPrefix(o.oid, req.oid)) && cb.getNextOid(o.nextFn.value, NextArg(req, o)).Some?
  }

  predicate Skipped(mib: Registry, cb: Callbacks, req: VarBind, i: nat, k: nat)
    requires i <= k <= |mib|
  {
    forall j :: i <= j < k ==> !Offers(mib[j], cb, req)
  }

  datatype NextScan = ScalarHit(k: nat) | RowHit(k: nat, suffix: span) | EndOfMib

  /** "cmp <= 0" for a table: the request is before the table's subtree or inside it. */
  lemma TableTest(a: seq<byte>, b: seq<byte>)
    ensures OidCmp(a, b) <= 0 <==> LexLess(a, b) || IsPrefix(b, a)
  {
    SuccessorTestIsLexLess(a, b);
    if OidCmp(a, b) == 0 && IsPrefix(a, b) && |a| == |b| {
      assert a == b[..|a|] == b;
    }
    if IsPrefix(b, a) {
      LexTotal(a, b);
      if LexLess(a, b) {
        SuccessorTestIsLexLess(a, b);
      }
    }
  }

  /** The scan loop of mib_get_next from object i on. */
  function ScanNext(mib: Registry, cb: Callbacks, req: VarBind, i: nat): (r: NextScan)
    requires i <= |mib|
    ensures !r.EndOfMib? ==> i <= r.k < |mib|
    decreases |mib| - i
  {
    if i == |mib| then EndOfMib
    else
      var o := mib[i];
      var cmp := OidCmp(req.oid, o.oid);
      if !o.IsTable() then
        if cmp < 0 || (cmp == 0 && |req.oid| < |o.oid|) then ScalarHit(i)
        else ScanNext(mib, cb, req, i + 1)
      else if cmp <= 0 && cb.getNextOid(o.nextFn.value, NextArg(req, o)).Some? then
        RowHit(i, cb.getNextOid(o.nextFn.value, NextArg(req, o)).value)
      else ScanNext(mib, cb, req, i + 1)
  }

  /**
   * The GETNEXT scan stops at the first object that offers a successor: a
   * scalar hit on a scalar lexicographically above the request, a row hit
   * on a table whose handler named the row; it runs off the end exactly
   * when every object is skipped.
   */
  lemma {:induction false} ScanNextSpec(mib: Registry, cb: Callbacks, req: VarBind, i: nat)
    requires i <= |mib|
    ensures var r := ScanNext(mib, cb, req, i);
      (r.ScalarHit? ==>
        !mib[r.k].IsTable() && LexLess(req.oid, mib[r.k].oid) && Skipped(mib, cb, req, i, r.k)) &&
      (r.RowHit? ==>
        mib[r.k].IsTable() && Offers(mib[r.k], cb, req) &&
        cb.getNextOid(mib[r.k].nextFn.value, NextArg(req, mib[r.k])) == Some(r.suffix) &&
        Skipped(mib, cb, req, i, r.k)) &&
      (r.EndOfMib? <==> Skipped(mib, cb, req, i, |mib|))
    decreases |mib| - i
  {
    if i < |mib| {
      SuccessorTestIsLexLess(req.oid, mib[i].oid);
      TableTest(req.oid, mib[i].oid);
      ScanNextSpec(mib, cb, req, i + 1);
    }
  }

  /**
   * The OID the request takes on at a table row: the table OID followed by
   * the suffix, in a length field of 16 bits.
   */
  function RowOid(table: span, suffix: span): (r: span)
    ensures |table| + |suffix| < 0x1_0000 ==> r == table + suffix
  {
    var full := table + suffix;
    full[..Narrow16(|full|)]
  }

  /**
   * mib_get_next: the request OID becomes the successor found, then the
   * object's getter runs on it.  A getter answering -1 leaves the new OID
   * with its old type and value; an exhausted scan sets endOfMibView.
   */
  function MibGetNext(mib: Registry, cb: Callbacks, req: VarBind): (r: Found)
    ensures SameKeys(r.mib, mib) && CellsOnly(r.mib, mib)
    ensures Quiet(cb) ==> r.mib == mib
    ensures r.obj.Some? ==>
      r.obj.value < |mib| && r.req.valueType == r.mib[r.obj.value].cell.valueType &&
      r.req.value == r.mib[r.obj.value].cell.value
  {
    match ScanNext(mib, cb, req, 0)
    case EndOfMib => Found(None, mib, req.(valueType := END_OF_MIB))
    case ScalarHit(k) =>
      Fetch(mib, cb, k, req.(oid := mib[k].oid, tail := []))
    case RowHit(k, s) =>
      Fetch(mib, cb, k, req.(oid := RowOid(mib[k].oid, s), tail := []))
  }

  /**
   * What mib_get_next answers: endOfMibView with nothing else changed
   * exactly when no object offers a successor; otherwise the request moves
   * to the first offering object (a scalar's OID, or a table OID followed
   * by the row suffix), and a getter answering -1 leaves the old type and
   * value on the new OID.
   */
  lemma MibGetNextSpec(mib: Registry, cb: Callbacks, req: VarBind)
    ensures var r := MibGetNext(mib, cb, req);
      (Skipped(mib, cb, req, 0, |mib|) ==> r == Found(None, mib, req.(valueType := END_OF_MIB))) &&
      (!Skipped(mib, cb, req, 0, |mib|) ==>
        r.req.tail == [] &&
        exists k :: 0 <= k < |mib| && Offers(mib[k], cb, req) && Skipped(mib, cb, req, 0, k) &&
                    (mib[k].IsTable() || r.req.oid == mib[k].oid)) &&
      (var s := ScanNext(mib, cb, req, 0);
        s.RowHit? ==> r.req.oid == RowOid(mib[s.k].oid, s.suffix)) &&
      (r.obj.Some? ==> Offers(mib[r.obj.value], cb, req) && Skipped(mib, cb, req, 0, r.obj.value)) &&
      (r.obj.Some? && !mib[r.obj.value].IsTable() ==> r.req.oid == mib[r.obj.value].oid) &&
      (r.obj.None? && !Skipped(mib, cb, req, 0, |mib|) ==>
        r.req.valueType == req.valueType && r.req.value == req.value)
  {
    ScanNextSpec(mib, cb, req, 0);
  }

  /** The tail of mib_get_next: run the getter on the new OID and copy the value. */
  function Fetch(mib: Registry, cb: Callbacks, k: nat, req: VarBind): (r: Found)
    requires k < |mib|
    ensures SameKeys(r.mib, mib) && CellsOnly(r.mib, mib)
    ensures Quiet(cb) ==> r.mib == mib
    ensures r.req.oid == req.oid && r.req.tail == req.tail
    ensures r.obj.Some? ==>
      r.obj.value == k && r.req.valueType == r.mib[k].cell.valueType && r.req.value == r.mib[k].cell.value
    ensures r.obj.None? ==> r.req == req && mib[k].getFn.Some?
  {
    var g := RunGetter(mib, cb, k, ArgAt(req, |mib[k].oid|));
    if g.0 == -1 then Found(None, g.1, req)
    else Found(Some(k), g.1, req.(valueType := g.1[k].cell.valueType, value := g.1[k].cell.value))
  }

  /** Registered OIDs strictly ascending in byte-lexicographic order. */
  predicate Ascending(mib: Registry)
  {
    forall i, j :: 0 <= i < j < |mib| ==> LexLess(mib[i].oid, mib[j].oid)
  }

  /** A registry whose neighbours are in order is ascending. */
  lemma ChainAscending(mib: Registry)
    requires forall i :: 0 <= i < |mib| - 1 ==> LexLess(mib[i].oid, mib[i + 1].oid)
    ensures Ascending(mib)
  {
    forall i, j | 0 <= i < j < |mib|
      ensures LexLess(mib[i].oid, mib[j].oid)
    {
      ChainFrom(mib, i, j);
    }
  }

  lemma {:induction false} ChainFrom(mib: Registry, i: nat, j: nat)
    requires i < j < |mib|
    requires forall i :: 0 <= i < |mib| - 1 ==> LexLess(mib[i].oid, mib[i + 1].oid)
    ensures LexLess(mib[i].oid, mib[j].oid)
    decreases j - i
  {
    if j > i + 1 {
      ChainFrom(mib, i + 1, j);
      LexTrans(mib[i].oid, mib[i + 1].oid, mib[j].oid);
    }
  }

  /**
   * In an ascending registry of scalars, GETNEXT moves the request to the
   * least registered OID above it, and reports endOfMibView exactly when
   * there is none.
   */
  lemma GetNextIsLeastAbove(mib: Registry, cb: Callbacks, req: VarBind)
    requires Ascending(mib)
    requires forall j :: 0 <= j < |mib| ==> !mib[j].IsTable()
    ensures var r := MibGetNext(mib, cb, req);
      ((forall j :: 0 <= j < |mib| ==> !LexLess(req.oid, mib[j].oid)) <==>
        r == Found(None, mib, req.(valueType := END_OF_MIB))) &&
      ((exists j :: 0 <= j < |mib| && LexLess(req.oid, mib[j].oid)) ==>
        exists k :: 0 <= k < |mib| && r.req.oid == mib[k].oid && LexLess(req.oid, mib[k].oid) &&
          forall j :: 0 <= j < |mib| && LexLess(req.oid, mib[j].oid) ==> k <= j)
  {
    var r := MibGetNext(mib, cb, req);
    var s := ScanNext(mib, cb, req, 0);
    MibGetNextSpec(mib, cb, req);
    ScanNextSpec(mib, cb, req, 0);
    if s.ScalarHit? {
      var k := s.k;
      assert r.req.oid == mib[k].oid;
      LexTotal(req.oid, req.oid);
      assert r.req.oid != req.oid;
    }
  }

  // ---------------------------------------------------------------------
  // SET
  // ---------------------------------------------------------------------

  /** attrs |= FLAG_SET_VALUE */
  function WithSetValue(attrs: byte): (r: byte)
    ensures HasFlag(r, FLAG_SET_VALUE)
    ensures r / 0x80 == attrs / 0x80 && r % 0x40 == attrs % 0x40
  {
    if HasFlag(attrs, FLAG_SET_VALUE) then attrs else attrs + FLAG_SET_VALUE
  }

  /**
   * mib_set on object k: a setter's status is returned as it is (with the
   * cell it leaves); otherwise string types get a copy of the request bytes
   * and the FLAG_SET_VALUE mark, number types get the request's word, and
   * any other type is refused with badValue.  The object's type is never
   * changed by the generic path.
   */
  function MibSet(mib: Registry, cb: Callbacks, k: nat, req: VarBind): (r: (int, Registry))
    requires k < |mib|
    ensures SameKeys(r.1, mib)
    ensures forall j :: 0 <= j < |mib| && j != k ==> r.1[j] == mib[j]
    ensures r.1[k].getFn == mib[k].getFn && r.1[k].setFn == mib[k].setFn
    ensures mib[k].setFn.Some? ==>
      var res := cb.setValue(mib[k].setFn.value, mib[k].cell, ArgAt(req, |mib[k].oid|), req.value);
      r.0 == res.0 && r.1[k] == mib[k].(cell := res.1)
    ensures mib[k].setFn.None? ==>
      (r.0 == 0 <==> StringType(req.valueType) || req.valueType == OID || WordType(req.valueType))
    ensures mib[k].setFn.None? && r.0 != 0 ==> r.0 == BAD_VALUE as int && r.1 == mib
    ensures mib[k].setFn.None? && r.0 == 0 ==> r.1[k].cell.valueType == mib[k].cell.valueType
    ensures mib[k].setFn.None? && (StringType(req.valueType) || req.valueType == OID) ==>
      r.1[k].cell.value == Bytes(req.value.Octets()) && HasFlag(r.1[k].attrs, FLAG_SET_VALUE)
    ensures mib[k].setFn.None? && WordType(req.valueType) ==>
      r.1[k].cell.value == Num(req.value.Word()) && r.1[k].attrs == mib[k].attrs
  {
    var o := mib[k];
    if o.setFn.Some? then
      var res := cb.setValue(o.setFn.value, o.cell, ArgAt(req, |o.oid|), req.value);
      (res.0, mib[k := o.(cell := res.1)])
    else if StringType(req.valueType) || req.valueType == OID then
      (0, mib[k := o.(attrs := WithSetValue(o.attrs), cell := o.cell.(value := Bytes(req.value.Octets())))])
    else if WordType(req.valueType) then
      (0, mib[k := o.(cell := o.cell.(value := Num(req.value.Word())))])
    else (BAD_VALUE as int, mib)
  }

  /**
   * A generic SET of a word to a scalar without handlers is read back by
   * the next GET of that scalar, type and all.
   */
  lemma SetThenGet(mib: Registry, cb: Callbacks, k: nat, req: VarBind)
    requires k < |mib|
    requires mib[k].getFn.None? && mib[k].setFn.None?
    requires ScanGet(mib, req.oid, 0) == Match(k)
    requires WordType(req.valueType)
    ensures var after := MibSet(mib, cb, k, req).1;
      var g := MibGet(after, cb, req);
      g.obj == Some(k) && g.req.value == Num(req.value.Word()) && g.req.valueType == mib[k].cell.valueType &&
      g.mib == after
  {
    var after := MibSet(mib, cb, k, req).1;
    ScanGetKeys(mib, after, req.oid, 0);
  }
}

=== FILE: mib_basic.dfy ===
// The demonstration MIB of mib-init.c: sysDescr with a getter and a
// setter, two time-ticks scalars, a string scalar, ifNumber, a
// one-column ifTable of three rows and two test scalars.

module MibBasic {
  import opened SnmpTypes
  import opened OidUtils
  import opened Mib
  import opened MibTable

  /** The ifTable's one column, ifIndex, and its number of rows, ifNumber. */
  const IF_INDEX: byte := 1
  const IF_NUMBER: byte := 3

  const DefaultDescr: span := Ascii("System Description")
  const SetDescr: span := Ascii("System Description2")

  /** getSysDescr: an empty description is replaced by the default one; any other is left as it is. */
  function GetSysDescr(cell: Cell): (r: (int, Cell))
    ensures r.0 == 0 && r.1.valueType == cell.valueType
    ensures |r.1.value.Octets()| > 0
    ensures |cell.value.Octets()| > 0 ==> r.1 == cell
    ensures |cell.value.Octets()| == 0 ==> r.1.value == Bytes(DefaultDescr)
  {
    if |cell.value.Octets()| == 0 then (0, cell.(value := Bytes(DefaultDescr))) else (0, cell)
  }

  /** setSysDescr: whatever value is sent, the description becomes "System Description2". */
  function SetSysDescr(cell: Cell, v: Value): (r: (int, Cell))
    ensures r.0 == 0 && r.1.valueType == cell.valueType
    ensures r.1.value == Bytes(SetDescr)
  {
    (0, cell.(value := Bytes(SetDescr)))
  }

  // ---------------------------------------------------------------------
  // ifTable
  // ---------------------------------------------------------------------

  /**
   * getIf as written: a suffix of other than two bytes is refused; in the
   * ifIndex column, rows 1 to 3 answer their own number and other rows are
   * refused after the type is set; any other column answers 0 with the
   * cell untouched.
   */
  function IfGetAsWritten(a: Arg, cell: Cell): (r: (int, Cell))
    ensures var (c, w) := Position(a);
      r.0 == -1 <==> a.len != 2 || (c == IF_INDEX && !(1 <= w <= IF_NUMBER))
    ensures var (c, w) := Position(a);
      a.len == 2 && c != IF_INDEX ==> r == (0, cell)
  {
    var (c, w) := Position(a);
    if a.len != 2 then (-1, cell)
    else if c == IF_INDEX then
      if 0 < w <= IF_NUMBER then (0, Cell(INTEGER, Num(w))) else (-1, cell.(valueType := INTEGER))
    else (0, cell)
  }

  /**
   * getIf as evidently intended: a column other than ifIndex is refused
   * like a missing row.  Row n of ifIndex answers the INTEGER n.
   */
  function IfGet(a: Arg, cell: Cell): (r: (int, Cell))
    ensures var (c, w) := Position(a);
      r.0 == 0 <==> a.len == 2 && c == IF_INDEX && 1 <= w <= IF_NUMBER
    ensures r.0 == 0 ==> r.1 == Cell(INTEGER, Num(Position(a).1))
    ensures r.0 != 0 ==> r.0 == -1 && r.1.value == cell.value
  {
    var (c, w) := Position(a);
    if a.len != 2 then (-1, cell)
    else if c == IF_INDEX then
      if 0 < w <= IF_NUMBER then (0, Cell(INTEGER, Num(w))) else (-1, cell.(valueType := INTEGER))
    else (-1, cell)
  }

  /**
   * getNextIfOid: before ifIndex, row 1; inside it, the next row while one
   * is left; None after row 3.  It is handleTableNextOid2 over the one
   * column.
   */
  function IfNext(a: Arg): (r: Option<span>)
    ensures r == TableNext(a, [IF_INDEX], IF_NUMBER)
  {
    var (c, w) := Position(a);
    if c < IF_INDEX || (c == IF_INDEX && w < IF_NUMBER) then
      Some(Pair(IF_INDEX, if c < IF_INDEX then 1 else Narrow8(w + 1)))
    else None
  }

  /**
   * As written, a GET of ifTable column 2 succeeds and returns whatever
   * the table object's cell holds, though get-next never names that
   * column.
   */
  lemma IfGetAnswersUnlistedColumn(a: Arg, cell: Cell)
    ensures IfGetAsWritten(Arg(Pair(2, 1), 2), cell) == (0, cell)
    ensures IfNext(a).Some? ==> IfNext(a).value[0] == IF_INDEX
  {
    PositionPair(Pair(2, 1));
  }

  /** Every cell get-next names is answered by get, as written and corrected alike. */
  lemma IfNextIsAnswered(a: Arg, cell: Cell)
    ensures IfNext(a).Some? ==> IfGet(Arg(IfNext(a).value, 2), cell).0 == 0
    ensures IfNext(a).Some? ==> IfGetAsWritten(Arg(IfNext(a).value, 2), cell).0 == 0
  {
    var r := IfNext(a);
    if r.Some? {
      var s := r.value;
      assert s[0] == IF_INDEX && 1 <= s[1] <= IF_NUMBER;
      PositionPair(s);
    }
  }

  /** With the corrected getter, every cell get answers is named by get-next from the row before it. */
  lemma IfAnsweredIsReached(a: Arg, cell: Cell)
    ensures IfGet(a, cell).0 == 0 ==>
      var w := Position(a).1;
      w < 0x80 && IfNext(Arg(Pair(IF_INDEX, (w - 1) as byte), 2)) == Some(Pair(IF_INDEX, w as byte))
  {
    if IfGet(a, cell).0 == 0 {
      var w := Position(a).1;
      ReachedFrom(w);
    }
  }

  lemma ReachedFrom(w: u32)
    requires 1 <= w <= IF_NUMBER
    ensures IfNext(Arg(Pair(IF_INDEX, (w - 1) as byte), 2)) == Some(Pair(IF_INDEX, w as byte))
  {
    PositionPair(Pair(IF_INDEX, (w - 1) as byte));
  }

  // ---------------------------------------------------------------------
  // The handlers and mib_init
  // ---------------------------------------------------------------------

  const GET_SYS_DESCR: nat := 1
  const SET_SYS_DESCR: nat := 2
  const GET_TIME_TICKS: nat := 3
  const GET_IF_NUMBER: nat := 4
  const GET_IF: nat := 5
  const NEXT_IF: nat := 6

  /** The getters, as written; getTimeTicks answers a fixed 1234 and getIfNumber the 3 rows. */
  function BasicGet(id: nat, cell: Cell, a: Arg): (r: (int, Cell))
    ensures id == GET_SYS_DESCR ==> r == GetSysDescr(cell)
    ensures id == GET_TIME_TICKS ==> r == (0, cell.(value := Num(1234)))
    ensures id == GET_IF_NUMBER ==> r == (0, cell.(value := Num(IF_NUMBER)))
    ensures id == GET_IF ==> r == IfGetAsWritten(a, cell)
  {
    if id == GET_SYS_DESCR then GetSysDescr(cell)
    else if id == GET_TIME_TICKS then (0, cell.(value := Num(1234)))
    else if id == GET_IF_NUMBER then (0, cell.(value := Num(IF_NUMBER)))
    else if id == GET_IF then IfGetAsWritten(a, cell)
    else (0, cell)
  }

  function BasicCallbacks(): Callbacks
  {
    Callbacks(
      (id: nat, c: Cell, a: Arg) => BasicGet(id, c, a),
      (id: nat, a: Arg) => if id == NEXT_IF then IfNext(a) else None,
      (id: nat, c: Cell, a: Arg, v: Value) => if id == SET_SYS_DESCR then SetSysDescr(c, v) else (0, c))
  }

  /** The OIDs mib_init registers, in its order. */
  const BasicOids: seq<span> := [
    [0x2b, 0x06, 0x01, 0x02, 0x01, 0x01, 0x01, 0x00],
    [0x2b, 0x06, 0x01, 0x02, 0x01, 0x01, 0x03, 0x00],
    [0x2b, 0x06, 0x01, 0x02, 0x01, 0x01, 0x0B, 0x00],
    [0x2b, 0x06, 0x01, 0x02, 0x01, 0x01, 0x0D, 0x00],
    [0x2b, 0x06, 0x01, 0x02, 0x01, 0x02, 0x01, 0x00],
    [0x2b, 0x06, 0x01, 0x02, 0x01, 0x02, 0x02, 0x01],
    [0x2b, 0x06, 0x01, 0x02, 0x01, 0x89, 0x52, 0x01, 0x00],
    [0x2b, 0x06, 0x01, 0x02, 0x01, 0x89, 0x52, 0x02, 0x00]]

  /** The string constant stored in the third scalar, as a C string. */
  const PointerText: seq<byte> := Ascii("Pointer to a string") + [0]

  /** Call k of mib_init. */
  function BasicStep(k: nat): (r: Step)
    requires k < 8
    ensures StepFits(r) && r.oid == BasicOids[k]
    ensures r.Table? <==> k == 5
    ensures r.Table? ==> r.getFn.Some? && r.nextFn.Some?
  {
    var o := BasicOids[k];
    assert PointerText[|PointerText| - 1] == 0;
    match k
    case 0 => Scalar(o, 0, OCTET_STRING, NoValue, Some(GET_SYS_DESCR), Some(SET_SYS_DESCR))
    case 1 => Scalar(o, 0, TIME_TICKS, NoValue, Some(GET_TIME_TICKS), None)
    case 2 => Scalar(o, 0, OCTET_STRING, Text(PointerText), None, None)
    case 3 => Scalar(o, 0, TIME_TICKS, Word(12345678), None, None)
    case 4 => Scalar(o, 0, INTEGER, NoValue, Some(GET_IF_NUMBER), None)
    case 5 => Table(o, Some(GET_IF), Some(NEXT_IF), None)
    case 6 => Scalar(o, 0, INTEGER, NoValue, None, None)
    case _ => Scalar(o, 0, GAUGE, NoValue, None, None)
  }

  /** mib_init: registers the eight objects; it fails (-1) exactly when the ifTable cannot be allocated. */
  function BasicInit(allocOk: nat -> bool): (r: Reg)
    ensures r.code == 0 || r.code == -1
    ensures r.code == 0 <==> allocOk(5)
    ensures r.code == 0 ==> |r.mib| == 8 && forall k :: 0 <= k < 8 ==> r.mib[k].oid == BasicOids[k]
  {
    var steps := seq(8, k requires 0 <= k < 8 => BasicStep(k));
    assert forall k :: 0 <= k < 8 ==> StepFits(steps[k]) && steps[k].oid == BasicOids[k];
    assert forall k :: 0 <= k < 8 ==> (StepSucceeds(steps[k], allocOk(k)) <==> (k == 5 ==> allocOk(k)));
    assert StepSucceeds(steps[5], allocOk(5)) ==> allocOk(5);
    RegisterAll([], steps, allocOk, 0)
  }

  /** mib_init registers in ascending OID order, the order the GETNEXT search relies on. */
  lemma BasicInitAscending(allocOk: nat -> bool)
    ensures var r := BasicInit(allocOk);
      r.code == 0 ==> Ascending(r.mib)
  {
    var r := BasicInit(allocOk);
    if r.code == 0 {
      BasicOidsAscending(r.mib);
    }
  }

  lemma BasicOidsAscending(mib: Registry)
    requires |mib| == 8 && forall k :: 0 <= k < 8 ==> mib[k].oid == BasicOids[k]
    ensures Ascending(mib)
  {
    var o := BasicOids;
    forall k | 0 <= k < |mib| - 1
      ensures LexLess(mib[k].oid, mib[k + 1].oid)
    {
      if k < 3 || k == 4 {
        LexAt(o[k], o[k + 1], 6);
      } else if k == 3 || k == 5 {
        LexAt(o[k], o[k + 1], 5);
      } else {
        LexAt(o[k], o[k + 1], 7);
      }
    }
    ChainAscending(mib);
  }
}

=== FILE: mib_raven.dfy ===
// The MIB of the AVR Raven agent (mib-init-raven.c): the system,
// interfaces, snmp and snmpSet groups of RFC 3418 and RFC 2863, the ifX
// table and the entity sensor table of RFC 3433, with their get,
// get-next and set handlers and the registration order of mib_init.
//
// Every table here has at most two rows.

module MibRaven {
  import opened SnmpTypes
  import opened BerOidItem
  import opened OidUtils
  import opened Mib
  import opened MibTable
  import opened ByteArith

  type s8 = x: int | -0x80 <= x < 0x80

  /** A value stored into a signed byte: reduced modulo 256 into -128 .. 127. */
  function S8(x: int): (r: s8)
    ensures r % 0x100 == x % 0x100
  {
    var m := x % 0x100;
    if m < 0x80 then m else m - 0x100
  }

  /**
   * What the handlers read from the rest of the system when they run: the
   * uptime, the interface name, the physical address (the radio's 8-byte
   * address on the Raven, the 6 bytes "NO-ADD" elsewhere), the radio's
   * octet, packet and failure counts, the global `temperature` and what
   * getTemperature returns, the last RSSI, the time of the last
   * temperature update and the dispatcher's counters.
   */
  datatype Readings = Readings(
    uptime: u32,
    ifName: span,
    physAddress: span,
    inOctets: u32, inPkts: u32, inErrors: u32,
    outOctets: u32, outPkts: u32, outErrors: u32,
    temperature: s8,
    reading: s8,
    rssi: byte,
    lastTempUpdate: u32,
    counters: Counters)

  // ---------------------------------------------------------------------
  // Tables
  // ---------------------------------------------------------------------

  datatype Table = SysOR | IfTable | IfXTable | SensorTable

  /**
   * The column numbers of each table, ascending: sysORID .. sysORUpTime;
   * ifIndex .. ifOutErrors; ifName .. ifConnectorPresent;
   * entPhySensorType .. entPhySensorValueUpdateRate.
   */
  function Columns(t: Table): (r: seq<byte>)
    ensures |r| > 0 && forall i :: 0 <= i < |r| ==> 1 <= r[i] < 0x80
  {
    match t
    case SysOR => [2, 3, 4]
    case IfTable => [1, 2, 3, 4, 5, 6, 7, 8, 9, 10, 11, 14, 15, 16, 17, 20]
    case IfXTable => [1, 2, 3, 4, 5, 14, 15, 16, 17]
    case SensorTable => [1, 2, 3, 4, 5, 6, 7, 8]
  }

  /** The number of rows: one interface and one OR entry; two sensors (temperature, RSSI). */
  function Rows(t: Table): (r: byte)
    ensures 1 <= r <= 2
  {
    if t == SensorTable then 2 else 1
  }

  lemma ColumnsIncreasing(t: Table)
    ensures Increasing(Columns(t))
  {
  }

  const IF_OUT_UCAST_PKTS: byte := 17
  const IF_OUT_ERRORS: byte := 20

  /** The OID of sysORID's value, snmpMIB (1.3.6.1.6.3.1). */
  const SnmpMibOid: span := [0x2b, 0x06, 0x01, 0x06, 0x03, 0x01]

  /** sysObjectID: 1.3.6.1.4.1.31030.1.1. */
  const RavenObjectId: span := [0x2b, 0x06, 0x01, 0x04, 0x01, 0x81, 0xf2, 0x06, 0x01, 0x01]

  /** A column: the value type its getter sets and the value of each row. */
  datatype Column = Column(valueType: byte, rows: seq<Value>)

  function One(t: byte, v: Value): Column { Column(t, [v]) }

  /**
   * The switch of each table getter: the column's value type and its
   * values by row.  Counters the radio does not keep (broadcast and
   * multicast packets, unknown protocols) read 0.
   */
  function ColumnOf(t: Table, rd: Readings, col: u32): (r: Option<Column>)
    ensures r.Some? <==> col in Columns(t)
    ensures r.Some? ==> |r.value.rows| == Rows(t)
  {
    match t
    case SysOR => ORColumn(col)
    case IfTable => IfColumn(rd, col)
    case IfXTable => IfXColumn(rd, col)
    case SensorTable => SensorColumn(rd, col)
  }

  /** getOREntry: the one row describes the snmpMIB module. */
  function ORColumn(col: u32): (r: Option<Column>)
    ensures r.Some? <==> col in Columns(SysOR)
    ensures r.Some? ==> |r.value.rows| == 1
  {
    match col
    case 2 => Some(One(OID, Bytes(SnmpMibOid)))
    case 3 => Some(One(OCTET_STRING, Bytes(Ascii("The MIB module for SNMP entities"))))
    case 4 => Some(One(TIME_TICKS, Num(0)))
    case _ => None
  }

  /** getIfEntry: the one interface, an IEEE 802.15.4 radio at 250 kbit/s with a 127-byte MTU. */
  function IfColumn(rd: Readings, col: u32): (r: Option<Column>)
    ensures r.Some? <==> col in Columns(IfTable)
    ensures r.Some? ==> |r.value.rows| == 1
  {
    match col
    case 1 => Some(One(INTEGER, Num(1)))
    case 2 => Some(One(OCTET_STRING, Bytes(rd.ifName)))
    case 3 => Some(One(INTEGER, Num(6)))
    case 4 => Some(One(INTEGER, Num(127)))
    case 5 => Some(One(GAUGE, Num(250000)))
    case 6 => Some(One(OCTET_STRING, Bytes(rd.physAddress)))
    case 7 => Some(One(INTEGER, Num(1)))
    case 8 => Some(One(INTEGER, Num(1)))
    case 9 => Some(One(TIME_TICKS, Num(0)))
    case 10 => Some(One(COUNTER, Num(rd.inOctets)))
    case 11 => Some(One(COUNTER, Num(rd.inPkts)))
    case 14 => Some(One(COUNTER, Num(rd.inErrors)))
    case 15 => Some(One(COUNTER, Num(0)))
    case 16 => Some(One(COUNTER, Num(rd.outOctets)))
    case 17 => Some(One(COUNTER, Num(rd.outPkts)))
    case 20 => Some(One(COUNTER, Num(rd.outErrors)))
    case _ => None
  }

  /** getIfXEntry: traps disabled, not promiscuous, connector present. */
  function IfXColumn(rd: Readings, col: u32): (r: Option<Column>)
    ensures r.Some? <==> col in Columns(IfXTable)
    ensures r.Some? ==> |r.value.rows| == 1
  {
    match col
    case 1 => Some(One(OCTET_STRING, Bytes(rd.ifName)))
    case 2 => Some(One(COUNTER, Num(0)))
    case 3 => Some(One(COUNTER, Num(0)))
    case 4 => Some(One(COUNTER, Num(0)))
    case 5 => Some(One(COUNTER, Num(0)))
    case 14 => Some(One(INTEGER, Num(2)))
    case 15 => Some(One(GAUGE, Num(0)))
    case 16 => Some(One(INTEGER, Num(2)))
    case 17 => Some(One(INTEGER, Num(1)))
    case _ => None
  }

  /**
   * getEntPhySensorEntry: row 1 the temperature sensor (celsius), row 2
   * the radio's RSSI.  The temperature sensor reports itself unavailable
   * while the global temperature holds -100.
   */
  function SensorColumn(rd: Readings, col: u32): (r: Option<Column>)
    ensures r.Some? <==> col in Columns(SensorTable)
    ensures r.Some? ==> |r.value.rows| == 2
  {
    match col
    case 1 => Some(Column(INTEGER, [Num(8), Num(1)]))
    case 2 => Some(Column(INTEGER, [Num(9), Num(9)]))
    case 3 => Some(Column(INTEGER, [Num(0), Num(0)]))
    case 4 => Some(Column(INTEGER, [Num(FromS32(rd.reading)), Num(rd.rssi)]))
    case 5 => Some(Column(INTEGER, [Num(if rd.temperature == -100 then 2 else 1), Num(1)]))
    case 6 => Some(Column(OCTET_STRING, [Bytes(Ascii("celsius")), Bytes(Ascii("dBm"))]))
    case 7 => Some(Column(TIME_TICKS, [Num(rd.lastTempUpdate), Num(rd.lastTempUpdate)]))
    case 8 => Some(Column(GAUGE, [Num(0), Num(0)]))
    case _ => None
  }

  // ---------------------------------------------------------------------
  // get: the table getters
  // ---------------------------------------------------------------------

  /**
   * getOREntry, getIfEntry, getIfXEntry, getEntPhySensorEntry: only a
   * two-byte suffix naming a listed column and an existing row is
   * answered.  A listed column sets the cell's type before the row is
   * checked, so a missing row answers -1 with the type already changed.
   */
  function TableGet(t: Table, rd: Readings, a: Arg, cell: Cell): (r: (int, Cell))
    ensures r.0 == 0 || r.0 == -1
    ensures var (c, w) := Position(a);
      r.0 == 0 <==> a.len == 2 && c in Columns(t) && 1 <= w <= Rows(t)
    ensures var (c, w) := Position(a);
      r.0 == 0 ==> r.1 == Cell(ColumnOf(t, rd, c).value.valueType, ColumnOf(t, rd, c).value.rows[w - 1])
    ensures a.len != 2 || Position(a).0 !in Columns(t) ==> r == (-1, cell)
    ensures var (c, w) := Position(a);
      a.len == 2 && c in Columns(t) && r.0 == -1 ==> r.1 == cell.(valueType := ColumnOf(t, rd, c).value.valueType)
  {
    var (c, w) := Position(a);
    if a.len != 2 then (-1, cell)
    else match ColumnOf(t, rd, c)
      case None => (-1, cell)
      case Some(col) =>
        if 1 <= w <= |col.rows| then (0, Cell(col.valueType, col.rows[w - 1]))
        else (-1, cell.(valueType := col.valueType))
  }

  /**
   * The columns each get-next handler walks: the listed ones, except that
   * getNextIfEntry passes a column count of 15 for the 16 listed ifTable
   * columns, so ifOutErrors (the last) is never walked.
   */
  function NextColumns(t: Table): (r: seq<byte>)
    ensures Increasing(r) && |r| >= 1
    ensures |r| <= |Columns(t)| && forall k :: 0 <= k < |r| ==> r[k] == Columns(t)[k]
    ensures t != IfTable ==> r == Columns(t)
    ensures t == IfTable ==> r == Columns(t)[..15]
  {
    ColumnsIncreasing(t);
    if t == IfTable then Columns(t)[..15] else Columns(t)
  }

  /** The get-next handler of each table as written: handleTableNextOid2 over NextColumns. */
  function NextOf(t: Table, a: Arg): (r: Option<span>)
    ensures r.Some? ==> |r.value| == 2 && r.value[0] in Columns(t)
  {
    TableNext(a, NextColumns(t), Rows(t))
  }

  /** The get-next handler as evidently intended: over every listed column. */
  function NextOfFixed(t: Table, a: Arg): (r: Option<span>)
    ensures r.Some? ==> |r.value| == 2 && r.value[0] in Columns(t)
  {
    TableNext(a, Columns(t), Rows(t))
  }

  /** The cell get-next answers is one the getter answers, and it lies after the request. */
  lemma NextIsAnswered(t: Table, rd: Readings, a: Arg, cell: Cell)
    ensures var r := NextOf(t, a);
      r.Some? ==>
        TableGet(t, rd, Arg(r.value, 2), cell).0 == 0 &&
        After(r.value[0], r.value[1], Position(a).0, Position(a).1)
  {
    var r := NextOf(t, a);
    NextIsLeastAfter(a, NextColumns(t), Rows(t));
    if r.Some? {
      PositionPair(r.value);
    }
  }

  /**
   * Every cell the getter answers is reached by the corrected get-next:
   * from the position just before it, get-next answers that cell.  The
   * handlers as written do the same for every cell but those of
   * ifOutErrors.
   */
  lemma AnsweredIsReached(t: Table, rd: Readings, a: Arg, cell: Cell)
    requires TableGet(t, rd, a, cell).0 == 0
    ensures var (c, w) := Position(a);
      c < 0x80 && w < 0x80 && NextOfFixed(t, Arg(Pair(c as byte, (w - 1) as byte), 2)) == Some(Pair(c as byte, w as byte))
    ensures var (c, w) := Position(a);
      c < 0x80 && w < 0x80 && (t != IfTable || c != IF_OUT_ERRORS) ==>
        NextOf(t, Arg(Pair(c as byte, (w - 1) as byte), 2)) == Some(Pair(c as byte, w as byte))
  {
    var (c, w) := Position(a);
    var columns := Columns(t);
    var i :| 0 <= i < |columns| && columns[i] == c;
    ColumnsIncreasing(t);
    ReachedIn(c as byte, w as byte, columns, Rows(t), i);
    if t != IfTable || c != IF_OUT_ERRORS {
      assert i < |NextColumns(t)|;
      ReachedIn(c as byte, w as byte, NextColumns(t), Rows(t), i);
    }
  }

  // ---------------------------------------------------------------------
  // The ifTable get-next handler as written
  // ---------------------------------------------------------------------

  /**
   * As written, get-next never reaches ifOutErrors although the getter
   * answers it: after ifOutUcastPkts the table ends.
   */
  lemma IfOutErrorsSkipped(rd: Readings, a: Arg, cell: Cell)
    ensures NextOf(IfTable, a) != Some(Pair(IF_OUT_ERRORS, 1))
    ensures NextOf(IfTable, Arg(Pair(IF_OUT_UCAST_PKTS, 1), 2)) == None
    ensures TableGet(IfTable, rd, Arg(Pair(IF_OUT_ERRORS, 1), 2), cell).0 == 0
  {
    var cols := NextColumns(IfTable);
    assert IF_OUT_ERRORS !in cols;
    PositionPair(Pair(IF_OUT_UCAST_PKTS, 1));
    PositionPair(Pair(IF_OUT_ERRORS, 1));
    NextFromNone(IF_OUT_UCAST_PKTS, 1, cols, 1, 0);
  }

  // ---------------------------------------------------------------------
  // snmpSetSerialNo and the temperature
  // ---------------------------------------------------------------------

  /**
   * setSnmpSetSerialNo: a SET succeeds only with the current value plus
   * one (modulo 2^32), which becomes the new value; anything else is
   * refused with badValue and changes nothing.
   */
  function SetSerialNo(cell: Cell, v: Value): (r: (int, Cell))
    ensures r.0 == 0 || r.0 == BAD_VALUE as int
    ensures r.0 == 0 <==> v.Word() == Inc(cell.value.Word())
    ensures r.0 == 0 ==> r.1 == cell.(value := Num(v.Word()))
    ensures r.0 != 0 ==> r.1 == cell
  {
    if Inc(cell.value.Word()) == v.Word() then (0, cell.(value := Num(Inc(cell.value.Word()))))
    else (BAD_VALUE as int, cell)
  }

  /** Two managers setting the same value: the first wins, the second is refused. */
  lemma SerialNoExclusive(cell: Cell, v: Value)
    requires SetSerialNo(cell, v).0 == 0
    ensures SetSerialNo(SetSerialNo(cell, v).1, v).0 == BAD_VALUE as int
  {
    var after := SetSerialNo(cell, v).1;
    assert after.value.Word() == v.Word();
    assert Inc(v.Word()) != v.Word();
  }

  predicate IsDigit(b: byte) { '0' as int <= b <= '9' as int }

  /** The number of leading decimal digits. */
  function LeadingDigits(s: seq<byte>): (n: nat)
    ensures n <= |s|
    ensures forall k :: 0 <= k < n ==> IsDigit(s[k])
    ensures n < |s| ==> !IsDigit(s[n])
  {
    if |s| == 0 || !IsDigit(s[0]) then 0 else 1 + LeadingDigits(s[1..])
  }

  /** The decimal number written by the first n bytes. */
  function Decimal(s: seq<byte>, n: nat): (r: nat)
    requires n <= |s| && forall k :: 0 <= k < n ==> IsDigit(s[k])
    ensures n <= 1 ==> r < 10
    ensures n <= 2 ==> r < 100
  {
    if n == 0 then 0
    else
      assert IsDigit(s[n - 1]);
      Decimal(s, n - 1) * 10 + (s[n - 1] - '0' as int)
  }

  /** The loop of snmp_set_temp over the first n digits: each step stores t * 10 + d into the s8 global. */
  function Accumulated(s: seq<byte>, n: nat): s8
    requires n <= |s| && forall k :: 0 <= k < n ==> IsDigit(s[k])
  {
    if n == 0 then 0 else S8(Accumulated(s, n - 1) * 10 + s[n - 1] - '0' as int)
  }

  /** Storing into a signed byte after every step is storing once at the end. */
  lemma S8Step(x: int, d: int)
    ensures S8(S8(x) * 10 + d) == S8(x * 10 + d)
  {
    var j := (x - S8(x)) / 0x100;
    assert x - S8(x) == 0x100 * j;
    var y := x * 10 + d;
    assert S8(x) * 10 + d == y - 0x100 * (10 * j);
    UniqueMod(S8(x) * 10 + d, 0x100, y / 0x100 - 10 * j, y % 0x100);
  }

  lemma {:induction false} AccumulatedIsDecimal(s: seq<byte>, n: nat)
    requires n <= |s| && forall k :: 0 <= k < n ==> IsDigit(s[k])
    ensures Accumulated(s, n) == S8(Decimal(s, n))
  {
    if n > 0 {
      AccumulatedIsDecimal(s, n - 1);
      S8Step(Decimal(s, n - 1), s[n - 1] - '0' as int);
    }
  }

  /** The temperature the LCD process last reported and the uptime it arrived at. */
  datatype Sensor = Sensor(temperature: s8, lastUpdate: u32)

  /**
   * snmp_set_temp: the leading decimal digits of the C string, read into
   * a signed byte; the update time is the current uptime.  The index is a
   * u8, so a run of 256 or more digits wraps it and the loop never ends
   * (None).
   */
  function SetTemp(s: seq<byte>, uptime: u32): (r: Option<Sensor>)
    requires HasNul(s)
    ensures r.None? <==> LeadingDigits(s) >= 0x100
    ensures r.Some? ==> r.value == Sensor(S8(Decimal(s, LeadingDigits(s))), uptime)
  {
    var n := LeadingDigits(s);
    if n >= 0x100 then None
    else
      AccumulatedIsDecimal(s, n);
      Some(Sensor(Accumulated(s, n), uptime))
  }

  /** A reading of at most two digits is stored exactly. */
  lemma SmallTemperature(s: seq<byte>, uptime: u32)
    requires HasNul(s) && LeadingDigits(s) <= 2
    ensures Decimal(s, LeadingDigits(s)) < 100
    ensures SetTemp(s, uptime) == Some(Sensor(Decimal(s, LeadingDigits(s)), uptime))
  {
    var d := Decimal(s, LeadingDigits(s));
    assert S8(d) == d;
  }

  // ---------------------------------------------------------------------
  // The handlers and mib_init
  // ---------------------------------------------------------------------

  const GET_TIME_TICKS: nat := 1
  const GET_OR_ENTRY: nat := 2
  const NEXT_OR_ENTRY: nat := 3
  const GET_IF_ENTRY: nat := 4
  const NEXT_IF_ENTRY: nat := 5
  const GET_IN_PKTS: nat := 6
  const GET_IN_BAD_VERSIONS: nat := 7
  const GET_IN_ASN_PARSE_ERRS: nat := 8
  const GET_SILENT_DROPS: nat := 9
  const GET_IFX_ENTRY: nat := 10
  const NEXT_IFX_ENTRY: nat := 11
  const GET_SENSOR_ENTRY: nat := 12
  const NEXT_SENSOR_ENTRY: nat := 13
  const SET_SERIAL_NO: nat := 14

  /** The table a getter or get-next handler id serves. */
  function TableOf(id: nat): Option<Table>
  {
    if id == GET_OR_ENTRY || id == NEXT_OR_ENTRY then Some(SysOR)
    else if id == GET_IF_ENTRY || id == NEXT_IF_ENTRY then Some(IfTable)
    else if id == GET_IFX_ENTRY || id == NEXT_IFX_ENTRY then Some(IfXTable)
    else if id == GET_SENSOR_ENTRY || id == NEXT_SENSOR_ENTRY then Some(SensorTable)
    else None
  }

  /**
   * The getters: getTimeTicks and the snmp group getters always answer 0
   * and write only the value, the uptime or the dispatcher's counter of
   * the same name; the table getters are TableGet.
   */
  function RavenGet(rd: Readings, id: nat, cell: Cell, a: Arg): (r: (int, Cell))
    ensures id == GET_TIME_TICKS ==> r == (0, cell.(value := Num(rd.uptime)))
    ensures id == GET_IN_PKTS ==> r == (0, cell.(value := Num(rd.counters.inPkts)))
    ensures id == GET_IN_BAD_VERSIONS ==> r == (0, cell.(value := Num(rd.counters.inBadVersions)))
    ensures id == GET_IN_ASN_PARSE_ERRS ==> r == (0, cell.(value := Num(rd.counters.inASNParseErrs)))
    ensures id == GET_SILENT_DROPS ==> r == (0, cell.(value := Num(rd.counters.silentDrops)))
    ensures TableOf(id).Some? ==> r == TableGet(TableOf(id).value, rd, a, cell)
  {
    if id == GET_TIME_TICKS then (0, cell.(value := Num(rd.uptime)))
    else if id == GET_IN_PKTS then (0, cell.(value := Num(rd.counters.inPkts)))
    else if id == GET_IN_BAD_VERSIONS then (0, cell.(value := Num(rd.counters.inBadVersions)))
    else if id == GET_IN_ASN_PARSE_ERRS then (0, cell.(value := Num(rd.counters.inASNParseErrs)))
    else if id == GET_SILENT_DROPS then (0, cell.(value := Num(rd.counters.silentDrops)))
    else if TableOf(id).Some? then TableGet(TableOf(id).value, rd, a, cell)
    else (0, cell)
  }

  /** The get-next handlers, as written. */
  function RavenNext(id: nat, a: Arg): (r: Option<span>)
    ensures TableOf(id).Some? ==> r == NextOf(TableOf(id).value, a)
    ensures TableOf(id).None? ==> r.None?
  {
    if TableOf(id).Some? then NextOf(TableOf(id).value, a) else None
  }

  /** The one setter, setSnmpSetSerialNo. */
  function RavenSet(id: nat, cell: Cell, v: Value): (r: (int, Cell))
    ensures id == SET_SERIAL_NO ==> r == SetSerialNo(cell, v)
  {
    if id == SET_SERIAL_NO then SetSerialNo(cell, v) else (0, cell)
  }

  function RavenCallbacks(rd: Readings): Callbacks
  {
    Callbacks(
      (id: nat, c: Cell, a: Arg) => RavenGet(rd, id, c, a),
      (id: nat, a: Arg) => RavenNext(id, a),
      (id: nat, c: Cell, a: Arg, v: Value) => RavenSet(id, c, v))
  }

  /** 1.3.6.1.2.1.1.n.0, the system group scalars. */
  function SysOid(n: byte): span { [0x2b, 0x06, 0x01, 0x02, 0x01, 0x01, n, 0x00] }

  /** 1.3.6.1.2.1.11.n.0, the snmp group scalars. */
  function SnmpOid(n: byte): span { [0x2b, 0x06, 0x01, 0x02, 0x01, 0x0B, n, 0x00] }

  const SysOREntryOid: span := [0x2b, 0x06, 0x01, 0x02, 0x01, 0x01, 0x09, 0x01]
  const IfNumberOid: span := [0x2b, 0x06, 0x01, 0x02, 0x01, 0x02, 0x01, 0x00]
  const IfEntryOid: span := [0x2b, 0x06, 0x01, 0x02, 0x01, 0x02, 0x02, 0x01]
  const IfXEntryOid: span := [0x2b, 0x06, 0x01, 0x02, 0x01, 0x1f, 0x01, 0x01, 0x01]
  const SensorEntryOid: span := [0x2b, 0x06, 0x01, 0x02, 0x01, 0x63, 0x01, 0x01, 0x01]
  const SetSerialNoOid: span := [0x2b, 0x06, 0x01, 0x06, 0x03, 0x01, 0x01, 0x06, 0x01, 0x00]

  /** The OIDs mib_init registers, in its order. */
  const RavenOids: seq<span> := [
    SysOid(1), SysOid(2), SysOid(3), SysOid(4), SysOid(5), SysOid(6), SysOid(7), SysOid(8),
    SysOREntryOid, IfNumberOid, IfEntryOid,
    SnmpOid(0x01), SnmpOid(0x03), SnmpOid(0x06), SnmpOid(0x1E), SnmpOid(0x1F), SnmpOid(0x20),
    IfXEntryOid, SensorEntryOid, SetSerialNoOid]

  /**
   * Call k of mib_init, given the C strings sysman supplies for sysDescr,
   * sysContact, sysName and sysLocation.
   */
  function RavenStep(k: nat, desc: span, contact: span, name: span, location: span): (r: Step)
    requires k < 20
    requires HasNul(desc) && HasNul(contact) && HasNul(name) && HasNul(location)
    ensures StepFits(r) && r.oid == RavenOids[k]
    ensures r.Table? <==> k in {8, 10, 17, 18}
    ensures r.Table? ==> r.getFn.Some? && r.nextFn.Some?
  {
    var ro := FLAG_ACCESS_READONLY;
    var o := RavenOids[k];
    match k
    case 0 => Scalar(o, ro, OCTET_STRING, Text(desc), None, None)
    case 1 => Scalar(o, ro, OID, Ref(RavenObjectId), None, None)
    case 2 => Scalar(o, ro, TIME_TICKS, NoValue, Some(GET_TIME_TICKS), None)
    case 3 => Scalar(o, 0, OCTET_STRING, Text(contact), None, None)
    case 4 => Scalar(o, 0, OCTET_STRING, Text(name), None, None)
    case 5 => Scalar(o, 0, OCTET_STRING, Text(location), None, None)
    case 6 => Scalar(o, ro, INTEGER, Word(78), None, None)
    case 7 => Scalar(o, ro, TIME_TICKS, NoValue, None, None)
    case 8 => Table(o, Some(GET_OR_ENTRY), Some(NEXT_OR_ENTRY), None)
    case 9 => Scalar(o, ro, INTEGER, Word(1), None, None)
    case 10 => Table(o, Some(GET_IF_ENTRY), Some(NEXT_IF_ENTRY), None)
    case 11 => Scalar(o, ro, COUNTER, NoValue, Some(GET_IN_PKTS), None)
    case 12 => Scalar(o, ro, COUNTER, NoValue, Some(GET_IN_BAD_VERSIONS), None)
    case 13 => Scalar(o, ro, COUNTER, NoValue, Some(GET_IN_ASN_PARSE_ERRS), None)
    case 14 => Scalar(o, ro, INTEGER, Word(2), None, None)
    case 15 => Scalar(o, ro, COUNTER, NoValue, Some(GET_SILENT_DROPS), None)
    case 16 => Scalar(o, ro, COUNTER, NoValue, None, None)
    case 17 => Table(o, Some(GET_IFX_ENTRY), Some(NEXT_IFX_ENTRY), None)
    case 18 => Table(o, Some(GET_SENSOR_ENTRY), Some(NEXT_SENSOR_ENTRY), None)
    case _ => Scalar(o, 0, INTEGER, NoValue, None, Some(SET_SERIAL_NO))
  }

  /** The calls of mib_init in order. */
  function RavenSteps(desc: span, contact: span, name: span, location: span): (r: seq<Step>)
    requires HasNul(desc) && HasNul(contact) && HasNul(name) && HasNul(location)
    ensures |r| == 20
    ensures forall k :: 0 <= k < |r| ==> r[k] == RavenStep(k, desc, contact, name, location)
  {
    seq(20, k requires 0 <= k < 20 => RavenStep(k, desc, contact, name, location))
  }

  /**
   * mib_init: registers the twenty objects; it fails (-1) exactly when
   * one of the four tables cannot be allocated.
   */
  function RavenInit(desc: span, contact: span, name: span, location: span, allocOk: nat -> bool): (r: Reg)
    requires HasNul(desc) && HasNul(contact) && HasNul(name) && HasNul(location)
    ensures r.code == 0 || r.code == -1
    ensures r.code == 0 <==> allocOk(8) && allocOk(10) && allocOk(17) && allocOk(18)
    ensures r.code == 0 ==> |r.mib| == 20 && forall k :: 0 <= k < 20 ==> r.mib[k].oid == RavenOids[k]
    ensures r.code == 0 ==> forall k :: 0 <= k < 20 ==> (r.mib[k].IsTable() <==> k in {8, 10, 17, 18})
  {
    var steps := RavenSteps(desc, contact, name, location);
    assert forall k :: 0 <= k < 20 ==> StepFits(steps[k]) && steps[k].oid == RavenOids[k];
    assert forall k :: 0 <= k < 20 ==> (StepSucceeds(steps[k], allocOk(k)) <==> (k in {8, 10, 17, 18} ==> allocOk(k)));
    assert StepSucceeds(steps[8], allocOk(8)) && StepSucceeds(steps[10], allocOk(10)) &&
           StepSucceeds(steps[17], allocOk(17)) && StepSucceeds(steps[18], allocOk(18)) ==>
           allocOk(8) && allocOk(10) && allocOk(17) && allocOk(18);
    RegisterAll([], steps, allocOk, 0)
  }

  /** Neighbouring OIDs of mib_init are in ascending order. */
  lemma OidsInOrder(k: nat)
    requires k < 19
    ensures LexLess(RavenOids[k], RavenOids[k + 1])
  {
    var o := RavenOids;
    if k < 7 {
      LexAt(o[k], o[k + 1], 6);
    } else if k == 7 || k == 9 {
      LexAt(o[k], o[k + 1], 6);
    } else if k == 8 || k == 10 || k == 16 || k == 17 {
      LexAt(o[k], o[k + 1], 5);
    } else if k < 16 {
      LexAt(o[k], o[k + 1], 6);
    } else {
      LexAt(o[k], o[k + 1], 3);
    }
  }

  /**
   * mib_init registers in ascending OID order, the order the GETNEXT
   * search of the MIB engine relies on.
   */
  lemma RavenInitAscending(desc: span, contact: span, name: span, location: span, allocOk: nat -> bool)
    requires HasNul(desc) && HasNul(contact) && HasNul(name) && HasNul(location)
    ensures var r := RavenInit(desc, contact, name, location, allocOk);
      r.code == 0 ==> Ascending(r.mib)
  {
    var r := RavenInit(desc, contact, name, location, allocOk);
    if r.code == 0 {
      RavenOidsAscending(r.mib);
    }
  }

  lemma RavenOidsAscending(mib: Registry)
    requires |mib| == 20 && forall k :: 0 <= k < 20 ==> mib[k].oid == RavenOids[k]
    ensures Ascending(mib)
  {
    forall k | 0 <= k < |mib| - 1
      ensures LexLess(mib[k].oid, mib[k + 1].oid)
    {
      OidsInOrder(k);
    }
    ChainAscending(mib);
  }
}

=== FILE: mib_table.dfy ===
// The row handlers of the table objects (mib-init-raven.c,
// handleTableNextOid2, and the getters of mib-init.c and
// mib-init-raven.c): a table handler reads the OID suffix past the table
// entry as two sub-identifiers, (column, row), and get-next walks the
// cells in column-major order.

module MibTable {
  import opened SnmpTypes
  import opened BerOidItem
  import opened Mib

  /** Strictly ascending column numbers. */
  predicate Increasing(columns: seq<byte>)
  {
    forall i, j :: 0 <= i < j < |columns| ==> columns[i] < columns[j]
  }

  // ---------------------------------------------------------------------
  // Reading the suffix
  // ---------------------------------------------------------------------

  /**
   * The (column, row) pair a table handler decodes from the suffix: one
   * sub-identifier over `len` bytes, a second one over what remains, both
   * with ber_decode_oid_item as written (DecodeOidItem).
   */
  function Position(a: Arg): (r: (u32, u32))
    ensures a.len == 0 ==> r == (0, 0)
  {
    var e1 := DecodeOidItem(a.mem, a.len);
    var rest := if e1.count <= |a.mem| then a.mem[e1.count..] else [];
    var e2 := DecodeOidItem(rest, a.len - e1.count);
    (e1.value, e2.value)
  }

  /** A suffix of two small sub-identifiers, each one byte, is read as (column, row). */
  lemma PositionPair(mem: seq<byte>)
    requires |mem| >= 2 && mem[0] < 0x80 && mem[1] < 0x80
    ensures Position(Arg(mem, 2)) == (mem[0], mem[1])
  {
    assert mem == [mem[0]] + mem[1..];
    OneByteItem(mem[0], mem[1..], 2);
    assert mem[1..] == [mem[1]] + mem[2..];
    OneByteItem(mem[1], mem[2..], 1);
  }

  /** The same pair read with the corrected item decoder. */
  function PositionFixed(a: Arg): (r: (u32, u32))
    ensures a.len == 0 ==> r == (0, 0)
  {
    var e1 := DecodeOidItemFixed(a.mem, a.len);
    var rest := if e1.count <= |a.mem| then a.mem[e1.count..] else [];
    var e2 := DecodeOidItemFixed(rest, a.len - e1.count);
    (e1.value, e2.value)
  }

  /**
   * The suffix 82 01 is the single sub-identifier 257.  The handlers, with
   * the item decoder as written, drop bit 8 of the first byte and read it
   * as column 2, row 1; the corrected decoder reads column 257 and no row.
   */
  lemma PositionMisread()
    ensures Position(Arg([0x82, 0x01], 2)) == (2, 1)
    ensures PositionFixed(Arg([0x82, 0x01], 2)) == (257, 0)
    ensures EncodeOidItem(257) == [0x82, 0x01]
  {
    MisreadAsWritten();
    MisreadFixed();
    assert Pow128(1) == 0x80 && Pow128(2) == 0x4000;
  }

  lemma MisreadAsWritten()
    ensures Position(Arg([0x82, 0x01], 2)) == (2, 1)
  {
    var mem: seq<byte> := [0x82, 0x01];
    assert Window(mem, 0) == [] && Window(mem, 1) == [0x82] && Window(mem, 2) == mem;
    assert Base128([0x82]) == Base128([]) * 0x80 + 0x82 % 0x80;
    var e1 := DecodeOidItem(mem, 2);
    assert e1 == Item(2, 1);
    assert mem[1..] == [0x01];
    assert Window([0x01], 1) == [0x01] && Window([0x01], 0) == [];
    assert Base128([0x01]) == Base128([]) * 0x80 + 0x01;
  }

  lemma MisreadFixed()
    ensures PositionFixed(Arg([0x82, 0x01], 2)) == (257, 0)
  {
    var mem: seq<byte> := [0x82, 0x01];
    assert Window(mem, 0) == [] && Window(mem, 1) == [0x82] && Window(mem, 2) == mem;
    assert Base128([0x82]) == Base128([]) * 0x80 + 0x82 % 0x80;
    assert Base128(mem) == Base128([0x82]) * 0x80 + 0x01;
    var f1 := DecodeOidItemFixed(mem, 2);
    assert f1 == Item(257, 2);
  }

  // ---------------------------------------------------------------------
  // get-next: handleTableNextOid2
  // ---------------------------------------------------------------------

  /**
   * The scan of handleTableNextOid2 from column index i: the first column
   * above the requested one answers its row 1; the requested column
   * itself answers the next row while one is left.  The row byte is
   * stored into a u8.
   */
  function NextFrom(c: u32, w: u32, columns: seq<byte>, rows: byte, i: nat): (r: Option<span>)
    requires i <= |columns|
    ensures r.Some? ==> |r.value| == 2 && r.value[0] in columns[i..]
    decreases |columns| - i
  {
    if i == |columns| then None
    else if c < columns[i] || (c == columns[i] && w < rows) then
      Some(Pair(columns[i], if c < columns[i] then 1 else Narrow8(w + 1)))
    else NextFrom(c, w, columns, rows, i + 1)
  }

  /** handleTableNextOid2: the suffix of the next cell, or None past the table's last cell. */
  function TableNext(a: Arg, columns: seq<byte>, rows: byte): (r: Option<span>)
    ensures r.Some? ==> |r.value| == 2 && r.value[0] in columns
  {
    var (c, w) := Position(a);
    NextFrom(c, w, columns, rows, 0)
  }

  /** A two-byte OID suffix (column, row). */
  function Pair(c: byte, w: byte): span { [c, w] }

  /** Cell (col, row) lies strictly after position (c, w) in column-major order. */
  predicate After(col: int, row: int, c: int, w: int)
  {
    col > c || (col == c && row > w)
  }

  /** Row `row` of the i-th listed column is a cell of the table. */
  predicate InGrid(columns: seq<byte>, rows: byte, i: int, row: int)
  {
    0 <= i < |columns| && 1 <= row <= rows
  }

  /** The least cell after (c, w): a cell after it, no other cell after (c, w) before it. */
  ghost predicate LeastAfter(columns: seq<byte>, rows: byte, col: int, row: int, c: int, w: int)
  {
    (exists i :: InGrid(columns, rows, i, row) && columns[i] == col) &&
    After(col, row, c, w) &&
    forall i, row' :: InGrid(columns, rows, i, row') && After(columns[i], row', c, w) ==> !After(col, row, columns[i], row')
  }

  /**
   * With ascending columns, the scan answers the least cell after the
   * requested position, and None exactly when no cell lies after it.
   */
  lemma {:induction false} NextFromSpec(c: u32, w: u32, columns: seq<byte>, rows: byte, i: nat)
    requires Increasing(columns) && rows >= 1 && i <= |columns|
    requires forall i', row :: InGrid(columns, rows, i', row) && i' < i ==> !After(columns[i'], row, c, w)
    ensures var r := NextFrom(c, w, columns, rows, i);
      (r.None? <==> forall i', row :: InGrid(columns, rows, i', row) ==> !After(columns[i'], row, c, w)) &&
      (r.Some? ==> LeastAfter(columns, rows, r.value[0], r.value[1], c, w))
    decreases |columns| - i
  {
    var r := NextFrom(c, w, columns, rows, i);
    if i == |columns| {
    } else if c < columns[i] || (c == columns[i] && w < rows) {
      var row := if c < columns[i] then 1 else w + 1;
      assert r == Some(Pair(columns[i], row));
      assert InGrid(columns, rows, i, row);
      assert After(columns[i], row, c, w);
    } else {
      forall row | InGrid(columns, rows, i, row)
        ensures !After(columns[i], row, c, w)
      {
      }
      NextFromSpec(c, w, columns, rows, i + 1);
    }
  }

  /** handleTableNextOid2 walks the table in column-major order: the answer is the least cell after the request. */
  lemma NextIsLeastAfter(a: Arg, columns: seq<byte>, rows: byte)
    requires Increasing(columns) && rows >= 1
    ensures var (c, w) := Position(a);
      var r := TableNext(a, columns, rows);
      (r.None? <==> forall i, row :: InGrid(columns, rows, i, row) ==> !After(columns[i], row, c, w)) &&
      (r.Some? ==> LeastAfter(columns, rows, r.value[0], r.value[1], c, w))
  {
    var (c, w) := Position(a);
    NextFromSpec(c, w, columns, rows, 0);
  }

  /** An empty suffix (a request before the table) is answered with row 1 of the first column. */
  lemma NextFromEmptySuffix(mem: seq<byte>, columns: seq<byte>, rows: byte)
    requires |columns| > 0 && columns[0] >= 1
    ensures TableNext(Arg(mem, 0), columns, rows) == Some(Pair(columns[0], 1))
  {
  }

  /** From the row before an existing cell, get-next answers that cell. */
  lemma ReachedIn(c: byte, w: byte, columns: seq<byte>, rows: byte, i: nat)
    requires Increasing(columns) && i < |columns| && columns[i] == c
    requires 1 <= w <= rows && c < 0x80 && w < 0x80
    ensures TableNext(Arg(Pair(c, w - 1), 2), columns, rows) == Some(Pair(c, w))
  {
    PositionPair(Pair(c, w - 1));
    NextFromReaches(c, w, columns, rows, i, 0);
  }

  /** The scan reaches row w of column c, listed at index i, from the row before it. */
  lemma {:induction false} NextFromReaches(c: byte, w: byte, columns: seq<byte>, rows: byte, i: nat, j: nat)
    requires Increasing(columns) && i < |columns| && columns[i] == c && 1 <= w <= rows && j <= i
    ensures NextFrom(c, w - 1, columns, rows, j) == Some(Pair(c, w))
    decreases i - j
  {
    if j < i {
      assert columns[j] < columns[i];
      NextFromReaches(c, w, columns, rows, i, j + 1);
    }
  }

  /** The scan ends without an answer when no column from index j on lies after the position. */
  lemma {:induction false} NextFromNone(c: u32, w: u32, columns: seq<byte>, rows: byte, j: nat)
    requires j <= |columns|
    requires forall k :: j <= k < |columns| ==> columns[k] < c || (columns[k] == c && w >= rows)
    ensures NextFrom(c, w, columns, rows, j) == None
    decreases |columns| - j
  {
    if j < |columns| {
      NextFromNone(c, w, columns, rows, j + 1);
    }
  }
}

=== FILE: msg_v1.dfy ===
// The SNMPv1 message processing model (msg-proc-v1.c): the community check
// of RFC 1157 section 4.1 against the one community the agent knows, the
// response envelope SEQUENCE { version, community, PDU }, and the tooBig
// retry.

module MsgV1 {
  import opened SnmpTypes
  import opened OidUtils
  import opened ByteArith
  import opened BerDecode
  import opened BerEncode
  import opened BerProps

  /** The only community the agent accepts: "public". */
  const Community: span := [0x70, 0x75, 0x62, 0x6C, 0x69, 0x63]

  /** A message processing step's return code and the PDU as the step leaves it. */
  datatype Prepared = Prepared(code: int, pdu: Pdu)

  /**
   * The community test of prepareDataElements_v1: strlen of the known
   * community against the received length, then memcmp over the received
   * length.  Together they reject exactly the communities that differ.
   */
  function WrongCommunity(c: span): (r: bool)
    ensures r <==> c != Community
  {
    if |Community| != |c| then true
    else
      assert AgreeOn(Community, c, |c|) ==> c == Community by {
        if AgreeOn(Community, c, |c|) {
          assert forall k :: 0 <= k < |c| ==> c[k] == At(c, k) == At(Community, k) == Community[k];
        }
      }
      MemCmp(Community, c, |c|) != 0
  }

  /**
   * prepareDataElements_v1 on a fresh message, from the cursor after the
   * version.  A wrong community marks the PDU genErr with index 0 and
   * returns before the PDU is decoded, so the request id and the binding
   * index stay 0.  A PDU that does not parse fails; one whose binding list
   * ran out of list nodes is kept and marked genErr.
   */
  function PrepareDataElements(input: span, pos: nat, budget: nat): (r: Prepared)
    ensures r.code == 0 || r.code == FAILURE
    ensures r.code == 0 ==> r.pdu.varbindIndex <= |input|
    ensures DecodeString(input, pos).Fail? ==> r.code == FAILURE
    ensures var c := DecodeString(input, pos);
      c.Ok? && c.value != Community ==> r == Prepared(0, EmptyPdu.(errorStatus := GEN_ERR))
    ensures var c := DecodeString(input, pos);
      c.Ok? && c.value == Community ==>
        var d := DecodePdu(input, c.pos, budget);
        (r.code == FAILURE <==> d.code == FAILURE) &&
        (d.code == ERR_NO_ERROR ==> r.pdu == d.pdu) &&
        (d.code == ERR_MEMORY_ALLOCATION ==> r.pdu == d.pdu.(errorStatus := GEN_ERR))
  {
    var c := DecodeString(input, pos);
    if c.Fail? then Prepared(FAILURE, EmptyPdu)
    else if EmptyPdu.errorStatus == NO_ERROR && WrongCommunity(c.value) then
      Prepared(0, EmptyPdu.(errorStatus := GEN_ERR, errorIndex := 0))
    else
      var d := DecodePdu(input, c.pos, budget);
      if d.code < 0 then Prepared(FAILURE, d.pdu)
      else if d.code == ERR_MEMORY_ALLOCATION then Prepared(0, d.pdu.(errorStatus := GEN_ERR))
      else if d.code != ERR_NO_ERROR then Prepared(FAILURE, d.pdu)
      else Prepared(0, d.pdu)
  }

  /** The X.690 layout of a version 1 response: SEQUENCE { version, community, PDU }. */
  function Layout(version: byte, input: span, pdu: Pdu): seq<byte>
    requires pdu.varbindIndex <= |input|
  {
    Tlv(SEQUENCE, Tlv(INTEGER, IntegerContent(version)) + (Tlv(OCTET_STRING, Community) + PduBytes(input, pdu)))
  }

  /**
   * encode_v1_response: the PDU (its result ignored), the community, the
   * version and the SEQUENCE header, written back to front from the end of
   * a `maxLen`-byte buffer, then moved to the buffer's start.  An overflow
   * inside the PDU encoder leaves the cursor negative, so the community
   * write that follows fails; the response is produced exactly when its
   * layout fits.
   */
  function EncodeResponse(version: byte, input: span, pdu: Pdu, maxLen: u16): (r: Option<seq<byte>>)
    requires pdu.varbindIndex <= |input|
    ensures r.Some? <==> maxLen < 0x8000 && |Layout(version, input, pdu)| <= maxLen
    ensures r.Some? ==> r.value == Layout(version, input, pdu)
  {
    var e0 := Start(maxLen);
    if !e0.Ok() then None
    else
      var e1 := EncodePdu(e0, input, pdu, maxLen);
      var e2 := EncodeFixedString(e1, Community);
      if !e2.Ok() then
        EnvelopeSteps(e0, PduBytes(input, pdu), e1, Tlv(OCTET_STRING, Community), e2,
          Tlv(INTEGER, IntegerContent(version)), e2, maxLen);
        None
      else
        var e3 := EncodeInteger(e2, INTEGER, version);
        EnvelopeSteps(e0, PduBytes(input, pdu), e1, Tlv(OCTET_STRING, Community), e2,
          Tlv(INTEGER, IntegerContent(version)), e3, maxLen);
        if !e3.Ok() then None
        else
          var e4 := EncodeTypeLength(e3, SEQUENCE, Narrow16(maxLen - e3.pos));
          if !e4.Ok() then None else Some(e4.out)
  }

  /** The outcome of preparing a response: code, output, the PDU as sent, and whether a silent drop was counted. */
  datatype Response = Response(code: int, output: Option<seq<byte>>, pdu: Pdu, dropped: bool)

  /**
   * prepareResponseMessage_v1: a response that does not fit is re-encoded
   * as tooBig with error index 0, which echoes the request's own binding
   * bytes; if that does not fit either, a silent drop is counted and the
   * call fails.
   */
  function PrepareResponse(version: byte, input: span, pdu: Pdu, maxLen: u16): (r: Response)
    requires pdu.varbindIndex <= |input|
    ensures r.code == 0 <==> r.output.Some?
    ensures r.dropped <==> r.code == FAILURE
    ensures r.code == 0 || r.code == FAILURE
    ensures EncodeResponse(version, input, pdu, maxLen).Some? ==>
      r == Response(0, EncodeResponse(version, input, pdu, maxLen), pdu, false)
    ensures EncodeResponse(version, input, pdu, maxLen).None? ==>
      r.pdu == pdu.(errorStatus := TOO_BIG, errorIndex := 0) &&
      r.output == EncodeResponse(version, input, r.pdu, maxLen)
  {
    var first := EncodeResponse(version, input, pdu, maxLen);
    if first.Some? then Response(0, first, pdu, false)
    else
      var tooBig := pdu.(errorStatus := TOO_BIG, errorIndex := 0);
      var retry := EncodeResponse(version, input, tooBig, maxLen);
      if retry.None? then Response(FAILURE, None, tooBig, true)
      else Response(0, retry, tooBig, false)
  }

  /**
   * The envelope of an encoded response reads back: an exact-length
   * SEQUENCE, the version and the community.
   */
  lemma EnvelopeRoundTrip(version: byte, input: span, pdu: Pdu, maxLen: u16, out: seq<byte>)
    requires pdu.varbindIndex <= |input| && version < 0x80
    requires EncodeResponse(version, input, pdu, maxLen) == Some(out)
    ensures var s := DecodeSequence(out, 0);
      s.Ok? && s.value == |out| - s.pos && DecodeInteger(out, s.pos) == Ok(version as s32, s.pos + 3) &&
      DecodeString(out, s.pos + 3) == Ok(Community, s.pos + 3 + |Tlv(OCTET_STRING, Community)|)
  {
    assert out == Layout(version, input, pdu);
    LayoutReads(out, version, Community, PduBytes(input, pdu));
  }

  /** A buffer holding exactly the envelope layout reads back. */
  lemma LayoutReads(out: span, version: byte, community: span, p: seq<byte>)
    requires version < 0x80
    requires out == Tlv(SEQUENCE, Tlv(INTEGER, IntegerContent(version)) + (Tlv(OCTET_STRING, community) + p))
    ensures var s := DecodeSequence(out, 0);
      s.Ok? && s.value == |out| - s.pos && DecodeInteger(out, s.pos) == Ok(version as s32, s.pos + 3) &&
      DecodeString(out, s.pos + 3) == Ok(community, s.pos + 3 + |Tlv(OCTET_STRING, community)|)
  {
    HoldsWhole(out);
    EnvelopeReads(out, version, community, p);
  }

  /** SEQUENCE { version, community, ... } reads back for any community string. */
  lemma EnvelopeReads(out: span, version: byte, community: span, p: seq<byte>)
    requires version < 0x80
    requires Holds(out, 0, Tlv(SEQUENCE, Tlv(INTEGER, IntegerContent(version)) + (Tlv(OCTET_STRING, community) + p)))
    requires |out| == |Tlv(SEQUENCE, Tlv(INTEGER, IntegerContent(version)) + (Tlv(OCTET_STRING, community) + p))|
    ensures var s := DecodeSequence(out, 0);
      s.Ok? && s.value == |out| - s.pos && DecodeInteger(out, s.pos) == Ok(version as s32, s.pos + 3) &&
      DecodeString(out, s.pos + 3) == Ok(community, s.pos + 3 + |Tlv(OCTET_STRING, community)|)
  {
    var body := Tlv(INTEGER, IntegerContent(version)) + (Tlv(OCTET_STRING, community) + p);
    SequenceAt(out, 0, body);
    var k1 := |out| - |body|;
    assert IntegerWidth(version) == 1;
    var k2 := IntegerThen(out, k1, version, Tlv(OCTET_STRING, community) + p);
    var k3 := StringThen(out, k2, community, p);
  }
}

=== FILE: msg_v3.dfy ===
// The SNMPv3 message processing model (msg-proc-v3.c): the header data of
// section 6 of RFC 3412 (msgID, msgMaxSize, msgFlags, msgSecurityModel),
// the hand-off to the User-based Security Model, the scoped PDU, and the
// response with its tooBig retry.

module MsgV3 {
  import opened SnmpTypes
  import opened BerDecode
  import opened BerEncode
  import opened BerProps
  import opened Usm

  /** msgGlobalData as the agent reads it: the four INTEGER and OCTET STRING fields. */
  datatype GlobalData = GlobalData(msgId: s32, maxSize: s32, flags: byte, model: s32)

  /**
   * The msgGlobalData part of prepareDataElements_v3.  The SEQUENCE length
   * is not checked.  msgFlags must be an OCTET STRING of length one (the
   * length variable still holds the SEQUENCE length when the flags' own
   * length octets cannot be read); its byte is then taken whether or not it
   * lies inside the message, which the model reads as 0.
   */
  function DecodeGlobalData(input: span, pos: nat): (r: Decoded<GlobalData>)
    ensures r.Ok? ==> pos < r.pos
    ensures r.Ok? ==> DecodeSequenceLength(input, pos).Ok?
  {
    var sq := DecodeSequenceLength(input, pos);
    if sq.Fail? then Fail
    else
      var id := DecodeInteger(input, sq.pos);
      if id.Fail? then Fail
      else
        var mx := DecodeInteger(input, id.pos);
        if mx.Fail? then Fail
        else
          var h := DecodeTypeLength(input, mx.pos, sq.value);
          if h.Fail? || h.value.tag != OCTET_STRING || h.value.length != 1 then Fail
          else
            var model := DecodeInteger(input, h.pos + 1);
            if model.Fail? then Fail
            else Ok(GlobalData(id.value, mx.value, At(input, h.pos), model.value), model.pos)
  }

  /** Flags that claim privacy without authentication, which section 7.2 step 5 of RFC 3412 discards. */
  predicate PrivWithoutAuth(flags: byte)
  {
    !HasFlag(flags, FLAG_AUTH) && HasFlag(flags, FLAG_PRIV)
  }

  /**
   * What the v3 model needs from outside one message: the USM
   * configuration, crypto, the clock, the privacy salts the configuration
   * hands out for the first encoding and for the tooBig retry, and the
   * allocator.
   */
  datatype Env = Env(cfg: UsmConfig, crypto: Crypto, uptime: u32, salt: Salt, retrySalt: Salt, allocOk: bool, budget: nat)

  /** prepareDataElements_v3's return code, the message it filled in, the request buffer as left behind, and the USM counters. */
  datatype PreparedV3 = PreparedV3(code: int, msg: MessageV3, input: span, stats: UsmStats)

  /**
   * The scoped PDU part: a SEQUENCE header (length unchecked), the context
   * engine ID and context name, then the PDU, whose own result is ignored:
   * the PDU is kept however far it was decoded.
   */
  function DecodeScoped(input: span, pos: nat, msg: MessageV3, budget: nat): (r: Option<MessageV3>)
    ensures r.Some? ==> r.value == msg.(contextEngineID := r.value.contextEngineID,
      contextName := r.value.contextName, pdu := r.value.pdu)
    ensures r.Some? <==> ScopedHeader(input, pos).Ok?
    ensures r.Some? ==> var h := ScopedHeader(input, pos);
      r.value.contextEngineID == h.value.0 && r.value.contextName == h.value.1 &&
      r.value.pdu == DecodePdu(input, h.pos, budget).pdu
  {
    var h := ScopedHeader(input, pos);
    if h.Fail? then None
    else
      Some(msg.(contextEngineID := h.value.0, contextName := h.value.1, pdu := DecodePdu(input, h.pos, budget).pdu))
  }

  /** The SEQUENCE header and the two context strings in front of the PDU. */
  function ScopedHeader(input: span, pos: nat): (r: Decoded<(span, span)>)
    ensures r.Ok? <==> var sq := DecodeSequenceLength(input, pos);
      sq.Ok? && DecodeString(input, sq.pos).Ok? && DecodeString(input, DecodeString(input, sq.pos).pos).Ok?
    ensures r.Ok? ==> var e := DecodeString(input, DecodeSequenceLength(input, pos).pos);
      r == Ok((e.value, DecodeString(input, e.pos).value), DecodeString(input, e.pos).pos)
  {
    var sq := DecodeSequenceLength(input, pos);
    if sq.Fail? then Fail
    else
      var e := DecodeString(input, sq.pos);
      if e.Fail? then Fail
      else
        var n := DecodeString(input, e.pos);
        if n.Fail? then Fail else Ok((e.value, n.value), n.pos)
  }

  /**
   * prepareDataElements_v3 on the zero-filled message, from the cursor
   * after the version.  Malformed header data, privacy without
   * authentication and any security model but the USM fail.  The USM step
   * either fails, or turns the message into a report (which ends
   * processing with 0), or admits it, possibly decrypting the rest of the
   * buffer; the scoped PDU is then read from the buffer as the USM left it.
   */
  function PrepareDataElements(input: span, pos: nat, msg: MessageV3, env: Env, stats: UsmStats): (r: PreparedV3)
    ensures r.code == 0 || r.code == FAILURE
    ensures r.code == 0 && msg.pdu.varbindIndex <= |input| ==> r.msg.pdu.varbindIndex <= |r.input|
    ensures var g := DecodeGlobalData(input, pos);
      g.Fail? || PrivWithoutAuth(g.value.flags) || g.value.model != USM_SECURITY_MODEL ==>
        r == PreparedV3(FAILURE, msg.(msgId := r.msg.msgId, msgFlags := r.msg.msgFlags), input, stats)
    ensures r.code == 0 ==> var g := DecodeGlobalData(input, pos);
      g.Ok? && !PrivWithoutAuth(g.value.flags) && g.value.model == USM_SECURITY_MODEL &&
      var u := ProcessIncoming(input, g.pos, msg.(msgId := FromS32(g.value.msgId), msgFlags := g.value.flags),
        env.cfg, env.crypto, env.uptime, stats, env.allocOk);
      r.stats == u.stats && r.input == u.input &&
      (u.code == ERR_USM ==> r.msg == u.msg) &&
      (u.code == 0 ==> DecodeScoped(u.input, u.pos, u.msg, env.budget) == Some(r.msg))
  {
    var g := DecodeGlobalData(input, pos);
    if g.Fail? then PreparedV3(FAILURE, msg, input, stats)
    else
      var m := msg.(msgId := FromS32(g.value.msgId), msgFlags := g.value.flags);
      if PrivWithoutAuth(g.value.flags) || g.value.model != USM_SECURITY_MODEL then PreparedV3(FAILURE, m, input, stats)
      else
        var u := ProcessIncoming(input, g.pos, m, env.cfg, env.crypto, env.uptime, stats, env.allocOk);
        if u.code == FAILURE then PreparedV3(FAILURE, u.msg, u.input, u.stats)
        else if u.code == ERR_USM then PreparedV3(0, u.msg, u.input, u.stats)
        else
          var s := DecodeScoped(u.input, u.pos, u.msg, env.budget);
          if s.None? then PreparedV3(FAILURE, u.msg, u.input, u.stats)
          else PreparedV3(0, s.value, u.input, u.stats)
  }

  // ---------------------------------------------------------------------
  // The response
  // ---------------------------------------------------------------------

  /** The scoped PDU as the agent writes it: contextEngineID, contextName, then the PDU. */
  function ScopedBytes(m: MessageV3, input: span): seq<byte>
    requires m.pdu.varbindIndex <= |input|
  {
    Tlv(SEQUENCE, Tlv(OCTET_STRING, m.contextEngineID) + (Tlv(OCTET_STRING, m.contextName) + PduBytes(input, m.pdu)))
  }

  /** msgGlobalData as the agent writes it: msgID, msgMaxSize 484, the flags byte and the USM. */
  function GlobalBytes(m: MessageV3): seq<byte>
  {
    Tlv(SEQUENCE, Tlv(INTEGER, IntegerContent(ToS32(m.msgId))) + (Tlv(INTEGER, IntegerContent(MAX_BUF_SIZE)) +
      (Tlv(OCTET_STRING, [m.msgFlags]) + Tlv(INTEGER, IntegerContent(USM_SECURITY_MODEL)))))
  }

  /** The outer SEQUENCE of a version 3 message around the security part `p`: version and header data first. */
  function Envelope(m: MessageV3, p: seq<byte>): seq<byte>
  {
    Tlv(SEQUENCE, Tlv(INTEGER, IntegerContent(m.version)) + (GlobalBytes(m) + p))
  }

  /** The X.690 layout of a version 3 response (section 6 of RFC 3412): version, header data, security parameters, scoped PDU. */
  function Layout(m: MessageV3, scoped: seq<byte>, crypto: Crypto, key: seq<byte>): seq<byte>
  {
    Envelope(m, ParamsBytes(m) + Sealed(m, scoped, crypto, key))
  }

  /**
   * The first part of encode_v3_response: the PDU (its result ignored),
   * contextName, contextEngineID and a SEQUENCE header measured from the
   * buffer end.  From a cursor that starts negative nothing fits.
   */
  function EncodeScoped(m: MessageV3, input: span, maxLen: u16): (r: Enc)
    requires m.pdu.varbindIndex <= |input|
    ensures maxLen < 0x8000 ==> Placed(r, maxLen, ScopedBytes(m, input))
    ensures maxLen >= 0x8000 ==> !r.Ok()
  {
    var e0 := Start(maxLen);
    if !e0.Ok() then e0
    else
      var e1 := EncodePdu(e0, input, m.pdu, maxLen);
      var e2 := EncodeFixedString(e1, m.contextName);
      var e3 := EncodeFixedString(e2, m.contextEngineID);
      EnvelopeSteps(e0, PduBytes(input, m.pdu), e1, Tlv(OCTET_STRING, m.contextName), e2,
        Tlv(OCTET_STRING, m.contextEngineID), e3, maxLen);
      if !e3.Ok() then e3
      else EncodeTypeLength(e3, SEQUENCE, Narrow16(maxLen - e3.pos))
  }

  /**
   * The msgGlobalData part of encode_v3_response, last field first: the
   * security model, the flags byte with its OCTET STRING header, msgMaxSize,
   * msgID and a SEQUENCE header measured from where the part began.
   */
  function EncodeGlobalData(e: Enc, m: MessageV3): (r: Enc)
    requires e.pos < 0x1_0000
    ensures Writes(e, GlobalBytes(m), r)
  {
    if !e.Ok() then e
    else
      var g1 := EncodeInteger(e, INTEGER, USM_SECURITY_MODEL);
      var g2 := Prepend(g1, [m.msgFlags]);
      var g3 := EncodeTypeLength(g2, OCTET_STRING, 1);
      FlagsWritten(g1, m.msgFlags, g2, g3);
      var g4 := EncodeInteger(g3, INTEGER, MAX_BUF_SIZE);
      var g5 := EncodeInteger(g4, INTEGER, ToS32(m.msgId));
      GlobalFieldsWritten(e, m, g1, g3, g4, g5);
      var g6 := EncodeTypeLength(g5, SEQUENCE, Narrow16(e.pos - g5.pos));
      var body := Tlv(INTEGER, IntegerContent(ToS32(m.msgId))) + (Tlv(INTEGER, IntegerContent(MAX_BUF_SIZE)) +
        (Tlv(OCTET_STRING, [m.msgFlags]) + Tlv(INTEGER, IntegerContent(USM_SECURITY_MODEL))));
      Wrap(e, SEQUENCE, body, g5, e.pos);
      TlvLonger(SEQUENCE, body);
      g6
  }

  /** The flags byte and then its header: the OCTET STRING of one byte in front of the cursor. */
  lemma FlagsWritten(e: Enc, f: byte, e1: Enc, e2: Enc)
    requires e.pos < 0x1_0000
    requires e1 == Prepend(e, [f]) && e2 == EncodeTypeLength(e1, OCTET_STRING, 1)
    ensures Writes(e, Tlv(OCTET_STRING, [f]), e2)
  {
    if e.Ok() {
      Wrap(e, OCTET_STRING, [f], e1, e.pos);
    }
  }

  /** The four fields of msgGlobalData written one after the other, the security model first. */
  lemma GlobalFieldsWritten(e: Enc, m: MessageV3, g1: Enc, g3: Enc, g4: Enc, g5: Enc)
    requires g1 == EncodeInteger(e, INTEGER, USM_SECURITY_MODEL)
    requires Writes(g1, Tlv(OCTET_STRING, [m.msgFlags]), g3)
    requires g4 == EncodeInteger(g3, INTEGER, MAX_BUF_SIZE) && g5 == EncodeInteger(g4, INTEGER, ToS32(m.msgId))
    ensures Writes(e, Tlv(INTEGER, IntegerContent(ToS32(m.msgId))) + (Tlv(INTEGER, IntegerContent(MAX_BUF_SIZE)) +
      (Tlv(OCTET_STRING, [m.msgFlags]) + Tlv(INTEGER, IntegerContent(USM_SECURITY_MODEL)))), g5)
  {
    var i3 := Tlv(INTEGER, IntegerContent(USM_SECURITY_MODEL));
    var fl := Tlv(OCTET_STRING, [m.msgFlags]);
    var mx := Tlv(INTEGER, IntegerContent(MAX_BUF_SIZE));
    var id := Tlv(INTEGER, IntegerContent(ToS32(m.msgId)));
    Chain(e, i3, g1, fl, g3);
    Chain(e, fl + i3, g3, mx, g4);
    Chain(e, mx + (fl + i3), g4, id, g5);
  }

  /**
   * The rest of encode_v3_response after the security parameters:
   * msgGlobalData, the version and the outer SEQUENCE header measured from
   * the buffer end.  Behind the cursor lie `p`, the parameters and the
   * sealed scoped PDU.
   */
  function EncodeEnvelope(o: Enc, m: MessageV3, maxLen: u16, ghost p: seq<byte>): (r: Enc)
    requires maxLen < 0x8000 && Placed(o, maxLen, p)
    ensures Placed(r, maxLen, Envelope(m, p))
  {
    var g6 := EncodeGlobalData(o, m);
    var g7 := EncodeInteger(g6, INTEGER, m.version);
    var e0 := Enc(maxLen, []);
    assert o.Ok() ==> o == Prepend(e0, p) by {
      assert p + [] == p;
    }
    EnvelopeSteps(e0, p, o, GlobalBytes(m), g6, Tlv(INTEGER, IntegerContent(m.version)), g7, maxLen);
    if !g7.Ok() then g7
    else EncodeTypeLength(g7, SEQUENCE, Narrow16(maxLen - g7.pos))
  }

  /** The sealed scoped PDU is at least as long as the scoped PDU. */
  lemma SealedLonger(m: MessageV3, scoped: seq<byte>, crypto: Crypto, key: seq<byte>)
    ensures |Sealed(m, scoped, crypto, key)| >= |scoped|
  {
    if HasFlag(m.msgFlags, FLAG_PRIV) {
      TlvLonger(OCTET_STRING, Fit(crypto.encrypt(key, Iv(m.boots, m.time, m.privParams), scoped), |scoped|));
    }
  }

  /**
   * Where the 12 digest bytes go when the message ends at `end`: two bytes
   * past the tag of msgAuthenticationParameters, which is followed only by
   * msgPrivacyParameters and the sealed scoped PDU.
   */
  function AuthSlot(m: MessageV3, sealed: seq<byte>, end: int): int
  {
    end - |sealed| - |Tlv(OCTET_STRING, m.privParams)| - |Tlv(OCTET_STRING, m.authParams)| + 2
  }

  /** The response as sent and the message as the security model left it. */
  datatype ResponseV3 = ResponseV3(output: Option<seq<byte>>, msg: MessageV3)

  /**
   * A finished response of layout `out`: with the authentication flag the
   * first 12 bytes of the HMAC over `out` go into its digest slot.
   */
  function Signed(m: MessageV3, out: seq<byte>, sealed: seq<byte>, md5: Hash, key: seq<byte>): seq<byte>
    requires AuthSlot(m, sealed, |out|) >= 0
  {
    if HasFlag(m.msgFlags, FLAG_AUTH) then Authenticate(out, AuthSlot(m, sealed, |out|), md5, key) else out
  }

  /**
   * encode_v3_response: the scoped PDU, the security parameters (which
   * stamp the message and, with the privacy flag, seal the scoped PDU),
   * then msgGlobalData, the version and the outer header, all written back
   * to front.  With the authentication flag the HMAC of the finished
   * message goes into msgAuthenticationParameters.  The response is
   * produced exactly when its layout fits.
   */
  function EncodeResponse(m: MessageV3, input: span, maxLen: u16, env: Env, salt: Salt): (r: ResponseV3)
    requires m.pdu.varbindIndex <= |input|
    ensures var sent := Stamped(m, env.cfg, env.uptime, salt);
      var sealed := Sealed(sent, ScopedBytes(m, input), env.crypto, env.cfg.privKul);
      var out := Layout(sent, ScopedBytes(m, input), env.crypto, env.cfg.privKul);
      (r.output.Some? <==> maxLen < 0x8000 && |out| <= maxLen) &&
      (r.output.Some? ==>
        r.msg == sent && AuthSlot(sent, sealed, |out|) >= 2 &&
        r.output.value == Signed(sent, out, sealed, env.crypto.md5, env.cfg.authKul))
  {
    var o := Secure(m, input, maxLen, env, salt);
    var sealed := Sealed(o.msg, ScopedBytes(m, input), env.crypto, env.cfg.privKul);
    var f := if maxLen < 0x8000 then EncodeEnvelope(o.e, o.msg, maxLen, ParamsBytes(o.msg) + sealed) else o.e;
    ScopedLonger(m, input);
    Finished(o, f, maxLen, Stamped(m, env.cfg, env.uptime, salt), ScopedBytes(m, input), env.crypto, env.cfg);
    if !f.Ok() then ResponseV3(None, o.msg)
    else
      var signed := if HasFlag(o.msg.msgFlags, FLAG_AUTH) then Authenticate(f.out, o.authAbs - f.pos, env.crypto.md5, env.cfg.authKul) else f.out;
      ResponseV3(Some(signed), o.msg)
  }

  /**
   * The last step of encode_v3_response, in terms of the layouts alone:
   * the envelope fits exactly when the whole layout does, and then the
   * digest slot recorded while encoding is the layout's own.
   */
  lemma Finished(o: Outgoing, f: Enc, maxLen: u16, sent: MessageV3, scoped: seq<byte>, crypto: Crypto, cfg: UsmConfig)
    requires o.msg == sent && |scoped| >= 10
    requires maxLen < 0x8000 ==>
      Placed(o.e, maxLen, ParamsBytes(sent) + Sealed(sent, scoped, crypto, cfg.privKul)) &&
      Placed(f, maxLen, Envelope(sent, ParamsBytes(sent) + Sealed(sent, scoped, crypto, cfg.privKul)))
    requires maxLen >= 0x8000 ==> f == o.e && !o.e.Ok()
    requires o.e.Ok() ==> o.authAbs == AuthSlot(sent, Sealed(sent, scoped, crypto, cfg.privKul), maxLen)
    ensures var out := Layout(sent, scoped, crypto, cfg.privKul);
      var sealed := Sealed(sent, scoped, crypto, cfg.privKul);
      (f.Ok() <==> maxLen < 0x8000 && |out| <= maxLen) &&
      (f.Ok() ==>
        2 <= AuthSlot(sent, sealed, |out|) && AuthSlot(sent, sealed, |out|) + 12 <= |out| &&
        o.authAbs - f.pos == AuthSlot(sent, sealed, |out|) &&
        (if HasFlag(sent.msgFlags, FLAG_AUTH) then Authenticate(f.out, o.authAbs - f.pos, crypto.md5, cfg.authKul) else f.out)
        == Signed(sent, out, sealed, crypto.md5, cfg.authKul))
  {
    var sealed := Sealed(sent, scoped, crypto, cfg.privKul);
    var inner := ParamsBytes(sent) + sealed;
    var out := Layout(sent, scoped, crypto, cfg.privKul);
    SlotInside(sent, scoped, crypto, cfg.privKul);
    TlvLonger(SEQUENCE, Tlv(INTEGER, IntegerContent(sent.version)) + (GlobalBytes(sent) + inner));
    FinishedAt(o, f, maxLen, sent, inner, out, sealed, crypto.md5, cfg.authKul);
  }

  /** Finished over the layouts as plain sequences. */
  lemma FinishedAt(o: Outgoing, f: Enc, maxLen: u16, sent: MessageV3, inner: seq<byte>, out: seq<byte>, sealed: seq<byte>,
                   md5: Hash, key: seq<byte>)
    requires |inner| <= |out|
    requires 2 <= AuthSlot(sent, sealed, |out|) && AuthSlot(sent, sealed, |out|) + 12 <= |out|
    requires maxLen < 0x8000 ==> Placed(o.e, maxLen, inner) && Placed(f, maxLen, out)
    requires maxLen >= 0x8000 ==> f == o.e && !o.e.Ok()
    requires o.e.Ok() ==> o.authAbs == AuthSlot(sent, sealed, maxLen)
    ensures f.Ok() <==> maxLen < 0x8000 && |out| <= maxLen
    ensures f.Ok() ==> o.authAbs - f.pos == AuthSlot(sent, sealed, |out|)
    ensures f.Ok() ==>
      (if HasFlag(sent.msgFlags, FLAG_AUTH) then Authenticate(f.out, o.authAbs - f.pos, md5, key) else f.out)
      == Signed(sent, out, sealed, md5, key)
  {
  }

  /** The digest slot of a layout lies inside it, at least two bytes in. */
  lemma SlotInside(sent: MessageV3, scoped: seq<byte>, crypto: Crypto, key: seq<byte>)
    requires |scoped| >= 10
    ensures var out := Layout(sent, scoped, crypto, key);
      var sealed := Sealed(sent, scoped, crypto, key);
      2 <= AuthSlot(sent, sealed, |out|) && AuthSlot(sent, sealed, |out|) + 12 <= |out|
  {
    var sealed := Sealed(sent, scoped, crypto, key);
    TlvLonger(SEQUENCE, Tlv(INTEGER, IntegerContent(sent.version)) + (GlobalBytes(sent) + (ParamsBytes(sent) + sealed)));
    ParamsLonger(sent);
    SealedLonger(sent, scoped, crypto, key);
    TlvLonger(OCTET_STRING, sent.privParams);
  }

  /** A scoped PDU holds at least its three headers and the PDU's three INTEGERs. */
  lemma ScopedLonger(m: MessageV3, input: span)
    requires m.pdu.varbindIndex <= |input|
    ensures |ScopedBytes(m, input)| >= 10
  {
    var pdu := m.pdu;
    TlvLonger(INTEGER, IntegerContent(pdu.requestId));
    TlvLonger(INTEGER, IntegerContent(pdu.errorStatus));
    TlvLonger(INTEGER, IntegerContent(pdu.errorIndex));
    TlvLonger(pdu.responseType, Tlv(INTEGER, IntegerContent(pdu.requestId)) + Tlv(INTEGER, IntegerContent(pdu.errorStatus))
      + Tlv(INTEGER, IntegerContent(pdu.errorIndex)) + BindingsPart(input, pdu));
    TlvLonger(OCTET_STRING, m.contextEngineID);
    TlvLonger(OCTET_STRING, m.contextName);
    TlvLonger(SEQUENCE, Tlv(OCTET_STRING, m.contextEngineID) + (Tlv(OCTET_STRING, m.contextName) + PduBytes(input, m.pdu)));
  }

  /** The security parameters hold both the authentication and the privacy parameters. */
  lemma ParamsLonger(m: MessageV3)
    ensures |ParamsBytes(m)| >= |Tlv(OCTET_STRING, m.authParams)| + |Tlv(OCTET_STRING, m.privParams)| + 2
  {
    TlvLonger(OCTET_STRING, Tlv(SEQUENCE, ParamsBody(m)));
    TlvLonger(SEQUENCE, ParamsBody(m));
  }

  /**
   * The first two steps of encode_v3_response: the scoped PDU, then the
   * security parameters, which stamp the message and, with the privacy
   * flag, seal the scoped PDU.  The parameters and the sealed PDU end up
   * at the end of the buffer exactly when they fit.
   */
  function Secure(m: MessageV3, input: span, maxLen: u16, env: Env, salt: Salt): (r: Outgoing)
    requires m.pdu.varbindIndex <= |input|
    ensures r.msg == Stamped(m, env.cfg, env.uptime, salt)
    ensures maxLen < 0x8000 ==>
      Placed(r.e, maxLen, ParamsBytes(r.msg) + Sealed(r.msg, ScopedBytes(m, input), env.crypto, env.cfg.privKul))
    ensures maxLen >= 0x8000 ==> !r.e.Ok()
    ensures r.e.Ok() ==> r.authAbs == AuthSlot(r.msg, Sealed(r.msg, ScopedBytes(m, input), env.crypto, env.cfg.privKul), maxLen)
  {
    var e := EncodeScoped(m, input, maxLen);
    if !e.Ok() then
      var sent := Stamped(m, env.cfg, env.uptime, salt);
      SealedLonger(sent, ScopedBytes(m, input), env.crypto, env.cfg.privKul);
      Outgoing(e, sent, 0)
    else
      PrepareOutgoing(m, e, maxLen, env.cfg, env.uptime, env.crypto, salt)
  }

  /**
   * prepareResponseMessage_v3: the flags keep only authentication and
   * privacy, the context engine ID becomes the agent's.  A response that
   * does not fit is encoded again as tooBig with error index 0, which
   * echoes the request's own binding bytes; the retry's outcome is not
   * checked and the call always returns 0.
   */
  function PrepareResponse(m: MessageV3, input: span, maxLen: u16, env: Env): (r: ResponseV3)
    requires m.pdu.varbindIndex <= |input|
    ensures var m1 := m.(msgFlags := m.msgFlags % 4, contextEngineID := env.cfg.engineID);
      var first := EncodeResponse(m1, input, maxLen, env, env.salt);
      (first.output.Some? ==> r == first) &&
      (first.output.None? ==>
        var tooBig := m1.(pdu := m1.pdu.(errorStatus := TOO_BIG, errorIndex := 0, varbinds := []));
        r.output == EncodeResponse(tooBig, input, maxLen, env, env.retrySalt).output &&
        r.msg.pdu.errorStatus == TOO_BIG && r.msg.pdu.varbinds == m.pdu.varbinds)
  {
    var m1 := m.(msgFlags := m.msgFlags % 4, contextEngineID := env.cfg.engineID);
    var first := EncodeResponse(m1, input, maxLen, env, env.salt);
    if first.output.Some? then first
    else
      var tooBig := m1.(pdu := m1.pdu.(errorStatus := TOO_BIG, errorIndex := 0, varbinds := []));
      var retry := EncodeResponse(tooBig, input, maxLen, env, env.retrySalt);
      var kept := tooBig.(pdu := tooBig.pdu.(varbinds := m.pdu.varbinds));
      ResponseV3(retry.output, if retry.output.Some? then retry.msg.(pdu := kept.pdu) else kept)
  }

  // ---------------------------------------------------------------------
  // Read back
  // ---------------------------------------------------------------------

  /**
   * The flags OCTET STRING of length one: its header reads back whatever
   * length the header decoder was handed as the prior value, and its byte
   * lies right after the header.
   */
  lemma FlagsAt(input: span, k: nat, flags: byte, rest: seq<byte>, prior: u16) returns (k1: nat)
    requires Holds(input, k, Tlv(OCTET_STRING, [flags]) + rest)
    ensures DecodeTypeLength(input, k, prior) == Ok(Header(OCTET_STRING, 1), k + 2)
    ensures At(input, k + 2) == flags && Holds(input, k1, rest) && k1 == k + 3
  {
    HoldsSplit(input, k, Tlv(OCTET_STRING, [flags]), rest);
    HoldsAround(input, k, Tlv(OCTET_STRING, [flags]));
    var after := input[k + 3..];
    assert Tlv(OCTET_STRING, [flags]) == [OCTET_STRING] + LengthOctets(1) + [flags];
    assert input == input[..k] + [OCTET_STRING] + LengthOctets(1) + ([flags] + after);
    HeaderRoundTrip(input[..k], OCTET_STRING, 1, [flags] + after, prior);
    assert input[Offset(k, 2)] == flags;
    k1 := k + 3;
  }

  /**
   * msgGlobalData as the agent writes it reads back: the flags byte and the
   * security model exactly, msgID and msgMaxSize through the INTEGER round
   * trip.
   */
  lemma GlobalRead(input: span, k: nat, m: MessageV3, end: nat)
    requires Holds(input, k, GlobalBytes(m)) && end == k + |GlobalBytes(m)|
    ensures DecodeGlobalData(input, k) ==
      Ok(GlobalData(IntegerReadBack(ToS32(m.msgId)), MAX_BUF_SIZE, m.msgFlags, USM_SECURITY_MODEL), end)
  {
    var flagsAndModel := Tlv(OCTET_STRING, [m.msgFlags]) + Tlv(INTEGER, IntegerContent(USM_SECURITY_MODEL));
    var body := Tlv(INTEGER, IntegerContent(ToS32(m.msgId))) + (Tlv(INTEGER, IntegerContent(MAX_BUF_SIZE)) + flagsAndModel);
    var k1 := SequenceThen(input, k, body);
    var k2 := IntegerThen(input, k1, ToS32(m.msgId), Tlv(INTEGER, IntegerContent(MAX_BUF_SIZE)) + flagsAndModel);
    var k3 := IntegerThen(input, k2, MAX_BUF_SIZE, flagsAndModel);
    var k4 := FlagsAt(input, k3, m.msgFlags, Tlv(INTEGER, IntegerContent(USM_SECURITY_MODEL)), |body| as u16);
    IntegerAt(input, k4, USM_SECURITY_MODEL);
    assert k4 + |Tlv(INTEGER, IntegerContent(USM_SECURITY_MODEL))| == end;
    assert IntegerReadBack(MAX_BUF_SIZE) == MAX_BUF_SIZE && IntegerReadBack(USM_SECURITY_MODEL) == USM_SECURITY_MODEL;
    GlobalFields(input, k, |body| as u16, k1, k2, k3, end,
      IntegerReadBack(ToS32(m.msgId)), MAX_BUF_SIZE, m.msgFlags, USM_SECURITY_MODEL);
  }

  /** msgGlobalData from its four fields, each read where the previous one ended. */
  lemma GlobalFields(input: span, k: nat, len: u16, k1: nat, k2: nat, k3: nat, end: nat,
                     id: s32, maxSize: s32, flags: byte, model: s32)
    requires DecodeSequenceLength(input, k) == Ok(len, k1)
    requires DecodeInteger(input, k1) == Ok(id, k2)
    requires DecodeInteger(input, k2) == Ok(maxSize, k3)
    requires DecodeTypeLength(input, k3, len) == Ok(Header(OCTET_STRING, 1), k3 + 2) && At(input, k3 + 2) == flags
    requires DecodeInteger(input, k3 + 3) == Ok(model, end)
    ensures DecodeGlobalData(input, k) == Ok(GlobalData(id, maxSize, flags, model), end)
  {
  }

  /** The scoped PDU as the agent writes it reads back up to the PDU: its header and both context strings. */
  lemma ScopedRead(out: span, k: nat, m: MessageV3, input: span)
    requires m.pdu.varbindIndex <= |input|
    requires Holds(out, k, ScopedBytes(m, input))
    ensures ScopedHeader(out, k).Ok? && ScopedHeader(out, k).value == (m.contextEngineID, m.contextName)
  {
    var pdu := PduBytes(input, m.pdu);
    var name := Tlv(OCTET_STRING, m.contextName) + pdu;
    var k1 := SequenceThen(out, k, Tlv(OCTET_STRING, m.contextEngineID) + name);
    var k2 := StringThen(out, k1, m.contextEngineID, name);
    var k3 := StringThen(out, k2, m.contextName, pdu);
  }

  /**
   * A response without the privacy flag, laid out as the agent writes it,
   * reads back through the agent's own decoders: an exact-length SEQUENCE,
   * the version, msgGlobalData, the security parameters (every field, as
   * decode_USM_parameters fills them in) and the scoped PDU's header.
   */
  lemma LayoutRead(out: span, m: MessageV3, input: span, crypto: Crypto, key: seq<byte>, msg: MessageV3)
    returns (k: nat, g: nat, end: nat)
    requires !HasFlag(m.msgFlags, FLAG_PRIV) && !HasFlag(msg.msgFlags, FLAG_PRIV)
    requires m.version < 0x80 && m.pdu.varbindIndex <= |input|
    requires out == Layout(m, ScopedBytes(m, input), crypto, key)
    ensures end == g + |ParamsBytes(m)|
    ensures ReadsBack(out, m, msg, k, g, end)
  {
    var rest := GlobalBytes(m) + (ParamsBytes(m) + ScopedBytes(m, input));
    assert out == Tlv(SEQUENCE, Tlv(INTEGER, IntegerContent(m.version)) + rest);
    k := EnvelopeRead(out, m.version, rest);
    g, end := SecurityRead(out, k + 3, m, input, msg);
  }

  /** SEQUENCE { version, ... } spanning the whole buffer: the header and the version read back, the rest lies behind them. */
  lemma EnvelopeRead(out: span, version: byte, rest: seq<byte>) returns (k: nat)
    requires version < 0x80
    requires out == Tlv(SEQUENCE, Tlv(INTEGER, IntegerContent(version)) + rest)
    ensures DecodeSequence(out, 0).Ok? && DecodeSequence(out, 0).pos == k
    ensures DecodeInteger(out, k) == Ok(version as s32, k + 3)
    ensures Holds(out, k + 3, rest)
  {
    var body := Tlv(INTEGER, IntegerContent(version)) + rest;
    WholeSequence(out, body);
    k := |out| - |body|;
    assert IntegerWidth(version) == 1;
    var k2 := IntegerThen(out, k, version, rest);
  }

  /** msgGlobalData, the security parameters and the scoped PDU's header, one after the other. */
  lemma SecurityRead(out: span, k: nat, m: MessageV3, input: span, msg: MessageV3) returns (g: nat, end: nat)
    requires !HasFlag(msg.msgFlags, FLAG_PRIV) && m.pdu.varbindIndex <= |input|
    requires Holds(out, k, GlobalBytes(m) + (ParamsBytes(m) + ScopedBytes(m, input)))
    ensures DecodeGlobalData(out, k) ==
      Ok(GlobalData(IntegerReadBack(ToS32(m.msgId)), MAX_BUF_SIZE, m.msgFlags, USM_SECURITY_MODEL), g)
    ensures end == g + |ParamsBytes(m)| && end >= |Tlv(OCTET_STRING, m.privParams)| + |m.authParams|
    ensures DecodeParameters(out, g, msg) == Ok(Received(m, msg, AuthAt(end, m)), end)
    ensures ScopedHeader(out, end).Ok? && ScopedHeader(out, end).value == (m.contextEngineID, m.contextName)
  {
    g, end := HoldsThree(out, k, GlobalBytes(m), ParamsBytes(m), ScopedBytes(m, input));
    GlobalRead(out, k, m, g);
    ParametersRoundTrip(out, g, m, msg, end);
    ScopedRead(out, end, m, input);
  }

  /**
   * `out` reads back as the message `m` through the agent's own decoders:
   * an SEQUENCE header ending at k, the version, msgGlobalData ending at g,
   * the security parameters ending at `end` (decoded over `msg`), and the
   * scoped PDU's header.
   */
  predicate ReadsBack(out: span, m: MessageV3, msg: MessageV3, k: nat, g: nat, end: nat)
  {
    DecodeSequence(out, 0).Ok? && DecodeSequence(out, 0).pos == k &&
    DecodeInteger(out, k) == Ok(m.version as s32, k + 3) &&
    DecodeGlobalData(out, k + 3) ==
      Ok(GlobalData(IntegerReadBack(ToS32(m.msgId)), MAX_BUF_SIZE, m.msgFlags, USM_SECURITY_MODEL), g) &&
    end >= |Tlv(OCTET_STRING, m.privParams)| + |m.authParams| &&
    DecodeParameters(out, g, msg) == Ok(Received(m, msg, AuthAt(end, m)), end) &&
    ScopedHeader(out, end).Ok? && ScopedHeader(out, end).value == (m.contextEngineID, m.contextName)
  }
}

=== FILE: msg_v3_props.dfy ===
// Properties of the SNMPv3 response encoder stated across the message
// processing model and the USM: what a response without authentication
// or privacy reads back as.

module MsgV3Props {
  import opened SnmpTypes
  import opened BerDecode
  import opened BerEncode
  import opened Usm
  import opened MsgV3

  /**
   * A response encoded without authentication or privacy reads back
   * through the agent's own decoders as the stamped message: the envelope,
   * msgGlobalData, the security parameters and the scoped PDU's header.
   */
  lemma ResponseRead(m: MessageV3, input: span, maxLen: u16, env: Env, salt: Salt, out: span, msg: MessageV3)
    returns (k: nat, g: nat, end: nat)
    requires m.pdu.varbindIndex <= |input| && m.version < 0x80
    requires !HasFlag(m.msgFlags, FLAG_AUTH) && !HasFlag(m.msgFlags, FLAG_PRIV) && !HasFlag(msg.msgFlags, FLAG_PRIV)
    requires var o := EncodeResponse(m, input, maxLen, env, salt).output; o.Some? && o.value == out
    ensures ReadsBack(out, Stamped(m, env.cfg, env.uptime, salt), msg, k, g, end)
  {
    var sent := Stamped(m, env.cfg, env.uptime, salt);
    k, g, end := StampedRead(out, m, sent, input, env.crypto, env.cfg.privKul, msg);
  }

  /** The plain layout of a message with the same header as `m` (and `m`'s scoped PDU) reads back as that message. */
  lemma StampedRead(out: span, m: MessageV3, sent: MessageV3, input: span, crypto: Crypto, key: seq<byte>, msg: MessageV3)
    returns (k: nat, g: nat, end: nat)
    requires m.pdu.varbindIndex <= |input| && m.version < 0x80 && SameHeader(sent, m)
    requires !HasFlag(m.msgFlags, FLAG_PRIV) && !HasFlag(msg.msgFlags, FLAG_PRIV)
    requires out == Layout(sent, ScopedBytes(m, input), crypto, key)
    ensures ReadsBack(out, sent, msg, k, g, end)
  {
    assert ScopedBytes(sent, input) == ScopedBytes(m, input);
    k, g, end := LayoutRead(out, sent, input, crypto, key, msg);
  }
}

=== FILE: oid_utils.dfy ===
// OID helpers of the agent (utils.c): comparison by memcmp over a common
// prefix, the copy used by GETNEXT, and word-to-octets conversion.

module OidUtils {
  import opened SnmpTypes
  import opened ByteArith

  /** The pointer advanced by one byte. */
  function Drop1(s: seq<byte>): seq<byte> { if |s| == 0 then [] else s[1..] }

  lemma DropShift(s: seq<byte>)
    ensures forall k: nat :: At(Drop1(s), k) == At(s, k + 1)
  {
  }

  /** The first `n` bytes at `a` and at `b` are the same. */
  predicate AgreeOn(a: seq<byte>, b: seq<byte>, n: nat)
  {
    forall k :: 0 <= k < n ==> At(a, k) == At(b, k)
  }

  /**
   * The sign of memcmp(a, b, n): bytes compare as unsigned char and the
   * first differing byte decides.  Only the sign is modelled; every caller
   * tests the result against 0.
   */
  function MemCmp(a: seq<byte>, b: seq<byte>, n: nat): (r: int)
    ensures -1 <= r <= 1
    ensures r == 0 <==> AgreeOn(a, b, n)
    decreases n
  {
    if n == 0 then 0
    else if At(a, 0) < At(b, 0) then -1
    else if At(a, 0) > At(b, 0) then 1
    else AgreeStep(a, b, n); MemCmp(Drop1(a), Drop1(b), n - 1)
  }

  lemma AgreeStep(a: seq<byte>, b: seq<byte>, n: nat)
    requires n > 0
    ensures AgreeOn(a, b, n) <==> At(a, 0) == At(b, 0) && AgreeOn(Drop1(a), Drop1(b), n - 1)
  {
    DropShift(a);
    DropShift(b);
    if At(a, 0) == At(b, 0) && AgreeOn(Drop1(a), Drop1(b), n - 1) {
      forall k | 0 < k < n
        ensures At(a, k) == At(b, k)
      {
        assert At(Drop1(a), k - 1) == At(Drop1(b), k - 1);
      }
    }
  }

  /** Swapping the operands of memcmp negates its sign. */
  lemma {:induction false} MemCmpAntisymmetric(a: seq<byte>, b: seq<byte>, n: nat)
    ensures MemCmp(a, b, n) == -MemCmp(b, a, n)
    decreases n
  {
    if n > 0 && At(a, 0) == At(b, 0) {
      MemCmpAntisymmetric(Drop1(a), Drop1(b), n - 1);
    }
  }

  predicate IsPrefix(a: seq<byte>, b: seq<byte>)
  {
    |a| <= |b| && b[..|a|] == a
  }

  /**
   * Byte-lexicographic order of OIDs, a proper prefix counting as smaller:
   * the order in which GETNEXT walks the MIB.
   */
  predicate LexLess(a: seq<byte>, b: seq<byte>)
  {
    if |a| == 0 then |b| > 0
    else if |b| == 0 then false
    else a[0] < b[0] || (a[0] == b[0] && LexLess(a[1..], b[1..]))
  }

  /** oid_cmp: memcmp over the shorter of the two lengths. */
  function OidCmp(req: seq<byte>, obj: seq<byte>): (r: int)
    ensures -1 <= r <= 1
    ensures r == 0 <==> IsPrefix(req, obj) || IsPrefix(obj, req)
  {
    var m := Min(|req|, |obj|);
    AgreeIsPrefix(req, obj, m);
    MemCmp(req, obj, m)
  }

  lemma AgreeIsPrefix(a: seq<byte>, b: seq<byte>, m: nat)
    requires m == Min(|a|, |b|)
    ensures AgreeOn(a, b, m) <==> IsPrefix(a, b) || IsPrefix(b, a)
  {
    if AgreeOn(a, b, m) {
      if |a| <= |b| {
        assert forall k :: 0 <= k < |a| ==> b[..|a|][k] == At(b, k) == At(a, k) == a[k];
      } else {
        assert forall k :: 0 <= k < |b| ==> a[..|b|][k] == At(a, k) == At(b, k) == b[k];
      }
    }
    if IsPrefix(a, b) {
      assert forall k :: 0 <= k < m ==> At(a, k) == b[..|a|][k] == At(b, k);
    }
    if IsPrefix(b, a) {
      assert forall k :: 0 <= k < m ==> At(b, k) == a[..|b|][k] == At(a, k);
    }
  }

  /** The first byte decides, otherwise the comparison moves on. */
  lemma OidCmpStep(a: seq<byte>, b: seq<byte>)
    requires |a| > 0 && |b| > 0
    ensures OidCmp(a, b) == (if a[0] < b[0] then -1
                             else if a[0] > b[0] then 1
                             else OidCmp(a[1..], b[1..]))
  {
    assert Drop1(a) == a[1..] && Drop1(b) == b[1..];
  }

  /**
   * The scalar test of GETNEXT, "memcmp below zero, or zero with the request
   * shorter", is exactly byte-lexicographic order.
   */
  lemma {:induction false} SuccessorTestIsLexLess(a: seq<byte>, b: seq<byte>)
    ensures (OidCmp(a, b) < 0 || (OidCmp(a, b) == 0 && |a| < |b|)) <==> LexLess(a, b)
    decreases |a|
  {
    if |a| > 0 && |b| > 0 {
      OidCmpStep(a, b);
      SuccessorTestIsLexLess(a[1..], b[1..]);
    }
  }

  /** oid_cmp is antisymmetric. */
  lemma OidCmpAntisymmetric(a: seq<byte>, b: seq<byte>)
    ensures OidCmp(a, b) == -OidCmp(b, a)
  {
    MemCmpAntisymmetric(a, b, Min(|a|, |b|));
  }

  /** byte-lexicographic order is a strict total order on distinct OIDs. */
  lemma {:induction false} LexTotal(a: seq<byte>, b: seq<byte>)
    ensures a == b || LexLess(a, b) || LexLess(b, a)
    ensures !(LexLess(a, b) && LexLess(b, a))
    ensures !LexLess(a, a)
    decreases |a|
  {
    if |a| > 0 && |b| > 0 {
      LexTotal(a[1..], b[1..]);
      if a[0] == b[0] && a[1..] == b[1..] {
        assert a == [a[0]] + a[1..] && b == [b[0]] + b[1..];
      }
    }
    if |a| > 0 {
      LexTotal(a[1..], a[1..]);
    }
  }

  /** Byte-lexicographic order is transitive. */
  lemma {:induction false} LexTrans(a: seq<byte>, b: seq<byte>, c: seq<byte>)
    requires LexLess(a, b) && LexLess(b, c)
    ensures LexLess(a, c)
    decreases |a|
  {
    if |a| > 0 && a[0] == b[0] && b[0] == c[0] {
      LexTrans(a[1..], b[1..], c[1..]);
    }
  }

  /** Two OIDs that agree on their first k bytes and differ at byte k are ordered by that byte. */
  lemma {:induction false} LexAt(a: seq<byte>, b: seq<byte>, k: nat)
    requires k < |a| && k < |b| && a[..k] == b[..k] && a[k] < b[k]
    ensures LexLess(a, b)
    decreases k
  {
    if k > 0 {
      assert a[0] == a[..k][0] == b[..k][0] == b[0];
      assert a[1..][..k - 1] == a[..k][1..] && b[1..][..k - 1] == b[..k][1..];
      LexAt(a[1..], b[1..], k - 1);
    }
  }

  /** oid_cmpn: memcmp over min(request length, n) bytes. */
  function OidCmpn(req: seq<byte>, obj: seq<byte>, n: byte): (r: int)
    ensures -1 <= r <= 1
    ensures r == 0 <==> Window(req, Min(|req|, n)) == Window(obj, Min(|req|, n))
  {
    var m := Min(|req|, n);
    assert AgreeOn(req, obj, m) <==> Window(req, m) == Window(obj, m) by {
      if Window(req, m) == Window(obj, m) {
        assert forall k :: 0 <= k < m ==> Window(req, m)[k] == At(req, k);
      }
    }
    MemCmp(req, obj, m)
  }

  /** A heap buffer: its bytes and the size it was allocated with. */
  datatype Buffer = Buffer(bytes: seq<byte>, capacity: nat)

  /** The ptr_t that oid_copy fills: the length is written even when malloc fails. */
  datatype Copied = Copied(code: int, len: u16, buffer: Option<Buffer>)

  /**
   * oid_copy: sets the length first, then allocates `mallocLen` bytes (or
   * the source length when it is 0) and copies the source bytes; a failed
   * allocation (`allocOk` false) returns -1 with no buffer.
   */
  function OidCopy(src: span, mallocLen: byte, allocOk: bool): (r: Copied)
    ensures r.len == |src|
    ensures r.code == 0 <==> allocOk
    ensures r.code != 0 ==> r.code == -1 && r.buffer.None?
    ensures allocOk ==> r.buffer.Some? && r.buffer.value.bytes == src
    ensures allocOk ==> (r.buffer.value.capacity < |src| <==> 0 < mallocLen < |src|)
  {
    if !allocOk then Copied(-1, |src|, None)
    else Copied(0, |src|, Some(Buffer(src, if mallocLen == 0 then |src| else mallocLen)))
  }

  /** convert_2_octets: the word big-endian, read back to itself. */
  function Convert2Octets(w: u32): (r: seq<byte>)
    ensures |r| == 4
    ensures BE(r) == w
    ensures r[0] == w / 0x100_0000 && r[3] == w % 0x100
  {
    BE32Value(w);
    BE32(w)
  }
}

=== FILE: pdu_props.dfy ===
// Reading back what ber_encode_pdu writes: a response PDU laid out by the
// encoder goes through ber_decode_pdu with its type, request id, error
// status, error index and every binding's name, type and value intact, up
// to the INTEGER bands the encoder misplaces.

module PduProps {
  import opened SnmpTypes
  import opened ByteArith
  import opened BerDecode
  import opened BerEncode
  import opened BerProps

  /**
   * A binding the agent's own decoder reads back: a non-empty name and an
   * INTEGER, OCTET STRING, NULL or non-empty OID value.  Counter32 and
   * TimeTicks are refused by ber_decode_value, and an empty OID by
   * ber_decode_oid.
   */
  predicate Readable(vb: VarBind)
  {
    |vb.oid| >= 1 &&
    (vb.valueType == INTEGER || vb.valueType == OCTET_STRING || vb.valueType == NULL ||
     (vb.valueType == OID && |vb.value.Octets()| >= 1))
  }

  /** The value ber_decode_value returns for the bytes ber_encode_var_bind wrote for `vb`. */
  function ValueReadBack(vb: VarBind): Value
  {
    if vb.valueType == INTEGER then Num(FromS32(IntegerReadBack(vb.value.Signed())))
    else if vb.valueType == NULL then Num(0)
    else Bytes(vb.value.Octets())
  }

  /** A decoded binding `got` carries the name, type and value of the binding `vb` that was written. */
  predicate ReadsAs(got: VarBind, vb: VarBind)
  {
    got.oid == vb.oid && got.valueType == vb.valueType && got.value == ValueReadBack(vb)
  }

  /** From position `p` on, the decoded bindings `got` carry the written bindings `vbs` in order. */
  predicate ReadsFrom(got: seq<VarBind>, p: nat, vbs: seq<VarBind>)
  {
    p + |vbs| <= |got| && forall i :: 0 <= i < |vbs| ==> ReadsAs(got[p + i], vbs[i])
  }

  /**
   * ber_decode_pdu's result `r` carries what ber_encode_pdu wrote for the
   * response `pdu`: no error; the response tag as the request type, the
   * request id as the INTEGER reads back, the error status and the error
   * index; and the bindings one for one.
   */
  predicate DecodedAs(r: PduDecode, pdu: Pdu)
  {
    (r.code, r.pdu.requestType, r.pdu.requestId, r.pdu.errorStatus, r.pdu.errorIndex)
      == (ERR_NO_ERROR, pdu.responseType, IntegerReadBack(pdu.requestId), pdu.errorStatus, pdu.errorIndex) &&
    ReadsAll(r.pdu.varbinds, pdu.varbinds)
  }

  /** The decoded bindings `got` are exactly as many as the written `vbs`, and each reads as its own. */
  predicate ReadsAll(got: seq<VarBind>, vbs: seq<VarBind>)
  {
    |got| == |vbs| && ReadsFrom(got, 0, vbs)
  }

  /** A non-empty OBJECT IDENTIFIER followed by anything: the OID reads back and the rest lies behind it. */
  lemma OidThen(input: span, k: nat, o: span, rest: seq<byte>) returns (k1: nat)
    requires |o| >= 1 && Holds(input, k, Tlv(OID, o) + rest)
    ensures DecodeOid(input, k) == Ok(o, k1) && Holds(input, k1, rest)
    ensures k1 == k + |Tlv(OID, o)|
  {
    HoldsSplit(input, k, Tlv(OID, o), rest);
    HoldsAround(input, k, Tlv(OID, o));
    OidRoundTrip(input[..k], o, input[k + |Tlv(OID, o)|..]);
    k1 := k + |Tlv(OID, o)|;
  }

  /** NULL is written as the two octets 05 00 and read back as the value 0. */
  lemma NullAt(input: span, k: nat)
    requires Holds(input, k, [NULL, 0])
    ensures DecodeVoid(input, k) == Ok((), k + 2)
  {
    assert Tlv(NULL, []) == [NULL, 0];
    HeaderAt(input, k, NULL, []);
  }

  /** The value bytes of a readable binding decode to ValueReadBack, and the tag is the binding's type. */
  lemma ValueAt(input: span, k: nat, vb: VarBind)
    requires Readable(vb) && Holds(input, k, ValueBytes(vb))
    ensures k < |input| && input[k] == vb.valueType
    ensures DecodeValue(input, k) == Ok(ValueReadBack(vb), k + |ValueBytes(vb)|)
  {
    var t := vb.valueType;
    assert input[Offset(k, 0)] == ValueBytes(vb)[0];
    if t == INTEGER {
      var k1 := IntegerThen(input, k, vb.value.Signed(), []);
    } else if t == OCTET_STRING {
      var k1 := StringThen(input, k, vb.value.Octets(), []);
    } else if t == NULL {
      NullAt(input, k);
    } else {
      var k1 := OidThen(input, k, vb.value.Octets(), []);
    }
  }

  /**
   * A binding SEQUENCE: the header, the name and the value read back, and
   * the decoder moves past the binding.
   */
  lemma BindingAt(input: span, k: nat, vb: VarBind)
    requires Readable(vb) && Holds(input, k, VarBindBytes(vb))
    ensures DecodeSequenceLength(input, k).Ok?
    ensures var step := DecodeVarBindBody(input, DecodeSequenceLength(input, k).pos);
      step.Decoded? && ReadsAs(step.vb, vb) && step.pos == k + |VarBindBytes(vb)|
  {
    var body := Tlv(OID, vb.oid) + ValueBytes(vb);
    var k0 := SequenceThen(input, k, body);
    var kEnd := BodyAt(input, k0, vb);
  }

  /** The name and value of a readable binding, read by the body of ber_decode_var_bind. */
  lemma BodyAt(input: span, k0: nat, vb: VarBind) returns (kEnd: nat)
    requires Readable(vb) && Holds(input, k0, Tlv(OID, vb.oid) + ValueBytes(vb))
    ensures var step := DecodeVarBindBody(input, k0);
      step.Decoded? && ReadsAs(step.vb, vb) && step.pos == kEnd
    ensures kEnd == k0 + |Tlv(OID, vb.oid) + ValueBytes(vb)|
  {
    var kv := OidThen(input, k0, vb.oid, ValueBytes(vb));
    ValueAt(input, kv, vb);
    kEnd := kv + |ValueBytes(vb)|;
  }

  /** The binding list, read front to back: the first binding, then the others. */
  lemma {:induction false} BindingsCons(vbs: seq<VarBind>)
    requires |vbs| >= 1
    ensures VarBindsBytes(vbs) == VarBindBytes(vbs[0]) + VarBindsBytes(vbs[1..])
    decreases |vbs|
  {
    var n := |vbs|;
    if n == 1 {
      assert vbs[..0] == [] && vbs[1..] == [];
    } else {
      var init := vbs[..n - 1];
      var tail := vbs[1..];
      BindingsCons(init);
      assert init[0] == vbs[0] && init[1..] == tail[..n - 2] && tail[n - 2] == vbs[n - 1];
      assert VarBindsBytes(vbs) == VarBindsBytes(init) + VarBindBytes(vbs[n - 1]);
      assert VarBindsBytes(tail) == VarBindsBytes(init[1..]) + VarBindBytes(vbs[n - 1]);
      AppendAssoc(VarBindBytes(vbs[0]), VarBindsBytes(init[1..]), VarBindBytes(vbs[n - 1]));
    }
  }

  /**
   * The binding loop of ber_decode_pdu over bindings the encoder wrote up
   * to the end of the buffer: with enough list nodes it succeeds, appends
   * one binding per binding written, and each reads back.
   */
  lemma {:induction false} BindingsRead(input: span, k: nat, vbs: seq<VarBind>, bytes: seq<byte>, pdu: Pdu, budget: nat)
    requires bytes == VarBindsBytes(vbs) && Holds(input, k, bytes) && k + |bytes| == |input|
    requires forall i :: 0 <= i < |vbs| ==> Readable(vbs[i])
    requires |pdu.varbinds| + |vbs| <= budget
    ensures var r := DecodeVarBinds(input, k, pdu, budget);
      r.code == ERR_NO_ERROR && |r.pdu.varbinds| == |pdu.varbinds| + |vbs| &&
      ReadsFrom(r.pdu.varbinds, |pdu.varbinds|, vbs)
    decreases |vbs|, 1
  {
    if |vbs| == 0 {
      assert VarBindsBytes(vbs) == [];
    } else {
      BindingsCons(vbs);
      var head, tail := VarBindBytes(vbs[0]), VarBindsBytes(vbs[1..]);
      HoldsSame(input, k, bytes, head + tail);
      var k1 := SplitAt(input, k, head, tail);
      assert forall i :: 0 <= i < |vbs[1..]| ==> Readable(vbs[1..][i]) by {
        forall i | 0 <= i < |vbs[1..]| ensures Readable(vbs[1..][i]) {
          assert vbs[1..][i] == vbs[i + 1];
        }
      }
      BindingsReadCons(input, k, k1, vbs[0], vbs[1..], head, tail, pdu, budget);
      ReadsShifted(DecodeVarBinds(input, k, pdu, budget).pdu.varbinds, |pdu.varbinds|, |pdu.varbinds| + 1, vbs);
    }
  }

  /** The binding loop over a first binding and the others: one turn, then the loop over the others. */
  lemma {:induction false} BindingsReadCons(input: span, k: nat, k1: nat, vb: VarBind, rest: seq<VarBind>,
                                            head: seq<byte>, tail: seq<byte>, pdu: Pdu, budget: nat)
    requires Readable(vb) && head == VarBindBytes(vb) && Holds(input, k, head) && k1 == k + |head|
    requires tail == VarBindsBytes(rest) && Holds(input, k1, tail) && k1 + |tail| == |input|
    requires forall i :: 0 <= i < |rest| ==> Readable(rest[i])
    requires |pdu.varbinds| + 1 + |rest| <= budget
    ensures var r := DecodeVarBinds(input, k, pdu, budget);
      r.code == ERR_NO_ERROR && |r.pdu.varbinds| == |pdu.varbinds| + 1 + |rest| &&
      ReadsAs(r.pdu.varbinds[|pdu.varbinds|], vb) && ReadsFrom(r.pdu.varbinds, |pdu.varbinds| + 1, rest)
    decreases |rest| + 1, 0
  {
    BindingAt(input, k, vb);
    var step := DecodeVarBindBody(input, DecodeSequenceLength(input, k).pos);
    var pdu' := pdu.(varbinds := pdu.varbinds + [step.vb]);
    BindingsRead(input, k1, rest, tail, pdu', budget);
    LoopStep(input, k, k1, pdu, pdu', step, budget);
    var got := DecodeVarBinds(input, k1, pdu', budget).pdu.varbinds;
    assert got[..|pdu'.varbinds|][|pdu.varbinds|] == step.vb;
  }

  /** Bytes lying at `k` up to the end of the input, split in two, with the offset of the second part. */
  lemma SplitAt(input: span, k: nat, head: seq<byte>, tail: seq<byte>) returns (k1: nat)
    requires Holds(input, k, head + tail) && k + |head + tail| == |input|
    ensures k1 == k + |head| && Holds(input, k, head) && Holds(input, k1, tail) && k1 + |tail| == |input|
  {
    HoldsSplit(input, k, head, tail);
    k1 := k + |head|;
  }

  /** One turn of the binding loop: a binding decoded whole at `k` hands the loop on to `k1`. */
  lemma LoopStep(input: span, k: nat, k1: nat, pdu: Pdu, pdu': Pdu, step: VarBindStep, budget: nat)
    requires k < |input| && DecodeSequenceLength(input, k).Ok? && |pdu.varbinds| < budget
    requires step == DecodeVarBindBody(input, DecodeSequenceLength(input, k).pos)
    requires step.Decoded? && step.pos == k1
    requires pdu' == pdu.(varbinds := pdu.varbinds + [step.vb])
    ensures DecodeVarBinds(input, k, pdu, budget) == DecodeVarBinds(input, k1, pdu', budget)
  {
  }

  /** The first binding read at `p` and the others read from `p + 1` on: all read from `p` on. */
  lemma ReadsShifted(got: seq<VarBind>, p: nat, q: nat, vbs: seq<VarBind>)
    requires |vbs| >= 1 && |got| == p + |vbs| && q == p + 1
    requires ReadsAs(got[p], vbs[0])
    requires ReadsFrom(got, q, vbs[1..])
    ensures ReadsFrom(got, p, vbs)
  {
    forall i | 1 <= i < |vbs| ensures ReadsAs(got[p + i], vbs[i]) {
      assert vbs[1..][i - 1] == vbs[i];
      assert q + (i - 1) == p + i;
    }
  }

  /**
   * ber_decode_pdu up to the binding loop: with the header and the three
   * INTEGERs read, and the binding SEQUENCE running to the end, it is the
   * loop over a PDU holding those fields, started on the bindings.
   */
  lemma PduSteps(input: span, t: byte, h: nat, id: s32, es: s32, ei: s32, k1: nat, k2: nat, k3: u16,
                 kv: nat, n: u16, budget: nat)
    requires h <= |input| < 0x1_0000
    requires DecodeTypeLength(input, 0, Uninit) == Ok(Header(t, |input| - h), h)
    requires DecodeInteger(input, h) == Ok(id, k1)
    requires DecodeInteger(input, k1) == Ok(es, k2)
    requires DecodeInteger(input, k2) == Ok(ei, k3)
    requires DecodeSequence(input, k3) == Ok(n, kv)
    ensures DecodePdu(input, 0, budget) == DecodeVarBinds(input, kv, EmptyPdu.(requestType := t,
      requestId := id, errorStatus := Narrow8(es), errorIndex := Narrow8(ei), varbindIndex := k3), budget)
  {
  }

  /** A byte written as an INTEGER reads back as itself and survives the (u8t) cast. */
  lemma ByteReadBack(v: byte)
    ensures IntegerReadBack(v) == v && Narrow8(v) == v
  {
  }

  /**
   * The error-free response PDU the agent writes reads back through
   * ber_decode_pdu: its tag, request id (up to the INTEGER bands), error
   * status and index, and every binding, provided the allocator has a node
   * for each binding.
   */
  lemma PduRoundTrip(out: span, input: span, pdu: Pdu, budget: nat)
    requires pdu.varbindIndex <= |input| && pdu.errorStatus == NO_ERROR
    requires SupportedTag(pdu.responseType) && out == PduBytes(input, pdu) && |out| < 0x1_0000
    requires forall i :: 0 <= i < |pdu.varbinds| ==> Readable(pdu.varbinds[i])
    requires |pdu.varbinds| <= budget
    ensures DecodedAs(DecodePdu(out, 0, budget), pdu)
  {
    var i1 := Tlv(INTEGER, IntegerContent(pdu.requestId));
    var i2 := Tlv(INTEGER, IntegerContent(pdu.errorStatus));
    var i3 := Tlv(INTEGER, IntegerContent(pdu.errorIndex));
    var b := Tlv(SEQUENCE, VarBindsBytes(pdu.varbinds));
    Regroup(i1, i2, i3, b);
    var k0, k1, k2, k3 := PduFields(out, pdu.responseType, pdu.requestId, pdu.errorStatus, pdu.errorIndex, b);
    ByteReadBack(pdu.errorStatus);
    ByteReadBack(pdu.errorIndex);
    PduRead(out, pdu.responseType, k0, k1, k2, k3, IntegerReadBack(pdu.requestId), pdu.errorStatus,
      pdu.errorIndex, pdu.varbinds, budget);
  }

  /**
   * ber_decode_pdu over a header, three INTEGERs and a SEQUENCE of readable
   * bindings that runs to the end: every field and binding reads back.
   */
  lemma PduRead(out: span, t: byte, k0: nat, k1: nat, k2: nat, k3: nat, id: s32, es: byte, ei: byte,
                vbs: seq<VarBind>, budget: nat)
    requires k0 <= |out| < 0x1_0000
    requires DecodeTypeLength(out, 0, Uninit) == Ok(Header(t, |out| - k0), k0)
    requires DecodeInteger(out, k0) == Ok(id, k1)
    requires DecodeInteger(out, k1) == Ok(es, k2)
    requires DecodeInteger(out, k2) == Ok(ei, k3)
    requires Holds(out, k3, Tlv(SEQUENCE, VarBindsBytes(vbs))) && k3 + |Tlv(SEQUENCE, VarBindsBytes(vbs))| == |out|
    requires forall i :: 0 <= i < |vbs| ==> Readable(vbs[i])
    requires |vbs| <= budget
    ensures var r := DecodePdu(out, 0, budget);
      r.code == ERR_NO_ERROR && r.pdu.requestType == t && r.pdu.requestId == id &&
      r.pdu.errorStatus == es && r.pdu.errorIndex == ei &&
      |r.pdu.varbinds| == |vbs| && ReadsFrom(r.pdu.varbinds, 0, vbs)
  {
    var kv := BindingsAfter(out, k3, VarBindsBytes(vbs));
    PduSteps(out, t, k0, id, es, ei, k1, k2, k3, kv, |VarBindsBytes(vbs)| as u16, budget);
    var p4 := EmptyPdu.(requestType := t, requestId := id, errorStatus := Narrow8(es), errorIndex := Narrow8(ei),
      varbindIndex := k3);
    ByteReadBack(es);
    ByteReadBack(ei);
    BindingsRead(out, kv, vbs, VarBindsBytes(vbs), p4, budget);
  }

  /** The binding SEQUENCE running to the end of the PDU: its header reads back and the bindings follow it. */
  lemma BindingsAfter(out: span, k3: nat, bytes: seq<byte>) returns (kv: nat)
    requires Holds(out, k3, Tlv(SEQUENCE, bytes)) && k3 + |Tlv(SEQUENCE, bytes)| == |out|
    ensures |bytes| < 0x1_0000 && DecodeSequence(out, k3) == Ok(|bytes| as u16, kv)
    ensures Holds(out, kv, bytes) && kv + |bytes| == |out|
  {
    SequenceAt(out, k3, bytes);
    Narrow16Small(|bytes|);
    kv := |out| - |bytes|;
  }

  /** The PDU header and its three INTEGERs, read one after the other from a written PDU. */
  lemma PduFields(out: span, t: byte, id: s32, es: s32, ei: s32, b: seq<byte>) returns (k0: nat, k1: nat, k2: nat, k3: nat)
    requires SupportedTag(t) && |out| < 0x1_0000
    requires out == Tlv(t, Tlv(INTEGER, IntegerContent(id)) + (Tlv(INTEGER, IntegerContent(es)) +
      (Tlv(INTEGER, IntegerContent(ei)) + b)))
    ensures k0 <= |out| && DecodeTypeLength(out, 0, Uninit) == Ok(Header(t, |out| - k0), k0)
    ensures DecodeInteger(out, k0) == Ok(IntegerReadBack(id), k1)
    ensures DecodeInteger(out, k1) == Ok(IntegerReadBack(es), k2)
    ensures DecodeInteger(out, k2) == Ok(IntegerReadBack(ei), k3)
    ensures Holds(out, k3, b) && k3 + |b| == |out|
  {
    var i1 := Tlv(INTEGER, IntegerContent(id));
    var i2 := Tlv(INTEGER, IntegerContent(es));
    var i3 := Tlv(INTEGER, IntegerContent(ei));
    var body := i1 + (i2 + (i3 + b));
    HoldsWhole(out);
    HeaderAt(out, 0, t, body);
    k0 := 1 + |LengthOctets(|body|)|;
    Narrow16Small(|body|);
    assert |out| - k0 == |body|;
    k1 := IntegerThen(out, k0, id, i2 + (i3 + b));
    k2 := IntegerThen(out, k1, es, i3 + b);
    k3 := IntegerThen(out, k2, ei, b);
  }

  /**
   * The same read-back stated on ber_encode_pdu itself: whenever encoding
   * from the end of an empty buffer succeeds, the bytes it wrote decode as
   * above.
   */
  lemma EncodedPduRoundTrip(input: span, pdu: Pdu, maxLen: u16, budget: nat)
    requires maxLen < 0x8000 && pdu.varbindIndex <= |input| && pdu.errorStatus == NO_ERROR
    requires SupportedTag(pdu.responseType)
    requires forall i :: 0 <= i < |pdu.varbinds| ==> Readable(pdu.varbinds[i])
    requires |pdu.varbinds| <= budget
    ensures var e := EncodePdu(Enc(maxLen, []), input, pdu, maxLen);
      e.Ok() ==> DecodedAs(DecodePdu(e.out, 0, budget), pdu)
  {
    var e := EncodePdu(Enc(maxLen, []), input, pdu, maxLen);
    if e.Ok() {
      var out := EncodedBytes(input, pdu, maxLen);
      PduRoundTrip(out, input, pdu, budget);
    }
  }

  /** What ber_encode_pdu wrote from the end of an empty buffer, when it succeeded: the PDU's bytes. */
  lemma EncodedBytes(input: span, pdu: Pdu, maxLen: u16) returns (out: seq<byte>)
    requires maxLen < 0x8000 && pdu.varbindIndex <= |input|
    requires EncodePdu(Enc(maxLen, []), input, pdu, maxLen).Ok()
    ensures out == EncodePdu(Enc(maxLen, []), input, pdu, maxLen).out
    ensures out == PduBytes(input, pdu) && |out| < 0x1_0000
  {
    out := EncodePdu(Enc(maxLen, []), input, pdu, maxLen).out;
    assert out == PduBytes(input, pdu) + [];
  }
}

=== FILE: strcasecmp.dfy ===
// strcasecmp of the Z80 C library complement: compares two NUL-terminated
// strings up to ASCII case (cpu/z80/lib/strcasecmp.c).

module CaseCompare {
  import opened SnmpTypes
  import opened OidUtils

  /** tolower in the C locale: only 'A' to 'Z' change. */
  function ToLower(c: byte): (r: byte)
    ensures r == 0 <==> c == 0
    ensures 'A' as int <= c <= 'Z' as int ==> r == c + 32
    ensures !('A' as int <= c <= 'Z' as int) ==> r == c
  {
    if 'A' as int <= c <= 'Z' as int then c + 32 else c
  }

  /** The characters of the C string in `s`, each folded to lower case. */
  function Folded(s: seq<byte>): (r: seq<byte>)
    requires HasNul(s)
    ensures |r| == StrLen(s) && forall i :: 0 <= i < |r| ==> r[i] == ToLower(s[i])
  {
    seq(StrLen(s), i requires 0 <= i < StrLen(s) => ToLower(s[i]))
  }

  /**
   * The loop of strcasecmp from index k on: it advances while str1 has not
   * reached its NUL and the two characters agree up to case.  It stops
   * inside both strings, after a run of agreeing characters, either at the
   * end of both or at the first disagreement.
   */
  function Stop(a: seq<byte>, b: seq<byte>, k: nat): (r: nat)
    requires HasNul(a) && HasNul(b) && k <= StrLen(a) && k <= StrLen(b)
    requires forall i :: 0 <= i < k ==> ToLower(a[i]) == ToLower(b[i])
    ensures k <= r <= StrLen(a) && r <= StrLen(b)
    ensures forall i :: 0 <= i < r ==> ToLower(a[i]) == ToLower(b[i])
    ensures (r == StrLen(a) && r == StrLen(b)) || ToLower(a[r]) != ToLower(b[r])
    decreases StrLen(a) - k
  {
    if a[k] != 0 && ToLower(a[k]) == ToLower(b[k]) then Stop(a, b, k + 1) else k
  }

  /**
   * strcasecmp: the difference of the lower-cased characters, read as
   * unsigned, where the loop stopped.
   */
  function StrCaseCmp(a: seq<byte>, b: seq<byte>): (r: int)
    requires HasNul(a) && HasNul(b)
    ensures -0xFF <= r <= 0xFF
  {
    var k := Stop(a, b, 0);
    ToLower(a[k]) - ToLower(b[k])
  }

  /** Two strings compare equal exactly when they are the same string up to ASCII case. */
  lemma StrCaseCmpZero(a: seq<byte>, b: seq<byte>)
    requires HasNul(a) && HasNul(b)
    ensures StrCaseCmp(a, b) == 0 <==> Folded(a) == Folded(b)
  {
    var k := Stop(a, b, 0);
    var fa, fb := Folded(a), Folded(b);
    if StrCaseCmp(a, b) == 0 {
      assert k == StrLen(a) && k == StrLen(b);
      assert fa == fb;
    }
  }

  /**
   * The sign of the result is the order of the folded strings: negative
   * exactly when the first comes before the second, a proper prefix
   * counting as smaller.
   */
  lemma StrCaseCmpOrder(a: seq<byte>, b: seq<byte>)
    requires HasNul(a) && HasNul(b)
    ensures StrCaseCmp(a, b) < 0 <==> LexLess(Folded(a), Folded(b))
  {
    var k := Stop(a, b, 0);
    var fa, fb := Folded(a), Folded(b);
    assert fa[..k] == fb[..k];
    LexFrom(fa, fb, k);
    if k < |fa| && k < |fb| {
      assert fa[k..][0] == fa[k] && fb[k..][0] == fb[k];
    }
  }

  /** Past a common prefix of length k, the order is decided by what follows it. */
  lemma {:induction false} LexFrom(x: seq<byte>, y: seq<byte>, k: nat)
    requires k <= |x| && k <= |y| && x[..k] == y[..k]
    ensures LexLess(x, y) <==> LexLess(x[k..], y[k..])
    decreases k
  {
    if k > 0 {
      assert x[0] == x[..k][0] && y[0] == y[..k][0];
      assert x[1..][..k - 1] == x[..k][1..] && y[1..][..k - 1] == y[..k][1..];
      LexFrom(x[1..], y[1..], k - 1);
      assert x[1..][k - 1..] == x[k..] && y[1..][k - 1..] == y[k..];
    }
  }

  /** Swapping the arguments negates the result; a string compares equal to itself. */
  lemma StrCaseCmpSwap(a: seq<byte>, b: seq<byte>)
    requires HasNul(a) && HasNul(b)
    ensures StrCaseCmp(a, b) == -StrCaseCmp(b, a)
    ensures StrCaseCmp(a, a) == 0
  {
    StopSwap(a, b, 0);
    StrCaseCmpZero(a, a);
  }

  lemma {:induction false} StopSwap(a: seq<byte>, b: seq<byte>, k: nat)
    requires HasNul(a) && HasNul(b) && k <= StrLen(a) && k <= StrLen(b)
    requires forall i :: 0 <= i < k ==> ToLower(a[i]) == ToLower(b[i])
    ensures Stop(a, b, k) == Stop(b, a, k)
    decreases StrLen(a) - k
  {
    if a[k] != 0 && ToLower(a[k]) == ToLower(b[k]) {
      StopSwap(a, b, k + 1);
    }
  }
}

=== FILE: types.dfy ===
// Shared vocabulary of the SNMP agent: machine integers, BER tags, error
// codes and the records a request travels through (variable binding, PDU,
// protocol statistics).

module SnmpTypes {

  // ---------------------------------------------------------------------
  // Machine integers.  The agent is written for 8-bit micro-controllers;
  // every width is spelled out and every wrap-around is explicit.
  // ---------------------------------------------------------------------

  type byte = x: int | 0 <= x < 0x100
  type u16 = x: int | 0 <= x < 0x1_0000
  type u32 = x: int | 0 <= x < 0x1_0000_0000
  type s32 = x: int | -0x8000_0000 <= x < 0x8000_0000

  const TWO32: int := 0x1_0000_0000

  /**
   * The bytes of a ptr_t, or of a buffer the agent addresses with a u16
   * length: never 65536 bytes or more.
   */
  type span = s: seq<byte> | |s| < 0x1_0000

  /** Reduction of an arbitrary integer to 32 bits (C unsigned arithmetic). */
  function U32(x: int): u32 { x % TWO32 }

  /** Reads the 32 bits of a word as a two's-complement signed value. */
  function ToS32(w: u32): s32 { if w < 0x8000_0000 then w else w - TWO32 }

  /** The 32 bits of a signed value, read unsigned. */
  function FromS32(v: s32): u32 { if v >= 0 then v else v + TWO32 }

  /** The (u8t) cast: keeps the low 8 bits. */
  function Narrow8(x: int): byte { x % 0x100 }

  /** The (u16t) cast: keeps the low 16 bits. */
  function Narrow16(x: int): u16 { if 0 <= x < 0x1_0000 then x else x % 0x1_0000 }

  /** The four bytes of a word, most significant first (convert_2_octets). */
  function BE32(w: u32): seq<byte>
  {
    [w / 0x100_0000, (w / 0x1_0000) % 0x100, (w / 0x100) % 0x100, w % 0x100]
  }

  function Min(a: int, b: int): int { if a < b then a else b }

  /**
   * Byte `i` of the memory a pointer designates.  Bytes past the end of what
   * the model knows (the source may read past a buffer's `len`) read as 0.
   */
  function At(mem: seq<byte>, i: nat): byte { if i < |mem| then mem[i] else 0 }

  /** The first `n` bytes at a pointer, read through At. */
  function Window(mem: seq<byte>, n: nat): (r: seq<byte>)
    ensures |r| == n
  {
    seq(n, i requires 0 <= i < n => At(mem, i))
  }

  /** A C string: the bytes hold a NUL terminator somewhere. */
  predicate HasNul(s: seq<byte>) { exists i :: 0 <= i < |s| && s[i] == 0 }

  /** The number of bytes before the first NUL (strlen). */
  function StrLen(s: seq<byte>): (n: nat)
    requires HasNul(s)
    ensures n < |s| && s[n] == 0
    ensures forall i :: 0 <= i < n ==> s[i] != 0
  {
    if s[0] == 0 then 0
    else
      assert HasNul(s[1..]) by {
        var i :| 0 <= i < |s| && s[i] == 0;
        assert s[1..][i - 1] == 0;
      }
      1 + StrLen(s[1..])
  }

  datatype Option<T> = None | Some(value: T)

  // ---------------------------------------------------------------------
  // BER tags (ber.h).
  // ---------------------------------------------------------------------

  const BOOLEAN: byte := 0x01
  const INTEGER: byte := 0x02
  const BIT_STRING: byte := 0x03
  const OCTET_STRING: byte := 0x04
  const NULL: byte := 0x05
  const OID: byte := 0x06
  const SEQUENCE: byte := 0x30
  const IPADDRESS: byte := 0x40
  const COUNTER: byte := 0x41
  const GAUGE: byte := 0x42
  const TIME_TICKS: byte := 0x43
  const OPAQUE: byte := 0x44
  const GET: byte := 0xA0
  const GETNEXT: byte := 0xA1
  const RESPONSE: byte := 0xA2
  const SET: byte := 0xA3
  const GETBULK: byte := 0xA5
  const INFORM: byte := 0xA6
  const TRAP: byte := 0xA7
  const REPORT: byte := 0xA8
  const NO_SUCH_OBJECT: byte := 0x80
  const NO_SUCH_INSTANCE: byte := 0x81
  const END_OF_MIB: byte := 0x82

  // ---------------------------------------------------------------------
  // Protocol constants (snmp.h, snmpd-types.h, snmpd-conf.h).
  // ---------------------------------------------------------------------

  const VERSION_1: byte := 0
  const VERSION_3: byte := 3

  const NO_ERROR: byte := 0
  const TOO_BIG: byte := 1
  const NO_SUCH_NAME: byte := 2
  const BAD_VALUE: byte := 3
  const READONLY: byte := 4
  const GEN_ERR: byte := 5
  const WRONG_TYPE: byte := 7
  const NOT_WRITABLE: byte := 17

  const FAILURE: int := -1
  const ERR_NO_ERROR: int := 0
  const ERR_UNSUPPORTED_VERSION: int := 1
  const ERR_MEMORY_ALLOCATION: int := 2
  const ERR_USM: int := 3

  const FLAG_AUTH: byte := 0x01
  const FLAG_PRIV: byte := 0x02
  const FLAG_REPORTABLE: byte := 0x04
  const USM_SECURITY_MODEL: int := 3

  /** Largest message the agent accepts and the maxSize it advertises. */
  const MAX_BUF_SIZE: int := 484
  /** Width, in seconds, of the USM time window. */
  const TIME_WINDOW: int := 150

  /** Tests one bit of a flag byte. */
  predicate HasFlag(flags: byte, bit: byte)
    requires bit == 1 || bit == 2 || bit == 4 || bit == 0x40 || bit == 0x80
  {
    (flags / bit) % 2 == 1
  }

  // ---------------------------------------------------------------------
  // Variable bindings and PDUs (snmp.h).
  // ---------------------------------------------------------------------

  /**
   * The value union of a variable binding.  Num holds the 32 bits shared by
   * i_value and u_value; Bytes holds the p_value span.  A zeroed union is
   * Num(0); reading the member that was not written yields 0 or no bytes.
   */
  datatype Value = Num(w: u32) | Bytes(b: span)
  {
    function Word(): u32 { if Num? then w else 0 }
    function Signed(): s32 { ToS32(Word()) }
    function Octets(): span { if Bytes? then b else [] }
  }

  /**
   * A variable binding.  `tail` stands for the memory that follows the OID
   * bytes: for a binding decoded from a request it is the rest of the
   * request buffer, for an OID the agent built itself it is empty.
   */
  datatype VarBind = VarBind(oid: span, tail: span, valueType: byte, value: Value)

  /** A fresh list node: empty OID, uninitialised type and value read as zero. */
  const FreshVarBind: VarBind := VarBind([], [], 0, Num(0))

  datatype Pdu = Pdu(
    requestType: byte,
    responseType: byte,
    requestId: s32,
    errorStatus: byte,
    errorIndex: byte,
    varbinds: seq<VarBind>,
    varbindIndex: u16)

  /** The zero-filled PDU of a freshly allocated message. */
  const EmptyPdu: Pdu := Pdu(0, 0, 0, 0, 0, [], 0)

  /** The dispatcher's four protocol counters (dispatcher.c). */
  datatype Counters = Counters(inPkts: u32, inBadVersions: u32, inASNParseErrs: u32, silentDrops: u32)

  /** A 32-bit counter after one increment. */
  function Inc(c: u32): u32 { U32(c + 1) }

  /** The bytes of a string constant written in ASCII. */
  function Ascii(s: string): (r: span)
    requires |s| < 0x1_0000 && forall i :: 0 <= i < |s| ==> s[i] as int < 0x100
    ensures |r| == |s| && forall i :: 0 <= i < |s| ==> r[i] == s[i] as int
  {
    seq(|s|, i requires 0 <= i < |s| => s[i] as int)
  }
}

=== FILE: usm.dfy ===
// The User-based Security Model of the agent (usm.c): parsing of the
// security parameters (section 2.4 of RFC 3414), the incoming checks in the
// order engineID, user, digest, time window, privacy (section 3.2 of
// RFC 3414), Report-PDU construction, HMAC-MD5-96 (section 6.3 of RFC 3414
// and section 2 of RFC 2104), the AES initialisation vector (section
// 3.1.2.1 of RFC 3826) and the outgoing security parameters.  MD5 and AES
// are parameters: the model does not look inside them.

module Usm {
  import opened SnmpTypes
  import opened ByteArith
  import opened BerDecode
  import opened BerEncode
  import opened BerProps

  // ---------------------------------------------------------------------
  // Messages, configuration, primitives
  // ---------------------------------------------------------------------

  /**
   * message_v3_t.  `authAt` is where msgAuthenticationParameters points in
   * the request buffer; the other ptr_t fields are held as their bytes.
   */
  datatype MessageV3 = MessageV3(
    version: byte,
    pdu: Pdu,
    msgId: u32,
    msgFlags: byte,
    contextEngineID: span,
    contextName: span,
    engineID: span,
    boots: u32,
    time: u32,
    userName: span,
    authParams: span,
    authAt: nat,
    privParams: span)

  /** The zero-filled message the dispatcher allocates for version 3. */
  const FreshV3: MessageV3 := MessageV3(VERSION_3, EmptyPdu, 0, 0, [], [], [], 0, 0, [], [], 0, [])

  /**
   * The agent's security configuration: its engine ID, the one user (the
   * bytes before the terminator), snmpEngineBoots and the localized
   * authentication and privacy keys.
   */
  datatype UsmConfig = UsmConfig(engineID: span, userName: seq<byte>, engineBoots: u32, authKul: seq<byte>, privKul: seq<byte>)

  /** MD5 of a whole message. */
  type Hash = seq<byte> -> seq<byte>

  /** AES-128 in CFB mode: key, initialisation vector, data. */
  type Cipher = (seq<byte>, seq<byte>, seq<byte>) -> seq<byte>

  datatype Crypto = Crypto(md5: Hash, encrypt: Cipher, decrypt: Cipher)

  /** The low and high privacy salt counters as the configuration hands them out for one message. */
  datatype Salt = Salt(low: u32, high: u32)

  /** A primitive's output taken to the length the caller uses. */
  function Fit(s: seq<byte>, n: nat): (r: seq<byte>)
    ensures |r| == n
  {
    Window(s, n)
  }

  /** The `n` bytes at offset `at` of a buffer. */
  function Slice(mem: seq<byte>, at: nat, n: nat): (r: seq<byte>)
    ensures |r| == n
    ensures forall i :: 0 <= i < n ==> r[i] == At(mem, at + i)
  {
    Window(if at <= |mem| then mem[at..] else [], n)
  }

  /** memcpy of `b` to offset `at`; bytes that would land past the end are not modelled. */
  function Overwrite(s: seq<byte>, at: nat, b: seq<byte>): (r: seq<byte>)
    ensures |r| == |s|
  {
    if at >= |s| then s
    else if at + |b| <= |s| then s[..at] + b + s[at + |b|..]
    else s[..at] + b[..|s| - at]
  }

  /** Every byte of an overwritten buffer comes from `b` inside the window and from `s` outside it. */
  lemma OverwriteAt(s: seq<byte>, at: nat, b: seq<byte>)
    ensures forall i :: 0 <= i < |s| ==> Overwrite(s, at, b)[i] == (if at <= i < at + |b| then b[i - at] else s[i])
  {
  }

  // ---------------------------------------------------------------------
  // Statistics and reports
  // ---------------------------------------------------------------------

  /** The five usmStats counters a failed check reports. */
  datatype Stat = NotInTimeWindows | UnknownUserNames | UnknownEngineIDs | WrongDigests | DecryptionErrors

  /** usmStats OIDs 1.3.6.1.6.3.15.1.1.k.0, encoded. */
  function StatOid(s: Stat): (r: span)
    ensures |r| == 10 && r[..8] == [0x2B, 0x06, 0x01, 0x06, 0x03, 0x0F, 0x01, 0x01] && r[9] == 0
    ensures r[8] == match s
      case NotInTimeWindows => 2 case UnknownUserNames => 3 case UnknownEngineIDs => 4
      case WrongDigests => 5 case DecryptionErrors => 6
  {
    var k := match s
      case NotInTimeWindows => 2 case UnknownUserNames => 3 case UnknownEngineIDs => 4
      case WrongDigests => 5 case DecryptionErrors => 6;
    [0x2B, 0x06, 0x01, 0x06, 0x03, 0x0F, 0x01, 0x01, k, 0x00]
  }

  /** Distinct statistics are reported under distinct OIDs. */
  lemma StatOidsDistinct(a: Stat, b: Stat)
    requires a != b
    ensures StatOid(a) != StatOid(b)
  {
    assert StatOid(a)[8] != StatOid(b)[8];
  }

  datatype UsmStats = UsmStats(notInTimeWindows: u32, unknownUserNames: u32, unknownEngineIDs: u32, wrongDigests: u32, decryptionErrors: u32)

  function Count(st: UsmStats, s: Stat): u32
  {
    match s
    case NotInTimeWindows => st.notInTimeWindows
    case UnknownUserNames => st.unknownUserNames
    case UnknownEngineIDs => st.unknownEngineIDs
    case WrongDigests => st.wrongDigests
    case DecryptionErrors => st.decryptionErrors
  }

  /** One counter incremented (with 32-bit wrap-around), the others untouched. */
  function Bump(st: UsmStats, s: Stat): (r: UsmStats)
    ensures Count(r, s) == Inc(Count(st, s))
    ensures forall o :: o != s ==> Count(r, o) == Count(st, o)
  {
    match s
    case NotInTimeWindows => st.(notInTimeWindows := Inc(st.notInTimeWindows))
    case UnknownUserNames => st.(unknownUserNames := Inc(st.unknownUserNames))
    case UnknownEngineIDs => st.(unknownEngineIDs := Inc(st.unknownEngineIDs))
    case WrongDigests => st.(wrongDigests := Inc(st.wrongDigests))
    case DecryptionErrors => st.(decryptionErrors := Inc(st.decryptionErrors))
  }

  datatype Reported = Reported(code: int, msg: MessageV3, stats: UsmStats)

  /**
   * report: the counter is incremented first.  Without the reportable flag
   * the call fails and the message is untouched.  Otherwise the bindings
   * are released, the flags cleared and the response type set to REPORT;
   * if the new list node can be allocated (`allocOk`) the bindings become
   * the single pair (statistic OID, Counter32 value).
   */
  function Report(msg: MessageV3, s: Stat, stats: UsmStats, allocOk: bool): (r: Reported)
    ensures r.stats == Bump(stats, s)
    ensures r.code == 0 || r.code == FAILURE
    ensures !HasFlag(msg.msgFlags, FLAG_REPORTABLE) ==> r.code == FAILURE && r.msg == msg
    ensures HasFlag(msg.msgFlags, FLAG_REPORTABLE) ==>
      r.msg.msgFlags == 0 && r.msg.pdu.responseType == REPORT &&
      r.msg == msg.(msgFlags := 0, pdu := msg.pdu.(responseType := REPORT, varbinds := r.msg.pdu.varbinds))
    ensures r.code == 0 <==> HasFlag(msg.msgFlags, FLAG_REPORTABLE) && allocOk
    ensures r.code == 0 ==>
      r.msg.pdu.varbinds == [VarBind(StatOid(s), [], COUNTER, Num(Count(r.stats, s)))]
  {
    var stats' := Bump(stats, s);
    if !HasFlag(msg.msgFlags, FLAG_REPORTABLE) then Reported(FAILURE, msg, stats')
    else
      var m := msg.(msgFlags := 0, pdu := msg.pdu.(responseType := REPORT, varbinds := []));
      if !allocOk then Reported(FAILURE, m, stats')
      else
        var vb := VarBind(StatOid(s), [], COUNTER, Num(Count(stats', s)));
        Reported(0, m.(pdu := m.pdu.(varbinds := [vb])), stats')
  }

  // ---------------------------------------------------------------------
  // HMAC-MD5-96
  // ---------------------------------------------------------------------

  function Xor(a: byte, b: byte): (r: byte)
  {
    (a as bv8 ^ b as bv8) as int
  }

  /**
   * The pad of hmac_md5_96: 64 bytes, the 16 key bytes then zeros, each
   * xor-ed with `x` (0x36 for the inner, 0x5C for the outer pass).
   */
  function Pad(key: seq<byte>, x: byte): (r: seq<byte>)
    ensures |r| == 64
  {
    seq(64, (i: nat) requires i < 64 => PadByte(key, x, i))
  }

  function PadByte(key: seq<byte>, x: byte, i: nat): byte
  {
    Xor(if i < 16 then At(key, i) else 0, x)
  }

  /** K' of section 2 of RFC 2104: the key padded with zeros to the 64-byte block. */
  function KeyBlock(key: seq<byte>): (r: seq<byte>)
    ensures |r| == 64
  {
    Window(key, 16) + seq(48, i => 0)
  }

  function XorAll(s: seq<byte>, x: byte): (r: seq<byte>)
    ensures |r| == |s|
  {
    seq(|s|, (i: nat) requires i < |s| => Xor(s[i], x))
  }

  /** The pads are RFC 2104's K' xor ipad and K' xor opad. */
  lemma PadIsKeyBlock(key: seq<byte>, x: byte)
    ensures Pad(key, x) == XorAll(KeyBlock(key), x)
  {
    var k := KeyBlock(key);
    assert forall i :: 0 <= i < 64 ==> k[i] == (if i < 16 then At(key, i) else 0);
  }

  /** A 16-byte MD5 digest. */
  function Digest(md5: Hash, m: seq<byte>): (r: seq<byte>)
    ensures |r| == 16
  {
    Fit(md5(m), 16)
  }

  /**
   * hmac_md5_96: the inner digest of the inner pad and the message, then
   * the outer digest of the outer pad and all 16 inner bytes.  Callers use
   * the first 12 bytes.
   */
  function Hmac(md5: Hash, key: seq<byte>, m: seq<byte>): (r: seq<byte>)
    ensures |r| == 16
  {
    Digest(md5, Pad(key, 0x5C) + Digest(md5, Pad(key, 0x36) + m))
  }

  /** HMAC as section 2 of RFC 2104 defines it, with B = 64 and L = 16. */
  lemma HmacIsRfc2104(md5: Hash, key: seq<byte>, m: seq<byte>)
    ensures Hmac(md5, key, m) ==
      Digest(md5, XorAll(KeyBlock(key), 0x5C) + Digest(md5, XorAll(KeyBlock(key), 0x36) + m))
  {
    PadIsKeyBlock(key, 0x36);
    PadIsKeyBlock(key, 0x5C);
  }

  /** The message with the 12 authentication bytes at `at` set to zero. */
  function Zeroed(m: seq<byte>, at: nat): (r: seq<byte>)
    ensures |r| == |m|
  {
    seq(|m|, i requires 0 <= i < |m| => if at <= i < at + 12 then 0 else m[i])
  }

  datatype Digested = Digested(bad: bool, input: span)

  /**
   * isBadHMAC: saves the 12 received authentication bytes, zeroes them in
   * the request buffer, computes the HMAC over the whole buffer and
   * compares its first 12 bytes with the saved ones.
   */
  function IsBadHmac(input: span, at: nat, md5: Hash, key: seq<byte>): (r: Digested)
    ensures |r.input| == |input|
    ensures forall i :: 0 <= i < |input| && !(at <= i < at + 12) ==> r.input[i] == input[i]
    ensures r.bad <==> Slice(input, at, 12) != Hmac(md5, key, r.input)[..12]
  {
    var saved := Slice(input, at, 12);
    var z: span := Zeroed(input, at);
    Digested(saved != Hmac(md5, key, z)[..12], z)
  }

  /**
   * authenticate: the HMAC of the finished message, whose authentication
   * field is still zero, written as 12 bytes into that field.
   */
  function Authenticate(out: seq<byte>, at: nat, md5: Hash, key: seq<byte>): (r: seq<byte>)
    ensures |r| == |out|
  {
    var h := Hmac(md5, key, out)[..12];
    Overwrite(out, at, h)
  }

  /** The digest lands in the 12-byte field and nothing else changes. */
  lemma AuthenticateWrites(out: seq<byte>, at: nat, md5: Hash, key: seq<byte>)
    requires at + 12 <= |out|
    ensures var r := Authenticate(out, at, md5, key);
      r[at..at + 12] == Hmac(md5, key, out)[..12] && r[..at] == out[..at] && r[at + 12..] == out[at + 12..]
  {
    var h := Hmac(md5, key, out)[..12];
    assert Authenticate(out, at, md5, key) == out[..at] + h + out[at + 12..];
  }

  /**
   * A message authenticated by the agent's own key passes the agent's
   * digest check: the check zeroes the field again and so hashes exactly
   * what was hashed when the digest was written.
   */
  lemma AuthenticatedPasses(m: span, at: nat, md5: Hash, key: seq<byte>)
    requires at + 12 <= |m|
    requires forall i :: at <= i < at + 12 ==> m[i] == 0
    ensures var sent: span := Authenticate(m, at, md5, key);
      !IsBadHmac(sent, at, md5, key).bad
  {
    var sent: span := Authenticate(m, at, md5, key);
    var h := Hmac(md5, key, m)[..12];
    AuthenticateWrites(m, at, md5, key);
    assert forall i :: 0 <= i < |m| ==> Zeroed(sent, at)[i] == m[i] by {
      forall i | 0 <= i < |m|
        ensures Zeroed(sent, at)[i] == m[i]
      {
        if i < at {
          assert sent[..at][i] == m[..at][i];
        } else if i >= at + 12 {
          assert sent[at + 12..][i - at - 12] == m[at + 12..][i - at - 12];
        }
      }
    }
    assert Zeroed(sent, at) == m;
    assert Slice(sent, at, 12) == h;
  }

  // ---------------------------------------------------------------------
  // Privacy
  // ---------------------------------------------------------------------

  /** The AES initialisation vector: boots and time big-endian, then the 8 salt bytes. */
  function Iv(boots: u32, time: u32, salt: seq<byte>): (r: seq<byte>)
    ensures |r| == 16
  {
    BE32(boots) + BE32(time) + Fit(salt, 8)
  }

  /**
   * The IV is the one section 3.1.2.1 of RFC 3826 prescribes: the
   * authoritative engine's boots and time as 32-bit big-endian numbers,
   * then the 64-bit salt.
   */
  lemma IvLayout(boots: u32, time: u32, salt: seq<byte>)
    requires |salt| == 8
    ensures var r := Iv(boots, time, salt);
      BE(r[..4]) == boots && BE(r[4..8]) == time && r[8..] == salt
  {
    BE32Value(boots);
    BE32Value(time);
    var r := Iv(boots, time, salt);
    assert r[..4] == BE32(boots) && r[4..8] == BE32(time);
    assert Fit(salt, 8) == salt;
  }

  /** In-place AES of the buffer from `pos` on. */
  function CipherFrom(c: Cipher, key: seq<byte>, iv: seq<byte>, input: span, pos: nat): (r: span)
    requires pos <= |input|
    ensures |r| == |input| && r[..pos] == input[..pos]
  {
    input[..pos] + Fit(c(key, iv, input[pos..]), |input| - pos)
  }

  /**
   * The salt as encode_USM_parameters leaves it in msgPrivacyParameters:
   * the low and then the high counter are both written to the first four
   * bytes, so the high counter wins and the last four bytes keep the
   * request's salt.  A field shorter than four bytes is not modelled past
   * its end.
   */
  function SaltAsWritten(p: span, s: Salt): (r: span)
    ensures |r| == |p|
  {
    if |p| >= 4 then BE32(s.high) + p[4..] else BE32(s.high)[..|p|]
  }

  /** The low counter never reaches the message. */
  lemma SaltIgnoresLow(p: span, a: Salt, b: Salt)
    requires a.high == b.high && |p| == 8
    ensures SaltAsWritten(p, a) == SaltAsWritten(p, b)
    ensures SaltAsWritten(p, a)[4..] == p[4..]
  {
  }

  /** The salt as evidently intended: the 64-bit value high:low, big-endian. */
  function SaltFixed(s: Salt): (r: span)
    ensures |r| == 8
  {
    BE32(s.high) + BE32(s.low)
  }

  /** Distinct counter pairs give distinct salts, and the salt reads back as the 64-bit counter. */
  lemma SaltFixedInjective(a: Salt, b: Salt)
    ensures SaltFixed(a) == SaltFixed(b) ==> a == b
    ensures BE(SaltFixed(a)[..4]) == a.high && BE(SaltFixed(a)[4..]) == a.low
  {
    BE32Value(a.high);
    BE32Value(a.low);
    BE32Value(b.high);
    BE32Value(b.low);
    assert SaltFixed(a)[..4] == BE32(a.high) && SaltFixed(a)[4..] == BE32(a.low);
    assert SaltFixed(b)[..4] == BE32(b.high) && SaltFixed(b)[4..] == BE32(b.low);
  }

  // ---------------------------------------------------------------------
  // Incoming
  // ---------------------------------------------------------------------


  /** The fields outside the security parameters agree. */
  predicate SameHeader(a: MessageV3, b: MessageV3)
  {
    a.version == b.version && a.pdu == b.pdu && a.msgId == b.msgId && a.msgFlags == b.msgFlags &&
    a.contextEngineID == b.contextEngineID && a.contextName == b.contextName
  }

  /**
   * decode_USM_parameters: OCTET STRING { SEQUENCE { engineID, boots,
   * time, userName, authParams, privParams } }.  With the privacy flag the
   * next header must be an OCTET STRING whose length reaches exactly to the
   * end of the input (a header whose length octets cannot be read keeps the
   * SEQUENCE length).  Boots and time are decoded as signed integers into
   * the unsigned fields.  The lengths of the two outer headers are not
   * checked.
   */
  function DecodeParameters(input: span, pos: nat, msg: MessageV3): (r: Decoded<MessageV3>)
    ensures r.Ok? ==> pos < r.pos <= |input|
    ensures r.Ok? ==> r.value.authAt + |r.value.authParams| <= r.pos
    ensures r.Ok? ==> SameHeader(r.value, msg)
    ensures !(pos < |input| && input[pos] == OCTET_STRING) ==> r.Fail?
  {
    var h := DecodeTypeLength(input, pos, Uninit);
    if h.Fail? || h.value.tag != OCTET_STRING then Fail
    else
      var sq := DecodeSequenceLength(input, h.pos);
      if sq.Fail? then Fail
      else
        var f := DecodeEngineFields(input, sq.pos, msg);
        if f.Fail? then Fail
        else
          var g := DecodeUserFields(input, f.pos, f.value);
          if g.Fail? || !HasFlag(msg.msgFlags, FLAG_PRIV) then g
          else
            var e := EncryptedHeader(input, g.pos, sq.value);
            if e.Fail? then Fail else Ok(g.value, e.pos)
  }

  /**
   * The header of the encrypted scoped PDU: an OCTET STRING reaching
   * exactly to the end of the input.  Length octets that cannot be read
   * leave the length at `prior`.
   */
  function EncryptedHeader(input: span, pos: nat, prior: u16): (r: Decoded<()>)
    ensures r.Ok? <==> var h := DecodeTypeLength(input, pos, prior);
      h.Ok? && h.value.tag == OCTET_STRING && h.value.length == |input| - h.pos
    ensures r.Ok? ==> pos < r.pos <= |input| && r.pos == |input| - DecodeTypeLength(input, pos, prior).value.length
  {
    var e := DecodeTypeLength(input, pos, prior);
    if e.Fail? || e.value.tag != OCTET_STRING || e.value.length != |input| - e.pos then Fail
    else Ok((), e.pos)
  }

  /** msgAuthoritativeEngineID, msgAuthoritativeEngineBoots and msgAuthoritativeEngineTime. */
  function DecodeEngineFields(input: span, pos: nat, msg: MessageV3): (r: Decoded<MessageV3>)
    ensures r.Ok? ==> pos < r.pos <= |input|
    ensures r.Ok? ==> SameHeader(r.value, msg) && r.value.userName == msg.userName && r.value.authParams == msg.authParams
    ensures r.Ok? ==> DecodeString(input, pos).Ok? && r.value.engineID == DecodeString(input, pos).value
  {
    var eid := DecodeString(input, pos);
    if eid.Fail? then Fail
    else
      var boots := DecodeInteger(input, eid.pos);
      if boots.Fail? then Fail
      else
        var time := DecodeInteger(input, boots.pos);
        if time.Fail? then Fail
        else Ok(msg.(engineID := eid.value, boots := FromS32(boots.value), time := FromS32(time.value)), time.pos)
  }

  /**
   * msgUserName, msgAuthenticationParameters and msgPrivacyParameters;
   * `authAt` records where the authentication parameters lie in the input.
   */
  function DecodeUserFields(input: span, pos: nat, msg: MessageV3): (r: Decoded<MessageV3>)
    ensures r.Ok? ==> pos < r.pos <= |input|
    ensures r.Ok? ==> SameHeader(r.value, msg) && r.value.engineID == msg.engineID
    ensures r.Ok? ==> r.value.authAt + |r.value.authParams| <= r.pos && Holds(input, r.value.authAt, r.value.authParams)
  {
    var user := DecodeString(input, pos);
    if user.Fail? then Fail
    else
      var auth := DecodeString(input, user.pos);
      if auth.Fail? then Fail
      else
        var priv := DecodeString(input, auth.pos);
        if priv.Fail? then Fail
        else
          Ok(msg.(userName := user.value, authParams := auth.value, authAt := auth.pos - |auth.value|,
            privParams := priv.value), priv.pos)
  }

  /** abs() on a 32-bit int: the most negative value is its own absolute value. */
  function Abs32(x: s32): (r: s32)
    ensures x != -0x8000_0000 ==> r >= 0 && (r == x || r == -x)
    ensures x == -0x8000_0000 ==> r == x
  {
    if x == -0x8000_0000 then x else if x < 0 then -x else x
  }

  /**
   * The timeliness test as written: the unsigned difference of the
   * message's time and the local uptime, read as a signed int.  A message
   * is rejected when its boots differ, or when that difference is SMALLER
   * than the 150-second window.
   */
  predicate OutsideWindowAsWritten(boots: u32, time: u32, localBoots: u32, uptime: u32)
  {
    boots != localBoots || Abs32(ToS32(U32(time - uptime))) < TIME_WINDOW
  }

  /** The timeliness test of section 3.2 step 7b of RFC 3414: more than 150 seconds apart. */
  predicate OutsideWindow(boots: u32, time: u32, localBoots: u32, uptime: u32)
  {
    var d := ToS32(U32(time - uptime));
    boots != localBoots || d > TIME_WINDOW || d < -TIME_WINDOW
  }

  /**
   * A message stamped with the agent's own boots and exactly its own time
   * is rejected as written and accepted by the RFC's test; one stamped
   * 1000 seconds off is accepted as written and rejected by the RFC's test.
   */
  lemma TimeWindowInverted(boots: u32, uptime: u32)
    ensures OutsideWindowAsWritten(boots, uptime, boots, uptime)
    ensures !OutsideWindow(boots, uptime, boots, uptime)
    ensures !OutsideWindowAsWritten(boots, U32(uptime + 1000), boots, uptime)
    ensures OutsideWindow(boots, U32(uptime + 1000), boots, uptime)
  {
    var t := U32(uptime + 1000);
    if uptime + 1000 < TWO32 {
      assert t - uptime == 1000;
    } else {
      assert t == uptime + 1000 - TWO32;
      assert U32(t - uptime) == 1000;
    }
  }

  /**
   * With matching boots the two tests disagree on every difference except
   * exactly 150 either way and the most negative one: the written test
   * accepts what the RFC's rejects and vice versa.
   */
  lemma TimeWindowComplement(boots: u32, time: u32, uptime: u32)
    requires var d := ToS32(U32(time - uptime)); d != -0x8000_0000 && d != TIME_WINDOW && d != -TIME_WINDOW
    ensures OutsideWindowAsWritten(boots, time, boots, uptime) <==> !OutsideWindow(boots, time, boots, uptime)
  {
  }

  /**
   * The RFC's test keeps every message stamped with the agent's boots and a
   * time at most 150 seconds from its uptime, and refuses every one further
   * off (up to the 32-bit wrap); the test as written does the opposite.
   */
  lemma WindowByDistance(boots: u32, time: u32, uptime: u32)
    requires -0x8000_0000 < time - uptime < 0x8000_0000
    ensures !OutsideWindow(boots, time, boots, uptime) <==> -TIME_WINDOW <= time - uptime <= TIME_WINDOW
    ensures -TIME_WINDOW < time - uptime < TIME_WINDOW ==> OutsideWindowAsWritten(boots, time, boots, uptime)
  {
    S32Wrap(time - uptime);
  }

  datatype Incoming = Incoming(code: int, msg: MessageV3, input: span, pos: nat, stats: UsmStats)

  /** The outcome of a failed check: the report, or a failure if no report can be sent. */
  function Refuse(input: span, pos: nat, rep: Reported): (r: Incoming)
    ensures r.code == (if rep.code == 0 then ERR_USM else FAILURE)
    ensures r.msg == rep.msg && r.stats == rep.stats && r.input == input
  {
    Incoming(if rep.code == 0 then ERR_USM else FAILURE, rep.msg, input, pos, rep.stats)
  }

  /**
   * processIncomingMsg_USM: the parameters are decoded, then the engine
   * ID, the user name, the digest (with the authentication flag), the time
   * window and the privacy parameters (with the privacy flag) are checked
   * in that order; the first check that fails counts its statistic and
   * turns the message into a report.  The engine ID and user tests compare
   * lengths first and then the bytes, so they reject exactly the values
   * that differ from the configured ones.
   */
  function ProcessIncoming(input: span, pos: nat, msg: MessageV3, cfg: UsmConfig, crypto: Crypto,
                           uptime: u32, stats: UsmStats, allocOk: bool): (r: Incoming)
    ensures r.code == 0 || r.code == FAILURE || r.code == ERR_USM
    ensures |r.input| == |input|
    ensures DecodeParameters(input, pos, msg).Fail? ==> r == Incoming(FAILURE, msg, input, pos, stats)
    ensures r.code == ERR_USM ==> r.msg.msgFlags == 0 && r.msg.pdu.responseType == REPORT && |r.msg.pdu.varbinds| == 1
    ensures r.code == ERR_USM ==> r.msg.pdu.varbindIndex == msg.pdu.varbindIndex
    ensures r.code == 0 ==> (r.stats == stats && pos < r.pos <= |input| &&
      r.msg.engineID == cfg.engineID && r.msg.userName == cfg.userName &&
      !OutsideWindowAsWritten(r.msg.boots, r.msg.time, cfg.engineBoots, uptime) &&
      (HasFlag(msg.msgFlags, FLAG_PRIV) ==> |r.msg.privParams| == 8))
  {
    var d := DecodeParameters(input, pos, msg);
    if d.Fail? then Incoming(FAILURE, msg, input, pos, stats)
    else
      var m := d.value;
      if m.engineID != cfg.engineID then Refuse(input, d.pos, Report(m, UnknownEngineIDs, stats, allocOk))
      else if m.userName != cfg.userName then Refuse(input, d.pos, Report(m, UnknownUserNames, stats, allocOk))
      else CheckDigest(input, d.pos, m, cfg, crypto, uptime, stats, allocOk)
  }

  /**
   * The digest step.  isBadHMAC runs only on a 12-byte field; it zeroes
   * the field in the request buffer, which the message's authentication
   * parameters still point to.
   */
  function CheckDigest(input: span, pos: nat, m: MessageV3, cfg: UsmConfig, crypto: Crypto,
                       uptime: u32, stats: UsmStats, allocOk: bool): (r: Incoming)
    requires m.authAt + |m.authParams| <= pos <= |input|
    ensures r.code == 0 || r.code == FAILURE || r.code == ERR_USM
    ensures |r.input| == |input|
    ensures r.code == ERR_USM ==> r.msg.msgFlags == 0 && r.msg.pdu.responseType == REPORT && |r.msg.pdu.varbinds| == 1
    ensures r.code == ERR_USM ==> r.msg.pdu.varbindIndex == m.pdu.varbindIndex
    ensures r.code == 0 ==> (r.stats == stats && r.pos == pos && r.msg.engineID == m.engineID && r.msg.userName == m.userName &&
      r.msg.msgFlags == m.msgFlags && r.msg.boots == m.boots && r.msg.time == m.time && r.msg.privParams == m.privParams)
    ensures r.code == 0 ==> (!OutsideWindowAsWritten(m.boots, m.time, cfg.engineBoots, uptime) &&
      (HasFlag(m.msgFlags, FLAG_PRIV) ==> |m.privParams| == 8))
    ensures r.code == 0 && HasFlag(m.msgFlags, FLAG_AUTH) ==>
      |m.authParams| == 12 && !IsBadHmac(input, m.authAt, crypto.md5, cfg.authKul).bad
  {
    var checked := if HasFlag(m.msgFlags, FLAG_AUTH) && |m.authParams| == 12
      then IsBadHmac(input, m.authAt, crypto.md5, cfg.authKul) else Digested(false, input);
    var m' := m.(authParams := checked.input[m.authAt..m.authAt + |m.authParams|]);
    if HasFlag(m.msgFlags, FLAG_AUTH) && (|m.authParams| != 12 || checked.bad) then
      Refuse(checked.input, pos, Report(m', WrongDigests, stats, allocOk))
    else Admit(checked.input, pos, m', cfg, crypto, uptime, stats, allocOk)
  }

  /** The time window step and the privacy step, which decrypts the scoped PDU in place. */
  function Admit(input: span, pos: nat, m: MessageV3, cfg: UsmConfig, crypto: Crypto,
                 uptime: u32, stats: UsmStats, allocOk: bool): (r: Incoming)
    requires pos <= |input|
    ensures r.code == 0 || r.code == FAILURE || r.code == ERR_USM
    ensures |r.input| == |input| && r.input[..pos] == input[..pos]
    ensures r.code == ERR_USM ==> r.msg.msgFlags == 0 && r.msg.pdu.responseType == REPORT && |r.msg.pdu.varbinds| == 1
    ensures r.code == ERR_USM ==> r.msg.pdu.varbindIndex == m.pdu.varbindIndex
    ensures r.code == 0 <==> (!OutsideWindowAsWritten(m.boots, m.time, cfg.engineBoots, uptime) &&
      (HasFlag(m.msgFlags, FLAG_PRIV) ==> |m.privParams| == 8))
    ensures r.code == 0 ==> r.stats == stats && r.pos == pos && r.msg == m
    ensures r.code == 0 && !HasFlag(m.msgFlags, FLAG_PRIV) ==> r.input == input
    ensures r.code == 0 && HasFlag(m.msgFlags, FLAG_PRIV) ==>
      r.input == CipherFrom(crypto.decrypt, cfg.privKul, Iv(m.boots, m.time, m.privParams), input, pos)
    ensures r.code != 0 ==> r.input == input
  {
    if OutsideWindowAsWritten(m.boots, m.time, cfg.engineBoots, uptime) then
      Refuse(input, pos, Report(m, NotInTimeWindows, stats, allocOk))
    else if HasFlag(m.msgFlags, FLAG_PRIV) && |m.privParams| != 8 then
      Refuse(input, pos, Report(m, DecryptionErrors, stats, allocOk))
    else if HasFlag(m.msgFlags, FLAG_PRIV) then
      Incoming(0, m, CipherFrom(crypto.decrypt, cfg.privKul, Iv(m.boots, m.time, m.privParams), input, pos), pos, stats)
    else Incoming(0, m, input, pos, stats)
  }

  /** The checks of steps 3 to 8 of section 3.2 of RFC 3414 in the order the agent makes them, the time test as written, each with the statistic it counts. */
  function Checks(m: MessageV3, input: span, cfg: UsmConfig, crypto: Crypto, uptime: u32): seq<(bool, Stat)>
  {
    [ (m.engineID != cfg.engineID, UnknownEngineIDs),
      (m.userName != cfg.userName, UnknownUserNames),
      (HasFlag(m.msgFlags, FLAG_AUTH) &&
        (|m.authParams| != 12 || IsBadHmac(input, m.authAt, crypto.md5, cfg.authKul).bad), WrongDigests),
      (OutsideWindowAsWritten(m.boots, m.time, cfg.engineBoots, uptime), NotInTimeWindows),
      (HasFlag(m.msgFlags, FLAG_PRIV) && |m.privParams| != 8, DecryptionErrors) ]
  }

  /** The statistic of the first failing check, if any. */
  function FirstFailure(cs: seq<(bool, Stat)>): (r: Option<Stat>)
    ensures r.None? <==> forall i :: 0 <= i < |cs| ==> !cs[i].0
  {
    if |cs| == 0 then None
    else if cs[0].0 then Some(cs[0].1)
    else
      assert forall i :: 1 <= i < |cs| ==> cs[i] == cs[1..][i - 1];
      FirstFailure(cs[1..])
  }

  lemma FirstFailureStep(cs: seq<(bool, Stat)>, k: nat)
    requires k < |cs|
    ensures FirstFailure(cs[k..]) == if cs[k].0 then Some(cs[k].1) else FirstFailure(cs[k + 1..])
  {
    assert cs[k..][0] == cs[k];
    assert cs[k..][1..] == cs[k + 1..];
  }

  /**
   * What a run of the checks promises: acceptance exactly when no check
   * fails, and otherwise the counter of the failing check bumped and, when
   * the request is reportable and the binding can be allocated, a report
   * of that counter.
   */
  predicate Verdict(r: Incoming, f: Option<Stat>, stats: UsmStats, flags: byte, allocOk: bool)
  {
    (r.code == 0 <==> f.None?) &&
    (f.None? ==> r.stats == stats) &&
    (f.Some? ==> (r.stats == Bump(stats, f.value) &&
      (r.code == ERR_USM <==> HasFlag(flags, FLAG_REPORTABLE) && allocOk) &&
      (r.code == ERR_USM ==> r.msg.pdu.varbinds == [VarBind(StatOid(f.value), [], COUNTER, Num(Count(r.stats, f.value)))])))
  }

  lemma RefuseVerdict(input: span, pos: nat, m: MessageV3, s: Stat, stats: UsmStats, allocOk: bool)
    ensures Verdict(Refuse(input, pos, Report(m, s, stats, allocOk)), Some(s), stats, m.msgFlags, allocOk)
  {
  }

  lemma AdmitVerdict(input: span, pos: nat, m: MessageV3, cfg: UsmConfig, crypto: Crypto,
                     uptime: u32, stats: UsmStats, allocOk: bool)
    requires pos <= |input|
    ensures Verdict(Admit(input, pos, m, cfg, crypto, uptime, stats, allocOk),
      FirstFailure(Checks(m, input, cfg, crypto, uptime)[3..]), stats, m.msgFlags, allocOk)
  {
    var cs := Checks(m, input, cfg, crypto, uptime);
    FirstFailureStep(cs, 3);
    FirstFailureStep(cs, 4);
    if cs[3].0 {
      RefuseVerdict(input, pos, m, NotInTimeWindows, stats, allocOk);
    } else if cs[4].0 {
      RefuseVerdict(input, pos, m, DecryptionErrors, stats, allocOk);
    }
  }

  lemma DigestVerdict(input: span, pos: nat, m: MessageV3, cfg: UsmConfig, crypto: Crypto,
                      uptime: u32, stats: UsmStats, allocOk: bool)
    requires m.authAt + |m.authParams| <= pos <= |input|
    ensures Verdict(CheckDigest(input, pos, m, cfg, crypto, uptime, stats, allocOk),
      FirstFailure(Checks(m, input, cfg, crypto, uptime)[2..]), stats, m.msgFlags, allocOk)
  {
    var cs := Checks(m, input, cfg, crypto, uptime);
    FirstFailureStep(cs, 2);
    var checked := if HasFlag(m.msgFlags, FLAG_AUTH) && |m.authParams| == 12
      then IsBadHmac(input, m.authAt, crypto.md5, cfg.authKul) else Digested(false, input);
    var m' := m.(authParams := checked.input[m.authAt..m.authAt + |m.authParams|]);
    if cs[2].0 {
      RefuseVerdict(checked.input, pos, m', WrongDigests, stats, allocOk);
    } else {
      AdmitVerdict(checked.input, pos, m', cfg, crypto, uptime, stats, allocOk);
      assert Checks(m', checked.input, cfg, crypto, uptime)[3..] == cs[3..];
    }
  }

  /**
   * Once the parameters decode, the incoming message is accepted exactly
   * when every check passes; otherwise exactly the statistic of the first
   * failing check is counted, and a report carrying it is produced when the
   * request is reportable and the binding can be allocated.
   */
  lemma IncomingVerdict(input: span, pos: nat, msg: MessageV3, cfg: UsmConfig, crypto: Crypto,
                        uptime: u32, stats: UsmStats, allocOk: bool)
    requires DecodeParameters(input, pos, msg).Ok?
    ensures Verdict(ProcessIncoming(input, pos, msg, cfg, crypto, uptime, stats, allocOk),
      FirstFailure(Checks(DecodeParameters(input, pos, msg).value, input, cfg, crypto, uptime)), stats, msg.msgFlags, allocOk)
  {
    var d := DecodeParameters(input, pos, msg);
    var m := d.value;
    var cs := Checks(m, input, cfg, crypto, uptime);
    assert cs[0..] == cs;
    FirstFailureStep(cs, 0);
    FirstFailureStep(cs, 1);
    if cs[0].0 {
      RefuseVerdict(input, d.pos, m, UnknownEngineIDs, stats, allocOk);
    } else if cs[1].0 {
      RefuseVerdict(input, d.pos, m, UnknownUserNames, stats, allocOk);
    } else {
      DigestVerdict(input, d.pos, m, cfg, crypto, uptime, stats, allocOk);
    }
  }

  // ---------------------------------------------------------------------
  // Outgoing
  // ---------------------------------------------------------------------

  /** msgAuthoritativeEngineID, msgAuthoritativeEngineBoots and msgAuthoritativeEngineTime as X.690 writes them. */
  function EngineBytes(m: MessageV3): seq<byte>
  {
    Tlv(OCTET_STRING, m.engineID) + (Tlv(INTEGER, IntegerContent(ToS32(m.boots))) + Tlv(INTEGER, IntegerContent(ToS32(m.time))))
  }

  /** msgUserName, msgAuthenticationParameters and msgPrivacyParameters as X.690 writes them. */
  function UserBytes(m: MessageV3): seq<byte>
  {
    Tlv(OCTET_STRING, m.userName) + (Tlv(OCTET_STRING, m.authParams) + Tlv(OCTET_STRING, m.privParams))
  }

  /** The six fields of UsmSecurityParameters (section 2.4 of RFC 3414). */
  function ParamsBody(m: MessageV3): seq<byte>
  {
    EngineBytes(m) + UserBytes(m)
  }

  /** msgSecurityParameters: the SEQUENCE of the six fields inside an OCTET STRING. */
  function ParamsBytes(m: MessageV3): seq<byte>
  {
    Tlv(OCTET_STRING, Tlv(SEQUENCE, ParamsBody(m)))
  }

  /**
   * The six writes of encode_USM_parameters, last field first.  Together
   * they write the fields in order in front of the cursor.
   */
  function EncodeFields(e: Enc, m: MessageV3): (r: Enc)
    ensures Writes(e, ParamsBody(m), r)
  {
    var w1 := EncodeFixedString(e, m.privParams);
    var w2 := EncodeFixedString(w1, m.authParams);
    var w3 := EncodeFixedString(w2, m.userName);
    SecretsWritten(e, m, w1, w2, w3);
    var w4 := EncodeInteger(w3, INTEGER, ToS32(m.time));
    var w5 := EncodeInteger(w4, INTEGER, ToS32(m.boots));
    var w6 := EncodeFixedString(w5, m.engineID);
    EngineWritten(w3, m, w4, w5, w6);
    Chain(e, UserBytes(m), w3, EngineBytes(m), w6);
    w6
  }

  /** Three writes in a row are one write of all three, the last in front. */
  lemma Three(e: Enc, a: seq<byte>, x: Enc, b: seq<byte>, y: Enc, c: seq<byte>, z: Enc)
    requires Writes(e, a, x) && Writes(x, b, y) && Writes(y, c, z)
    ensures Writes(e, c + (b + a), z)
  {
    Chain(e, a, x, b, y);
    Chain(e, b + a, y, c, z);
  }

  lemma SecretsWritten(e: Enc, m: MessageV3, w1: Enc, w2: Enc, w3: Enc)
    requires w1 == EncodeFixedString(e, m.privParams) && w2 == EncodeFixedString(w1, m.authParams)
    requires w3 == EncodeFixedString(w2, m.userName)
    ensures Writes(e, UserBytes(m), w3)
  {
    Three(e, Tlv(OCTET_STRING, m.privParams), w1, Tlv(OCTET_STRING, m.authParams), w2, Tlv(OCTET_STRING, m.userName), w3);
  }

  lemma EngineWritten(e: Enc, m: MessageV3, w4: Enc, w5: Enc, w6: Enc)
    requires w4 == EncodeInteger(e, INTEGER, ToS32(m.time)) && w5 == EncodeInteger(w4, INTEGER, ToS32(m.boots))
    requires w6 == EncodeFixedString(w5, m.engineID)
    ensures Writes(e, EngineBytes(m), w6)
  {
    Three(e, Tlv(INTEGER, IntegerContent(ToS32(m.time))), w4, Tlv(INTEGER, IntegerContent(ToS32(m.boots))), w5,
      Tlv(OCTET_STRING, m.engineID), w6);
  }

  /** The scoped PDU as sent: encrypted and wrapped in an OCTET STRING with the privacy flag, as is otherwise. */
  function Sealed(m: MessageV3, scoped: seq<byte>, crypto: Crypto, key: seq<byte>): seq<byte>
  {
    if HasFlag(m.msgFlags, FLAG_PRIV) then
      Tlv(OCTET_STRING, Fit(crypto.encrypt(key, Iv(m.boots, m.time, m.privParams), scoped), |scoped|))
    else scoped
  }

  /** The message after encode_USM_parameters wrote the salt into its privacy parameters (with the privacy flag only). */
  function Salted(m: MessageV3, salt: Salt): (r: MessageV3)
    ensures r == m.(privParams := r.privParams)
    ensures HasFlag(m.msgFlags, FLAG_PRIV) ==> r.privParams == SaltAsWritten(m.privParams, salt)
    ensures !HasFlag(m.msgFlags, FLAG_PRIV) ==> r == m
  {
    if HasFlag(m.msgFlags, FLAG_PRIV) then m.(privParams := SaltAsWritten(m.privParams, salt)) else m
  }

  /** The encoder after the security parameters, the message as they left it, and where the digest goes. */
  datatype Outgoing = Outgoing(e: Enc, msg: MessageV3, authAbs: int)

  /**
   * encode_USM_parameters from a cursor with the scoped PDU already below
   * `maxLen`.  With the privacy flag the salt is written into the privacy
   * parameters, the scoped PDU is encrypted in place under the IV built
   * from them and an OCTET STRING header is put in front.  Then the six
   * fields and the two headers follow; the authentication parameters'
   * content is recorded two bytes past their tag.
   */
  function EncodeParameters(m: MessageV3, e: Enc, maxLen: u16, crypto: Crypto, key: seq<byte>, salt: Salt): (r: Outgoing)
    requires e.Ok() && e.pos + |e.out| == maxLen < 0x8000
    ensures r.msg == Salted(m, salt)
    ensures Placed(r.e, maxLen, ParamsBytes(r.msg) + Sealed(r.msg, e.out, crypto, key))
    ensures r.e.Ok() ==> (r.authAbs == maxLen - |Sealed(r.msg, e.out, crypto, key)|
      - |Tlv(OCTET_STRING, r.msg.privParams)| - |Tlv(OCTET_STRING, r.msg.authParams)| + 2)
  {
    var m1 := Salted(m, salt);
    var e1 := Protect(m1, e, maxLen, crypto, key);
    var e2 := if e1.Ok() then WrapParams(e1, m1, EncodeFields(e1, m1)) else e1;
    Stacked(e1, Sealed(m1, e.out, crypto, key), ParamsBytes(m1), e2, maxLen);
    Outgoing(e2, m1, e1.pos - |Tlv(OCTET_STRING, m1.privParams)| - |Tlv(OCTET_STRING, m1.authParams)| + 2)
  }

  /** A write in front of the bytes already at the end of the buffer. */
  lemma Stacked(e: Enc, s: seq<byte>, p: seq<byte>, r: Enc, maxLen: int)
    requires Placed(e, maxLen, s)
    requires e.Ok() ==> Writes(e, p, r)
    requires !e.Ok() ==> r == e
    ensures Placed(r, maxLen, p + s)
  {
  }

  /**
   * The SEQUENCE and OCTET STRING headers of encode_USM_parameters, both
   * with the distance from the mark taken before the six fields.
   */
  function WrapParams(mark: Enc, m: MessageV3, f: Enc): (r: Enc)
    requires 0 <= mark.pos < 0x1_0000 && Writes(mark, ParamsBody(m), f)
    ensures Writes(mark, ParamsBytes(m), r)
  {
    var s1 := if f.Ok() then EncodeTypeLength(f, SEQUENCE, Narrow16(mark.pos - f.pos)) else f;
    var s2 := if s1.Ok() then EncodeTypeLength(s1, OCTET_STRING, Narrow16(mark.pos - s1.pos)) else s1;
    ParamsWrapped(mark, ParamsBody(m), f, s1, s2);
    s2
  }

  /** The SEQUENCE and OCTET STRING headers of encode_USM_parameters, both measured from the same mark. */
  lemma ParamsWrapped(e: Enc, body: seq<byte>, f: Enc, s1: Enc, s2: Enc)
    requires 0 <= e.pos < 0x1_0000 && Writes(e, body, f)
    requires s1 == if f.Ok() then EncodeTypeLength(f, SEQUENCE, Narrow16(e.pos - f.pos)) else f
    requires s2 == if s1.Ok() then EncodeTypeLength(s1, OCTET_STRING, Narrow16(e.pos - s1.pos)) else s1
    ensures Writes(e, Tlv(OCTET_STRING, Tlv(SEQUENCE, body)), s2)
  {
    TlvLonger(SEQUENCE, body);
    TlvLonger(OCTET_STRING, Tlv(SEQUENCE, body));
    Wrap(e, SEQUENCE, body, f, e.pos);
    Wrap(e, OCTET_STRING, Tlv(SEQUENCE, body), s1, e.pos);
  }

  /**
   * The privacy step of encode_USM_parameters: with the privacy flag the
   * bytes below `maxLen` are replaced by their encryption and an OCTET
   * STRING header over them is written; otherwise nothing happens.
   */
  function Protect(m: MessageV3, e: Enc, maxLen: u16, crypto: Crypto, key: seq<byte>): (r: Enc)
    requires e.Ok() && e.pos + |e.out| == maxLen < 0x8000
    ensures Placed(r, maxLen, Sealed(m, e.out, crypto, key))
  {
    if !HasFlag(m.msgFlags, FLAG_PRIV) then e
    else
      var c := Fit(crypto.encrypt(key, Iv(m.boots, m.time, m.privParams), e.out), |e.out|);
      var sealed := Enc(e.pos, c);
      var from := Enc(maxLen, []);
      assert sealed == Prepend(from, c);
      Wrap(from, OCTET_STRING, c, sealed, maxLen);
      EncodeTypeLength(sealed, OCTET_STRING, Narrow16(maxLen - e.pos))
  }

  /**
   * prepareOutgoingMsg_USM: the agent's engine ID and boots and the uptime
   * in seconds (hundredths divided by 100) go into the message, then the
   * parameters are encoded; their result is ignored, so an overflow shows
   * only as a negative cursor.
   */
  function PrepareOutgoing(m: MessageV3, e: Enc, maxLen: u16, cfg: UsmConfig, uptime: u32, crypto: Crypto, salt: Salt): (r: Outgoing)
    requires e.Ok() && e.pos + |e.out| == maxLen < 0x8000
    ensures r.msg.engineID == cfg.engineID && r.msg.boots == cfg.engineBoots && r.msg.time == uptime / 100
    ensures r.msg.userName == m.userName && r.msg.authParams == m.authParams && r.msg.msgFlags == m.msgFlags
    ensures r.msg == Stamped(m, cfg, uptime, salt)
    ensures var all := ParamsBytes(r.msg) + Sealed(r.msg, e.out, crypto, cfg.privKul);
      (r.e.Ok() <==> |all| <= maxLen) && (r.e.Ok() ==> r.e == Enc(maxLen - |all|, all))
    ensures r.e.Ok() ==> (r.authAbs == maxLen - |Sealed(r.msg, e.out, crypto, cfg.privKul)|
      - |Tlv(OCTET_STRING, r.msg.privParams)| - |Tlv(OCTET_STRING, r.msg.authParams)| + 2)
  {
    var m1 := m.(engineID := cfg.engineID, boots := cfg.engineBoots, time := uptime / 100);
    EncodeParameters(m1, e, maxLen, crypto, cfg.privKul, salt)
  }

  /**
   * The message as prepareOutgoingMsg_USM sends it: the agent's engine ID
   * and boots, the uptime in seconds and, with the privacy flag, the salt.
   */
  function Stamped(m: MessageV3, cfg: UsmConfig, uptime: u32, salt: Salt): (r: MessageV3)
    ensures SameHeader(r, m) && r.userName == m.userName && r.authParams == m.authParams
  {
    Salted(m.(engineID := cfg.engineID, boots := cfg.engineBoots, time := uptime / 100), salt)
  }

  // ---------------------------------------------------------------------
  // Parameters read back
  // ---------------------------------------------------------------------

  /** The engine fields the agent writes read back; boots and time go through the INTEGER round trip. */
  lemma EngineRead(input: span, k: nat, m: MessageV3, msg: MessageV3, end: nat)
    requires Holds(input, k, EngineBytes(m)) && end == k + |EngineBytes(m)|
    ensures DecodeEngineFields(input, k, msg) == Ok(EngineFields(m, msg), end)
  {
    var n := Tlv(OCTET_STRING, m.engineID);
    var b := Tlv(INTEGER, IntegerContent(ToS32(m.boots)));
    var t := Tlv(INTEGER, IntegerContent(ToS32(m.time)));
    var k1 := StringThen(input, k, m.engineID, b + t);
    var k2, k3 := TwoIntegers(input, k1, ToS32(m.boots), ToS32(m.time));
    EngineFieldsOf(input, k, msg, m.engineID, IntegerReadBack(ToS32(m.boots)), IntegerReadBack(ToS32(m.time)), k1, k2, k3);
  }

  lemma EngineFieldsOf(input: span, k: nat, msg: MessageV3, e: span, b: s32, t: s32, p1: nat, p2: nat, p3: nat)
    requires DecodeString(input, k) == Ok(e, p1)
    requires DecodeInteger(input, p1) == Ok(b, p2)
    requires DecodeInteger(input, p2) == Ok(t, p3)
    ensures DecodeEngineFields(input, k, msg) == Ok(msg.(engineID := e, boots := FromS32(b), time := FromS32(t)), p3)
  {
  }

  /**
   * The user fields the agent writes read back, ending at `end`, with
   * `authAt` at the authentication parameters' content, just in front of
   * the privacy parameters.
   */
  lemma UserRead(input: span, k: nat, m: MessageV3, msg: MessageV3, end: nat)
    requires Holds(input, k, UserBytes(m)) && end == k + |UserBytes(m)|
    ensures end >= |Tlv(OCTET_STRING, m.privParams)| + |m.authParams|
    ensures DecodeUserFields(input, k, msg) ==
      Ok(msg.(userName := m.userName, authParams := m.authParams,
        authAt := AuthAt(end, m), privParams := m.privParams), end)
  {
    var k1, k2, k3 := ThreeStrings(input, k, m.userName, m.authParams, m.privParams);
    UserFieldsOf(input, k, msg, m.userName, m.authParams, m.privParams, k1, k2, end,
      AuthAt(end, m));
  }

  lemma UserFieldsOf(input: span, k: nat, msg: MessageV3, u: span, a: span, p: span, p1: nat, p2: nat, p3: nat, at: nat)
    requires DecodeString(input, k) == Ok(u, p1)
    requires DecodeString(input, p1) == Ok(a, p2)
    requires DecodeString(input, p2) == Ok(p, p3)
    requires at == p2 - |a|
    ensures DecodeUserFields(input, k, msg) == Ok(msg.(userName := u, authParams := a, authAt := at, privParams := p), p3)
  {
  }

  /**
   * decode_USM_parameters reads back what encode_USM_parameters writes
   * (without the privacy flag, where nothing after the parameters is
   * inspected): every field, with boots and time through the INTEGER
   * round trip, and the cursor just past the parameters.
   */
  lemma ParametersRoundTrip(input: span, k: nat, m: MessageV3, msg: MessageV3, end: nat)
    requires !HasFlag(msg.msgFlags, FLAG_PRIV)
    requires Holds(input, k, ParamsBytes(m)) && end == k + |ParamsBytes(m)|
    ensures end >= |Tlv(OCTET_STRING, m.privParams)| + |m.authParams|
    ensures DecodeParameters(input, k, msg) == Ok(Received(m, msg, AuthAt(end, m)), end)
  {
    var k1, k2, k3 := ParamsHeaders(input, k, m, end);
    FieldsBehindHeaders(input, k, m, msg, |Tlv(SEQUENCE, ParamsBody(m))|, k1, |ParamsBody(m)|, k2, k3, end);
  }

  /** The parameters read back once their two headers have been read. */
  lemma FieldsBehindHeaders(input: span, k: nat, m: MessageV3, msg: MessageV3, len: u16, k1: nat, len2: u16, k2: nat, k3: nat, end: nat)
    requires !HasFlag(msg.msgFlags, FLAG_PRIV)
    requires DecodeTypeLength(input, k, Uninit) == Ok(Header(OCTET_STRING, len), k1)
    requires DecodeTypeLength(input, k1, Uninit) == Ok(Header(SEQUENCE, len2), k2)
    requires Holds(input, k2, EngineBytes(m)) && Holds(input, k3, UserBytes(m))
    requires k3 == k2 + |EngineBytes(m)| && k3 + |UserBytes(m)| == end
    ensures end >= |Tlv(OCTET_STRING, m.privParams)| + |m.authParams|
    ensures DecodeParameters(input, k, msg) == Ok(Received(m, msg, AuthAt(end, m)), end)
  {
    EngineRead(input, k2, m, msg, k3);
    UserRead(input, k3, m, EngineFields(m, msg), end);
    ParametersFrom(input, k, m, msg, len, k1, len2, k2, k3, end);
  }

  /** The message after the engine fields of `m` are read into `msg`. */
  function EngineFields(m: MessageV3, msg: MessageV3): MessageV3
  {
    msg.(engineID := m.engineID, boots := FromS32(IntegerReadBack(ToS32(m.boots))),
      time := FromS32(IntegerReadBack(ToS32(m.time))))
  }

  lemma ParametersFrom(input: span, k: nat, m: MessageV3, msg: MessageV3, len: u16, k1: nat, len2: u16, k2: nat, k3: nat, end: nat)
    requires !HasFlag(msg.msgFlags, FLAG_PRIV)
    requires DecodeTypeLength(input, k, Uninit) == Ok(Header(OCTET_STRING, len), k1)
    requires DecodeTypeLength(input, k1, Uninit) == Ok(Header(SEQUENCE, len2), k2)
    requires DecodeEngineFields(input, k2, msg) == Ok(EngineFields(m, msg), k3)
    requires end >= |Tlv(OCTET_STRING, m.privParams)| + |m.authParams|
    requires DecodeUserFields(input, k3, EngineFields(m, msg)) ==
      Ok(EngineFields(m, msg).(userName := m.userName, authParams := m.authParams,
        authAt := AuthAt(end, m), privParams := m.privParams), end)
    ensures DecodeParameters(input, k, msg) == Ok(Received(m, msg, AuthAt(end, m)), end)
  {
  }


  /**
   * Where the content of the authentication parameters starts when the
   * parameters of `m` end at `end`: in front of the privacy parameters.
   */
  function AuthAt(end: int, m: MessageV3): int
  {
    end - |Tlv(OCTET_STRING, m.privParams)| - |m.authParams|
  }

  /**
   * What decode_USM_parameters makes of the parameters `m` carries: every
   * field, with boots and time through the INTEGER round trip, and the
   * authentication parameters found at `at`.
   */
  function Received(m: MessageV3, msg: MessageV3, at: int): (r: MessageV3)
    requires at >= 0
    ensures SameHeader(r, msg) && r.authAt == at
    ensures r.engineID == m.engineID && r.userName == m.userName
    ensures r.authParams == m.authParams && r.privParams == m.privParams
  {
    msg.(engineID := m.engineID, boots := FromS32(IntegerReadBack(ToS32(m.boots))),
      time := FromS32(IntegerReadBack(ToS32(m.time))), userName := m.userName,
      authParams := m.authParams, authAt := at, privParams := m.privParams)
  }

  /** The two headers in front of the parameter fields, and where the fields lie. */
  lemma ParamsHeaders(input: span, k: nat, m: MessageV3, end: nat) returns (k1: nat, k2: nat, k3: nat)
    requires Holds(input, k, ParamsBytes(m)) && end == k + |ParamsBytes(m)|
    ensures DecodeTypeLength(input, k, Uninit) == Ok(Header(OCTET_STRING, |Tlv(SEQUENCE, ParamsBody(m))|), k1)
    ensures DecodeTypeLength(input, k1, Uninit) == Ok(Header(SEQUENCE, |ParamsBody(m)|), k2)
    ensures Holds(input, k2, EngineBytes(m)) && Holds(input, k3, UserBytes(m))
    ensures k3 == k2 + |EngineBytes(m)| && k3 + |UserBytes(m)| == end
  {
    k1 := OuterHeader(input, k, Tlv(SEQUENCE, ParamsBody(m)));
    k2, k3 := InnerHeader(input, k1, m);
  }

  /** The SEQUENCE header in front of the parameter fields, and where the fields lie. */
  lemma InnerHeader(input: span, k: nat, m: MessageV3) returns (k1: nat, k2: nat)
    requires Holds(input, k, Tlv(SEQUENCE, ParamsBody(m)))
    ensures DecodeTypeLength(input, k, Uninit) == Ok(Header(SEQUENCE, |ParamsBody(m)|), k1)
    ensures Holds(input, k1, EngineBytes(m)) && Holds(input, k2, UserBytes(m))
    ensures k2 == k1 + |EngineBytes(m)| && k2 + |UserBytes(m)| == k + |Tlv(SEQUENCE, ParamsBody(m))|
  {
    var body := ParamsBody(m);
    HeaderAt(input, k, SEQUENCE, body);
    Narrow16Small(|body|);
    k1 := k + 1 + |LengthOctets(|body|)|;
    k2 := BodySplit(input, k1, m);
  }

  /** The parameter fields are the engine fields followed by the user fields. */
  lemma BodySplit(input: span, k: nat, m: MessageV3) returns (k1: nat)
    requires Holds(input, k, ParamsBody(m))
    ensures Holds(input, k, EngineBytes(m)) && Holds(input, k1, UserBytes(m))
    ensures k1 == k + |EngineBytes(m)|
  {
    HoldsSplit(input, k, EngineBytes(m), UserBytes(m));
    k1 := k + |EngineBytes(m)|;
  }

  /** An OCTET STRING header with its content behind it. */
  lemma OuterHeader(input: span, k: nat, sq: seq<byte>) returns (k1: nat)
    requires Holds(input, k, Tlv(OCTET_STRING, sq))
    ensures DecodeTypeLength(input, k, Uninit) == Ok(Header(OCTET_STRING, |sq|), k1)
    ensures Holds(input, k1, sq) && k1 + |sq| == k + |Tlv(OCTET_STRING, sq)|
  {
    HeaderAt(input, k, OCTET_STRING, sq);
    Narrow16Small(|sq|);
    k1 := k + 1 + |LengthOctets(|sq|)|;
  }

}
